=== FILE: README.md ===
# RS485 HomeNet to MQTT bridge — a Dafny model

This project models the core of a bridge between an RS485 home-automation bus (the
"HomeNet" wall-pad protocol of Korean apartment buildings) and an MQTT broker with Home
Assistant discovery. Each Dafny module follows one source file of the bridge:

- **The protocol engine.**
  - `Checksum`: the checksum algorithms.
  - `PacketParser`: the byte-at-a-time frame assembler.
  - `PacketMatching`: the structural packet matcher.
  - `Devices`: the light, fan and valve devices.
  - `ProtocolManager`: the two-lane transmit queue and the packet dispatcher.
  - `CommandManager`: the single-in-flight command queue with retries and acknowledgements.
  - `StateManager`: the deduplicating state publisher.
  - `LambdaExecutor`: the BCD helpers and the script cache of the sandboxed lambda executor.
- **The bridge process.**
  - `Bridge`: configuration checks, serial-path handling, command-topic routing and the start/stop life cycle.
  - `DiscoveryManager`: Home Assistant discovery messages.
  - `Constants`: the MQTT topic prefix.
- **The service.**
  - `SetupWizard`: the setup wizard's validators and rewriters.
  - `GalleryValidation`: the gallery's entity-id check.
  - `GalleryTemplate`: gallery template expansion.
  - `YamlDumper`: YAML hex marking.
  - `ActivityLog`: activity-log retention.
  - `DiscoveryService`: the discovery service that infers template parameters from observed packets.
- **Tooling.**
  - `DebugPackets`: the debug packet-table generator.
  - `Simulator`: the round-robin packet simulator.
- **Shared foundations.**
  - `Wrappers`: `Option` and `Result`.
  - `Bytes`: bytes as 0..255 with bitwise operators.
  - `Strings`: the JavaScript string built-ins the bridge uses.
  - `JsonValue`: untyped JavaScript values.

Everything is modelled with immutable datatypes, pure functions and two small loop methods (`PacketMatching.CompareBytes` and `DiscoveryService.CountActiveBits`), each proved equal to a functional definition.

- Stateful components (the parser buffer, the transmit lanes, the command machine, the state cache, the simulator, the bridge) are state-transition functions.
- Clocks are an explicit `now` argument, and timers are discrete events.
- Code run in a foreign engine is a function-typed parameter. This covers guard expressions, lambda scripts, gallery expressions and the generic device base class.

## Model

| member | source | states |
|---|---|---|
| Constants.OrEnv | packages/core/src/utils/constants.ts:5 | `a \|\| b` on environment strings: a set, non-empty first value wins; an unset or empty one falls through to the second |
| Constants.FirstNonBlank | packages/core/src/utils/constants.ts:7-9 | the `find` over trimmed entries yields only non-empty text |
| Constants.FirstNonBlankFinds | packages/core/src/utils/constants.ts:7-9 | when entry `k` is the first non-blank one from `i`, the search returns exactly that entry, trimmed |
| Constants.AllBlankNone | packages/core/src/utils/constants.ts:7-9 | when every entry is blank the search finds nothing |
| Constants.NoneAllBlank | packages/core/src/utils/constants.ts:7-9 | conversely, any non-blank entry makes the search succeed |
| Constants.FirstNotBlankFrom | packages/core/src/utils/constants.ts:7-9 | the index of the first non-blank entry: at or before any known non-blank one, with only blank entries before it |
| Constants.FirstNonBlankShape | packages/core/src/utils/constants.ts:7-9 | what the search finds contains no comma and no surrounding whitespace |
| Constants.TopicPrefix | packages/core/src/utils/constants.ts:5-9 | the MQTT topic prefix is never empty |
| Constants.TopicPrefixShape | packages/core/src/utils/constants.ts:5-9 | the prefix is one trimmed entry: non-empty, no comma, no leading or trailing whitespace |
| Constants.TopicPrefixIsFirstEntry | packages/core/src/utils/constants.ts:5-9 | the prefix is the first non-blank comma-separated entry of the chosen setting, trimmed |
| Constants.AllBlankIsDefault | packages/core/src/utils/constants.ts:9 | when every entry is blank the prefix falls back to `homenet2mqtt` |
| Constants.PrefixesTakePrecedence | packages/core/src/utils/constants.ts:5 | a non-empty `MQTT_TOPIC_PREFIXES` decides alone: `MQTT_TOPIC_PREFIX` cannot change the result |
| Constants.DefaultIsOneEntry | packages/core/src/utils/constants.ts:5-9 | the default `homenet2mqtt` splits into itself and is already trimmed |
| Constants.UnsetIsDefault | packages/core/src/utils/constants.ts:5-9 | with neither variable set the prefix is `homenet2mqtt` |
| ActivityLog.Cleanup | packages/service/src/activity-log.service.ts:61-65 | the sweep only shortens the log and leaves only entries no older than 24 hours |
| ActivityLog.CleanupKeepsExactly | packages/service/src/activity-log.service.ts:63-65 | an entry survives the sweep if and only if it was in the log and its timestamp is at or after the cutoff |
| ActivityLog.CleanupKeepsOrder | packages/service/src/activity-log.service.ts:65 | the sweep distributes over concatenation, so survivors keep their relative order |
| ActivityLog.CleanupOfFresh | packages/service/src/activity-log.service.ts:65 | a log whose entries are all recent enough is returned unchanged |
| ActivityLog.CleanupIdempotent | packages/service/src/activity-log.service.ts:61-65 | sweeping twice at one time equals sweeping once, and an earlier sweep followed by a later one equals the later one alone (the hourly timer and per-entry sweep commute) |
| ActivityLog.CleanupLater | packages/service/src/activity-log.service.ts:61-65 | a sweep at an earlier time followed by one at a later time leaves what the later sweep alone leaves |
| ActivityLog.AddLog | packages/service/src/activity-log.service.ts:46-55 | after adding, every entry is recent relative to the sweep time; an entry young enough is first, followed by the swept old log, and a stale one is dropped with the rest |
| ActivityLog.NewEntryFirst | packages/service/src/activity-log.service.ts:48-54 | with one clock reading the new entry is at the front and the rest is the swept previous log |
| ActivityLog.ChangeDetails | packages/service/src/activity-log.service.ts:23-27 | the details object holds `attribute`, `from` and `to` exactly when each is defined, with those values |
| ActivityLog.SetDefined | packages/service/src/activity-log.service.ts:23-27 | setting a key to a defined value changes that key only; an undefined value changes nothing |
| ActivityLog.LogFor | packages/service/src/activity-log.service.ts:19-43 | a state change is always logged with the `상태 변경: ` prefix and the entity id; an MQTT message is logged exactly when its topic ends in `/set`, with the topic in the text and the message as details |
| ActivityLog.OnEvent | packages/service/src/activity-log.service.ts:19-55 | a logged event puts its entry, stamped `now`, at the front; an ignored one leaves the log unchanged |
| StateManager.StateTopic | packages/core/src/state/state-manager.ts:36 | the topic is `homenet/`, the device id and `/state`, so the id can be read back from it |
| StateManager.HandleStateUpdate | packages/core/src/state/state-manager.ts:34-46 | the cache holds the serialised state under the device topic and nothing else changes in it; a changed payload is published once with the two bus events, an unchanged one changes nothing |
| StateManager.HandleTwice | packages/core/src/state/state-manager.ts:39 | handling the same update twice is handling it once: the cache suppresses the repeat |
| StateManager.HandleAll | packages/core/src/state/state-manager.ts:25-46 | a run of updates publishes at most one message per update |
| StateManager.BusTracksPublishes | packages/core/src/state/state-manager.ts:41-43 | every publish comes with exactly two bus events, so the two logs stay in step over any run of updates |
| GalleryValidation.LabelShape | packages/service/src/utils/gallery-validation.ts:13-19 | a label is the entity type, `[`, the decimal index and `]`, so the index can be read back |
| GalleryValidation.InvalidIn | packages/service/src/utils/gallery-validation.ts:11-21 | one list yields at most one label per entry |
| GalleryValidation.Flagged | packages/service/src/utils/gallery-validation.ts:11-21 | at most one label per entry from the starting position on |
| GalleryValidation.FlaggedExact | packages/service/src/utils/gallery-validation.ts:12-20 | every invalid entry is labelled, and every label belongs to an invalid entry |
| GalleryValidation.InvalidInExact | packages/service/src/utils/gallery-validation.ts:12-20 | a list's labels are exactly those of its entries that are not objects or lack a non-blank string id |
| GalleryValidation.Missing | packages/service/src/utils/gallery-validation.ts:8-22 | no more labels than entries across all array lists |
| GalleryValidation.MissingEmpty | packages/service/src/utils/gallery-validation.ts:8-24 | nothing is reported if and only if every array-valued list has only valid entries |
| GalleryValidation.MissingExact | packages/service/src/utils/gallery-validation.ts:8-21 | every invalid entry of every array list is reported under its type and index, and every label names such an entry |
| GalleryValidation.ValidateGalleryEntityIds | packages/service/src/utils/gallery-validation.ts:1-25 | nothing for a missing value; otherwise the labels of the object's own entries |
| GalleryValidation.MissingInKeyOrder | packages/service/src/utils/gallery-validation.ts:8 | labels come list by list in key order: reporting two groups of lists is reporting each in turn |
| GalleryValidation.AllValidReportsNothing | packages/service/src/utils/gallery-validation.ts:11-21 | a list of well-formed entries produces no label |
| GalleryValidation.ReportsFanAndLight | packages/service/test/utils/gallery-validation.test.ts:1-33 | the test's configuration reports `fan[0]` and `light[1]` |
| GalleryValidation.ReportsInvalidFanAndNull | packages/service/src/utils/gallery-validation.ts:8-24 | any invalid fan with a valid light and a `null` reports `fan[0]` and `light[1]`, and a non-array list adds nothing |
| Checksum.Calculate | packages/core/src/protocol/utils/checksum.ts:23-46 | `calculateChecksum` throws exactly for `none` and for an unknown type name (carrying that name), and `samsung_xor` always has its top bit clear |
| Checksum.CalculateFromBuffer | packages/core/src/protocol/utils/checksum.ts:55-88 | the buffer form throws in the same two cases and nowhere else; `samsung_xor` stays below 0x80 |
| Checksum.Calculate2 | packages/core/src/protocol/utils/checksum.ts:272-283 | `calculateChecksum2` throws exactly for an unknown type and otherwise yields two bytes |
| Checksum.Calculate2FromBuffer | packages/core/src/protocol/utils/checksum.ts:288-304 | the buffer form of the two-byte checksum throws in the same case and otherwise yields two bytes |
| Checksum.AndMsbClear | packages/core/src/protocol/utils/checksum.ts:228 | `& 0x7f` clears the top bit of any byte |
| Checksum.SumRangeIsSlice | packages/core/src/protocol/utils/checksum.ts:116-126 | the indexed sum over `[start, end)` inside the buffer equals the sum of that slice |
| Checksum.XorRangeIsSlice | packages/core/src/protocol/utils/checksum.ts:151-165 | the indexed XOR over a range inside the buffer equals the XOR of that slice |
| Checksum.BestinRangeIsSlice | packages/core/src/protocol/utils/checksum.ts:257-263 | the indexed Bestin fold over a range equals the fold of that slice |
| Checksum.XorAddRangeIsSlice | packages/core/src/protocol/utils/checksum.ts:340-358 | the indexed running pair of `xorAdd` over a range equals the pair over that slice |
| Checksum.RangeFormAgrees | packages/core/src/protocol/utils/checksum.ts:23-88 | the buffer form run over `header ++ data`, with the header length and data end, equals `calculateChecksum(header, data)` for every type, errors included |
| Checksum.RangeForm2Agrees | packages/core/src/protocol/utils/checksum.ts:272-304 | the same agreement for the two-byte checksum |
| Checksum.ByteAtShift | packages/core/src/protocol/utils/checksum.ts:116-126 | reading index `k + i` of a buffer prefixed by `k` bytes reads index `i` of the original, including out-of-range reads |
| Checksum.SumRangeShift | packages/core/src/protocol/utils/checksum.ts:116-126 | the indexed sum is invariant under prefixing the buffer and shifting the range |
| Checksum.XorRangeShift | packages/core/src/protocol/utils/checksum.ts:151-165 | the indexed XOR is invariant under prefixing and shifting |
| Checksum.BestinRangeShift | packages/core/src/protocol/utils/checksum.ts:257-263 | the Bestin fold is invariant under prefixing and shifting |
| Checksum.XorAddRangeShift | packages/core/src/protocol/utils/checksum.ts:340-358 | the running pair of `xorAdd` is invariant under prefixing and shifting |
| Checksum.BaseOffsetShift | packages/core/src/protocol/utils/checksum.ts:55-88 | `baseOffset = k` on a buffer with `k` extra leading bytes gives the same checksum as offset 0 without them |
| Checksum.BaseOffsetShift2 | packages/core/src/protocol/utils/checksum.ts:288-304 | the same for the two-byte checksum |
| Checksum.HeaderIndependent | packages/core/src/protocol/utils/checksum.ts:27-36 | the `_no_header` and Samsung receive/transmit types give the same result for any two headers |
| Checksum.HeaderIndependentRange | packages/core/src/protocol/utils/checksum.ts:68-77 | in buffer form those types read nothing before the data: buffers agreeing from the data start on give the same checksum |
| Checksum.RangeAgree | packages/core/src/protocol/utils/checksum.ts:116-165 | folds over a range depend only on the bytes from the range start on |
| Checksum.XorFoldSeed | packages/core/src/protocol/utils/checksum.ts:167-175 | folding XOR from a seed is the seed XOR the fold from zero |
| Checksum.SamsungRxSpec | packages/core/src/protocol/utils/checksum.ts:159-176 | `samsung_rx` is 0xB0 XOR all data bytes, flipped by 0x80 exactly when the first data byte is below 0x7C; empty data gives 0xB0 since `data[0] < 0x7c` is false for `undefined` |
| Checksum.FoldConcat | packages/core/src/protocol/utils/checksum.ts:93-263 | the sum, XOR and Bestin folds over a concatenation continue from where the first part stopped |
| Checksum.BestinSpec | packages/core/src/protocol/utils/checksum.ts:240-255 | `bestin_sum` is the fold `((b ^ s) + 1) & 0xFF` from seed 3 over header then data; with no bytes it is 3 |
| Checksum.XorAddFoldIsSumAndXor | packages/core/src/protocol/utils/checksum.ts:314-338 | the running `(crc, temp)` pair of `xorAdd` is the plain sum and the plain XOR |
| Checksum.XorAddSpec | packages/core/src/protocol/utils/checksum.ts:314-338 | `xor_add` is `[X, (S + X) & 0xFF]` for the XOR X and sum S of header and data |
| Checksum.AddXorSpec | packages/core/src/protocol/utils/checksum.ts:93-141 | `add` is the header-and-data sum modulo 256 and `xor` their XOR |
| PacketParser.Classify | packages/core/src/protocol/packet-parser.ts:36-91 | one pass of the checks accepts only a buffer that starts with the header, reaches the fixed length and ends with the footer, with a good checksum |
| PacketParser.Scan | packages/core/src/protocol/packet-parser.ts:36-91 | the sliding-window scan returns, or leaves behind, a suffix of the buffer; a returned packet is framed, and is non-empty when the buffer was |
| PacketParser.Parse | packages/core/src/protocol/packet-parser.ts:12-34 | `parse(byte)` records the receive time, empties the buffer when it returns a packet, keeps the buffer within 256 bytes, and returns only framed packets that end with the byte just received |
| PacketParser.FeedAll | packages/core/src/protocol/packet-parser.ts:12-34 | feeding a run of bytes keeps the buffer bound and yields at most one packet per byte |
| PacketParser.FeedAllPackets | packages/core/src/protocol/packet-parser.ts:22-26 | every packet a run of bytes yields starts with the header, has the fixed length, ends with the footer and passes the checksum |
| PacketParser.TimeoutDiscards | packages/core/src/protocol/packet-parser.ts:14-16 | after a gap longer than `rx_timeout` the earlier buffer plays no part in the result |
| PacketParser.NoTimeoutKeeps | packages/core/src/protocol/packet-parser.ts:14-26 | without a timeout, or within it, a packet comes out exactly when scanning the buffer plus the byte completes one, and it is that packet |
| PacketParser.HeaderResync | packages/core/src/protocol/packet-parser.ts:38-46 | a buffer that does not start with the header loses exactly its first byte before scanning again |
| PacketParser.ChecksumResync | packages/core/src/protocol/packet-parser.ts:80-87 | a buffer whose framing checks pass but whose checksum fails loses exactly its first byte before scanning again |
| PacketParser.VerifyFoldAdd | packages/core/src/protocol/packet-parser.ts:115-117 | the parser's own add loop computes the low byte of the checksum engine's range sum |
| PacketParser.VerifyFoldXor | packages/core/src/protocol/packet-parser.ts:115-120 | the parser's XOR loop computes the checksum engine's range XOR |
| PacketParser.VerifyFoldOther | packages/core/src/protocol/packet-parser.ts:115-122 | every other checksum type leaves the computed value at 0 |
| PacketParser.VerifySpec | packages/core/src/protocol/packet-parser.ts:93-125 | for the add and XOR families the check compares the byte before the footer with the checksum engine's value over the bytes from the header (or data) start to it; for the other types it asks that byte to be 0 |
| PacketParser.Verify | packages/core/src/protocol/packet-parser.ts:93-125 | `verifyChecksum`: true without a checksum type; `PacketParser.VerifySpec`, `PacketParser.VerifyFoldAdd`, `PacketParser.VerifyFoldXor` and `PacketParser.VerifyFoldOther` state what it compares |
| PacketParser.ScanAsWritten | packages/core/src/protocol/packet-parser.ts:36-91 | the scan exactly as written can only diverge with a checksum set and no header, footer or length, and otherwise agrees with the corrected scan |
| PacketParser.AsWrittenDiverges | packages/core/src/protocol/packet-parser.ts:80-87 | with an `add` checksum and no header, footer or length, the single byte 0x01 makes the written scan recurse on an empty buffer without end |
| PacketParser.CorrectedWaits | packages/core/src/protocol/packet-parser.ts:80-87 | in the corrected scan the same byte is dropped and the parser waits with an empty buffer |
| PacketParser.ShortFrameWaits | packages/core/src/protocol/packet-parser.ts:49-52 | a frame that starts with the header but is shorter than the fixed length is buffered, with nothing returned |
| PacketParser.BadChecksumDropped | packages/core/src/protocol/packet-parser.ts:80-87 | the frame `AA 01 02 00` fails its `add` checksum and, after re-scanning, leaves nothing buffered |
| PacketParser.GoodFrameReturned | packages/core/src/protocol/packet-parser.ts:22-26 | the frame `AA 02 03 AF` is returned and the buffer reset |
| PacketParser.ResyncExample | packages/core/test/packet-parser/packet-parser.test.ts:80-89 | the test trace: with header AA, length 4 and an `add` checksum, `AA 01 02 00` followed by `AA 02 03 AF` yields exactly the second frame |
| CommandManager.EffectiveRetry | packages/core/src/service/command.manager.ts:36-58 | the retry settings are the entity's own fields where given, else the configured ones, else the defaults 5 attempts / 2000 ms / 125 ms |
| CommandManager.ProcessQueue | packages/core/src/service/command.manager.ts:60-74 | with a job in flight or an empty queue nothing happens; otherwise the first queued job is started with `attempts + 1` attempts and written at once; the invariant is kept and history only grows |
| CommandManager.Attempt | packages/core/src/service/command.manager.ts:81-106 | an attempt with one left spends it, writes the packet, registers the entity's listener and arms the timer; with none left the job is rejected and its listener removed |
| CommandManager.Finish | packages/core/src/service/command.manager.ts:67-73 | settling the job appends exactly its outcome to the settled list before the next job starts |
| CommandManager.Step | packages/core/src/service/command.manager.ts:29-125 | no event rewrites what was already written to the port or already settled |
| CommandManager.Enqueue | packages/core/src/service/command.manager.ts:34-47 | `send` appends one job to the back of the queue and changes nothing else |
| CommandManager.StepPreservesValid | packages/core/src/service/command.manager.ts:60-125 | every event keeps the invariant: jobs settle in the order they were sent, and the only listener is the in-flight job's while its timer runs |
| CommandManager.SendPreservesValid | packages/core/src/service/command.manager.ts:34-47 | sending keeps the same invariant |
| CommandManager.Run | packages/core/src/service/command.manager.ts:29-125 | any run of events only appends to what was written |
| CommandManager.RunPreservesValid | packages/core/src/service/command.manager.ts:60-125 | any run of events keeps the invariant |
| CommandManager.RunConcat | packages/core/src/service/command.manager.ts:29-125 | running two event sequences in turn is running their concatenation |
| CommandManager.AckWhileWaitingIgnored | packages/core/src/service/command.manager.ts:101-125 | between a timeout and the retry no listener is registered, so an acknowledgement then changes nothing |
| CommandManager.AckForOtherEntityIgnored | packages/core/src/service/command.manager.ts:120-125 | an acknowledgement for any entity other than the in-flight one changes nothing |
| CommandManager.AckStartsNext | packages/core/src/service/command.manager.ts:67-97 | an acknowledgement resolves the in-flight job and the next queued job is written at once |
| CommandManager.OneRound | packages/core/src/service/command.manager.ts:101-105 | a timeout followed by the retry pause spends one attempt and writes the same packet again |
| CommandManager.UnansweredRounds | packages/core/src/service/command.manager.ts:81-106 | `k` unanswered rounds spend `k` attempts and write the packet `k` more times |
| CommandManager.SendWhenIdle | packages/core/src/service/command.manager.ts:34-90 | a command sent to an idle manager is written at once, with its listener registered |
| CommandManager.FinalRound | packages/core/src/service/command.manager.ts:82-87 | the round after the last attempt rejects the job, removes the listener and writes nothing |
| CommandManager.NoAckWritesAttemptsPlusOne | packages/core/src/service/command.manager.ts:40-87 | with no acknowledgement a command is written exactly `attempts + 1` times, then rejected, and the manager is idle again |
| CommandManager.SentFirst | packages/core/src/service/command.manager.ts:34-90 | after sending to an idle manager the job is in flight with `attempts` attempts left after one write |
| CommandManager.RetriedUntilLast | packages/core/src/service/command.manager.ts:81-106 | after `a` unanswered rounds the job has no attempt left and the packet was written `a` more times |
| ProtocolManager.TxDelay | packages/core/src/protocol/protocol-manager.ts:41 | the pacing gap is the configured `tx_delay`, and 50 ms when it is missing or zero |
| ProtocolManager.RegisterDevice | packages/core/src/protocol/protocol-manager.ts:20-22 | registering appends the device after the ones already registered and changes nothing else |
| ProtocolManager.QueueCommand | packages/core/src/protocol/protocol-manager.ts:31-37 | a command goes to the back of the high or the low lane, as asked; the other lane, the devices, the parser and the last send time are unchanged |
| ProtocolManager.GetNextCommand | packages/core/src/protocol/protocol-manager.ts:39-61 | nothing is sent before the gap has passed since the last send or when both lanes are empty; otherwise the head of the high lane, else of the low lane, is sent and removed and the send time recorded; no command is lost or duplicated |
| ProtocolManager.HighOvertakesLow | packages/core/src/protocol/protocol-manager.ts:49-53 | a command queued at high priority is sent before every low-priority command already waiting |
| ProtocolManager.DrainStep | packages/core/src/protocol/protocol-manager.ts:39-61 | one poll at an open gate sends the head of the first non-empty lane |
| ProtocolManager.DrainInOrder | packages/core/src/protocol/protocol-manager.ts:39-61 | polled often enough, the manager sends all of the high lane and then all of the low lane, each in queueing order |
| ProtocolManager.ProcessPacket | packages/core/src/protocol/protocol-manager.ts:63-70 | one packet gives at most one event per registered device |
| ProtocolManager.ProcessFrom | packages/core/src/protocol/protocol-manager.ts:64-69 | the devices from a given index on give at most one event each |
| ProtocolManager.EventOf | packages/core/src/protocol/protocol-manager.ts:65-68 | a device contributes at most one event |
| ProtocolManager.EventsAreReports | packages/core/src/protocol/protocol-manager.ts:63-70 | every event comes from a device that parsed the packet, under its id and with exactly its updates, and events keep the registration order |
| ProtocolManager.ReportsAreEvents | packages/core/src/protocol/protocol-manager.ts:63-70 | every device that parses the packet contributes its event |
| ProtocolManager.NoEventsWhenSilent | packages/core/src/protocol/protocol-manager.ts:63-70 | when no device parses the packet there is no event at all |
| ProtocolManager.ProcessFromShift | packages/core/src/protocol/protocol-manager.ts:64-69 | the events of the devices after a prefix are those the remaining devices give alone |
| ProtocolManager.ProcessFromSplits | packages/core/src/protocol/protocol-manager.ts:64-69 | the events of two groups of devices, in turn, are each group's events concatenated |
| ProtocolManager.ProcessPacketSplits | packages/core/src/protocol/protocol-manager.ts:63-70 | offering a packet to two groups of registered devices gives the first group's events followed by the second's |
| ProtocolManager.HandleIncomingByte | packages/core/src/protocol/protocol-manager.ts:24-29 | each byte advances the parser; a byte that completes no packet emits nothing, and one that completes a packet emits exactly that packet's events |
| SetupWizard.ParityOf | packages/service/src/setup-wizard.ts:116-118 | a parity is accepted exactly when it is one of `none`, `even`, `mark`, `odd`, `space`, and it reads back as the same name |
| SetupWizard.ParityRoundTrip | packages/service/src/setup-wizard.ts:47 | every parity is accepted under its own name |
| SetupWizard.StopBitsOf | packages/service/src/setup-wizard.ts:120-122 | stop bits are accepted exactly when the number is 1, 1.5 or 2, and read back as the same number |
| SetupWizard.StopBitsRoundTrip | packages/service/src/setup-wizard.ts:48 | every stop-bits setting is accepted as its own number |
| SetupWizard.TextField | packages/service/src/setup-wizard.ts:93-94 | a text field is trimmed: trimming it again changes nothing |
| SetupWizard.ParseSerialConfigPayload | packages/service/src/setup-wizard.ts:85-134 | an accepted payload gives a configuration every check admits, carrying the trimmed port id and path and the submitted rate, data bits, parity and stop bits |
| SetupWizard.ErrorPrecedence | packages/service/src/setup-wizard.ts:88-122 | each error is reported exactly when every earlier check passes and its own fails, in the order object, port id, path, baud rate, data bits, parity, stop bits |
| SetupWizard.SerialConfigRoundTrip | packages/service/src/setup-wizard.ts:85-134 | every valid configuration comes back unchanged from the payload the form sends for it |
| SetupWizard.PaddingIsTrimmed | packages/service/src/setup-wizard.ts:93-94 | whitespace around the port id and the path does not change the configuration accepted |
| SetupWizard.AcceptedFields | packages/service/src/setup-wizard.ts:123-133 | a payload passing every check gives its trimmed and converted fields |
| SetupWizard.WithPath | packages/service/src/setup-wizard.ts:69 | the spread copy has `path` set to the new value and every other key as before |
| SetupWizard.WithPaths | packages/service/src/setup-wizard.ts:75-78 | every object or array element gets the path; null and primitive elements are left as they are; the length is kept |
| SetupWizard.BridgeOf | packages/service/src/setup-wizard.ts:55-58 | when `homenet_bridge` or `homenetBridge` is present the bridge configuration found is truthy |
| SetupWizard.UpdateBridge | packages/service/src/setup-wizard.ts:64-82 | the path is written exactly when `serial` is truthy or `serials` is an array; a truthy `serial` gets the path, an array `serials` gets it in each object element, and every other key is unchanged |
| SetupWizard.UpdateBridgeKeeps | packages/service/src/setup-wizard.ts:64-82 | keys other than `serial` and `serials` are untouched |
| SetupWizard.ApplySerialPathToConfig | packages/service/src/setup-wizard.ts:50-83 | it reports an update exactly when the configuration is an object whose bridge configuration is an object with a truthy `serial` or an array `serials`; then the bridge configuration is replaced by its updated form with the trimmed path, and otherwise nothing changes |
| SetupWizard.UpdatedBridgeFound | packages/service/src/setup-wizard.ts:55-58 | after the update the bridge configuration is looked up in the same place and found updated |
| SetupWizard.BridgeOfReplaced | packages/service/src/setup-wizard.ts:55-58 | a bridge configuration written back in place is the one looked up afterwards |
| SetupWizard.BuildEmptyConfig | packages/service/src/setup-wizard.ts:136-140 | the fresh configuration holds the serial settings under `homenet_bridge.serial` |
| SetupWizard.EmptyConfigRoundTrip | packages/service/src/setup-wizard.ts:136-150 | the settings a fresh configuration is seeded with are the ones read back from it, and writing a path into it succeeds |
| SetupWizard.ExtractSerialConfig | packages/service/src/setup-wizard.ts:142-150 | the first element of a non-empty `serials` array wins, else `serial`; nothing is found exactly when neither is present |
| SetupWizard.ExtractAfterApply | packages/service/src/setup-wizard.ts:50-150 | the path written into a configuration is the path read back out of it |
| SetupWizard.InitializationState | packages/service/src/setup-wizard.ts:231-252 | initialization is required exactly when there is no marker file; the default name is the current file's when it exists, else the legacy one's, and there is none exactly when neither exists |
| SetupWizard.ExampleConfigs | packages/service/src/setup-wizard.ts:220-229 | the examples listed are exactly the `.yaml` files of the directory |
| SetupWizard.CheckSource | packages/service/src/setup-wizard.ts:281-312 | a filename with a path separator, or none, is refused before anything else; the empty-config sentinel goes through the payload checks; an example must be listed and come with a non-blank serial path |
| SetupWizard.SelectRequest | packages/service/src/setup-wizard.ts:364-397 | once the configuration is initialized, seeding is refused before any other check |
| SetupWizard.TestSerialRequest | packages/service/src/setup-wizard.ts:273-312 | the rate limiter answers before any other check |
| SetupWizard.SeededExampleIsListedYaml | packages/service/src/setup-wizard.ts:364-397 | an example can be seeded only while initialization is required, and only when it is a listed `.yaml` file without `/` or `\\` |
| SetupWizard.MarkerBlocksSelect | packages/service/src/setup-wizard.ts:364-369 | a marker file left by an earlier seeding stops every later one |
| Bridge.SerialPath | packages/core/src/index.ts:236 | the serial path is `SERIAL_PORT` when it is set and non-empty, else the non-empty simulator path |
| Bridge.TcpTarget | packages/core/src/index.ts:241-243 | a path is split into host and port exactly when it contains a colon, and neither part contains one |
| Bridge.IsTcpConnection | packages/core/src/index.ts:48 | a path is TCP exactly when it contains a colon; `Bridge.TcpTarget` and `Bridge.TcpTargetOfHostPort` state the split that follows |
| Bridge.TcpTargetOfHostPort | packages/core/src/index.ts:242 | `host:port` is a TCP path and splits back into the same host and port |
| Bridge.ResolveSerialWaitTimeout | packages/core/src/index.ts:50-58 | the wait timeout is always positive, and anything but 15000 ms was read from the variable as a decimal integer |
| Bridge.SerialWaitTimeoutRoundTrip | packages/core/src/index.ts:50-58 | a positive decimal is taken as written; zero, a negative value, an empty or an unset variable give 15000 ms |
| Bridge.WaitForSerialDevice | packages/core/src/index.ts:62-85 | the wait ends exactly at the first attempt that finds the device, fails with a code other than `ENOENT` or `ENODEV`, or comes after the timeout; it keeps waiting exactly when no attempt does |
| Bridge.AppearingDeviceIsUsed | packages/core/src/index.ts:62-85 | a device missing until it appears within the timeout is used |
| Bridge.CheckConfig | packages/core/src/index.ts:170-191 | the document is accepted exactly when it has a truthy `homenet_bridge` holding at least one array entity list, and the accepted configuration is that value; a missing key is reported before a missing entity list |
| Bridge.NoEntityListRefused | packages/core/src/index.ts:185-191 | a configuration with only a serial section is refused for having no entities |
| Bridge.FlatEntities | packages/core/src/index.ts:309-312 | every entity of every listed type appears in the flattened list |
| Bridge.FindEntity | packages/core/src/index.ts:313 | nothing is found exactly when no entry has the id and none is `null`; a failure is the `null` entry's |
| Bridge.FindEntityFirst | packages/core/src/index.ts:313 | the entity found is the first entry with the id, a failure comes from the first `null` entry, and every entry before either was passed over |
| Bridge.FindEntityInPrefix | packages/core/src/index.ts:309-313 | an entity found among the earlier entries is found whatever follows |
| Bridge.TargetEntity | packages/core/src/index.ts:309-313 | the only failure when looking an entity up is a `null` entry |
| Bridge.EarlierTypeWins | packages/core/src/index.ts:299-313 | when a light and a switch share an id the command goes to the light, the earlier type |
| Bridge.SubscriptionTopic | packages/core/src/index.ts:217-218 | each entity is subscribed under `homenet/<id>/set/#` |
| Bridge.Subscriptions | packages/core/src/index.ts:198-227 | one filter per entity, all under `homenet/`; the only failures are a `null` entry or a list that is not an array |
| Bridge.ParseCommandTopic | packages/core/src/index.ts:276-283 | a topic is handled exactly when it has at least four levels, starting `homenet` with `set` third; the entity id has no slash and the command name is `command_` followed by the fourth level |
| Bridge.CommandTopicRoundTrip | packages/core/src/index.ts:276-283 | a topic built from an entity id and a command gives them back, whatever levels follow |
| Bridge.HandledTopicShape | packages/core/src/index.ts:276-283 | every handled topic is a command topic built from its id and command, possibly with more levels |
| Bridge.DiscoveryCommandTopicUnhandled | packages/core/src/index.ts:276-279 | `homenet/<id>/set`, the command topic that discovery announces, matches the subscription but has too few levels to be handled |
| Bridge.NumericIdNeverMatches | packages/core/src/index.ts:217 | an id written as a number is subscribed as its decimal text, but no topic id ever equals it |
| Bridge.CommandValueOf | packages/core/src/index.ts:286-297 | the value keeps the payload text, and it is a number exactly for temperature and speed commands whose payload starts like a number |
| Bridge.HandleMqttMessage | packages/core/src/index.ts:268-340 | only the written packets change; before initialization, or for an unhandled topic, nothing happens; a `null` entry throws; a packet the builder makes for the target is written once, and nothing is written otherwise |
| Bridge.LightCommandIsWritten | packages/core/src/index.ts:268-330 | a light command on its own topic reaches the builder and the packet it makes is written |
| Bridge.SerialSectionError | packages/core/src/index.ts:196-237 | reading `baud_rate` throws exactly when the `serial` section is missing or `null`, with the matching `TypeError` |
| Bridge.InitOutcome | packages/core/src/index.ts:62-266 | `initialize` fails exactly when the configuration check fails, the serial section cannot be read, or, for a device path, the wait rethrows or times out or the found device fails to open; a timeout fails with `시리얼 포트 경로(<path>)를 <timeout>ms 내에 찾지 못했습니다.`; it succeeds exactly when the port is attached on a TCP path or opens on a device path; it keeps waiting only while the device wait does |
| Bridge.Initialize | packages/core/src/index.ts:164-266 | the configuration is stored as soon as it passes the check, before the serial section is read; the port is attached exactly when the serial section reads and the path is TCP or the device was found, whether or not it then opens |
| Bridge.Start | packages/core/src/index.ts:144-149 | the first call runs `initialize` and remembers its outcome; later calls return that outcome unchanged |
| Bridge.Stop | packages/core/src/index.ts:151-162 | the port is dropped and the remembered start forgotten, while the stored configuration and what was written stay |
| Bridge.StartIsMemoised | packages/core/src/index.ts:144-149 | a second `start` returns what the first settled with, failure included |
| Bridge.ConfigKeptOnSerialTimeout | packages/core/src/index.ts:62-245 | when the device times out the configuration stays stored, the bridge stays uninitialized and later starts return the same failure, which, once the serial section reads, is the wait's message naming the path and the timeout |
| Bridge.NoSerialSectionFails | packages/core/src/index.ts:193-237 | a configuration without a readable `serial` section is stored, but the start is rejected with the `baud_rate` `TypeError` and no port is attached |
| Bridge.LightsOnlyConfigRejected | packages/core/src/index.ts:193-243 | a bridge holding only a light list is rejected even on a TCP path, because `serial` is read first |
| Bridge.FailedOpenLeavesPort | packages/core/src/index.ts:244-255 | when the found device fails to open, the start is rejected with the open's error but the port stays attached, so a later command packet is written to it |
| Bridge.RestartAfterStop | packages/core/src/index.ts:151-162 | after `stop`, `start` runs `initialize` afresh |
| Bridge.StoppedIgnoresMessages | packages/core/src/index.ts:268-272 | after `stop` every message is ignored |
| DiscoveryService.RemoveSpaces | packages/service/src/services/discovery.service.ts:60 | the cleaned text holds no whitespace and is no longer than the input |
| DiscoveryService.PairCount | packages/service/src/services/discovery.service.ts:62 | a text of `n` characters is read in `n / 2` slices, rounded up |
| DiscoveryService.HexPairs | packages/service/src/services/discovery.service.ts:62-64 | hex digits read two at a time give one byte per slice |
| DiscoveryService.HexPairsAt | packages/service/src/services/discovery.service.ts:62-64 | byte `k` is the value of digits `2k` and `2k + 1` |
| DiscoveryService.HexPairsOddLast | packages/service/src/services/discovery.service.ts:62-64 | a trailing odd digit is a byte of its own |
| DiscoveryService.ParsePair | packages/service/src/services/discovery.service.ts:63 | `parseInt(…, 16)` of a slice: two hex digits give their value, one digit its own, a non-digit other than a sign gives `NaN`, and only a leading `-` gives a negative value |
| DiscoveryService.PartialSlices | packages/service/src/services/discovery.service.ts:63 | `parseInt` stops at the first non-digit (`1Z` is 1), reads `0X` as a bare prefix (`NaN`) and honours a sign (`-1`) |
| DiscoveryService.ParsedPairs | packages/service/src/services/discovery.service.ts:62-64 | one parsed value per slice |
| DiscoveryService.HexToBytes | packages/service/src/services/discovery.service.ts:59-66 | the packet is the slices' values in order, and it exists exactly when every slice reads as a non-negative number |
| DiscoveryService.SliceParsed | packages/service/src/services/discovery.service.ts:62-64 | every slice of a text of hex digits reads as the byte `HexPairs` gives for it |
| DiscoveryService.FullSliceParsed | packages/service/src/services/discovery.service.ts:62-64 | a slice of two hex digits reads as their value |
| DiscoveryService.LastSliceParsed | packages/service/src/services/discovery.service.ts:62-64 | a lone last digit reads as its value |
| DiscoveryService.DigitsParsed | packages/service/src/services/discovery.service.ts:63 | one or two hex digits read as their hex value |
| DiscoveryService.LastSlice | packages/service/src/services/discovery.service.ts:62 | a slice shorter than two characters is the last one, of an odd-length text |
| DiscoveryService.SliceDigits | packages/service/src/services/discovery.service.ts:63 | a slice of hex digits is hex digits |
| DiscoveryService.HexDigitsRead | packages/service/src/services/discovery.service.ts:59-66 | a packet written in hex digits with any spacing reads back as its digit pairs |
| DiscoveryService.HexToBytesAt | packages/service/src/services/discovery.service.ts:59-66 | every full digit pair of the cleaned text is one byte of the result |
| DiscoveryService.PairValue | packages/service/src/services/discovery.service.ts:63 | two hex digits are worth sixteen times the first plus the second |
| DiscoveryService.MatchesPacket | packages/service/src/services/discovery.service.ts:98-106 | with a non-empty `any_of` the packet matches exactly when some alternative matches; otherwise exactly when the schema's own condition does |
| DiscoveryService.AnyMatches | packages/service/src/services/discovery.service.ts:100-101 | `some` holds exactly when one of the conditions matches |
| DiscoveryService.ConditionAgreesWithMatcher | packages/service/src/services/discovery.service.ts:71-93 | a discovery condition accepts exactly the packets the state matcher accepts for the same data and per-byte mask, missing mask entries being 0xFF |
| DiscoveryService.SkipSpace | packages/service/src/services/discovery.service.ts:114 | `\s*` leaves a suffix of the text that does not start with whitespace |
| DiscoveryService.Token | packages/service/src/services/discovery.service.ts:114 | a match of `\s*c` leaves a suffix of the text that `c` immediately precedes |
| DiscoveryService.HexDigitPrefix | packages/service/src/services/discovery.service.ts:114 | the run of hex digits taken is the longest one: all hex digits, and not followed by one |
| DiscoveryService.CallArgs | packages/service/src/services/discovery.service.ts:114 | `\s*\(\s*x\s*,\s*` can only match text that holds an `x` |
| DiscoveryService.BitAndAt | packages/service/src/services/discovery.service.ts:114 | a `bitAnd` match starts with `bitAnd` and holds an `x` |
| DiscoveryService.AndAt | packages/service/src/services/discovery.service.ts:121 | an `x & m` match holds an `x` |
| DiscoveryService.Search | packages/service/src/services/discovery.service.ts:114-121 | `match` finds a result exactly when the pattern matches at some position, and then it is the result at the leftmost such position |
| DiscoveryService.SearchLeftmost | packages/service/src/services/discovery.service.ts:114-121 | the search gives the match at the first position where the pattern matches |
| DiscoveryService.ParseTransform | packages/service/src/services/discovery.service.ts:112-133 | the transform is a `bitAnd` call exactly when the `bitAnd` pattern matches somewhere in the text; it is an `x & m` expression exactly when that pattern matches somewhere and the `bitAnd` pattern nowhere; text without an `x` is never recognised |
| DiscoveryService.NoXNoMatch | packages/service/src/services/discovery.service.ts:114-121 | neither pattern matches anywhere in text without an `x` |
| DiscoveryService.NoBitAndWithoutI | packages/service/src/services/discovery.service.ts:114 | text without an `i` holds no `bitAnd` match |
| DiscoveryService.HexMaskOf | packages/service/src/services/discovery.service.ts:114-116 | `0x` and a whole run of hex digits is the first alternative of the mask, read in base 16 |
| DiscoveryService.ClosedHexMask | packages/service/src/services/discovery.service.ts:114-116 | `0x…)` gives the hex value as the call's mask |
| DiscoveryService.ClosedDecimalMask | packages/service/src/services/discovery.service.ts:114-116 | decimal digits and `)` give the decimal value as the call's mask |
| DiscoveryService.BitAndHexRead | packages/service/src/services/discovery.service.ts:114-117 | `bitAnd(x, 0x…)` is read in base 16 wherever it stands and whatever follows it |
| DiscoveryService.BitAndDecimalRead | packages/service/src/services/discovery.service.ts:114-117 | `bitAnd(x, n)` with decimal digits is read in base 10, leading zeros included |
| DiscoveryService.AndExprFound | packages/service/src/services/discovery.service.ts:114-124 | without an `i` in the text there is no `bitAnd` call, so the leftmost `x & m` decides |
| DiscoveryService.AndExprHexRead | packages/service/src/services/discovery.service.ts:121-124 | without a `bitAnd` call, `x & 0x…` is read in base 16, even when the `x` ends a longer word |
| DiscoveryService.AndExprDecimalRead | packages/service/src/services/discovery.service.ts:121-124 | without a `bitAnd` call, `x & n` with decimal digits is read in base 10, leading zeros included |
| DiscoveryService.AndInsideWord | packages/service/src/services/discovery.service.ts:121 | the pattern is not anchored: `max & 3` is read as `x & 3` |
| DiscoveryService.BitAndBeforeAnd | packages/service/src/services/discovery.service.ts:114-124 | in a text holding `x & 7` and, after it, `bitAnd(x, 0x0F)`, the later `bitAnd` call wins, because its pattern is tried first: the mask is 15 |
| DiscoveryService.EvaluateTransform | packages/service/src/services/discovery.service.ts:112-133 | a recognised transform keeps exactly those of the value's 8 bits that its mask has set; every bit set in the result is set in the value; an unrecognised transform, `x` on its own included, gives the value back |
| DiscoveryService.MaskBits | packages/service/src/services/discovery.service.ts:117 | the bits `v & m` keeps are those set in both, and the result is at most `v` |
| Bytes.AndBit | packages/service/src/services/discovery.service.ts:117 | bit `k` of an AND is set exactly when it is set in both operands |
| DiscoveryService.AndBelowBits | packages/service/src/services/discovery.service.ts:117 | ANDing never gives a larger number |
| DiscoveryService.AndBelow | packages/service/src/services/discovery.service.ts:117 | ANDing a byte with any mask gives at most the byte |
| DiscoveryService.CountActiveBits | packages/service/src/services/discovery.service.ts:161-170 | the loop counts the set bits of the byte, at most 8 |
| DiscoveryService.PopCountBound | packages/service/src/services/discovery.service.ts:161-170 | a number below `2^k` has at most `k` set bits |
| DiscoveryService.DimensionByte | packages/service/src/services/discovery.service.ts:147-157 | the masked and transformed byte keeps exactly the bits set in the byte, in the low 8 bits of a numeric mask and in a recognised transform's mask; without either it is the byte itself, and it is never larger |
| DiscoveryService.ExtractDimensionValue | packages/service/src/services/discovery.service.ts:138-173 | no value exactly when the offset is past the packet; otherwise the masked and transformed byte at the offset, or with `active_bits` its number of set bits, at most 8 |
| DiscoveryService.MatchedPackets | packages/service/src/services/discovery.service.ts:187-196 | every packet kept matches, and there are no more packets than hex strings |
| DiscoveryService.MatchedCount | packages/service/src/services/discovery.service.ts:190-196 | the packets kept are exactly those counted as parsing and matching |
| DiscoveryService.CountMatching | packages/service/src/services/discovery.service.ts:190-196 | `matchedPacketCount`: one per hex string that parses to a matching packet; `DiscoveryService.MatchedCount` states that it counts exactly the packets kept |
| DiscoveryService.ParamNames | packages/service/src/services/discovery.service.ts:208-211 | the parameter names are exactly the dimensions' parameters, each listed once |
| DiscoveryService.ValuesIn | packages/service/src/services/discovery.service.ts:214-219 | one packet gives each parameter at most one value per dimension |
| DiscoveryService.MaxOf | packages/service/src/services/discovery.service.ts:231 | `Math.max` is one of the values and at least every other |
| DiscoveryService.SetOf | packages/service/src/services/discovery.service.ts:239 | `new Set(values)` holds exactly the values |
| DiscoveryService.MaxValuesOther | packages/service/src/services/discovery.service.ts:227-234 | 'max' leaves keys that are not parameter names alone |
| DiscoveryService.MaxValuesAt | packages/service/src/services/discovery.service.ts:227-234 | under 'max' a parameter holds its largest value, and is left out when it took none |
| DiscoveryService.MaxValues | packages/service/src/services/discovery.service.ts:227-234 | the 'max' strategy over the parameter names; `DiscoveryService.MaxValuesAt` and `DiscoveryService.MaxValuesOther` state what each key holds |
| DiscoveryService.CountValuesOther | packages/service/src/services/discovery.service.ts:236-241 | 'count' leaves keys that are not parameter names alone |
| DiscoveryService.CountValuesAt | packages/service/src/services/discovery.service.ts:236-241 | under 'count' a parameter holds its number of distinct values |
| DiscoveryService.CountValues | packages/service/src/services/discovery.service.ts:236-241 | the number of distinct values per parameter name, under the name plus a suffix; `DiscoveryService.CountValuesAt` and `DiscoveryService.CountValuesOther` state what each key holds |
| DiscoveryService.Distinct | packages/service/src/services/discovery.service.ts:246-261 | the unique tuples hold every tuple once, each distinct from the others |
| DiscoveryService.DistinctFirstSeen | packages/service/src/services/discovery.service.ts:246-261 | `Array.from` of the set lists the tuples in the order they were first added |
| DiscoveryService.Tuples | packages/service/src/services/discovery.service.ts:249-258 | one tuple per matched packet, the i-th built from the i-th packet |
| DiscoveryService.UniqueTuplesItems | packages/service/src/services/discovery.service.ts:246-261 | the items are each matched packet's tuple exactly once, without repeats, in the order the tuples are first seen |
| DiscoveryService.Groups | packages/service/src/services/discovery.service.ts:275-291 | every group holds at least one value |
| DiscoveryService.GroupsHold | packages/service/src/services/discovery.service.ts:275-291 | `v` is in group `k` exactly when some matched packet reads `k` in the first dimension and `v` in the second |
| DiscoveryService.GroupKeys | packages/service/src/services/discovery.service.ts:275-291 | `k` is a group exactly when some matched packet reads `k` in the first dimension and has a value in the second |
| DiscoveryService.AscendingKeysCount | packages/service/src/services/discovery.service.ts:295-301 | one key is listed per group from the starting key up |
| DiscoveryService.AllKeysListed | packages/service/src/services/discovery.service.ts:295-301 | as many keys are listed as there are groups |
| DiscoveryService.AscendingKeysFrom | packages/service/src/services/discovery.service.ts:295-297 | the group keys listed are at least the starting key |
| DiscoveryService.AscendingKeysComplete | packages/service/src/services/discovery.service.ts:295-297 | every group key is listed |
| DiscoveryService.AscendingKeysSorted | packages/service/src/services/discovery.service.ts:295-297 | the group keys are listed in ascending order, as JavaScript enumerates integer keys |
| DiscoveryService.LargestGroup | packages/service/src/services/discovery.service.ts:302-305 | the largest group size, 0 without groups, is the size of one of the groups and at least every other |
| DiscoveryService.LargestOfAll | packages/service/src/services/discovery.service.ts:302-305 | the size reported is that of the largest of all the groups, 0 when there are none |
| DiscoveryService.GroupSizesGet | packages/service/src/services/discovery.service.ts:294-297 | the size table gives each listed key's group size under the key written in decimal |
| DiscoveryService.GroupSizesOfAll | packages/service/src/services/discovery.service.ts:294-298 | the size table has one entry per group, under its key in decimal, holding that group's size |
| DiscoveryService.GroupSizes | packages/service/src/services/discovery.service.ts:294-298 | the size table over the listed keys; `DiscoveryService.GroupSizesGet` and `DiscoveryService.GroupSizesOfAll` state one entry per group, under its decimal key, holding its size |
| DiscoveryService.Infer | packages/service/src/services/discovery.service.ts:222-309 | an unknown strategy gives no values, and 'grouped' with fewer than two parameters gives none either |
| DiscoveryService.EvaluateDiscovery | packages/service/src/services/discovery.service.ts:182-317 | the count is the number of hex strings that parse to a matching packet; a schema matches exactly when the count is positive; an unmatched schema gives the empty result; the ui is passed through |
| DiscoveryService.DefaultIsMax | packages/service/src/services/discovery.service.ts:223-234 | without an inference block every parameter that took a value is reported with its largest one, and one that took none is absent |
| DiscoveryService.CountIsDistinctValues | packages/service/src/services/discovery.service.ts:236-241 | 'count' reports for every parameter how many distinct values it took |
| DiscoveryService.UniqueTuplesReport | packages/service/src/services/discovery.service.ts:243-267 | 'unique_tuples' puts the unique tuples under the output name, unless a `_count` entry overwrites it, and every parameter's number of distinct values under its name followed by `_count` |
| DiscoveryService.GroupedReport | packages/service/src/services/discovery.service.ts:270-307 | 'grouped' reports the number of groups under the first parameter, the largest group's size under the second, and the size table under the output name unless a parameter overwrites it |
| DiscoveryManager.Tag | packages/core/src/mqtt/discovery-manager.ts:58-65 | each entity is copied with its `type` set to the discovery component and nothing else changed |
| DiscoveryManager.Entities | packages/core/src/mqtt/discovery-manager.ts:57-66 | every configured entity of the eight lists appears, so the list is as long as all of them together |
| DiscoveryManager.FirstEntityAt | packages/core/src/mqtt/discovery-manager.ts:57-66 | lights, climates and valves come first, in that order |
| DiscoveryManager.ValveInFirst | packages/core/src/mqtt/discovery-manager.ts:60 | valve `i` stands after every light and climate, tagged `switch` |
| DiscoveryManager.ValveEntity | packages/core/src/mqtt/discovery-manager.ts:60 | valve `i` is entity number `lights + climates + i`, tagged `switch` |
| DiscoveryManager.Rest | packages/core/src/mqtt/discovery-manager.ts:74 | the entity's own configuration less `id`, `name` and `type`, every other key kept |
| DiscoveryManager.BaseFields | packages/core/src/mqtt/discovery-manager.ts:78-88 | the payload's name is the entity's name when truthy, else `null`; the device block is called by the name, else `Device <id>` |
| DiscoveryManager.BaseLacks | packages/core/src/mqtt/discovery-manager.ts:78-88 | the fixed fields are only `name`, `unique_id`, `state_topic`, `availability` and `device` |
| DiscoveryManager.Payload | packages/core/src/mqtt/discovery-manager.ts:78-94 | light, switch, fan, climate and button payloads get `homenet/<id>/set` as command topic, overriding the configuration; every other key is the fixed fields overridden by the entity's own configuration |
| DiscoveryManager.PayloadFields | packages/core/src/mqtt/discovery-manager.ts:78-90 | a key of the entity's own configuration overrides the fixed field of the same name; other keys keep the fixed value |
| DiscoveryManager.PublishDiscovery | packages/core/src/mqtt/discovery-manager.ts:73-104 | the config message goes to `homeassistant/<type>/homenet_<id>/config`, not retained, carrying the stringified payload |
| DiscoveryManager.PublishAll | packages/core/src/mqtt/discovery-manager.ts:68-70 | one config message per entity, in order |
| DiscoveryManager.Discover | packages/core/src/mqtt/discovery-manager.ts:54-71 | exactly one config message per configured entity, in the order of the lists |
| DiscoveryManager.Setup | packages/core/src/mqtt/discovery-manager.ts:39-52 | the bridge announces itself `online` on `homenet/bridge/status`, retained |
| DiscoveryManager.OnHaStatus | packages/core/src/mqtt/discovery-manager.ts:41-47 | discovery runs again exactly when Home Assistant reports `online`; other messages publish nothing |
| DiscoveryManager.ConfigTopicParts | packages/core/src/mqtt/discovery-manager.ts:75-76 | the config topic splits into the prefix, the type, the unique id and `config` when neither type nor id contains a slash |
| DiscoveryManager.SwitchEntity | packages/core/src/mqtt/discovery-manager.ts:76-94 | an entity tagged `switch` gets a `homeassistant/switch/` topic and a command topic |
| DiscoveryManager.ValvesAnnouncedAsSwitches | packages/core/src/mqtt/discovery-manager.ts:60-94 | a valve is announced under the `switch` component, with a command topic |
| DiscoveryManager.SensorHasNoCommandTopic | packages/core/src/mqtt/discovery-manager.ts:92-94 | a sensor gets no command topic unless its own configuration has one |
| DiscoveryManager.UnnamedEntity | packages/core/src/mqtt/discovery-manager.ts:79-85 | without a name the payload's name is `null` and the device is called `Device <id>` |
| GalleryTemplate.TextToNumber | packages/service/src/utils/gallery-template.ts:221 | `Number` of blank text is 0 |
| GalleryTemplate.Hex | packages/service/src/utils/gallery-template.ts:220-224 | a value that is not a number passes unchanged; a non-negative number becomes `0x` and its upper-case hex digits, padded to two, with no leading zero beyond the padding, reading back as the number; a negative one keeps its sign after `0x` |
| Strings.HexLiteralOf | packages/service/src/utils/gallery-template.ts:223 | the text `'0x' + num.toString(16).toUpperCase().padStart(2, '0')` is `0x` and upper-case hex digits reading back as the number, at least two and with no leading zero beyond the padding; a negative number gives `0x-` and the digits of its magnitude |
| GalleryTemplate.PadWidth | packages/service/src/utils/gallery-template.ts:226 | the width is `Number(arg)`, and 2 when that is missing, zero or `NaN` |
| GalleryTemplate.Pad | packages/service/src/utils/gallery-template.ts:225-228 | the result is the value's text preceded only by zeros, at least the width long and never shorter than the text |
| GalleryTemplate.ApplyFilter | packages/service/src/utils/gallery-template.ts:209-213 | a filter other than `hex` and `pad` leaves the value alone |
| GalleryTemplate.ApplyFilters | packages/service/src/utils/gallery-template.ts:208-214 | filters are applied in order; when none is known the value comes through unchanged |
| GalleryTemplate.EvaluateExpression | packages/service/src/utils/gallery-template.ts:182-217 | an expression failing the character guard comes back as its own text; one that fails to evaluate comes back wrapped in `{{ }}` again |
| GalleryTemplate.UnsafeIsNotEvaluated | packages/service/src/utils/gallery-template.ts:193-197 | an expression with a character outside the guard's set, such as a quote, a comma or `=`, is returned as written and never evaluated |
| GalleryTemplate.PlainExpressionValue | packages/service/src/utils/gallery-template.ts:182-217 | a guarded expression without filters yields exactly what it evaluates to |
| GalleryTemplate.Close | packages/service/src/utils/gallery-template.ts:164 | the lazy `.+?` stops at the first `}}` it can reach without a line terminator |
| GalleryTemplate.NextMatch | packages/service/src/utils/gallery-template.ts:164 | a match starts with `{{`, holds at least one character and ends with `}}` inside the string |
| GalleryTemplate.Matches | packages/service/src/utils/gallery-template.ts:168 | every match lies inside the string, after the starting position |
| GalleryTemplate.EvaluateString | packages/service/src/utils/gallery-template.ts:163-180 | a string without a match is returned as it is |
| GalleryTemplate.NoOpeningNoMatch | packages/service/src/utils/gallery-template.ts:164-168 | without `{{` there is no match |
| GalleryTemplate.NoPlaceholderUnchanged | packages/service/src/utils/gallery-template.ts:174 | a string without `{{` is left exactly as it is |
| GalleryTemplate.CloseReaches | packages/service/src/utils/gallery-template.ts:164 | the lazy content reaches the first `}}` when nothing before it is a line terminator or a `}` |
| GalleryTemplate.NoMatchIn | packages/service/src/utils/gallery-template.ts:164 | no match starts in a stretch without `{` |
| GalleryTemplate.PlaceholderMatch | packages/service/src/utils/gallery-template.ts:164 | the placeholder `{{e}}` after text without braces is where the first match is |
| GalleryTemplate.OnePlaceholder | packages/service/src/utils/gallery-template.ts:164-168 | `pre{{e}}post` without other braces has exactly one match, at the placeholder |
| GalleryTemplate.SingleExpressionKeepsValue | packages/service/src/utils/gallery-template.ts:170-172 | a string that is exactly one placeholder gives the expression's value, whatever its type |
| GalleryTemplate.SingleExpressionNumber | packages/service/src/utils/gallery-template.ts:170-172 | a number-valued placeholder alone in a string gives the number itself, not its text |
| GalleryTemplate.EmbeddedExpressionInterpolated | packages/service/src/utils/gallery-template.ts:176-179 | a placeholder with text around it is replaced by the value's text inside the rest of the string |
| GalleryTemplate.InterpolatedAt | packages/service/src/utils/gallery-template.ts:176-179 | a string whose one match does not span it is the text around the match with the value's text in between |
| GalleryTemplate.ReplaceAll | packages/service/src/utils/gallery-template.ts:163-180 | the `replace` callback over every match from a position on; `GalleryTemplate.InterpolatedAt` and `GalleryTemplate.ReplacedOnce` state that a single match is replaced by the value's text with the text around it kept |
| GalleryTemplate.ReplacedOnce | packages/service/src/utils/gallery-template.ts:176-179 | when a string has exactly one match, replacing every match gives the text before it, the replacement of its inside, and the text after it |
| GalleryTemplate.ExtractExpression | packages/service/src/utils/gallery-template.ts:158-161 | the result is the inside of a string that is one `{{…}}`, and the string itself otherwise |
| GalleryTemplate.Standard | packages/service/src/utils/gallery-template.ts:60-217 | the evaluators the tree walk uses are `evaluateString` and `evaluateExpression` |
| GalleryTemplate.StartPlus | packages/service/src/utils/gallery-template.ts:119 | `start + i` adds for a numeric start |
| GalleryTemplate.Counted | packages/service/src/utils/gallery-template.ts:117-120 | a counted loop has `count` values, none when it is not positive, counting up from `start` |
| GalleryTemplate.RepeatCount | packages/service/src/utils/gallery-template.ts:104-115 | a missing count is `NaN`, and a count of 0 is 0 |
| GalleryTemplate.UndefinedIsNaN | packages/service/src/utils/gallery-template.ts:114 | `parseInt(String(undefined))` is `NaN` |
| GalleryTemplate.LoopItems | packages/service/src/utils/gallery-template.ts:95-121 | a truthy `over` that is not a string gives no items; without `over` the items are the counted values, and none when the count is `NaN` |
| GalleryTemplate.LoopContextBinds | packages/service/src/utils/gallery-template.ts:127-132 | an iteration binds the index variable to the position and the loop variable to the value, unless they share a name, and leaves every other name alone |
| GalleryTemplate.LoopContext | packages/service/src/utils/gallery-template.ts:127-132 | the copied context with the loop variable and, when `index` is truthy, the index variable bound; `GalleryTemplate.LoopContextBinds` states which names change and to what |
| GalleryTemplate.LoopBindings | packages/service/src/utils/gallery-template.ts:127-132 | with distinct names the loop variable holds the value and the index variable the position |
| GalleryTemplate.ProcessNode | packages/service/src/utils/gallery-template.ts:60-89 | arrays stay arrays, objects stay objects, and null, booleans and numbers are returned as they are |
| GalleryTemplate.EachProcessed | packages/service/src/utils/gallery-template.ts:63-71 | one processed item per item |
| GalleryTemplate.EachProcessedAt | packages/service/src/utils/gallery-template.ts:63-71 | element `k` is the processed item `k` |
| GalleryTemplate.ProcessItemsUnrepeated | packages/service/src/utils/gallery-template.ts:61-72 | an array without repeat blocks is processed item for item |
| GalleryTemplate.ProcessItemsStep | packages/service/src/utils/gallery-template.ts:68-70 | an item that is not a repeat block contributes its processed self |
| GalleryTemplate.ProcessItems | packages/service/src/utils/gallery-template.ts:61-72 | the array walk from a position on, each repeat block spliced in as its expansion; `GalleryTemplate.ProcessItemsUnrepeated` and `GalleryTemplate.ProcessItemsStep` state it item by item |
| GalleryTemplate.PutKeys | packages/service/src/utils/gallery-template.ts:75-82 | a key is present after the assignment exactly when it was before or is the one assigned, the markers excepted |
| GalleryTemplate.ProcessEntriesKeys | packages/service/src/utils/gallery-template.ts:73-83 | a key is in the processed object exactly when it is in the original and is neither `$repeat` nor `$nested` |
| GalleryTemplate.ProcessEntries | packages/service/src/utils/gallery-template.ts:73-83 | the object walk that copies every processed value except the markers; `GalleryTemplate.ProcessEntriesKeys` states exactly which keys the result has |
| GalleryTemplate.KeyFromStep | packages/service/src/utils/gallery-template.ts:75 | some entry from a position on has the key exactly when the first does or a later one |
| GalleryTemplate.KeyFromGet | packages/service/src/utils/gallery-template.ts:75 | some entry has the key exactly when looking it up finds a value |
| GalleryTemplate.Tabulate | packages/service/src/utils/gallery-template.ts:126-153 | one value per position of the range |
| GalleryTemplate.TabulateAt | packages/service/src/utils/gallery-template.ts:126-153 | element `k` is the value at position `i + k` |
| GalleryTemplate.IterateUnnested | packages/service/src/utils/gallery-template.ts:126-153 | without a truthy `$nested` the iterations are the processed copies, one per loop value |
| GalleryTemplate.IterateStep | packages/service/src/utils/gallery-template.ts:145-152 | without a truthy `$nested` one iteration contributes one copy |
| GalleryTemplate.ExpandRepeatUnnested | packages/service/src/utils/gallery-template.ts:91-156 | without a truthy `$nested` a repeat block yields one processed copy per loop value, copy `k` processed in the context of value `k` |
| GalleryTemplate.ExpandRepeat | packages/service/src/utils/gallery-template.ts:91-156 | one iteration per loop value, in loop order; `GalleryTemplate.ExpandRepeatUnnested`, `GalleryTemplate.CountedRepeatBindsFromOne` and `GalleryTemplate.OverNonArrayExpandsToNothing` state its output |
| GalleryTemplate.Iteration | packages/service/src/utils/gallery-template.ts:134-152 | without a truthy `$nested` an iteration is the item itself processed in the loop's context |
| GalleryTemplate.CountedFromOne | packages/service/src/utils/gallery-template.ts:114-120 | a counted loop without `start` runs over 1, 2, …, `count` |
| GalleryTemplate.CountedRepeatBindsFromOne | packages/service/src/utils/gallery-template.ts:91-156 | a counted repeat without `start` gives `count` items, item `k` with the loop variable at `k + 1` and the index at `k` |
| GalleryTemplate.NonNumericCountExpandsToNothing | packages/service/src/utils/gallery-template.ts:114-115 | a missing count, or one that is text without a placeholder and no number, expands to nothing |
| GalleryTemplate.OverNonArrayExpandsToNothing | packages/service/src/utils/gallery-template.ts:95-101 | an `over` expression whose value is not an array expands to nothing |
| GalleryTemplate.Cast | packages/service/src/utils/gallery-template.ts:28-36 | only `integer` and `integer[]` parameters are cast, and an `integer[]` array keeps its length |
| GalleryTemplate.IntegerParameterParsed | packages/service/src/utils/gallery-template.ts:30-32 | an `integer` parameter given as a number or as its decimal text is that number |
| GalleryTemplate.ParamValue | packages/service/src/utils/gallery-template.ts:22-40 | a declared parameter has a value exactly when one is supplied or it has a default |
| GalleryTemplate.DeclareStep | packages/service/src/utils/gallery-template.ts:21-41 | each declaration binds its name when it has a value and leaves every other name alone |
| GalleryTemplate.DeclareDefined | packages/service/src/utils/gallery-template.ts:21-41 | a name is bound exactly when some declaration of it has a value |
| GalleryTemplate.SomeDeclares | packages/service/src/utils/gallery-template.ts:21-41 | some declaration gives a name a value exactly when the last one does or an earlier one does |
| GalleryTemplate.DeclareLastWins | packages/service/src/utils/gallery-template.ts:21-41 | a bound name holds the value of its last declaration that has one |
| GalleryTemplate.Declare | packages/service/src/utils/gallery-template.ts:20-42 | the declared parameters bound in order, a later declaration overriding an earlier one; `GalleryTemplate.DeclareDefined` and `GalleryTemplate.DeclareLastWins` state which names are bound and to what |
| GalleryTemplate.GetFirst | packages/service/src/utils/gallery-template.ts:46 | looking a key up finds the first entry with it |
| GalleryTemplate.MergeGet | packages/service/src/utils/gallery-template.ts:45-49 | merging keeps every bound name and adds each supplied one that is missing |
| GalleryTemplate.Merge | packages/service/src/utils/gallery-template.ts:45-49 | supplied parameters added where the context has no value; `GalleryTemplate.MergeGet` states the lookup after merging |
| GalleryTemplate.SuppliedOverridesDefault | packages/service/src/utils/gallery-template.ts:22-39 | a supplied value overrides the default and is cast to the declared type |
| GalleryTemplate.DefaultWhenNotSupplied | packages/service/src/utils/gallery-template.ts:24-39 | without a supplied value the default is used, cast to the declared type |
| GalleryTemplate.DeclareOne | packages/service/src/utils/gallery-template.ts:16-49 | with one declaration, the context is its value merged with the supplied parameters |
| GalleryTemplate.PrepareContext | packages/service/src/utils/gallery-template.ts:17-49 | declarations first, then the remaining supplied parameters; `GalleryTemplate.SuppliedOverridesDefault`, `GalleryTemplate.DefaultWhenNotSupplied` and `GalleryTemplate.DeclareOne` state the resulting bindings |
| GalleryTemplate.ProcessGalleryTemplate | packages/service/src/utils/gallery-template.ts:16-58 | an object template gives an object and an array template an array |
| GalleryTemplate.ProcessGalleryTemplateKeys | packages/service/src/utils/gallery-template.ts:52-57 | the output has the template's keys, less `$repeat`, `$nested` and, when it is truthy, `parameters` |
| YamlDumper.Unmark | packages/service/src/utils/yaml-dumper.ts:3-5 | reading the marks back keeps the shape: arrays and objects keep their length |
| YamlDumper.Plain | packages/service/src/utils/yaml-dumper.ts:46-49 | a value carried over unmarked reads back as itself and holds no mark |
| YamlDumper.MarkByte | packages/service/src/utils/yaml-dumper.ts:37-42 | a byte-array element is marked exactly when it is a number, and reads back as itself |
| YamlDumper.MarkHex | packages/service/src/utils/yaml-dumper.ts:19-55 | marking never changes the value the tree stands for |
| YamlDumper.MarkEntry | packages/service/src/utils/yaml-dumper.ts:27-49 | the marked entry reads back as the original value |
| YamlDumper.ByteArrayMarked | packages/service/src/utils/yaml-dumper.ts:29-42 | in any object, every number of an array under a key starting `state` or `command`, containing `header` or `footer`, or equal to `data`, is marked, and every other element is carried over plain |
| YamlDumper.OtherNumbersUnmarked | packages/service/src/utils/yaml-dumper.ts:43-49 | a number held directly by a key, whatever the key, stays a plain number |
| YamlDumper.OtherArraysUnmarked | packages/service/src/utils/yaml-dumper.ts:46-49 | a number in an array under a key that is not a byte key stays plain |
| YamlDumper.NoByteKeysUnmarked | packages/service/src/utils/yaml-dumper.ts:19-55 | without byte keys nothing is marked |
| YamlDumper.NestedArrayUnmarked | packages/service/src/utils/yaml-dumper.ts:37-42 | an array nested inside a byte array is carried over plain |
| YamlDumper.NestedDataMarked | packages/service/src/utils/yaml-dumper.ts:43-45 | the nested object under a `state` key is walked, so its `data` array is marked |
| YamlDumper.HexLiteral | packages/service/src/utils/yaml-dumper.ts:10-14 | a mark is written `0x` and the upper-case hex digits, at least two, reading back as the number; a negative number keeps its sign after `0x` |
| YamlDumper.ByteLiteralWidth | packages/service/src/utils/yaml-dumper.ts:12-13 | a byte value is written with exactly two digits |
| DebugPackets.GenChecksum | packages/core/debug-packets-generated.cjs:26-72 | `add` is the byte sum mod 256, `xor` and `xor_add` the XOR of all bytes, and an unknown type gives 0 |
| DebugPackets.AgreesWithEngine | packages/core/debug-packets-generated.cjs:26-72 | on a header followed by a body, the generator's `add`, `xor`, `samsung_rx` and `samsung_tx` give the byte the bridge's own checksum computes |
| DebugPackets.AddNoHeaderSkipsFirstByte | packages/core/debug-packets-generated.cjs:31-38 | `add_no_header` leaves out only the first byte, whatever the header length, and agrees with the bridge for a one-byte header |
| DebugPackets.AddNoHeaderDiffersForLongHeader | packages/core/debug-packets-generated.cjs:31-38 | with a two-byte header the generator counts the second header byte, which the bridge's `add_no_header` does not |
| DebugPackets.XorAddIsOneByte | packages/core/debug-packets-generated.cjs:41-42 | `xor_add` yields only the XOR byte |
| DebugPackets.BytesOf | packages/core/debug-packets-generated.cjs:80-81 | a configuration array read as bytes keeps its length and its values |
| DebugPackets.Overwrite | packages/core/debug-packets-generated.cjs:98-102 | the packet keeps its length; positions covered by the data take the data's bytes and all others keep the base's |
| DebugPackets.ApplyMod | packages/core/debug-packets-generated.cjs:91-106 | no packet without a modification, or without a data array; otherwise the base with the data written from the offset on, the same length as the base |
| DebugPackets.VariantPacket | packages/core/debug-packets-generated.cjs:117-127 | a variant the device has gives one packet named for it, with a body as long as the base; a variant it lacks gives none |
| DebugPackets.VariantPackets | packages/core/debug-packets-generated.cjs:109-127 | at most one packet per variant, every body as long as the base |
| DebugPackets.AllVariantsInOrder | packages/core/debug-packets-generated.cjs:109-127 | a device with every variant yields one packet per variant, in the order `ON`, `OFF`, `OPEN`, `CLOSED`, `HEAT` |
| DebugPackets.Positions | packages/core/debug-packets-generated.cjs:117 | the positions listed are exactly those in the range where the test holds, ascending |
| DebugPackets.HasAt | packages/core/debug-packets-generated.cjs:118-120 | the test at each position is whether the device has that variant |
| DebugPackets.PresentFrom | packages/core/debug-packets-generated.cjs:117-127 | the positions listed are exactly the variants the device has, ascending |
| DebugPackets.PresentVariantsInOrder | packages/core/debug-packets-generated.cjs:117-127 | whatever variants a device has, its packets are named for exactly those variants, in the order they are tried |
| DebugPackets.NamedCons | packages/core/debug-packets-generated.cjs:121-124 | a packet named for a variant, put before packets named for later ones, keeps the naming |
| DebugPackets.NameAt | packages/core/debug-packets-generated.cjs:122 | the name at each position is the variant's packet name |
| DebugPackets.VariantStep | packages/core/debug-packets-generated.cjs:117-127 | a variant the device has contributes its named packet before the later ones |
| DebugPackets.NamedInOrder | packages/core/debug-packets-generated.cjs:117-127 | a packet named for position `i` followed by packets named for `i + 1` on are named for `i` on |
| DebugPackets.TemperaturePacket | packages/core/debug-packets-generated.cjs:131-139 | only a climate yields the temperature example, at most one, with a body as long as the base |
| DebugPackets.GeneratePacketsForDevice | packages/core/debug-packets-generated.cjs:74-142 | a device without a base state yields nothing; otherwise the first packet is the base state, named `<name> (Base State)`, followed by at most one packet per variant and the temperature example, every body as long as the base |
| DebugPackets.BodiesConcat | packages/core/debug-packets-generated.cjs:179 | concatenated packet lists keep the body length |
| DebugPackets.FullPacket | packages/core/debug-packets-generated.cjs:188-208 | a framed packet is header and body, then the checksum byte unless the type is `none`, then the footer |
| DebugPackets.FramedChecksumVerifies | packages/core/debug-packets-generated.cjs:199-207 | a packet framed with `add`, `xor`, `samsung_rx` or `samsung_tx` carries the checksum byte the bridge computes |
| DebugPackets.PacketTable | packages/core/debug-packets-generated.cjs:171-213 | one framed packet per generated packet, in order, each framed with the bridge's header, footer and checksum type |
| Simulator.NormalizePackets | packages/simulator/src/index.ts:82-98 | an empty packet list is refused with the message `패킷 목록이 비어 있습니다. 최소 한 개 이상의 패킷이 필요합니다.`; any other list gives one buffer per packet, each the packet copied by `Buffer.from` |
| Simulator.ToBuffer | packages/simulator/src/index.ts:95 | `Buffer.from` of a number array keeps the length, and each stored byte agrees with its number modulo 256 |
| Simulator.ToBufferKeepsBytes | packages/simulator/src/index.ts:95 | numbers already in 0..255 are stored as they are, and the stored bytes are the only bytes agreeing with the numbers modulo 256 |
| Simulator.NormalizeKeepsBytes | packages/simulator/src/index.ts:82-98 | a non-empty list of byte packets comes back unchanged |
| Simulator.LowBitsKept | packages/simulator/src/index.ts:95 | the packet `[256, -1]` is stored as `00 FF` |
| Simulator.Create | packages/simulator/src/index.ts:100-121 | creation fails exactly when an empty packet list is given, with the empty-list message; a new simulator is stopped, has written nothing and starts at the first packet, with the defaults or the given packets as `Buffer.from` stores them, and the given interval or the default |
| Simulator.ByteHex | packages/simulator/src/index.ts:125 | a byte is written as two lower-case hex digits, high digit first |
| Simulator.ByteHexes | packages/simulator/src/index.ts:124-125 | one pair of digits per byte, in order |
| Simulator.LogLine | packages/simulator/src/index.ts:127 | the log line starts `[simulator] TX (` and ends with the packet's hex bytes |
| Simulator.HeadTail | packages/simulator/src/index.ts:127 | text placed between a head and a tail starts with the head and ends with the tail |
| Simulator.Next | packages/simulator/src/index.ts:132 | the next index stays inside the list |
| Simulator.NextIsMod | packages/simulator/src/index.ts:132 | the next index is `(index + 1) % length` |
| Simulator.SendNextPacket | packages/simulator/src/index.ts:130-135 | the packet at the index is written, the index moves on round robin, and nothing else changes |
| Simulator.Start | packages/simulator/src/index.ts:137-144 | starting a running simulator changes nothing; otherwise one packet is written at once and the simulator runs |
| Simulator.Stop | packages/simulator/src/index.ts:146-153 | stopping only clears the running flag; nothing is written |
| Simulator.Dispose | packages/simulator/src/index.ts:155-158 | a disposed simulator is stopped, has written nothing more and ignores ticks |
| Simulator.Tick | packages/simulator/src/index.ts:143 | a tick writes one packet while running and does nothing otherwise |
| Simulator.Ticks | packages/simulator/src/index.ts:143 | ticks keep the packets and the running flag |
| Simulator.After | packages/simulator/src/index.ts:132 | stepping any number of places stays inside the list |
| Simulator.AfterIsMod | packages/simulator/src/index.ts:132 | stepping `j` places is adding `j` modulo the length |
| Simulator.AfterShift | packages/simulator/src/index.ts:132 | stepping once and then `j` times is stepping `j + 1` times |
| Simulator.ModStepSum | packages/simulator/src/index.ts:132 | adding one to a remainder and reducing again is adding one before reducing |
| Simulator.TicksRoundRobin | packages/simulator/src/index.ts:130-143 | a running simulator keeps what it wrote and, on tick `j`, writes the packet `j` places after its starting index |
| Simulator.TicksIndex | packages/simulator/src/index.ts:130-143 | over `k` ticks the index moves `k` places round the list |
| Simulator.StartStopIdempotent | packages/simulator/src/index.ts:137-153 | starting twice is starting once, stopping twice is stopping once, and a stopped simulator ignores ticks |
| Simulator.HexCharLowerValue | packages/simulator/src/index.ts:125 | each lower-case hex digit reads back as its value |
| Simulator.LowerPair | packages/simulator/src/index.ts:125 | two lower-case digits read back as their value and hold no whitespace |
| Simulator.ByteHexValue | packages/simulator/src/index.ts:125 | a byte's two digits read back as the byte |
| Simulator.RemoveSpacesAppend | packages/simulator/src/index.ts:124-126 | removing whitespace from joined text is removing it from each part |
| Simulator.RemoveSpacesNone | packages/simulator/src/index.ts:124-126 | text without whitespace is left as it is |
| Simulator.JoinStep | packages/simulator/src/index.ts:126 | removing whitespace from a part, a space and the rest keeps the part and cleans the rest |
| Simulator.JoinedNoSpace | packages/simulator/src/index.ts:126 | removing the whitespace from parts joined by spaces concatenates them |
| Simulator.HexPairsCons | packages/simulator/src/index.ts:124-126 | a pair of digits in front reads as one more byte in front |
| Simulator.ConcatHexPairs | packages/simulator/src/index.ts:124-126 | any strings of two hex digits, concatenated, read back two digits at a time as their values in order |
| Simulator.ByteHexPairs | packages/simulator/src/index.ts:125 | the digit pairs logged for a packet hold no whitespace and read back as its bytes |
| Simulator.PacketHexRoundTrip | packages/simulator/src/index.ts:123-128 | the hex text the simulator logs for a packet reads back as the same packet through the discovery service's `hexToBytes` |
| Devices.SchemaMatches | packages/core/src/protocol/devices/fan.device.ts:41-53 | a match needs a schema with `data` whose bytes fit in the packet at the offset; with empty data that fits, the test always succeeds |
| Devices.MatchesPacket | packages/core/src/protocol/device.ts:44-83 | no `state` schema or no `data` never matches; a match implies the packet holds the data after offset plus receive-header length |
| Devices.MatchesPacketAgrees | packages/core/src/protocol/device.ts:44-83 | for a plain schema whose mask covers the data, the base device's test equals the general packet matcher run with the header length as base offset |
| Devices.ShortArrayMaskMatchesAnything | packages/core/src/protocol/device.ts:62-79 | an empty array mask makes every packet long enough match, since each byte is ANDed with `undefined` |
| Devices.UpdateState | packages/core/src/protocol/device.ts:29-31 | after the merge, a key takes its value from the new state when present there and from the old state otherwise; kind and configuration are kept |
| Devices.UpdateStateIdempotent | packages/core/src/protocol/device.ts:29-31 | merging the same update twice has the effect of merging it once |
| Devices.WithLabelledState | packages/core/src/protocol/devices/fan.device.ts:16-23 | a truthy `state` is kept; otherwise the first label when the first schema matches, else the second label when the second matches; no other key changes |
| Devices.ExtractValue | packages/core/src/protocol/devices/fan.device.ts:34-39 | a value exists exactly when an offset is configured inside the packet, and it is the byte at that offset |
| Devices.WithSpeed | packages/core/src/protocol/devices/fan.device.ts:25-29 | only a fan without a truthy `speed` gains one, equal to the extracted byte; no other key changes |
| Devices.ParseData | packages/core/src/protocol/devices/fan.device.ts:9-32 | fan and valve give nothing unless the base test matches; a result is never empty and keeps every other key from the generic device; no result means nothing was found |
| Devices.ConstructCommand | packages/core/src/protocol/devices/valve.device.ts:41-54 | the generic device's command wins; otherwise exactly the open/close (valve) or on/off (fan, light) template named by the command |
| Devices.LightAgreesWithMatcher | packages/core/src/protocol/devices/light.device.ts:29-43 | the light's exact comparison equals the general packet matcher with no mask for a plain schema |
| Devices.ScalarMaskAcceptsAll | packages/core/src/protocol/devices/fan.device.ts:46-50 | fan and valve index a non-zero scalar mask as an array, so every packet long enough matches |
| Devices.NoMaskIsExact | packages/core/src/protocol/devices/valve.device.ts:27-39 | without a mask, fan and valve compare exactly, as the light does |
| Devices.MaskedStateMatches | packages/core/src/protocol/device.ts:62-82 | a per-byte mask lets a frame differing only in masked-out bits match |
| Devices.LightReportsOn | packages/core/src/protocol/devices/light.device.ts:9-27 | a light reports ON for a frame carrying its on-pattern |
| Devices.LightReportsOff | packages/core/src/protocol/devices/light.device.ts:9-27 | a light reports OFF for a frame carrying its off-pattern and not its on-pattern |
| PacketMatching.CompareBytes | packages/core/src/utils/packet-matching.ts:35-69 | the loop reports a match exactly when every data byte agrees with the packet under the mask: exact without one, masked with a scalar, per index with an array whose missing entries compare exactly |
| PacketMatching.Matches | packages/core/src/utils/packet-matching.ts:12-101 | a match needs data or permission for empty data, the byte stage passed or failed as inversion demands, an active guard passing, and no `except` schema matching; a failure with the first three holding means some `except` schema matched |
| PacketMatching.AnyExceptMatches | packages/core/src/utils/packet-matching.ts:92-98 | true exactly when some `except` schema from the given index on matches |
| PacketMatching.MatchesOpt | packages/core/src/utils/packet-matching.ts:17-19 | a missing schema never matches; a present one is matched as usual |
| PacketMatching.FullMaskIsNoMask | packages/core/src/utils/packet-matching.ts:43-51 | a scalar mask of 0xFF behaves exactly as no mask |
| PacketMatching.InvertedOutOfRange | packages/core/src/utils/packet-matching.ts:28-75 | an inverted schema whose bytes fall outside the packet matches exactly when the guard and the `except` list allow it |
| PacketMatching.GuardAfterStructure | packages/core/src/utils/packet-matching.ts:75-78 | a schema failing the byte and inversion stages never matches, whatever the guard says |
| PacketMatching.PreparedGuardShared | packages/core/src/utils/packet-matching.ts:78-90 | with a prepared guard the outcome does not depend on how guard expressions would evaluate, in the schema or in its `except` schemas |
| PacketMatching.PreparedExceptsShared | packages/core/src/utils/packet-matching.ts:92-98 | the same independence for the `except` list from any index on |
| PacketMatching.NullMaskSkipsBytes | packages/core/src/utils/packet-matching.ts:35-69 | a `null` mask takes none of the comparison loops: only the range check, the guard and the `except` list decide |
| LambdaExecutor.BcdToInt | packages/core/src/protocol/lambda-executor.ts:13 | the high nibble is the tens digit and the low nibble the units |
| LambdaExecutor.IntToBcd | packages/core/src/protocol/lambda-executor.ts:16 | the tens digit (mod 10) goes to the high nibble and the units digit to the low nibble |
| LambdaExecutor.LastTwoDigits | packages/core/src/protocol/lambda-executor.ts:16 | the tens and units digits of a number are those of its last two digits |
| LambdaExecutor.IntToBcdMod100 | packages/core/src/protocol/lambda-executor.ts:16 | only the last two decimal digits reach the byte |
| LambdaExecutor.BcdRoundTrip | packages/core/src/protocol/lambda-executor.ts:13-16 | a number up to 99 survives encoding to BCD and decoding back |
| LambdaExecutor.IntToBcdRoundTrip | packages/core/src/protocol/lambda-executor.ts:13-16 | a byte whose nibbles are both decimal digits survives decoding and encoding back |
| LambdaExecutor.GetOrCompile | packages/core/src/protocol/lambda-executor.ts:126-133 | a cached script is returned with the cache unchanged; otherwise the code is compiled, and cached under the key only when compiling succeeds |
| LambdaExecutor.FirstCompileReused | packages/core/src/protocol/lambda-executor.ts:126-133 | after a successful compile, every later lookup with the same key returns that script, whatever code comes with it |
| LambdaExecutor.Execute | packages/core/src/protocol/lambda-executor.ts:57-124 | a failure to compile or run the setup or the user script gives `null`; otherwise the user script's value; the setup script is cached unless `null` results; no cached entry is changed |
| LambdaExecutor.ExecuteReturnsResult | packages/core/src/protocol/lambda-executor.ts:105-113 | when everything compiles and runs, the result is what the user script returned |
| LambdaExecutor.SetupKeyShared | packages/core/src/protocol/lambda-executor.ts:72-110 | a user script whose text is `__setup__` is served the cached setup script |

## Left out

- JavaScript numbers are unbounded integers throughout. Fractions, `NaN`, `Infinity`, negative zero and the loss of precision above 2^53 are not modelled. The one exception is the serial stop-bits value 1.5, which is an enumeration constant.
- JsonValue: JavaScript enumerates integer-like object keys (`"0"`, `"17"`) first, in ascending order, and only then the other keys in insertion order. The model keeps plain insertion order, so key order can differ for objects with integer-like keys. This affects the hex-marked copy made by `markHex`, the nodes rebuilt by gallery template processing, the activity-log details and serialised state payloads.
- StateManager.HandleStateUpdate: the payload is a concrete serialiser for the model's values (integers only, keys in insertion order), not an abstract stand-in for `JSON.stringify`. Deduplication is therefore stated for this serialiser only.
- `JSON.stringify`, js-yaml parse and dump, and the tag-stripping of the dump output are not modelled. `YamlDumper` covers only the marking of hex numbers and the `0xNN` literal format.
- PacketParser: the scan is modelled in its corrected form, which drops the failing byte and waits. The form as written, which recurses forever on an empty buffer, is kept beside it (see Findings).
- PacketMatching.Matches: `null` entries inside the `data` array are not modelled. Data and mask values are bytes, so mask numbers above 255 and non-number masks other than `null` are not modelled. The guard's context is part of the guard parameter rather than a separate argument.
- PacketMatching.Matches: a schema's `offset` is a `nat`, so a negative offset cannot be written. In the source `(match.offset ?? 0) + baseOffset` may be negative, and `packet[-1]` reads `undefined`: it fails an unmasked comparison and ANDs as 0 under a mask, so `offset: -1, data: [0], mask: 0x0F` matches every packet.
- Devices.SchemaMatches: the device schemas share that `nat` offset. With a negative offset the source's light comparison always fails and a masked fan or valve comparison reads 0.
- DiscoveryService.MatchesPacket: a discovery condition's offset is a `nat` as well. A negative offset in the source reads `undefined`, which ANDs as 0 with the mask byte.
- DiscoveryService.ExtractDimensionValue: a negative dimension offset is not modelled either. The source passes its length check and then reads `undefined`.
- Devices: `getId` and `getName` are plain reads of the configuration's `id` and `name` fields and have no separate member. `GenericDevice`, `ClimateDevice` and the packet processor are not part of this model; what they return is a parameter.
- DebugPackets.BytesOf: only arrays of numbers in 0..255 are read as bytes. A base state whose `data` holds anything else gives no packets here, and such a variant gives no packet. The source copies those values into the generated table as they are.
- DebugPackets.ApplyMod: an offset that is not a number counts as 0 here. In the source a non-empty string offset such as `"2"` is joined to the loop index as text, so the data is written at indices 20, 21, … while those are below the length, and nowhere when the joined text is not an index; an offset of `true` counts as 1.
- DebugPackets.GeneratePacketsForDevice: a `null` device configuration throws in the source, when its `name` is read. Here it reads as a device without a base state and gives no packets.
- DebugPackets.TemperaturePacket: a `null` offset gives no packet here, while the source pushes a copy of the base state (its write goes to a property named `null`). A numeric-string offset such as `"2"` also gives no packet here, while the source writes 25 at that index.
- DebugPackets.FramingOf: a truthy `rx_checksum` that is not a string is read here through its text, so `["add"]` counts as `add`. The generator's strict `switch` matches no case for it and writes 0 as the checksum. A truthy `rx_header` or `rx_footer` that is not an array of bytes is read here as no bytes, while the source spreads it into every packet as it is.
- Simulator.ToBuffer: an element that is a fraction or `NaN` is not modelled. Integers are stored by their low 8 bits, as `Buffer.from` does.
- GalleryTemplate.Evaluator: a value is a JSON value, so an expression that evaluates to `undefined` (a missing property, say) cannot be represented. The source would interpolate the text `undefined` or leave the key absent.
- GalleryTemplate.Cast: an `integer[]` element that does not parse is `NaN` in the source. It is kept unchanged here, since the model has no `NaN` value; so `{{ids[0] | hex}}` gives `NaN` in the source and the original text here.
- GalleryTemplate.LoopItems: an `over` that is set but is not a string throws out of the whole template in the source. Here it gives `None`, which is an empty expansion.
- GalleryTemplate.ApplyFilter: filter names the filter table inherits from `Object.prototype` (`constructor`, `valueOf`, …) are treated as unknown names that do nothing. In the source `valueOf` throws and `constructor` wraps the value.
- GalleryTemplate.ParamName: a `null` parameter declaration throws in the source. Here it binds the name `undefined`.
- GalleryTemplate.ProcessGalleryTemplate: a `null` template throws in the source, when its `parameters` are read (packages/service/src/utils/gallery-template.ts, line 20). Here it goes through processing like any other value and comes back as `null`.
- GalleryTemplate.TextToNumber: `Number` of text with a fraction, an exponent, a `0b`/`0o` prefix, or `Infinity` is a number in the source (so `hex` of `"1.5"` is `0x1.8`). Here it is `None`, read as `NaN`, and the value passes through unchanged.
- GalleryTemplate.ToNumber: the same restriction, for values.
- GalleryTemplate.RepeatCount: a fractional count loops `ceil(count)` times in the source, and an infinite count loops forever. Counts are integers here.
- DiscoveryService.HexToBytes: a two-character slice that `parseInt` reads as `NaN` or as a negative number makes the whole text unreadable here. The source keeps the slice as a `NaN` or negative entry.
- DiscoveryService.MatchedPackets: consequently a packet with such a slice is skipped here. The source may still match it, since `&` reads `NaN` as 0 and a negative number by its low bits, and may then count it in `matchedPacketCount`.
- DiscoveryService.ParseTransform: a mask of 2^53 or more is read exactly here. In the source `parseInt` rounds it to a floating-point number, or to `Infinity` for a very long run of digits, so its low bits, which `&` uses, can differ (`Infinity` acts as 0).
- DiscoveryService.HexToBytes: `toUpperCase` of non-ASCII text is not modelled; only ASCII letters change case.
- Bridge.CommandValueOf: `parseFloat` of a temperature or speed payload is kept as the payload text. The floating-point value it produces is not modelled.
- Sandboxed execution is not modelled. This covers the isolated-vm engine behind the lambda executor, the CEL guard engine and `new Function` in gallery templates. Each is a function-typed parameter, and the lambda executor's context injection (host-function wrappers and copied values) is part of the runner parameter.
- I/O is not modelled: serial ports, TCP sockets, pseudo terminals, the MQTT client, the file system, HTTP routes and the `collectSerialPackets` capture of the setup wizard. Writes and publications are recorded as lists, and reads and configuration files are parameters.
- Time is not modelled: `Date.now`, `setTimeout` and `setInterval`. The current time is a `now` argument, and timer expiries are events.
- Logging, the rate limiter and the event-bus singleton are left out; events are recorded as lists.
- `normalizeConfig`, `normalizeDeviceState` and the setup wizard's `buildEmptyConfig` file writes are not part of this model. The configuration they produce is a parameter.

## Findings

| source | as written | input that shows it | evidently intended | confidence | as-written member | corrected member |
|---|---|---|---|---|---|---|
| packages/core/src/protocol/packet-parser.ts:80-87 | on a checksum failure the parser drops the first byte and rescans; when no header, footer or fixed length is configured, the rescan of the now empty buffer fails again with nothing left to drop, so `isPacketComplete` calls itself on the same state without end | configuration with the `add` checksum and no header, footer or length; received byte `0x01` | drop the byte and wait for more input, reporting no packet | not executed | PacketParser.AsWrittenDiverges | PacketParser.CorrectedWaits |

=== FILE: activity_log.dfy ===
/** The service's activity log: newest-first entries, trimmed to the last
    24 hours whenever an entry is added and on an hourly sweep. Clock reads
    are parameters. */
module ActivityLog {
  import opened Wrappers
  import opened Strings
  import opened JsonValue

  /** Retention in milliseconds: 24 hours. */
  const LogTtl: int := 24 * 60 * 60 * 1000

  datatype Entry = Entry(timestamp: int, message: string, details: Json)

  /** An entry survives a sweep at `now` when it is at most `LogTtl` old. */
  predicate Kept(e: Entry, now: int) {
    e.timestamp >= now - LogTtl
  }

  /** `cleanupOldLogs` at time `now`. */
  function Cleanup(logs: seq<Entry>, now: int): (r: seq<Entry>)
    ensures |r| <= |logs|
    ensures forall k :: 0 <= k < |r| ==> Kept(r[k], now)
  {
    if |logs| == 0 then []
    else (if Kept(logs[0], now) then [logs[0]] else []) + Cleanup(logs[1..], now)
  }

  /** Exactly the entries young enough are kept. */
  lemma {:induction false} CleanupKeepsExactly(logs: seq<Entry>, now: int, e: Entry)
    ensures e in Cleanup(logs, now) <==> e in logs && Kept(e, now)
  {
    if |logs| > 0 {
      CleanupKeepsExactly(logs[1..], now, e);
      assert logs == [logs[0]] + logs[1..];
    }
  }

  /** Sweeping splits over concatenation, so survivors keep their order. */
  lemma {:induction false} CleanupKeepsOrder(a: seq<Entry>, b: seq<Entry>, now: int)
    ensures Cleanup(a + b, now) == Cleanup(a, now) + Cleanup(b, now)
  {
    if |a| == 0 {
      assert a + b == b;
    } else {
      assert (a + b)[1..] == a[1..] + b;
      CleanupKeepsOrder(a[1..], b, now);
    }
  }

  /** A log whose entries are all young enough is left as it is. */
  lemma {:induction false} CleanupOfFresh(logs: seq<Entry>, now: int)
    requires forall k :: 0 <= k < |logs| ==> Kept(logs[k], now)
    ensures Cleanup(logs, now) == logs
  {
    if |logs| > 0 {
      CleanupOfFresh(logs[1..], now);
    }
  }

  /** Sweeping twice at the same time is sweeping once; sweeping at an
      earlier time first changes nothing either. */
  lemma CleanupIdempotent(logs: seq<Entry>, earlier: int, now: int)
    requires earlier <= now
    ensures Cleanup(Cleanup(logs, now), now) == Cleanup(logs, now)
    ensures Cleanup(Cleanup(logs, earlier), now) == Cleanup(logs, now)
  {
    CleanupOfFresh(Cleanup(logs, now), now);
    CleanupLater(logs, earlier, now);
  }

  lemma {:induction false} CleanupLater(logs: seq<Entry>, earlier: int, now: int)
    requires earlier <= now
    ensures Cleanup(Cleanup(logs, earlier), now) == Cleanup(logs, now)
  {
    if |logs| > 0 {
      CleanupLater(logs[1..], earlier, now);
      var head := if Kept(logs[0], earlier) then [logs[0]] else [];
      CleanupKeepsOrder(head, Cleanup(logs[1..], earlier), now);
    }
  }

  /** `addLog`: the entry is stamped at `stampedAt`, put first, and the log
      swept at `sweptAt` (a second clock read). */
  function AddLog(logs: seq<Entry>, stampedAt: int, sweptAt: int, message: string, details: Json): (r: seq<Entry>)
    ensures forall k :: 0 <= k < |r| ==> Kept(r[k], sweptAt)
    ensures sweptAt - stampedAt <= LogTtl ==>
      |r| >= 1 && r[0] == Entry(stampedAt, message, details) && r[1..] == Cleanup(logs, sweptAt)
    ensures sweptAt - stampedAt > LogTtl ==> r == Cleanup(logs, sweptAt)
  {
    Cleanup([Entry(stampedAt, message, details)] + logs, sweptAt)
  }

  /** With one clock reading the new entry is always kept, at the front,
      and older entries keep their order behind it. */
  lemma NewEntryFirst(logs: seq<Entry>, now: int, message: string, details: Json)
    ensures AddLog(logs, now, now, message, details)[0] == Entry(now, message, details)
    ensures AddLog(logs, now, now, message, details)[1..] == Cleanup(logs, now)
  {
  }

  /** The events the log listens to. */
  datatype Event =
    | StateChanged(entityId: string, attribute: Option<Json>, oldState: Option<Json>, newState: Option<Json>)
    | MqttMessage(topic: string, message: Json)
    | CoreStarted
    | CoreStopped

  /** The object `{ attribute, from, to }`, without the undefined ones. */
  function ChangeDetails(attribute: Option<Json>, from: Option<Json>, to: Option<Json>): (r: Json)
    ensures r.JObj?
    ensures Get(r.entries, "attribute") == attribute && Get(r.entries, "from") == from && Get(r.entries, "to") == to
  {
    JObj(SetDefined(SetDefined(SetDefined([], "attribute", attribute), "from", from), "to", to))
  }

  /** `o[key] = v` for a defined `v`; nothing otherwise. */
  function SetDefined(entries: Entries, key: string, v: Option<Json>): (r: Entries)
    ensures Get(r, key) == if v.Some? then v else Get(entries, key)
    ensures forall k :: k != key ==> Get(r, k) == Get(entries, k)
  {
    if v.Some? then Set(entries, key, v.value) else entries
  }

  /** The message and details an event is logged with; `None` for an MQTT
      message whose topic does not end in `/set`. */
  function LogFor(event: Event): (r: Option<(string, Json)>)
    ensures event.MqttMessage? ==> (r.Some? <==> EndsWith(event.topic, "/set"))
    ensures event.StateChanged? ==> r.Some? && StartsWith(r.value.0, "상태 변경: ") && EndsWith(r.value.0, event.entityId)
    ensures event.MqttMessage? && r.Some? ==> EndsWith(r.value.0, event.topic) && r.value.1 == event.message
  {
    match event
    case StateChanged(id, attribute, from, to) =>
      var m := "상태 변경: " + id;
      assert m[..|"상태 변경: "|] == "상태 변경: ";
      Some((m, ChangeDetails(attribute, from, to)))
    case MqttMessage(topic, message) =>
      if EndsWith(topic, "/set") then Some(("명령 수신: " + topic, message)) else None
    case CoreStarted => Some(("코어 서비스가 시작되었습니다.", JObj([])))
    case CoreStopped => Some(("코어 서비스가 중지되었습니다.", JObj([])))
  }

  /** Logging an event at time `now`: the log with the event's entry first,
      or the log unchanged when the event is not logged. */
  function OnEvent(logs: seq<Entry>, event: Event, now: int): (r: seq<Entry>)
    ensures LogFor(event).Some? ==> |r| >= 1 && r[0] == Entry(now, LogFor(event).value.0, LogFor(event).value.1)
    ensures LogFor(event).None? ==> r == logs
  {
    match LogFor(event)
    case None => logs
    case Some((message, details)) => AddLog(logs, now, now, message, details)
  }
}

=== FILE: bridge.dfy ===
/** The bridge process: it checks the loaded configuration, waits for the
    serial device (or splits a `host:port` path for TCP), subscribes to one
    command topic per entity, and turns each MQTT command message into a
    packet written to the port. Files, the environment, the clock, the port
    and the MQTT client are parameters or recorded state; the packet
    processor that builds command packets is an oracle. */
module Bridge {
  import opened Wrappers
  import opened Bytes
  import opened Strings
  import opened JsonValue
  import Constants

  const SerialWaitIntervalMs := 500
  const DefaultSerialWaitTimeoutMs := 15000
  const DefaultSerialPath := "/simshare/rs485-sim-tty"

  const MissingBridgeKey := "Invalid configuration file structure. Missing \"homenet_bridge\" top-level key."
  const NoEntities := "Configuration file must contain at least one entity (e.g., light, climate)."
  /** What reading `id` of a `null` list entry throws. */
  const NullEntity := "TypeError: Cannot read properties of null (reading 'id')"
  /** What calling `forEach` on a list that is not an array throws. */
  const NotIterable := "TypeError: entities.forEach is not a function"

  /** What the serial wait throws when the device has not appeared in time. */
  function SerialPathNotFound(path: string, timeout: int): string {
    "시리얼 포트 경로(" + path + ")를 " + IntToDecimal(timeout) + "ms 내에 찾지 못했습니다."
  }

  /** The entity types, in the order the bridge walks them. */
  const EntityTypes: seq<string> :=
    ["light", "climate", "valve", "button", "sensor", "fan", "switch", "binary_sensor"]

  // ---------------------------------------------------------------------------
  // Serial path and wait timeout

  /** `isTcpConnection`: a path with a colon is a TCP `host:port`. */
  predicate IsTcpConnection(path: string) {
    ':' in path
  }

  /** `SERIAL_PORT || '/simshare/rs485-sim-tty'`. */
  function SerialPath(env: Option<string>): (r: string)
    ensures |r| > 0
    ensures env.Some? && |env.value| > 0 ==> r == env.value
  {
    Constants.OrEnv(env, DefaultSerialPath)
  }

  /** `const [host, port] = path.split(':')`: the text before the first
      colon and the text up to the second, `None` when there is no colon. */
  function TcpTarget(path: string): (r: (string, Option<string>))
    ensures ':' !in r.0
    ensures r.1.Some? ==> ':' !in r.1.value
    ensures r.1.Some? <==> IsTcpConnection(path)
  {
    var parts := Split(path, ':');
    SplitJoin(path, ':');
    (parts[0], if |parts| > 1 then Some(parts[1]) else None)
  }

  /** A `host:port` path splits back into its host and port. */
  lemma TcpTargetOfHostPort(host: string, port: string)
    requires ':' !in host && ':' !in port
    ensures IsTcpConnection(host + ":" + port)
    ensures TcpTarget(host + ":" + port) == (host, Some(port))
  {
    assert (host + ":" + port)[|host|] == ':';
    SplitAtFirst(host, port, ':');
    SplitWithout(port, ':');
  }

  /** `resolveSerialWaitTimeout`: `SERIAL_PATH_WAIT_TIMEOUT_MS ?? ''` read
      by `parseInt`, falling back to 15000 when that is `NaN` or not
      positive. */
  function ResolveSerialWaitTimeout(raw: Option<string>): (r: int)
    ensures r > 0
    ensures r != DefaultSerialWaitTimeoutMs ==> raw.Some? && ParseInt(raw.value) == Some(r)
  {
    var parsed := ParseInt(if raw.Some? then raw.value else "");
    if parsed.None? || parsed.value <= 0 then DefaultSerialWaitTimeoutMs else parsed.value
  }

  /** A positive number written in decimal is taken as it is; an unset,
      empty or non-positive setting gives the default. */
  lemma SerialWaitTimeoutRoundTrip(n: int)
    ensures n > 0 ==> ResolveSerialWaitTimeout(Some(IntToDecimal(n))) == n
    ensures n <= 0 ==> ResolveSerialWaitTimeout(Some(IntToDecimal(n))) == DefaultSerialWaitTimeoutMs
    ensures ResolveSerialWaitTimeout(None) == DefaultSerialWaitTimeoutMs
    ensures ResolveSerialWaitTimeout(Some("")) == DefaultSerialWaitTimeoutMs
  {
    ParseIntRoundTrip(n);
    assert ParseInt("").None? by {
      assert LeadingSpaces("") == 0;
    }
  }

  // ---------------------------------------------------------------------------
  // Waiting for the serial device

  /** One `access(path)` attempt: the device is there, or the call failed
      with an error code (`None` when the error has none) at `elapsedMs`
      after the wait began. */
  datatype Probe = Accessible | AccessError(code: Option<string>, elapsedMs: int)

  datatype WaitOutcome = Ready | Rethrown(code: string) | TimedOut | StillWaiting

  /** A truthy code other than `ENOENT` and `ENODEV` is rethrown. */
  predicate Rethrows(code: Option<string>) {
    code.Some? && |code.value| > 0 && code.value != "ENOENT" && code.value != "ENODEV"
  }

  /** After this attempt the loop sleeps and tries again. */
  predicate KeepsWaiting(p: Probe, timeout: int) {
    p.AccessError? && !Rethrows(p.code) && p.elapsedMs < timeout
  }

  predicate AllKeepWaiting(probes: seq<Probe>, timeout: int) {
    forall i :: 0 <= i < |probes| ==> KeepsWaiting(probes[i], timeout)
  }

  /** How an attempt that ends the loop ends it. */
  function Ending(p: Probe): WaitOutcome {
    match p
    case Accessible => Ready
    case AccessError(code, _) => if Rethrows(code) then Rethrown(code.value) else TimedOut
  }

  /** `waitForSerialDevice` over the attempts it makes, with the timeout
      `resolveSerialWaitTimeout` chose; `StillWaiting` when every attempt
      given keeps the loop going. */
  function WaitForSerialDevice(probes: seq<Probe>, timeout: int): (r: WaitOutcome)
    ensures r == StillWaiting <==> AllKeepWaiting(probes, timeout)
    ensures forall i :: (0 <= i < |probes| && AllKeepWaiting(probes[..i], timeout)
      && !KeepsWaiting(probes[i], timeout)) ==> r == Ending(probes[i])
  {
    if |probes| == 0 then StillWaiting
    else if !KeepsWaiting(probes[0], timeout) then
      assert AllKeepWaiting(probes[..0], timeout);
      Ending(probes[0])
    else
      var r := WaitForSerialDevice(probes[1..], timeout);
      assert forall i :: 1 <= i <= |probes| ==> probes[..i] == [probes[0]] + probes[1..][..i - 1];
      assert forall i :: 1 <= i < |probes| ==> probes[i] == probes[1..][i - 1];
      assert forall i :: 1 <= i < |probes| && AllKeepWaiting(probes[..i], timeout) ==> AllKeepWaiting(probes[1..][..i - 1], timeout);
      r
  }

  /** A device that is missing (`ENOENT`) until it appears within the timeout
      is waited for and then used. */
  lemma AppearingDeviceIsUsed(missing: nat, timeout: int)
    requires missing < timeout
    ensures WaitForSerialDevice(seq(missing, i => AccessError(Some("ENOENT"), i)) + [Accessible], timeout) == Ready
  {
    var probes := seq(missing, i => AccessError(Some("ENOENT"), i)) + [Accessible];
    assert probes[..missing] == seq(missing, i => AccessError(Some("ENOENT"), i));
    assert AllKeepWaiting(probes[..missing], timeout);
  }

  // ---------------------------------------------------------------------------
  // Configuration check

  /** The entity list stored under a type is a truthy array. */
  predicate HasEntityList(bridge: Json, t: string) {
    var v := Member(bridge, t);
    TruthyOpt(v) && v.value.JArr?
  }

  /** The check `initialize` makes on the loaded YAML document (`None` for an
      empty document): the `homenet_bridge` value, or the error thrown. */
  function CheckConfig(loaded: Option<Json>): (r: Result<Json, string>)
    ensures r.Success? <==> (TruthyOpt(loaded) && TruthyOpt(Member(loaded.value, "homenet_bridge"))
      && exists i :: 0 <= i < |EntityTypes| && HasEntityList(Member(loaded.value, "homenet_bridge").value, EntityTypes[i]))
    ensures r.Success? ==> Some(r.value) == Member(loaded.value, "homenet_bridge")
    ensures r.Failure? ==> r.error == MissingBridgeKey || r.error == NoEntities
    ensures r == Failure(MissingBridgeKey) <==> !TruthyOpt(loaded) || !TruthyOpt(Member(loaded.value, "homenet_bridge"))
  {
    if !TruthyOpt(loaded) then Failure(MissingBridgeKey)
    else
      var bridge := Member(loaded.value, "homenet_bridge");
      if !TruthyOpt(bridge) then Failure(MissingBridgeKey)
      else if exists i :: 0 <= i < |EntityTypes| && HasEntityList(bridge.value, EntityTypes[i]) then
        Success(bridge.value)
      else Failure(NoEntities)
  }

  /** A document with only a serial section and no entity lists is refused. */
  lemma NoEntityListRefused(serial: Json)
    ensures CheckConfig(Some(JObj([("homenet_bridge", JObj([("serial", serial)]))]))) == Failure(NoEntities)
  {
    var bridge := JObj([("serial", serial)]);
    forall i | 0 <= i < |EntityTypes| ensures !HasEntityList(bridge, EntityTypes[i]) {
      assert IndexOf(bridge.entries, EntityTypes[i]).None? by {
        assert IndexOf(bridge.entries[1..], EntityTypes[i]) == None;
      }
    }
  }

  // ---------------------------------------------------------------------------
  // Entities

  /** `entityTypes.map(type => config[type]).filter(e => !!e).flat()`: the
      items of every truthy array in type order; a truthy non-array value
      stays as one item. */
  function FlatEntities(bridge: Json, types: seq<string>): (r: seq<Json>)
    ensures forall t :: t in types && HasEntityList(bridge, t) ==> multiset(Member(bridge, t).value.items) <= multiset(r)
  {
    if |types| == 0 then []
    else
      var v := Member(bridge, types[0]);
      var head := if !TruthyOpt(v) then [] else if v.value.JArr? then v.value.items else [v.value];
      var rest := FlatEntities(bridge, types[1..]);
      assert forall t :: t in types[1..] ==> t in types;
      head + rest
  }

  /** `e.id === entityId` on an entry that is not `null`. */
  predicate HasId(e: Json, id: string) {
    Member(e, "id") == Some(JStr(id))
  }

  /** The entries before the chosen one were neither `null` nor the entity. */
  predicate PassedOver(items: seq<Json>, id: string) {
    forall j :: 0 <= j < |items| ==> !items[j].JNull? && !HasId(items[j], id)
  }

  /** `.find(e => e.id === entityId)`: the first entry with that id, `None`
      when there is none, and the `TypeError` of reading `id` of `null` when
      a `null` entry comes first. */
  function FindEntity(items: seq<Json>, id: string): (r: Result<Option<Json>, string>)
    ensures r == Success(None) <==> PassedOver(items, id)
    ensures r.Failure? ==> r.error == NullEntity
  {
    if |items| == 0 then Success(None)
    else if items[0].JNull? then Failure(NullEntity)
    else if HasId(items[0], id) then Success(Some(items[0]))
    else FindEntity(items[1..], id)
  }

  /** The entity found is the first entry with the id, and a failure comes
      from a `null` entry; every entry before either was passed over. */
  lemma {:induction false} FindEntityFirst(items: seq<Json>, id: string)
    ensures var r := FindEntity(items, id);
      r.Success? && r.value.Some? ==> exists i :: (0 <= i < |items| && items[i] == r.value.value
        && HasId(items[i], id) && PassedOver(items[..i], id))
    ensures FindEntity(items, id).Failure? ==> exists i :: (0 <= i < |items| && items[i].JNull?
      && PassedOver(items[..i], id))
  {
    if |items| > 0 {
      if items[0].JNull? || HasId(items[0], id) {
        assert PassedOver(items[..0], id);
      } else {
        FindEntityFirst(items[1..], id);
        assert forall i :: 1 <= i <= |items| ==> items[..i] == [items[0]] + items[1..][..i - 1];
      }
    }
  }

  /** An entity found among the earlier entries is found whatever follows. */
  lemma {:induction false} FindEntityInPrefix(a: seq<Json>, b: seq<Json>, id: string)
    requires FindEntity(a, id).Success? && FindEntity(a, id).value.Some?
    ensures FindEntity(a + b, id) == FindEntity(a, id)
  {
    assert (a + b)[0] == a[0];
    if !HasId(a[0], id) {
      assert (a + b)[1..] == a[1..] + b;
      FindEntityInPrefix(a[1..], b, id);
    }
  }

  /** The entity the handler addresses. */
  function TargetEntity(bridge: Json, id: string): (r: Result<Option<Json>, string>)
    ensures r.Failure? ==> r.error == NullEntity
  {
    FindEntity(FlatEntities(bridge, EntityTypes), id)
  }

  /** When a light and a switch share an id, the command goes to the light:
      the earlier type in the fixed order wins. */
  lemma {:induction false} EarlierTypeWins(lights: seq<Json>, switches: seq<Json>, id: string, e: Json)
    requires FindEntity(lights, id) == Success(Some(e))
    ensures TargetEntity(JObj([("light", JArr(lights)), ("switch", JArr(switches))]), id) == Success(Some(e))
  {
    var bridge := JObj([("light", JArr(lights)), ("switch", JArr(switches))]);
    var rest := FlatEntities(bridge, EntityTypes[1..]);
    assert Member(bridge, "light") == Some(JArr(lights));
    if |lights| == 0 {
      assert false;
    } else {
      assert FlatEntities(bridge, EntityTypes) == lights + rest;
      FindEntityInPrefix(lights, rest, id);
    }
  }

  // ---------------------------------------------------------------------------
  // Command topics

  /** The command topic filter subscribed for an entity. */
  function SubscriptionTopic(entity: Json): (r: string)
    ensures StartsWith(r, "homenet/") && EndsWith(r, "/set/#")
  {
    "homenet/" + TemplateString(Member(entity, "id")) + "/set/#"
  }

  /** The filters subscribed on connecting, one per entity in type order, or
      the `TypeError` a `null` entry or a non-array list throws. */
  function Subscriptions(bridge: Json, types: seq<string>): (r: Result<seq<string>, string>)
    ensures r.Success? ==> forall k :: 0 <= k < |r.value| ==> StartsWith(r.value[k], "homenet/")
    ensures r.Success? ==> |r.value| == |FlatEntities(bridge, types)|
    ensures r.Failure? ==> r.error == NullEntity || r.error == NotIterable
  {
    if |types| == 0 then Success([])
    else
      var v := Member(bridge, types[0]);
      var rest := Subscriptions(bridge, types[1..]);
      if !TruthyOpt(v) then rest
      else if !v.value.JArr? then Failure(NotIterable)
      else if exists k :: 0 <= k < |v.value.items| && v.value.items[k].JNull? then Failure(NullEntity)
      else if rest.Failure? then rest
      else Success(seq(|v.value.items|, k requires 0 <= k < |v.value.items| => SubscriptionTopic(v.value.items[k])) + rest.value)
  }

  /** `homenet/<id>/set/#` matches a topic (section 4.7.1.2 of the MQTT 3.1.1
      standard: `#` also matches the parent level). */
  predicate FilterMatches(id: string, topic: string) {
    var prefix := "homenet/" + id + "/set";
    topic == prefix || (|topic| > |prefix| && topic[..|prefix| + 1] == prefix + "/")
  }

  /** The parts of a command topic: the entity id and the command name, or
      `None` for a topic the handler does not handle. */
  function ParseCommandTopic(topic: string): (r: Option<(string, string)>)
    ensures r.Some? ==> '/' !in r.value.0 && StartsWith(r.value.1, "command_") && '/' !in r.value.1
    ensures r.Some? <==> |Split(topic, '/')| >= 4 && Split(topic, '/')[0] == "homenet" && Split(topic, '/')[2] == "set"
  {
    var parts := Split(topic, '/');
    if |parts| < 4 || parts[0] != "homenet" || parts[2] != "set" then None
    else
      assert '/' !in parts[1] && '/' !in parts[3];
      assert '/' !in "command_";
      Some((parts[1], "command_" + parts[3]))
  }

  /** A topic built from an entity id and a command, with or without further
      levels after it, is read back into the id and `command_<command>`. */
  lemma CommandTopicRoundTrip(id: string, command: string, tail: string)
    requires '/' !in id && '/' !in command
    ensures ParseCommandTopic("homenet/" + id + "/set/" + command) == Some((id, "command_" + command))
    ensures ParseCommandTopic("homenet/" + id + "/set/" + command + "/" + tail) == Some((id, "command_" + command))
  {
    TopicParts(id, command, tail);
  }

  lemma TopicParts(id: string, command: string, tail: string)
    requires '/' !in id && '/' !in command
    ensures Split("homenet/" + id + "/set/" + command, '/') == ["homenet", id, "set", command]
    ensures Split("homenet/" + id + "/set/" + command + "/" + tail, '/') == ["homenet", id, "set", command] + Split(tail, '/')
  {
    SplitWithout(command, '/');
    SplitAtFirst(command, tail, '/');
    var c1 := command + ['/'] + tail;
    Levels(id, command);
    Levels(id, c1);
    Regroup("homenet/" + id + "/set/", command, tail);
  }

  lemma Regroup(x: string, y: string, z: string)
    ensures x + y + "/" + z == x + (y + ['/'] + z)
  {
    assert "/" == ['/'];
  }

  /** The first three levels of `homenet/<id>/set/<rest>`. */
  lemma Levels(id: string, rest: string)
    requires '/' !in id
    ensures Split("homenet" + ['/'] + (id + ['/'] + ("set" + ['/'] + rest)), '/') == ["homenet", id, "set"] + Split(rest, '/')
    ensures "homenet/" + id + "/set/" + rest == "homenet" + ['/'] + (id + ['/'] + ("set" + ['/'] + rest))
  {
    var s3 := "set" + ['/'] + rest;
    var s2 := id + ['/'] + s3;
    assert '/' !in "set" && '/' !in "homenet";
    SplitAtFirst("set", rest, '/');
    SplitAtFirst(id, s3, '/');
    SplitAtFirst("homenet", s2, '/');
  }

  /** `topic` is the command topic of entity `id` for `command`, with no
      further levels or with `tail` after it, and `name` is the command
      name the handler derives. */
  predicate CommandTopicOf(topic: string, id: string, name: string, command: string, tail: string) {
    '/' !in command && name == "command_" + command
    && (topic == "homenet/" + id + "/set/" + command || topic == "homenet/" + id + "/set/" + command + "/" + tail)
  }

  /** Every handled topic is one of those: the handler reads the first four
      levels and ignores the rest. */
  lemma HandledTopicShape(topic: string)
    requires ParseCommandTopic(topic).Some?
    ensures exists command, tail :: CommandTopicOf(topic, ParseCommandTopic(topic).value.0, ParseCommandTopic(topic).value.1, command, tail)
  {
    var parts := Split(topic, '/');
    var id := parts[1];
    var command := parts[3];
    SplitJoin(topic, '/');
    var tail := if |parts| > 4 then Join(parts[4..], '/') else "";
    assert topic == Join(parts, '/');
    assert parts == ["homenet", id, "set", command] + parts[4..];
    JoinFour(parts);
    LevelsText(id, command);
    assert ParseCommandTopic(topic).value == (id, "command_" + command);
    assert CommandTopicOf(topic, id, "command_" + command, command, tail);
  }

  lemma LevelsText(id: string, command: string)
    ensures "homenet" + "/" + id + "/" + "set" + "/" + command == "homenet/" + id + "/set/" + command
  {
    var x := "homenet/" + id;
    assert "homenet" + "/" == "homenet/";
    SlashSet(x, command);
  }

  lemma SlashSet(x: string, c: string)
    ensures x + "/" + "set" + "/" + c == x + "/set/" + c
  {
    assert "/" + "set" + "/" == "/set/";
  }

  lemma JoinFour(parts: seq<string>)
    requires |parts| >= 4
    ensures |parts| == 4 ==> Join(parts, '/') == parts[0] + "/" + parts[1] + "/" + parts[2] + "/" + parts[3]
    ensures |parts| > 4 ==> Join(parts, '/') == parts[0] + "/" + parts[1] + "/" + parts[2] + "/" + parts[3] + "/" + Join(parts[4..], '/')
  {
    var j3 := Join(parts[3..], '/');
    var j2 := Join(parts[2..], '/');
    var j1 := Join(parts[1..], '/');
    assert parts[2..][1..] == parts[3..] && parts[1..][1..] == parts[2..];
    assert j2 == parts[2] + "/" + j3;
    assert j1 == parts[1] + "/" + j2;
    assert Join(parts, '/') == parts[0] + "/" + j1;
    SlashAssoc(parts[0], parts[1], j2);
    SlashAssoc(parts[0] + "/" + parts[1], parts[2], j3);
    if |parts| > 4 {
      assert parts[3..][1..] == parts[4..];
      assert j3 == parts[3] + "/" + Join(parts[4..], '/');
      SlashAssoc(parts[0] + "/" + parts[1] + "/" + parts[2], parts[3], Join(parts[4..], '/'));
    } else {
      assert j3 == parts[3];
    }
  }

  lemma SlashAssoc(a: string, b: string, c: string)
    ensures a + "/" + (b + "/" + c) == a + "/" + b + "/" + c
  {
  }

  /** The discovery payload announces `homenet/<id>/set` as the command
      topic; that topic matches the subscription, but it has three levels and
      the handler leaves it unhandled. */
  lemma DiscoveryCommandTopicUnhandled(id: string)
    requires '/' !in id
    ensures FilterMatches(id, "homenet/" + id + "/set")
    ensures ParseCommandTopic("homenet/" + id + "/set").None?
  {
    var s2 := id + ['/'] + "set";
    assert '/' !in "set" && '/' !in "homenet";
    SplitWithout("set", '/');
    SplitAtFirst(id, "set", '/');
    SplitAtFirst("homenet", s2, '/');
    assert "homenet/" + id + "/set" == "homenet" + ['/'] + s2;
  }

  /** An id written as a number is subscribed as its decimal text, but the
      handler compares ids strictly with the topic text, so it never finds
      the entity. */
  lemma NumericIdNeverMatches(n: int, id: string)
    ensures SubscriptionTopic(JObj([("id", JNum(n))])) == "homenet/" + IntToDecimal(n) + "/set/#"
    ensures !HasId(JObj([("id", JNum(n))]), id)
  {
  }

  // ---------------------------------------------------------------------------
  // Command messages

  /** The value passed to the packet processor: the payload text, or, for a
      temperature or speed command whose payload `parseFloat` reads as a
      number, that number (held here by its text; the floating-point value
      is not modelled). */
  datatype CommandValue = Text(text: string) | Number(text: string)

  /** `!isNaN(parseFloat(s))`: after leading whitespace and an optional sign
      comes `Infinity`, a digit, or a point followed by a digit. */
  predicate ParsesAsFloat(s: string) {
    var t := s[LeadingSpaces(s)..];
    var u := if |t| > 0 && (t[0] == '-' || t[0] == '+') then t[1..] else t;
    StartsWith(u, "Infinity") || (|u| > 0 && IsDigit(u[0])) || (|u| > 1 && u[0] == '.' && IsDigit(u[1]))
  }

  function CommandValueOf(commandName: string, payload: string): (r: CommandValue)
    ensures r.text == payload
    ensures r.Number? <==> (commandName == "command_temperature" || commandName == "command_speed") && ParsesAsFloat(payload)
  {
    if (commandName == "command_temperature" || commandName == "command_speed") && ParsesAsFloat(payload) then
      Number(payload)
    else Text(payload)
  }

  /** `packetProcessor.constructCommandPacket(entity, commandName, value)`. */
  type CommandBuilder = (Json, string, CommandValue) -> Option<seq<Byte>>

  /** How the memoised start settled: still waiting for the serial
      device, started, or rejected with what `initialize` threw. */
  datatype StartOutcome = Pending | Started | StartFailed(error: string)

  /** The bridge: the start outcome (`None` before `start` and after
      `stop`), the configuration (with the packet processor built from it),
      whether a port is attached, and the packets written to it. */
  datatype HomeNetBridge = HomeNetBridge(start: Option<StartOutcome>, config: Option<Json>, portOpen: bool, written: seq<seq<Byte>>)

  const Constructed := HomeNetBridge(None, None, false, [])

  predicate Initialized(b: HomeNetBridge) {
    b.config.Some? && b.portOpen
  }

  /** The packet a message leads to, `None` when nothing is written. */
  function CommandPacket(config: Json, topic: string, payload: string, build: CommandBuilder): Result<Option<seq<Byte>>, string> {
    match ParseCommandTopic(topic)
    case None => Success(None)
    case Some((id, name)) =>
      match TargetEntity(config, id)
      case Failure(e) => Failure(e)
      case Success(None) => Success(None)
      case Success(Some(e)) => Success(build(e, name, CommandValueOf(name, payload)))
  }

  /** `handleMqttMessage`: the bridge after one message, or what it throws. */
  function HandleMqttMessage(b: HomeNetBridge, topic: string, payload: string, build: CommandBuilder): (r: Result<HomeNetBridge, string>)
    ensures r.Success? ==> r.value.(written := b.written) == b
    ensures !Initialized(b) || ParseCommandTopic(topic).None? ==> r == Success(b)
    ensures r.Failure? ==> r.error == NullEntity
    ensures Initialized(b) && ParseCommandTopic(topic).Some? ==>
      var (id, name) := ParseCommandTopic(topic).value;
      var target := TargetEntity(b.config.value, id);
      var packet := if target.Success? && target.value.Some?
        then build(target.value.value, name, CommandValueOf(name, payload)) else None;
      (target.Failure? <==> r.Failure?)
      && (packet.Some? ==> r == Success(b.(written := b.written + [packet.value])))
      && (target.Success? && packet.None? ==> r == Success(b))
  {
    if !Initialized(b) then Success(b)
    else
      match CommandPacket(b.config.value, topic, payload, build)
      case Failure(e) => Failure(e)
      case Success(None) => Success(b)
      case Success(Some(packet)) => Success(b.(written := b.written + [packet]))
  }

  /** A light command addressed through its own topic reaches the builder
      with the light's entry and `command_<command>`. */
  lemma LightCommandIsWritten(b: HomeNetBridge, e: Json, id: string, command: string, payload: string, build: CommandBuilder)
    requires Initialized(b) && '/' !in id && '/' !in command
    requires TargetEntity(b.config.value, id) == Success(Some(e))
    requires build(e, "command_" + command, CommandValueOf("command_" + command, payload)).Some?
    ensures HandleMqttMessage(b, "homenet/" + id + "/set/" + command, payload, build)
      == Success(b.(written := b.written + [build(e, "command_" + command, CommandValueOf("command_" + command, payload)).value]))
  {
    CommandTopicRoundTrip(id, command, "");
  }

  // ---------------------------------------------------------------------------
  // Start and stop

  /** What `initialize` finds outside the process: the parsed YAML
      document, `SERIAL_PORT`, the attempts to reach the device, the wait
      timeout, and what `port.open` reports (`None` when it opens, else the
      error it rejects with). */
  datatype Environment = Environment(loaded: Option<Json>, serialPort: Option<string>, probes: seq<Probe>, timeout: int, openError: Option<string>)

  /** What reading `baud_rate` of a missing `serial` section throws. */
  const UndefinedSerial := "TypeError: Cannot read properties of undefined (reading 'baud_rate')"
  /** What reading `baud_rate` of a `null` serial section throws. */
  const NullSerial := "TypeError: Cannot read properties of null (reading 'baud_rate')"

  /** `const { serial: serialConfig } = this.config` followed by
      `serialConfig.baud_rate`, which every path takes before choosing
      between TCP and the device: the error thrown, `None` when the read
      succeeds. */
  function SerialSectionError(config: Json): (r: Option<string>)
    ensures r.Some? <==> Member(config, "serial").None? || Member(config, "serial") == Some(JNull)
    ensures r.Some? ==> r.value == UndefinedSerial || r.value == NullSerial
  {
    match Member(config, "serial")
    case None => Some(UndefinedSerial)
    case Some(JNull) => Some(NullSerial)
    case Some(_) => None
  }

  /** `this.port` is set: the configuration passed, its serial section
      could be read, and the path is TCP or the device was found. On the
      device path the port is set before it is opened, so a failed open
      leaves it set. */
  predicate PortAttached(env: Environment) {
    CheckConfig(env.loaded).Success? && SerialSectionError(CheckConfig(env.loaded).value).None?
    && (IsTcpConnection(SerialPath(env.serialPort)) || WaitForSerialDevice(env.probes, env.timeout) == Ready)
  }

  /** What `initialize` settles with on its own. */
  function InitOutcome(env: Environment): (r: StartOutcome)
    ensures r.StartFailed? <==> (CheckConfig(env.loaded).Failure?
      || SerialSectionError(CheckConfig(env.loaded).value).Some?
      || (!IsTcpConnection(SerialPath(env.serialPort))
        && (WaitForSerialDevice(env.probes, env.timeout).Rethrown? || WaitForSerialDevice(env.probes, env.timeout).TimedOut?
          || (WaitForSerialDevice(env.probes, env.timeout) == Ready && env.openError.Some?))))
    ensures CheckConfig(env.loaded).Failure? ==> r == StartFailed(CheckConfig(env.loaded).error)
    ensures CheckConfig(env.loaded).Success? && SerialSectionError(CheckConfig(env.loaded).value).Some? ==>
      r == StartFailed(SerialSectionError(CheckConfig(env.loaded).value).value)
    ensures r == Pending <==> (CheckConfig(env.loaded).Success? && SerialSectionError(CheckConfig(env.loaded).value).None?
      && !IsTcpConnection(SerialPath(env.serialPort)) && WaitForSerialDevice(env.probes, env.timeout) == StillWaiting)
    ensures r == Started <==> PortAttached(env) && (IsTcpConnection(SerialPath(env.serialPort)) || env.openError.None?)
    ensures CheckConfig(env.loaded).Success? && SerialSectionError(CheckConfig(env.loaded).value).None?
      && !IsTcpConnection(SerialPath(env.serialPort)) && WaitForSerialDevice(env.probes, env.timeout) == TimedOut
      ==> r == StartFailed(SerialPathNotFound(SerialPath(env.serialPort), env.timeout))
  {
    match CheckConfig(env.loaded)
    case Failure(e) => StartFailed(e)
    case Success(config) =>
      match SerialSectionError(config)
      case Some(e) => StartFailed(e)
      case None =>
        var path := SerialPath(env.serialPort);
        if IsTcpConnection(path) then Started
        else
          match WaitForSerialDevice(env.probes, env.timeout)
          case Ready => if env.openError.Some? then StartFailed(env.openError.value) else Started
          case Rethrown(code) => StartFailed(code)
          case TimedOut => StartFailed(SerialPathNotFound(path, env.timeout))
          case StillWaiting => Pending
  }

  /** `initialize`: the configuration is stored as soon as it passes the
      check, before the serial section is read and before the serial wait,
      so it stays set when either then fails; the port is attached on a TCP
      path or once the device is found, before it is opened. The outcome
      is recorded as the start's. */
  function Initialize(b: HomeNetBridge, env: Environment): (r: HomeNetBridge)
    ensures r.start == Some(InitOutcome(env)) && r.written == b.written
    ensures CheckConfig(env.loaded).Failure? ==> r.config == b.config && r.portOpen == b.portOpen
    ensures CheckConfig(env.loaded).Success? ==> r.config == Some(CheckConfig(env.loaded).value)
    ensures r.portOpen <==> b.portOpen || PortAttached(env)
    ensures InitOutcome(env) == Started ==> Initialized(r)
  {
    var outcome := InitOutcome(env);
    match CheckConfig(env.loaded)
    case Failure(_) => b.(start := Some(outcome))
    case Success(config) =>
      b.(start := Some(outcome), config := Some(config), portOpen := b.portOpen || PortAttached(env))
  }

  /** `start`: the first call runs `initialize` and remembers its outcome;
      every later call, until `stop`, returns that outcome again without
      running anything, a rejection included. */
  function Start(b: HomeNetBridge, env: Environment): (r: (HomeNetBridge, StartOutcome))
    ensures b.start.Some? ==> r == (b, b.start.value)
    ensures b.start.None? ==> r == (Initialize(b, env), InitOutcome(env))
    ensures r.0.start == Some(r.1)
  {
    if b.start.Some? then (b, b.start.value)
    else
      var b1 := Initialize(b, env);
      (b1, b1.start.value)
  }

  /** `stop`: the port is dropped and the memoised start forgotten, so the
      next `start` initializes again; the configuration stays. */
  function Stop(b: HomeNetBridge): (r: HomeNetBridge)
    ensures r.start.None? && !r.portOpen && !Initialized(r)
    ensures r.config == b.config && r.written == b.written
  {
    b.(start := None, portOpen := false)
  }

  /** A second `start` returns what the first settled with, a failure
      included, whatever the environment then is. */
  lemma StartIsMemoised(b: HomeNetBridge, env: Environment, env2: Environment)
    ensures Start(Start(b, env).0, env2) == Start(b, env)
  {
  }

  /** A configuration that passes the check stays stored when the serial
      device then times out, while the port stays detached and the start
      stays rejected. */
  lemma ConfigKeptOnSerialTimeout(env: Environment)
    requires CheckConfig(env.loaded).Success? && !IsTcpConnection(SerialPath(env.serialPort))
    requires WaitForSerialDevice(env.probes, env.timeout) == TimedOut
    ensures var (b, outcome) := Start(Constructed, env);
      outcome.StartFailed? && b.config == Some(CheckConfig(env.loaded).value) && !Initialized(b)
      && Start(b, env) == (b, outcome)
    ensures SerialSectionError(CheckConfig(env.loaded).value).None? ==>
      Start(Constructed, env).1 == StartFailed(SerialPathNotFound(SerialPath(env.serialPort), env.timeout))
  {
  }

  /** A configuration without a readable `serial` section is stored, but
      the start is rejected with the `TypeError` of reading `baud_rate`,
      on a TCP path as well, and no port is attached. */
  lemma NoSerialSectionFails(env: Environment)
    requires CheckConfig(env.loaded).Success?
    requires Member(CheckConfig(env.loaded).value, "serial") in {None, Some(JNull)}
    ensures Start(Constructed, env).1.StartFailed?
    ensures Start(Constructed, env).1.error in {UndefinedSerial, NullSerial}
    ensures Start(Constructed, env).0.config == Some(CheckConfig(env.loaded).value)
    ensures !Initialized(Start(Constructed, env).0)
  {
  }

  /** A bridge with a light list and no serial section, started on a TCP
      path, is rejected. */
  lemma LightsOnlyConfigRejected()
    ensures InitOutcome(Environment(Some(JObj([("homenet_bridge", JObj([("light", JArr([]))]))])), Some("h:1"), [], 0, None))
      == StartFailed(UndefinedSerial)
  {
    var bridge := JObj([("light", JArr([]))]);
    assert HasEntityList(bridge, EntityTypes[0]);
    assert Member(bridge, "serial") == None by {
      assert Get(bridge.entries[1..], "serial") == None;
    }
  }

  /** When the device is found but `port.open` fails, the start is rejected
      with the open's error, yet the port stays attached, so the bridge
      counts as initialized and later commands are written to it. */
  lemma FailedOpenLeavesPort(env: Environment, topic: string, payload: string, build: CommandBuilder, packet: seq<Byte>)
    requires CheckConfig(env.loaded).Success? && SerialSectionError(CheckConfig(env.loaded).value).None?
    requires !IsTcpConnection(SerialPath(env.serialPort)) && WaitForSerialDevice(env.probes, env.timeout) == Ready
    requires env.openError.Some?
    ensures Start(Constructed, env).1 == StartFailed(env.openError.value)
    ensures Initialized(Start(Constructed, env).0)
    ensures CommandPacket(CheckConfig(env.loaded).value, topic, payload, build) == Success(Some(packet)) ==>
      HandleMqttMessage(Start(Constructed, env).0, topic, payload, build) == Success(Start(Constructed, env).0.(written := [packet]))
  {
    var b := Initialize(Constructed, env);
    assert PortAttached(env);
    assert Start(Constructed, env) == (b, InitOutcome(env));
    assert Initialized(b);
    if CommandPacket(CheckConfig(env.loaded).value, topic, payload, build) == Success(Some(packet)) {
      assert b.written + [packet] == [packet];
    }
  }

  /** After `stop`, `start` runs `initialize` afresh. */
  lemma RestartAfterStop(b: HomeNetBridge, env: Environment)
    ensures Start(Stop(b), env).1 == InitOutcome(env)
  {
  }

  /** After `stop` every message is ignored. */
  lemma StoppedIgnoresMessages(b: HomeNetBridge, topic: string, payload: string, build: CommandBuilder)
    ensures HandleMqttMessage(Stop(b), topic, payload, build) == Success(Stop(b))
  {
  }
}

=== FILE: bytes.dfy ===
/** Bytes as they travel on the RS485 line: integers 0..255. JavaScript's
    bitwise `&`, `^` and `|` are defined bit by bit over the low eight bits,
    which is what they compute on operands that already fit in one byte. */
module Bytes {

  type Byte = x: int | 0 <= x < 256

  datatype BitOp = AndOp | XorOp | OrOp

  function Pow2(k: nat): nat {
    if k == 0 then 1 else 2 * Pow2(k - 1)
  }

  function ApplyBit(op: BitOp, x: bool, y: bool): bool {
    match op
    case AndOp => x && y
    case XorOp => x != y
    case OrOp => x || y
  }

  /** The bitwise operator applied to the low `k` bits of `a` and `b`. */
  function Bits(op: BitOp, a: nat, b: nat, k: nat): (r: nat)
    ensures r < Pow2(k)
  {
    if k == 0 then 0
    else (if ApplyBit(op, a % 2 == 1, b % 2 == 1) then 1 else 0) + 2 * Bits(op, a / 2, b / 2, k - 1)
  }

  function And(a: Byte, b: Byte): Byte {
    Bits(AndOp, a, b, 8)
  }

  function Xor(a: Byte, b: Byte): Byte {
    Bits(XorOp, a, b, 8)
  }

  function Or(a: Byte, b: Byte): Byte {
    Bits(OrOp, a, b, 8)
  }

  lemma {:induction false} BitsAssoc(op: BitOp, a: nat, b: nat, c: nat, k: nat)
    ensures Bits(op, Bits(op, a, b, k), c, k) == Bits(op, a, Bits(op, b, c, k), k)
  {
    if k > 0 {
      BitsAssoc(op, a / 2, b / 2, c / 2, k - 1);
    }
  }

  lemma {:induction false} BitsComm(op: BitOp, a: nat, b: nat, k: nat)
    ensures Bits(op, a, b, k) == Bits(op, b, a, k)
  {
    if k > 0 {
      BitsComm(op, a / 2, b / 2, k - 1);
    }
  }

  /** Bits of a number below 2^k, read back through the identity operation. */
  lemma {:induction false} BitsIdentity(op: BitOp, a: nat, z: nat, k: nat)
    requires a < Pow2(k)
    requires (op == AndOp && z == Pow2(k) - 1) || (op != AndOp && z == 0)
    ensures Bits(op, a, z, k) == a
  {
    if k > 0 {
      if op == AndOp {
        assert (Pow2(k) - 1) / 2 == Pow2(k - 1) - 1;
        assert (Pow2(k) - 1) % 2 == 1;
      }
      BitsIdentity(op, a / 2, z / 2, k - 1);
    }
  }

  lemma {:induction false} XorSelfBits(a: nat, k: nat)
    ensures Bits(XorOp, a, a, k) == 0
  {
    if k > 0 {
      XorSelfBits(a / 2, k - 1);
    }
  }

  lemma {:induction false} AndZeroBits(a: nat, k: nat)
    ensures Bits(AndOp, a, 0, k) == 0
  {
    if k > 0 {
      AndZeroBits(a / 2, k - 1);
    }
  }

  lemma AndFull(a: Byte)
    ensures And(a, 0xFF) == a
  {
    BitsIdentity(AndOp, a, 0xFF, 8);
  }

  lemma AndZero(a: Byte)
    ensures And(a, 0) == 0
  {
    AndZeroBits(a, 8);
  }

  lemma XorZero(a: Byte)
    ensures Xor(a, 0) == a && Xor(0, a) == a
  {
    BitsIdentity(XorOp, a, 0, 8);
    BitsComm(XorOp, a, 0, 8);
  }

  lemma XorSelf(a: Byte)
    ensures Xor(a, a) == 0
  {
    XorSelfBits(a, 8);
  }

  lemma XorAssoc(a: Byte, b: Byte, c: Byte)
    ensures Xor(Xor(a, b), c) == Xor(a, Xor(b, c))
  {
    BitsAssoc(XorOp, a, b, c, 8);
  }

  lemma XorComm(a: Byte, b: Byte)
    ensures Xor(a, b) == Xor(b, a)
  {
    BitsComm(XorOp, a, b, 8);
  }

  /** ORing a multiple of 2^j with a number below 2^j adds them. */
  lemma {:induction false} OrDisjoint(x: nat, lo: nat, j: nat, k: nat)
    requires lo < Pow2(j) && x < Pow2(k)
    ensures Bits(OrOp, x * Pow2(j), lo, j + k) == x * Pow2(j) + lo
  {
    if j == 0 {
      BitsIdentity(OrOp, x, 0, k);
      BitsComm(OrOp, x, 0, k);
      assert lo == 0;
    } else {
      assert x * Pow2(j) == 2 * (x * Pow2(j - 1));
      OrDisjoint(x, lo / 2, j - 1, k);
    }
  }

  /** `b & 0x0F` is the low nibble. */
  lemma LowNibble(b: Byte)
    ensures And(b, 0x0F) == b % 16
  {
    var b1 := b / 2;
    var b2 := b1 / 2;
    var b3 := b2 / 2;
    AndZeroBits(b3 / 2, 4);
    AndOddStep(b3, 1, 5);
    AndOddStep(b2, 3, 6);
    HalveMod(b2, 2);
    AndOddStep(b1, 7, 7);
    HalveMod(b1, 4);
    AndOddStep(b, 15, 8);
    HalveMod(b, 8);
  }

  /** One step of `&` with an odd mask keeps the low bit of `a`. */
  lemma AndOddStep(a: nat, m: nat, k: nat)
    requires k > 0 && m % 2 == 1
    ensures Bits(AndOp, a, m, k) == a % 2 + 2 * Bits(AndOp, a / 2, m / 2, k - 1)
  {
  }

  /** The remainder by `2p` from the low bit and the remainder of the half. */
  lemma HalveMod(a: nat, p: nat)
    requires p == 2 || p == 4 || p == 8
    ensures a % (2 * p) == a % 2 + 2 * ((a / 2) % p)
  {
    var q := a / 2;
    var t := q / p;
    assert q == p * t + q % p;
    assert a == (2 * p) * t + (2 * (q % p) + a % 2);
    ModOfSum(a, 2 * p, t, 2 * (q % p) + a % 2);
  }

  /** A remainder is determined by any decomposition with a small rest. */
  lemma ModOfSum(a: int, m: int, t: int, x: int)
    requires m > 0 && a == m * t + x && 0 <= x < m
    ensures a % m == x
  {
    var d := a / m - t;
    assert m * d == x - a % m;
    MulAwayFromZero(m, d);
  }

  lemma MulAwayFromZero(m: int, d: int)
    requires m > 0
    ensures d >= 1 ==> m * d >= m
    ensures d <= -1 ==> m * d <= -m
  {
    if d >= 1 {
      assert m * d == m + m * (d - 1);
    } else if d <= -1 {
      assert m * d == -m + m * (d + 1);
    }
  }

  /** `(hi << 4) | lo` for two nibbles is `hi * 16 + lo`. */
  lemma JoinNibbles(hi: nat, lo: nat)
    requires hi < 16 && lo < 16
    ensures Or(hi * 16, lo) == hi * 16 + lo
  {
    assert Pow2(4) == 16;
    OrDisjoint(hi, lo, 4, 4);
  }

  /** Number of set bits of a byte. */
  function PopCount(v: Byte): nat
    decreases v
  {
    if v == 0 then 0 else v % 2 + PopCount(v / 2)
  }

  /** Bit `k` of `a`, counting from the least significant. */
  function Bit(a: nat, k: nat): bool {
    if k == 0 then a % 2 == 1 else Bit(a / 2, k - 1)
  }

  lemma {:induction false} ZeroBit(k: nat)
    ensures !Bit(0, k)
  {
    if k > 0 {
      ZeroBit(k - 1);
    }
  }

  /** Bit `k` of `a & b`, taken over `n` bits, is set exactly when `k`
      is below `n` and the bit is set in both operands. */
  lemma {:induction false} AndBit(a: nat, b: nat, n: nat, k: nat)
    ensures Bit(Bits(AndOp, a, b, n), k) <==> k < n && Bit(a, k) && Bit(b, k)
    decreases n
  {
    var r := Bits(AndOp, a, b, n);
    if n == 0 {
      ZeroBit(k);
    } else if k > 0 {
      var rest := Bits(AndOp, a / 2, b / 2, n - 1);
      assert r / 2 == rest;
      AndBit(a / 2, b / 2, n - 1, k - 1);
    }
  }
}

=== FILE: checksum.dfy ===
/** The checksum engine of the RS485 protocol: eight one-byte algorithms and
    one two-byte algorithm, each computable over a header and a data slice or
    over an index range of one packet buffer. */
module Checksum {
  import opened Wrappers
  import opened Bytes

  datatype ChecksumType =
    | AddSum         // 'add'
    | AddNoHeader    // 'add_no_header'
    | XorSum         // 'xor'
    | XorNoHeader    // 'xor_no_header'
    | SamsungRx      // 'samsung_rx'
    | SamsungTx      // 'samsung_tx'
    | SamsungXor     // 'samsung_xor'
    | BestinSum      // 'bestin_sum'
    | NoChecksum     // 'none'
    | Unknown(name: string)

  datatype Checksum2Type = XorAdd | Unknown2(name: string)

  /** The two exceptions the entry points throw. */
  datatype ChecksumError = NotCalculable | UnknownType(name: string)

  /** Types that leave the header out of the computation. */
  predicate SkipsHeader(t: ChecksumType) {
    t.AddNoHeader? || t.XorNoHeader? || t.SamsungRx? || t.SamsungTx?
  }

  // ---------------------------------------------------------------------------
  // Folds over a byte sequence, first byte first

  function Sum(s: seq<Byte>): nat {
    if |s| == 0 then 0 else Sum(s[..|s| - 1]) + s[|s| - 1]
  }

  /** `acc ^= b` for every byte, starting from `seed`. */
  function XorFold(seed: Byte, s: seq<Byte>): Byte {
    if |s| == 0 then seed else Xor(XorFold(seed, s[..|s| - 1]), s[|s| - 1])
  }

  function BestinStep(acc: Byte, b: Byte): Byte {
    (Xor(b, acc) + 1) % 256
  }

  /** `acc = ((b ^ acc) + 1) & 0xFF` for every byte, starting from `seed`. */
  function BestinFold(seed: Byte, s: seq<Byte>): Byte {
    if |s| == 0 then seed else BestinStep(BestinFold(seed, s[..|s| - 1]), s[|s| - 1])
  }

  /** The Samsung receive checksum of the data bytes. */
  function SamsungRxOf(data: seq<Byte>): Byte {
    var crc := XorFold(0xB0, data);
    if |data| > 0 && data[0] < 0x7C then Xor(crc, 0x80) else crc
  }

  /** `calculateChecksum(header, data, type)`. */
  function Calculate(header: seq<Byte>, data: seq<Byte>, t: ChecksumType): (r: Result<Byte, ChecksumError>)
    ensures r.Failure? <==> t.NoChecksum? || t.Unknown?
    ensures t.NoChecksum? ==> r == Failure(NotCalculable)
    ensures t.Unknown? ==> r == Failure(UnknownType(t.name))
    ensures t.SamsungXor? ==> r.value < 0x80
  {
    match t
    case AddSum => Success(Sum(header + data) % 256)
    case AddNoHeader => Success(Sum(data) % 256)
    case XorSum => Success(XorFold(0, header + data))
    case XorNoHeader => Success(XorFold(0, data))
    case SamsungRx => Success(SamsungRxOf(data))
    case SamsungTx => Success(Xor(XorFold(0, data), 0x80))
    case SamsungXor =>
      var crc := XorFold(0, header + data);
      AndMsbClear(crc);
      Success(And(crc, 0x7F))
    case BestinSum => Success(BestinFold(3, header + data))
    case NoChecksum => Failure(NotCalculable)
    case Unknown(name) => Failure(UnknownType(name))
  }

  // ---------------------------------------------------------------------------
  // Folds over an index range of a buffer. Reading outside the buffer yields
  // JavaScript's `undefined`: a sum becomes `NaN`, which `& 0xFF` turns into 0,
  // and `x ^ undefined` is `x`.

  function ByteAt(buf: seq<Byte>, i: int): Option<Byte> {
    if 0 <= i < |buf| then Some(buf[i]) else None
  }

  /** Sum of `buf[start..end)`; `None` once an index outside the buffer was added. */
  function SumRange(buf: seq<Byte>, start: int, end: int): Option<nat>
    decreases end - start
  {
    if end <= start then Some(0)
    else match (SumRange(buf, start, end - 1), ByteAt(buf, end - 1))
      case (Some(s), Some(b)) => Some(s + b)
      case _ => None
  }

  /** `& 0xFF` of a sum that may be `NaN`. */
  function LowByte(s: Option<nat>): Byte {
    match s
    case Some(v) => v % 256
    case None => 0
  }

  function XorRange(buf: seq<Byte>, seed: Byte, start: int, end: int): Byte
    decreases end - start
  {
    if end <= start then seed else Xor(XorRange(buf, seed, start, end - 1), ByteAt(buf, end - 1).GetOr(0))
  }

  function BestinRange(buf: seq<Byte>, seed: Byte, start: int, end: int): Byte
    decreases end - start
  {
    if end <= start then seed else BestinStep(BestinRange(buf, seed, start, end - 1), ByteAt(buf, end - 1).GetOr(0))
  }

  function SamsungRxRange(buf: seq<Byte>, start: int, end: int): Byte {
    var crc := XorRange(buf, 0xB0, start, end);
    if start < end && ByteAt(buf, start).Some? && ByteAt(buf, start).value < 0x7C then Xor(crc, 0x80) else crc
  }

  /** `calculateChecksumFromBuffer(buffer, type, headerLength, dataEnd, baseOffset)`:
      the header starts at `baseOffset`, the data at `baseOffset + headerLength`,
      and both end at `baseOffset + dataEnd`. */
  function CalculateFromBuffer(buf: seq<Byte>, t: ChecksumType, headerLength: nat, dataEnd: nat, baseOffset: nat)
    : (r: Result<Byte, ChecksumError>)
    ensures r.Failure? <==> t.NoChecksum? || t.Unknown?
    ensures t.NoChecksum? ==> r == Failure(NotCalculable)
    ensures t.Unknown? ==> r == Failure(UnknownType(t.name))
    ensures t.SamsungXor? ==> r.value < 0x80
  {
    var dataStart := baseOffset;
    var headerStart := baseOffset + headerLength;
    var dataStop := baseOffset + dataEnd;
    match t
    case AddSum => Success(LowByte(SumRange(buf, dataStart, dataStop)))
    case AddNoHeader => Success(LowByte(SumRange(buf, headerStart, dataStop)))
    case XorSum => Success(XorRange(buf, 0, dataStart, dataStop))
    case XorNoHeader => Success(XorRange(buf, 0, headerStart, dataStop))
    case SamsungRx => Success(SamsungRxRange(buf, headerStart, dataStop))
    case SamsungTx => Success(Xor(XorRange(buf, 0, headerStart, dataStop), 0x80))
    case SamsungXor =>
      var crc := XorRange(buf, 0, dataStart, dataStop);
      AndMsbClear(crc);
      Success(And(crc, 0x7F))
    case BestinSum => Success(BestinRange(buf, 3, dataStart, dataStop))
    case NoChecksum => Failure(NotCalculable)
    case Unknown(name) => Failure(UnknownType(name))
  }

  // ---------------------------------------------------------------------------
  // The two-byte checksum

  /** The running `(crc, temp)` pair of `xorAdd`: arithmetic sum and XOR. */
  function XorAddFold(s: seq<Byte>): (nat, Byte) {
    if |s| == 0 then (0, 0)
    else
      var acc := XorAddFold(s[..|s| - 1]);
      (acc.0 + s[|s| - 1], Xor(acc.1, s[|s| - 1]))
  }

  function XorAddRangeFold(buf: seq<Byte>, start: int, end: int): (Option<nat>, Byte)
    decreases end - start
  {
    if end <= start then (Some(0), 0)
    else
      var acc := XorAddRangeFold(buf, start, end - 1);
      var b := ByteAt(buf, end - 1);
      (if acc.0.Some? && b.Some? then Some(acc.0.value + b.value) else None, Xor(acc.1, b.GetOr(0)))
  }

  /** `[temp & 0xFF, (crc + temp) & 0xFF]`, with a `NaN` sum giving 0. */
  function PackXorAdd(crc: Option<nat>, temp: Byte): seq<Byte> {
    [temp, if crc.Some? then (crc.value + temp) % 256 else 0]
  }

  /** `calculateChecksum2(header, data, type)`. */
  function Calculate2(header: seq<Byte>, data: seq<Byte>, t: Checksum2Type): (r: Result<seq<Byte>, ChecksumError>)
    ensures r.Failure? <==> t.Unknown2?
    ensures t.Unknown2? ==> r == Failure(UnknownType(t.name))
    ensures r.Success? ==> |r.value| == 2
  {
    match t
    case XorAdd =>
      var acc := XorAddFold(header + data);
      Success(PackXorAdd(Some(acc.0), acc.1))
    case Unknown2(name) => Failure(UnknownType(name))
  }

  /** `calculateChecksum2FromBuffer(buffer, type, headerLength, dataEnd, baseOffset)`:
      the header length plays no part, the range is `[baseOffset, baseOffset + dataEnd)`. */
  function Calculate2FromBuffer(buf: seq<Byte>, t: Checksum2Type, headerLength: nat, dataEnd: nat, baseOffset: nat)
    : (r: Result<seq<Byte>, ChecksumError>)
    ensures r.Failure? <==> t.Unknown2?
    ensures t.Unknown2? ==> r == Failure(UnknownType(t.name))
    ensures r.Success? ==> |r.value| == 2
  {
    match t
    case XorAdd =>
      var acc := XorAddRangeFold(buf, baseOffset, baseOffset + dataEnd);
      Success(PackXorAdd(acc.0, acc.1))
    case Unknown2(name) => Failure(UnknownType(name))
  }

  // ---------------------------------------------------------------------------
  // Properties

  /** Masking with 0x7F clears the top bit. */
  lemma AndMsbClear(a: Byte)
    ensures And(a, 0x7F) < 0x80
  {
    assert Pow2(7) == 0x80;
    BitsLowMask(a, 0x7F, 7);
  }

  lemma {:induction false} BitsLowMask(a: nat, m: nat, k: nat)
    requires m < Pow2(k)
    ensures Bits(AndOp, a, m, k + 1) < Pow2(k)
  {
    if k > 0 {
      BitsLowMask(a / 2, m / 2, k - 1);
    }
  }

  /** A range of a buffer folds to the same value as the slice it covers:
      the sum, */
  lemma {:induction false} SumRangeIsSlice(buf: seq<Byte>, start: int, end: int)
    requires 0 <= start <= end <= |buf|
    ensures SumRange(buf, start, end) == Some(Sum(buf[start..end]))
    decreases end - start
  {
    if start < end {
      SumRangeIsSlice(buf, start, end - 1);
      assert buf[start..end][..end - 1 - start] == buf[start..end - 1];
    }
  }

  /** the XOR, */
  lemma {:induction false} XorRangeIsSlice(buf: seq<Byte>, seed: Byte, start: int, end: int)
    requires 0 <= start <= end <= |buf|
    ensures XorRange(buf, seed, start, end) == XorFold(seed, buf[start..end])
    decreases end - start
  {
    if start < end {
      XorRangeIsSlice(buf, seed, start, end - 1);
      assert buf[start..end][..end - 1 - start] == buf[start..end - 1];
    }
  }

  /** the Bestin fold, */
  lemma {:induction false} BestinRangeIsSlice(buf: seq<Byte>, seed: Byte, start: int, end: int)
    requires 0 <= start <= end <= |buf|
    ensures BestinRange(buf, seed, start, end) == BestinFold(seed, buf[start..end])
    decreases end - start
  {
    if start < end {
      BestinRangeIsSlice(buf, seed, start, end - 1);
      assert buf[start..end][..end - 1 - start] == buf[start..end - 1];
    }
  }

  /** and the running pair of `xorAdd`. */
  lemma {:induction false} XorAddRangeIsSlice(buf: seq<Byte>, start: int, end: int)
    requires 0 <= start <= end <= |buf|
    ensures XorAddRangeFold(buf, start, end) ==
      (Some(XorAddFold(buf[start..end]).0), XorAddFold(buf[start..end]).1)
    decreases end - start
  {
    if start < end {
      XorAddRangeIsSlice(buf, start, end - 1);
      assert buf[start..end][..end - 1 - start] == buf[start..end - 1];
    }
  }

  /** Range form equals slice form: computing over `header ++ data` with the
      header length and data end gives what the slice form gives. */
  lemma RangeFormAgrees(header: seq<Byte>, data: seq<Byte>, t: ChecksumType)
    ensures CalculateFromBuffer(header + data, t, |header|, |header| + |data|, 0) == Calculate(header, data, t)
  {
    var buf := header + data;
    match t
    case AddSum => SumRangeIsSlice(buf, 0, |buf|); assert buf[0..|buf|] == buf;
    case AddNoHeader => SumRangeIsSlice(buf, |header|, |buf|); assert buf[|header|..|buf|] == data;
    case XorSum => XorRangeIsSlice(buf, 0, 0, |buf|); assert buf[0..|buf|] == buf;
    case XorNoHeader => XorRangeIsSlice(buf, 0, |header|, |buf|); assert buf[|header|..|buf|] == data;
    case SamsungRx => XorRangeIsSlice(buf, 0xB0, |header|, |buf|); assert buf[|header|..|buf|] == data;
    case SamsungTx => XorRangeIsSlice(buf, 0, |header|, |buf|); assert buf[|header|..|buf|] == data;
    case SamsungXor => XorRangeIsSlice(buf, 0, 0, |buf|); assert buf[0..|buf|] == buf;
    case BestinSum => BestinRangeIsSlice(buf, 3, 0, |buf|); assert buf[0..|buf|] == buf;
    case NoChecksum =>
    case Unknown(_) =>
  }

  lemma RangeForm2Agrees(header: seq<Byte>, data: seq<Byte>, t: Checksum2Type)
    ensures Calculate2FromBuffer(header + data, t, |header|, |header| + |data|, 0) == Calculate2(header, data, t)
  {
    var buf := header + data;
    XorAddRangeIsSlice(buf, 0, |buf|);
    assert buf[0..|buf|] == buf;
  }

  /** Folding over a range of `p ++ buf` shifted by `|p|` reads only `buf`:
      the byte at an index, */
  lemma ByteAtShift(p: seq<Byte>, buf: seq<Byte>, i: nat)
    ensures ByteAt(p + buf, |p| + i) == ByteAt(buf, i)
  {
  }

  /** the sum, */
  lemma {:induction false} SumRangeShift(p: seq<Byte>, buf: seq<Byte>, start: nat, end: int)
    ensures SumRange(p + buf, |p| + start, |p| + end) == SumRange(buf, start, end)
    decreases end - start
  {
    if start < end {
      SumRangeShift(p, buf, start, end - 1);
      ByteAtShift(p, buf, end - 1);
    }
  }

  /** the XOR, */
  lemma {:induction false} XorRangeShift(p: seq<Byte>, buf: seq<Byte>, seed: Byte, start: nat, end: int)
    ensures XorRange(p + buf, seed, |p| + start, |p| + end) == XorRange(buf, seed, start, end)
    decreases end - start
  {
    if start < end {
      XorRangeShift(p, buf, seed, start, end - 1);
      ByteAtShift(p, buf, end - 1);
    }
  }

  /** the Bestin fold, */
  lemma {:induction false} BestinRangeShift(p: seq<Byte>, buf: seq<Byte>, seed: Byte, start: nat, end: int)
    ensures BestinRange(p + buf, seed, |p| + start, |p| + end) == BestinRange(buf, seed, start, end)
    decreases end - start
  {
    if start < end {
      BestinRangeShift(p, buf, seed, start, end - 1);
      ByteAtShift(p, buf, end - 1);
    }
  }

  /** and the running pair of `xorAdd`. */
  lemma {:induction false} XorAddRangeShift(p: seq<Byte>, buf: seq<Byte>, start: nat, end: int)
    ensures XorAddRangeFold(p + buf, |p| + start, |p| + end) == XorAddRangeFold(buf, start, end)
    decreases end - start
  {
    if start < end {
      XorAddRangeShift(p, buf, start, end - 1);
      ByteAtShift(p, buf, end - 1);
    }
  }

  /** Prefixing the buffer with `k` bytes and passing `baseOffset = k` gives the
      result computed on the unprefixed buffer at offset 0. */
  lemma BaseOffsetShift(p: seq<Byte>, buf: seq<Byte>, t: ChecksumType, headerLength: nat, dataEnd: nat)
    ensures CalculateFromBuffer(p + buf, t, headerLength, dataEnd, |p|) == CalculateFromBuffer(buf, t, headerLength, dataEnd, 0)
  {
    match t
    case AddSum => SumRangeShift(p, buf, 0, dataEnd);
    case AddNoHeader => SumRangeShift(p, buf, headerLength, dataEnd);
    case XorSum => XorRangeShift(p, buf, 0, 0, dataEnd);
    case XorNoHeader => XorRangeShift(p, buf, 0, headerLength, dataEnd);
    case SamsungRx => XorRangeShift(p, buf, 0xB0, headerLength, dataEnd); ByteAtShift(p, buf, headerLength);
    case SamsungTx => XorRangeShift(p, buf, 0, headerLength, dataEnd);
    case SamsungXor => XorRangeShift(p, buf, 0, 0, dataEnd);
    case BestinSum => BestinRangeShift(p, buf, 3, 0, dataEnd);
    case NoChecksum =>
    case Unknown(_) =>
  }

  lemma BaseOffsetShift2(p: seq<Byte>, buf: seq<Byte>, t: Checksum2Type, headerLength: nat, dataEnd: nat)
    ensures Calculate2FromBuffer(p + buf, t, headerLength, dataEnd, |p|) == Calculate2FromBuffer(buf, t, headerLength, dataEnd, 0)
  {
    XorAddRangeShift(p, buf, 0, dataEnd);
  }

  /** The header-excluding types ignore the header bytes. */
  lemma HeaderIndependent(h1: seq<Byte>, h2: seq<Byte>, data: seq<Byte>, t: ChecksumType)
    requires SkipsHeader(t)
    ensures Calculate(h1, data, t) == Calculate(h2, data, t)
  {
  }

  /** In range form, the header-excluding types read nothing before the data
      start: two buffers that agree from there on give the same checksum. */
  lemma HeaderIndependentRange(b1: seq<Byte>, b2: seq<Byte>, t: ChecksumType, headerLength: nat, dataEnd: nat, baseOffset: nat)
    requires SkipsHeader(t)
    requires |b1| == |b2|
    requires forall i :: baseOffset + headerLength <= i < |b1| ==> b1[i] == b2[i]
    ensures CalculateFromBuffer(b1, t, headerLength, dataEnd, baseOffset) ==
            CalculateFromBuffer(b2, t, headerLength, dataEnd, baseOffset)
  {
    var s := baseOffset + headerLength;
    var e := baseOffset + dataEnd;
    RangeAgree(b1, b2, 0, s, e);
    RangeAgree(b1, b2, 0xB0, s, e);
  }

  lemma {:induction false} RangeAgree(b1: seq<Byte>, b2: seq<Byte>, seed: Byte, start: nat, end: int)
    requires |b1| == |b2|
    requires forall i :: start <= i < |b1| ==> b1[i] == b2[i]
    ensures SumRange(b1, start, end) == SumRange(b2, start, end)
    ensures XorRange(b1, seed, start, end) == XorRange(b2, seed, start, end)
    ensures ByteAt(b1, start) == ByteAt(b2, start)
    decreases end - start
  {
    if start < end {
      RangeAgree(b1, b2, seed, start, end - 1);
      assert ByteAt(b1, end - 1) == ByteAt(b2, end - 1);
    }
  }

  /** XOR folding from a seed is the seed XOR the fold from zero. */
  lemma {:induction false} XorFoldSeed(seed: Byte, s: seq<Byte>)
    ensures XorFold(seed, s) == Xor(seed, XorFold(0, s))
  {
    if |s| == 0 {
      XorZero(seed);
    } else {
      XorFoldSeed(seed, s[..|s| - 1]);
      XorAssoc(seed, XorFold(0, s[..|s| - 1]), s[|s| - 1]);
    }
  }

  /** `samsung_rx` is 0xB0 XOR all data bytes, flipped by 0x80 exactly when the
      data is non-empty and starts below 0x7C; empty data gives 0xB0. */
  lemma SamsungRxSpec(header: seq<Byte>, data: seq<Byte>)
    ensures Calculate(header, data, SamsungRx) ==
      Success(if |data| > 0 && data[0] < 0x7C then Xor(Xor(0xB0, XorFold(0, data)), 0x80)
              else Xor(0xB0, XorFold(0, data)))
    ensures |data| == 0 ==> Calculate(header, data, SamsungRx) == Success(0xB0)
  {
    XorFoldSeed(0xB0, data);
  }

  /** Folding a concatenation folds the second part from where the first stopped. */
  lemma {:induction false} FoldConcat(a: seq<Byte>, b: seq<Byte>, seed: Byte)
    ensures BestinFold(seed, a + b) == BestinFold(BestinFold(seed, a), b)
    ensures XorFold(seed, a + b) == XorFold(XorFold(seed, a), b)
    ensures Sum(a + b) == Sum(a) + Sum(b)
  {
    if |b| == 0 {
      assert a + b == a;
    } else {
      FoldConcat(a, b[..|b| - 1], seed);
      assert (a + b)[..|a + b| - 1] == a + b[..|b| - 1];
    }
  }

  /** `bestin_sum` folds the header and then the data from seed 3; an empty
      packet gives 3. */
  lemma BestinSpec(header: seq<Byte>, data: seq<Byte>)
    ensures Calculate(header, data, BestinSum) == Success(BestinFold(BestinFold(3, header), data))
    ensures |header| + |data| == 0 ==> Calculate(header, data, BestinSum) == Success(3)
  {
    FoldConcat(header, data, 3);
  }

  /** The running pair of `xorAdd` is the plain sum and the plain XOR. */
  lemma {:induction false} XorAddFoldIsSumAndXor(s: seq<Byte>)
    ensures XorAddFold(s) == (Sum(s), XorFold(0, s))
  {
    if |s| > 0 {
      XorAddFoldIsSumAndXor(s[..|s| - 1]);
    }
  }

  /** `xor_add` is `[X, (S + X) & 0xFF]` for the XOR X and the sum S of
      `header ++ data`. */
  lemma XorAddSpec(header: seq<Byte>, data: seq<Byte>)
    ensures Calculate2(header, data, XorAdd) ==
      Success([XorFold(0, header + data), (Sum(header + data) + XorFold(0, header + data)) % 256])
  {
    XorAddFoldIsSumAndXor(header + data);
  }

  /** `add` is the sum of header and data, `xor` their XOR, modulo one byte. */
  lemma AddXorSpec(header: seq<Byte>, data: seq<Byte>)
    ensures Calculate(header, data, AddSum) == Success((Sum(header) + Sum(data)) % 256)
    ensures Calculate(header, data, XorSum) == Success(XorFold(XorFold(0, header), data))
  {
    FoldConcat(header, data, 0);
  }
}

=== FILE: command_manager.dfy ===
/** The command manager: commands for entities are queued, sent one at a
    time, and re-sent until the entity's state changes (the acknowledgement)
    or the retry budget runs out. Timers are replaced by events: `Timeout`
    is the acknowledgement timer firing and `RetryTick` the end of the pause
    before the next attempt. */
module CommandManager {
  import opened Wrappers
  import opened Bytes
  import Strings

  datatype RetryConfig = RetryConfig(attempts: int, timeout: int, interval: int)

  /** An entity's own `retry` object: each field may be missing. */
  datatype RetryOverride = RetryOverride(attempts: Option<int>, timeout: Option<int>, interval: Option<int>)

  const DefaultRetry := RetryConfig(5, 2000, 125)

  /** `{ ...(config.retry || default), ...entity.retry }`. */
  function EffectiveRetry(global: Option<RetryConfig>, entity: Option<RetryOverride>): (r: RetryConfig)
    ensures global.None? && entity.None? ==> r == DefaultRetry
    ensures global.Some? && entity.None? ==> r == global.value
    ensures entity.Some? && entity.value.attempts.Some? ==> r.attempts == entity.value.attempts.value
    ensures entity.Some? && entity.value.timeout.Some? ==> r.timeout == entity.value.timeout.value
    ensures entity.Some? && entity.value.interval.Some? ==> r.interval == entity.value.interval.value
    ensures entity.Some? && entity.value.attempts.None? ==> r.attempts == global.GetOr(DefaultRetry).attempts
    ensures entity.Some? && entity.value.timeout.None? ==> r.timeout == global.GetOr(DefaultRetry).timeout
    ensures entity.Some? && entity.value.interval.None? ==> r.interval == global.GetOr(DefaultRetry).interval
  {
    var base := global.GetOr(DefaultRetry);
    match entity
    case None => base
    case Some(o) =>
      RetryConfig(o.attempts.GetOr(base.attempts), o.timeout.GetOr(base.timeout), o.interval.GetOr(base.interval))
  }

  datatype Job = Job(entityId: string, packet: seq<Byte>, retry: RetryConfig, attemptsLeft: int)

  /** Where the job in flight stands: its acknowledgement timer is running, or
      it timed out and waits for the retry pause to end. */
  datatype Phase = AwaitingAck | WaitingRetry

  /** A settled job: resolved by an acknowledgement, or rejected with
      'ACK timeout'. */
  datatype Settled = Settled(entityId: string, acked: bool)

  /** The manager together with what it has done so far: every packet written
      to the port, every job settled, and every entity id passed to `send`. */
  datatype Machine = Machine(
    global: Option<RetryConfig>,
    queue: seq<Job>,
    current: Option<Job>,
    phase: Phase,
    listeners: set<string>,
    writes: seq<seq<Byte>>,
    settled: seq<Settled>,
    sent: seq<string>)

  datatype Event =
    | Send(entityId: string, packet: seq<Byte>, retry: Option<RetryOverride>)
    | Ack(ackedId: string)
    | Timeout
    | RetryTick

  function Start(global: Option<RetryConfig>): Machine {
    Machine(global, [], None, AwaitingAck, {}, [], [], [])
  }

  // ---------------------------------------------------------------------------
  // Invariant

  function Ids(q: seq<Job>): (r: seq<string>)
    ensures |r| == |q|
  {
    if |q| == 0 then [] else [q[0].entityId] + Ids(q[1..])
  }

  function SettledIds(s: seq<Settled>): (r: seq<string>)
    ensures |r| == |s|
  {
    if |s| == 0 then [] else SettledIds(s[..|s| - 1]) + [s[|s| - 1].entityId]
  }

  function InFlightIds(m: Machine): seq<string> {
    if m.current.Some? then [m.current.value.entityId] else []
  }

  /** Jobs settle in the order they were sent: what has settled, then the job
      in flight, then the queue, is exactly the sequence of `send` calls. */
  predicate InOrder(m: Machine) {
    SettledIds(m.settled) + InFlightIds(m) + Ids(m.queue) == m.sent
  }

  /** The only listener is the in-flight job's, and only while its timer runs. */
  predicate ListenersMatch(m: Machine) {
    m.listeners == if m.current.Some? && m.phase == AwaitingAck then {m.current.value.entityId} else {}
  }

  predicate Valid(m: Machine) {
    && InOrder(m)
    && ListenersMatch(m)
    && (m.current.None? ==> m.queue == [])
    && (m.current.Some? ==> m.current.value.attemptsLeft >= 0)
  }

  /** The state `attempt()` may be entered in: a job in flight, no listener. */
  predicate ReadyToAttempt(m: Machine) {
    m.current.Some? && m.listeners == {} && InOrder(m)
  }

  // ---------------------------------------------------------------------------
  // Operations

  /** `processQueue()`: start the next job when none is in flight. */
  function ProcessQueue(m: Machine): (r: Machine)
    ensures m.current.None? && m.listeners == {} && InOrder(m) ==> Valid(r)
    ensures m.current.Some? || m.queue == [] ==> r == m
    ensures m.current.None? && m.queue != [] && m.queue[0].retry.attempts >= 0 ==>
      r == m.(queue := m.queue[1..],
              current := Some(m.queue[0].(attemptsLeft := m.queue[0].retry.attempts)),
              phase := AwaitingAck,
              listeners := m.listeners + {m.queue[0].entityId},
              writes := m.writes + [m.queue[0].packet])
    ensures |r.settled| >= |m.settled| && r.settled[..|m.settled|] == m.settled
    ensures |r.writes| >= |m.writes| && r.writes[..|m.writes|] == m.writes
    ensures r.global == m.global && r.sent == m.sent
    decreases |m.queue|, 0
  {
    if m.current.Some? || |m.queue| == 0 then m
    else
      var job := m.queue[0].(attemptsLeft := m.queue[0].retry.attempts + 1);
      var m1 := m.(queue := m.queue[1..], current := Some(job));
      assert Ids(m.queue) == [m.queue[0].entityId] + Ids(m.queue[1..]);
      Attempt(m1)
  }

  /** `attempt()`: spend one attempt; write the packet and wait for an
      acknowledgement, or reject once the budget is spent. */
  function Attempt(m: Machine): (r: Machine)
    requires m.current.Some?
    ensures ReadyToAttempt(m) ==> Valid(r)
    ensures m.current.value.attemptsLeft >= 1 ==>
      r == m.(current := Some(m.current.value.(attemptsLeft := m.current.value.attemptsLeft - 1)),
              phase := AwaitingAck,
              listeners := m.listeners + {m.current.value.entityId},
              writes := m.writes + [m.current.value.packet])
    ensures |r.settled| >= |m.settled| && r.settled[..|m.settled|] == m.settled
    ensures |r.writes| >= |m.writes| && r.writes[..|m.writes|] == m.writes
    ensures r.global == m.global && r.sent == m.sent
    decreases |m.queue|, 2
  {
    var job := m.current.value;
    var left := job.attemptsLeft - 1;
    if left < 0 then Finish(m.(listeners := m.listeners - {job.entityId}), false)
    else
      m.(current := Some(job.(attemptsLeft := left)),
         phase := AwaitingAck,
         listeners := m.listeners + {job.entityId},
         writes := m.writes + [job.packet])
  }

  /** Settling the job in flight, then the `finally` that starts the next. */
  function Finish(m: Machine, acked: bool): (r: Machine)
    requires m.current.Some?
    ensures ReadyToAttempt(m) ==> Valid(r)
    ensures |r.settled| > |m.settled| && r.settled[..|m.settled| + 1] == m.settled + [Settled(m.current.value.entityId, acked)]
    ensures |r.writes| >= |m.writes| && r.writes[..|m.writes|] == m.writes
    ensures r.global == m.global && r.sent == m.sent
    decreases |m.queue|, 1
  {
    var s := m.settled + [Settled(m.current.value.entityId, acked)];
    assert SettledIds(s) == SettledIds(m.settled) + [m.current.value.entityId];
    var r := ProcessQueue(m.(current := None, settled := s));
    assert r.settled[..|m.settled| + 1] == r.settled[..|s|][..|m.settled| + 1];
    r
  }

  /** One event. */
  function Step(m: Machine, e: Event): (r: Machine)
    ensures |r.settled| >= |m.settled| && r.settled[..|m.settled|] == m.settled
    ensures |r.writes| >= |m.writes| && r.writes[..|m.writes|] == m.writes
  {
    match e
    case Send(id, packet, o) => ProcessQueue(Enqueue(m, id, packet, o))
    case Ack(id) =>
      if id in m.listeners && m.current.Some? then
        Finish(m.(listeners := m.listeners - {id}), true)
      else m
    case Timeout =>
      if m.current.Some? && m.phase == AwaitingAck then
        m.(listeners := m.listeners - {m.current.value.entityId}, phase := WaitingRetry)
      else m
    case RetryTick =>
      if m.current.Some? && m.phase == WaitingRetry then Attempt(m) else m
  }

  /** The queueing half of `send`: the job, with `attempts + 1` attempts, at
      the back of the queue. */
  function Enqueue(m: Machine, id: string, packet: seq<Byte>, o: Option<RetryOverride>): (r: Machine)
    ensures r.current == m.current && r.listeners == m.listeners && r.settled == m.settled
    ensures r.writes == m.writes && r.global == m.global
    ensures r.sent == m.sent + [id] && |r.queue| == |m.queue| + 1 && r.queue[..|m.queue|] == m.queue
  {
    var retry := EffectiveRetry(m.global, o);
    var r := m.(queue := m.queue + [Job(id, packet, retry, retry.attempts + 1)], sent := m.sent + [id]);
    assert r.queue[..|m.queue|] == m.queue;
    r
  }

  /** Every event keeps the invariant. */
  lemma StepPreservesValid(m: Machine, e: Event)
    requires Valid(m)
    ensures Valid(Step(m, e))
  {
    match e
    case Send(id, packet, o) => SendPreservesValid(m, id, packet, o);
    case Ack(_) =>
    case Timeout =>
    case RetryTick =>
  }

  lemma SendPreservesValid(m: Machine, id: string, packet: seq<Byte>, o: Option<RetryOverride>)
    requires Valid(m)
    ensures Valid(Step(m, Send(id, packet, o)))
  {
    var m1 := Enqueue(m, id, packet, o);
    var job := m1.queue[|m.queue|];
    assert m1.queue == m.queue + [job];
    IdsAppend(m.queue, job);
    Strings.AppendAssoc(SettledIds(m.settled) + InFlightIds(m), Ids(m.queue), [id]);
    assert InOrder(m1);
  }

  lemma {:induction false} IdsAppend(q: seq<Job>, j: Job)
    ensures Ids(q + [j]) == Ids(q) + [j.entityId]
  {
    if |q| > 0 {
      assert (q + [j])[1..] == q[1..] + [j];
      IdsAppend(q[1..], j);
    } else {
      assert q + [j] == [j];
    }
  }

  function Run(m: Machine, events: seq<Event>): (r: Machine)
    ensures |r.writes| >= |m.writes| && r.writes[..|m.writes|] == m.writes
    decreases |events|
  {
    if |events| == 0 then m else Run(Step(m, events[0]), events[1..])
  }

  /** Any run of events keeps the invariant. */
  lemma {:induction false} RunPreservesValid(m: Machine, events: seq<Event>)
    requires Valid(m)
    ensures Valid(Run(m, events))
    decreases |events|
  {
    if |events| > 0 {
      StepPreservesValid(m, events[0]);
      RunPreservesValid(Step(m, events[0]), events[1..]);
    }
  }

  lemma {:induction false} RunConcat(m: Machine, a: seq<Event>, b: seq<Event>)
    ensures Run(m, a + b) == Run(Run(m, a), b)
    decreases |a|
  {
    if |a| > 0 {
      assert (a + b)[1..] == a[1..] + b;
      RunConcat(Step(m, a[0]), a[1..], b);
    } else {
      assert a + b == b;
    }
  }

  lemma TwoSteps(m: Machine, e1: Event, e2: Event)
    ensures Run(m, [e1, e2]) == Step(Step(m, e1), e2)
  {
    assert [e1, e2][1..] == [e2];
    assert Run(Step(m, e1), [e2]) == Run(Step(Step(m, e1), e2), []);
  }

  // ---------------------------------------------------------------------------
  // Properties

  /** Between a timeout and the retry no listener is registered, so an
      acknowledgement arriving then changes nothing. */
  lemma AckWhileWaitingIgnored(m: Machine, id: string)
    requires Valid(m) && m.phase == WaitingRetry
    ensures Step(m, Ack(id)) == m
  {
  }

  /** Only the in-flight job's entity acknowledges. */
  lemma AckForOtherEntityIgnored(m: Machine, id: string)
    requires Valid(m) && (m.current.None? || m.current.value.entityId != id)
    ensures Step(m, Ack(id)) == m
  {
  }

  /** An acknowledgement resolves the job in flight and starts the next one,
      which writes its packet at once. */
  lemma AckStartsNext(m: Machine)
    requires Valid(m) && m.current.Some? && m.phase == AwaitingAck && |m.queue| > 0
    requires m.queue[0].retry.attempts >= 0
    ensures var r := Step(m, Ack(m.current.value.entityId));
      && r.settled == m.settled + [Settled(m.current.value.entityId, true)]
      && r.current == Some(m.queue[0].(attemptsLeft := m.queue[0].retry.attempts))
      && r.queue == m.queue[1..]
      && r.writes == m.writes + [m.queue[0].packet]
  {
    var id := m.current.value.entityId;
    var m1 := m.(listeners := m.listeners - {id});
    assert Step(m, Ack(id)) == Finish(m1, true);
    var s := m.settled + [Settled(id, true)];
    assert Finish(m1, true) == ProcessQueue(m1.(current := None, settled := s));
  }

  /** One unanswered round: the timer fires, the pause ends, the packet is
      written again. */
  lemma OneRound(m: Machine)
    requires m.current.Some? && m.phase == AwaitingAck && m.current.value.attemptsLeft >= 1
    requires m.current.value.entityId in m.listeners
    ensures Run(m, [Timeout, RetryTick]) ==
      m.(current := Some(m.current.value.(attemptsLeft := m.current.value.attemptsLeft - 1)),
         writes := m.writes + [m.current.value.packet])
  {
    TwoSteps(m, Timeout, RetryTick);
    var id := m.current.value.entityId;
    var m2 := Step(m, Timeout);
    assert m2 == m.(listeners := m.listeners - {id}, phase := WaitingRetry);
    assert Step(m2, RetryTick) == Attempt(m2);
    assert m.listeners - {id} + {id} == m.listeners;
  }

  /** `k` rounds of timeout-then-retry. */
  function Rounds(k: nat): (r: seq<Event>)
    ensures |r| == 2 * k
  {
    if k == 0 then [] else Rounds(k - 1) + [Timeout, RetryTick]
  }

  function Copies(p: seq<Byte>, k: nat): (r: seq<seq<Byte>>)
    ensures |r| == k
    ensures forall i :: 0 <= i < k ==> r[i] == p
  {
    if k == 0 then [] else Copies(p, k - 1) + [p]
  }

  /** Each unanswered round spends one attempt and writes the packet again. */
  lemma {:induction false} UnansweredRounds(m: Machine, k: nat)
    requires m.current.Some? && m.phase == AwaitingAck && m.current.value.entityId in m.listeners
    requires k <= m.current.value.attemptsLeft
    ensures var r := Run(m, Rounds(k));
      && r == m.(current := Some(m.current.value.(attemptsLeft := m.current.value.attemptsLeft - k)),
                 writes := m.writes + Copies(m.current.value.packet, k))
  {
    if k > 0 {
      UnansweredRounds(m, k - 1);
      var job := m.current.value;
      var r1 := Run(m, Rounds(k - 1));
      assert r1 == m.(current := Some(job.(attemptsLeft := job.attemptsLeft - (k - 1))),
                      writes := m.writes + Copies(job.packet, k - 1));
      assert Rounds(k) == Rounds(k - 1) + [Timeout, RetryTick];
      RunConcat(m, Rounds(k - 1), [Timeout, RetryTick]);
      assert Run(m, Rounds(k)) == Run(r1, [Timeout, RetryTick]);
      OneRound(r1);
      assert Copies(job.packet, k) == Copies(job.packet, k - 1) + [job.packet];
      assert m.writes + Copies(job.packet, k - 1) + [job.packet] == m.writes + Copies(job.packet, k);
    }
  }

  /** A command sent to an idle manager is written at once. */
  lemma SendWhenIdle(m: Machine, id: string, p: seq<Byte>, o: Option<RetryOverride>)
    requires m.current.None? && m.queue == [] && m.listeners == {}
    requires EffectiveRetry(m.global, o).attempts >= 0
    ensures Step(m, Send(id, p, o)) ==
      m.(current := Some(Job(id, p, EffectiveRetry(m.global, o), EffectiveRetry(m.global, o).attempts)),
         phase := AwaitingAck,
         listeners := {id},
         writes := m.writes + [p],
         sent := m.sent + [id])
  {
    var retry := EffectiveRetry(m.global, o);
    var job := Job(id, p, retry, retry.attempts + 1);
    assert m.queue + [job] == [job];
  }

  /** The last unanswered round spends nothing more: the job is rejected. */
  lemma FinalRound(m: Machine)
    requires m.current.Some? && m.phase == AwaitingAck && m.current.value.attemptsLeft == 0
    requires m.listeners == {m.current.value.entityId} && m.queue == []
    ensures Run(m, [Timeout, RetryTick]) ==
      m.(current := None, listeners := {}, phase := WaitingRetry,
         settled := m.settled + [Settled(m.current.value.entityId, false)])
  {
    TwoSteps(m, Timeout, RetryTick);
    var m3 := Step(m, Timeout);
    assert m3 == m.(listeners := {}, phase := WaitingRetry);
    assert Step(m3, RetryTick) == Attempt(m3);
    assert Attempt(m3) == Finish(m3, false);
  }

  /** With no acknowledgement a command is written `attempts + 1` times and
      then rejected, after which the manager is idle again. */
  lemma NoAckWritesAttemptsPlusOne(m: Machine, id: string, p: seq<Byte>, o: Option<RetryOverride>)
    requires m.current.None? && m.queue == [] && m.listeners == {}
    requires EffectiveRetry(m.global, o).attempts >= 0
    ensures var a := EffectiveRetry(m.global, o).attempts;
      var r := Run(m, [Send(id, p, o)] + Rounds(a + 1));
      && r.writes == m.writes + Copies(p, a + 1)
      && r.settled == m.settled + [Settled(id, false)]
      && r.current.None?
  {
    var a := EffectiveRetry(m.global, o).attempts;
    var m1 := Step(m, Send(id, p, o));
    var m2 := Run(m1, Rounds(a));
    NoAckRunShape(m, Send(id, p, o), a);
    SentFirst(m, id, p, o);
    RetriedUntilLast(m1, a);
    FinalRound(m2);
    Strings.AppendAssoc(m.writes, [p], Copies(p, a));
    CopiesCons(p, a);
  }

  /** The run is the send, `a` unanswered rounds, and a final one. */
  lemma NoAckRunShape(m: Machine, send: Event, a: nat)
    ensures Run(m, [send] + Rounds(a + 1)) == Run(Run(Step(m, send), Rounds(a)), [Timeout, RetryTick])
  {
    assert Run(m, [send]) == Step(m, send) by {
      assert [send][1..] == [];
    }
    RunConcat(m, [send], Rounds(a + 1));
    RunConcat(Step(m, send), Rounds(a), [Timeout, RetryTick]);
  }

  /** Sent to an idle manager, the job is in flight with all its attempts
      left after one write. */
  lemma SentFirst(m: Machine, id: string, p: seq<Byte>, o: Option<RetryOverride>)
    requires m.current.None? && m.queue == [] && m.listeners == {}
    requires EffectiveRetry(m.global, o).attempts >= 0
    ensures var m1 := Step(m, Send(id, p, o));
      && m1.current == Some(Job(id, p, EffectiveRetry(m.global, o), EffectiveRetry(m.global, o).attempts))
      && m1.phase == AwaitingAck && m1.listeners == {id} && m1.queue == []
      && m1.writes == m.writes + [p] && m1.settled == m.settled
  {
    SendWhenIdle(m, id, p, o);
  }

  /** After `a` unanswered rounds the job has no attempt left and the packet
      was written `a` more times. */
  lemma RetriedUntilLast(m1: Machine, a: nat)
    requires m1.current.Some? && m1.phase == AwaitingAck && m1.listeners == {m1.current.value.entityId}
    requires m1.current.value.attemptsLeft == a && m1.queue == []
    ensures var m2 := Run(m1, Rounds(a));
      && m2.current == Some(m1.current.value.(attemptsLeft := 0))
      && m2.phase == AwaitingAck && m2.listeners == m1.listeners && m2.queue == []
      && m2.writes == m1.writes + Copies(m1.current.value.packet, a) && m2.settled == m1.settled
  {
    UnansweredRounds(m1, a);
  }

  lemma CopiesCons(p: seq<Byte>, a: nat)
    ensures [p] + Copies(p, a) == Copies(p, a + 1)
  {
    var lhs := [p] + Copies(p, a);
    assert forall i :: 0 <= i < a + 1 ==> lhs[i] == p;
  }
}

=== FILE: constants.dfy ===
/** The MQTT topic prefix: the first non-blank entry of a comma-separated
    environment setting, falling back to `homenet2mqtt`. The environment is a
    parameter: `None` is an unset variable. */
module Constants {
  import opened Wrappers
  import opened Strings

  const DefaultTopicPrefix := "homenet2mqtt"

  /** `a || b` on two environment strings: the empty string is falsy. */
  function OrEnv(a: Option<string>, b: string): (r: string)
    ensures a.Some? && |a.value| > 0 ==> r == a.value
    ensures a.None? || |a.value| == 0 ==> r == b
  {
    if a.Some? && |a.value| > 0 then a.value else b
  }

  predicate Blank(s: string) {
    |Trim(s)| == 0
  }

  /** Every part from index `i` on is blank. */
  predicate AllBlankFrom(parts: seq<string>, i: nat) {
    forall j :: i <= j < |parts| ==> Blank(parts[j])
  }

  /** `parts.map(trim).find(v => v.length > 0)`, searching from index `i`. */
  function FirstNonBlank(parts: seq<string>, i: nat): (r: Option<string>)
    ensures r.Some? ==> |r.value| > 0
    decreases |parts| - i
  {
    if i >= |parts| then None
    else if !Blank(parts[i]) then Some(Trim(parts[i]))
    else FirstNonBlank(parts, i + 1)
  }

  /** The search finds the first non-blank part, trimmed. */
  lemma {:induction false} FirstNonBlankFinds(parts: seq<string>, i: nat, k: nat)
    requires i <= k < |parts| && !Blank(parts[k])
    requires forall j :: i <= j < k ==> Blank(parts[j])
    ensures FirstNonBlank(parts, i) == Some(Trim(parts[k]))
    decreases k - i
  {
    if i < k {
      FirstNonBlankFinds(parts, i + 1, k);
    }
  }

  /** The search finds nothing when every part is blank... */
  lemma {:induction false} AllBlankNone(parts: seq<string>, i: nat)
    requires AllBlankFrom(parts, i)
    ensures FirstNonBlank(parts, i).None?
    decreases |parts| - i
  {
    if i < |parts| {
      AllBlankNone(parts, i + 1);
    }
  }

  /** ...and only then: a part that is not blank is found. */
  lemma NoneAllBlank(parts: seq<string>, i: nat, k: nat)
    requires i <= k < |parts| && !Blank(parts[k])
    ensures FirstNonBlank(parts, i).Some?
  {
    var m := FirstNotBlankFrom(parts, i, k);
    FirstNonBlankFinds(parts, i, m);
  }

  /** The first non-blank index from `i`, given that `k` is one. */
  function FirstNotBlankFrom(parts: seq<string>, i: nat, k: nat): (m: nat)
    requires i <= k < |parts| && !Blank(parts[k])
    ensures i <= m <= k && !Blank(parts[m])
    ensures forall j :: i <= j < m ==> Blank(parts[j])
    decreases k - i
  {
    if !Blank(parts[i]) then i else FirstNotBlankFrom(parts, i + 1, k)
  }

  /** What the search finds has no separator and no surrounding whitespace. */
  lemma {:induction false} FirstNonBlankShape(parts: seq<string>, i: nat)
    requires forall j :: 0 <= j < |parts| ==> ',' !in parts[j]
    ensures var r := FirstNonBlank(parts, i);
      r.Some? ==> ',' !in r.value && Trim(r.value) == r.value
    decreases |parts| - i
  {
    if i < |parts| {
      if Blank(parts[i]) {
        FirstNonBlankShape(parts, i + 1);
      } else {
        TrimOfTrimmed(Trim(parts[i]));
      }
    }
  }

  /** The comma-separated setting the prefix is read from. */
  function RawPrefixes(prefixes: Option<string>, prefix: Option<string>): string {
    OrEnv(prefixes, OrEnv(prefix, DefaultTopicPrefix))
  }

  /** `MQTT_TOPIC_PREFIX` from `MQTT_TOPIC_PREFIXES` and `MQTT_TOPIC_PREFIX`. */
  function TopicPrefix(prefixes: Option<string>, prefix: Option<string>): (r: string)
    ensures |r| > 0
  {
    match FirstNonBlank(Split(RawPrefixes(prefixes, prefix), ','), 0)
    case Some(v) => v
    case None => DefaultTopicPrefix
  }

  /** The prefix is one topic level's worth of text: not empty, no comma, no
      surrounding whitespace. */
  lemma TopicPrefixShape(prefixes: Option<string>, prefix: Option<string>)
    ensures var r := TopicPrefix(prefixes, prefix);
      |r| > 0 && ',' !in r && Trim(r) == r
  {
    FirstNonBlankShape(Split(RawPrefixes(prefixes, prefix), ','), 0);
    DefaultIsOneEntry();
  }

  /** The prefix is the first comma-separated entry that is not blank, trimmed. */
  lemma TopicPrefixIsFirstEntry(prefixes: Option<string>, prefix: Option<string>, i: nat)
    requires var parts := Split(RawPrefixes(prefixes, prefix), ',');
      i < |parts| && !Blank(parts[i]) && forall j :: 0 <= j < i ==> Blank(parts[j])
    ensures TopicPrefix(prefixes, prefix) == Trim(Split(RawPrefixes(prefixes, prefix), ',')[i])
  {
    FirstNonBlankFinds(Split(RawPrefixes(prefixes, prefix), ','), 0, i);
  }

  /** When every entry is blank the prefix is `homenet2mqtt`. */
  lemma AllBlankIsDefault(prefixes: Option<string>, prefix: Option<string>)
    requires AllBlankFrom(Split(RawPrefixes(prefixes, prefix), ','), 0)
    ensures TopicPrefix(prefixes, prefix) == DefaultTopicPrefix
  {
    AllBlankNone(Split(RawPrefixes(prefixes, prefix), ','), 0);
  }

  /** A non-empty `MQTT_TOPIC_PREFIXES` decides alone. */
  lemma PrefixesTakePrecedence(prefixes: string, p1: Option<string>, p2: Option<string>)
    requires |prefixes| > 0
    ensures TopicPrefix(Some(prefixes), p1) == TopicPrefix(Some(prefixes), p2)
  {
  }

  /** `homenet2mqtt` is one trimmed entry without a comma. */
  lemma DefaultIsOneEntry()
    ensures ',' !in DefaultTopicPrefix && Trim(DefaultTopicPrefix) == DefaultTopicPrefix
    ensures Split(DefaultTopicPrefix, ',') == [DefaultTopicPrefix]
  {
    var d := DefaultTopicPrefix;
    assert ',' !in d by {
      assert forall m :: 0 <= m < |d| ==> d[m] != ',';
    }
    SplitWithout(d, ',');
    assert !IsSpace(d[0]) && !IsSpace(d[|d| - 1]);
    TrimOfTrimmed(d);
  }

  /** With neither variable set the prefix is `homenet2mqtt`. */
  lemma UnsetIsDefault()
    ensures TopicPrefix(None, None) == DefaultTopicPrefix
  {
    DefaultIsOneEntry();
    assert RawPrefixes(None, None) == DefaultTopicPrefix;
    FirstNonBlankFinds([DefaultTopicPrefix], 0, 0);
  }
}

=== FILE: debug_packets.dfy ===
/** The generator of simulator packet tables: from a manufacturer's bridge
    configuration it derives one packet per device state (the base state
    and its `state_on`/`state_off`/… variants), framed with the receive
    header, checksum and footer. Reading the configuration files and
    writing the generated tables are outside the model. */
module DebugPackets {
  import opened Wrappers
  import opened Bytes
  import opened Strings
  import opened JsonValue
  import Checksum

  // ---------------------------------------------------------------------------
  // The generator's own checksum

  /** The generator's `calculateChecksum(data, type, headerLength)`, where
      `data` is header and body together. */
  function GenChecksum(data: seq<Byte>, checksumType: string, headerLength: nat): (r: Byte)
    ensures checksumType == "add" ==> r == Checksum.Sum(data) % 256
    ensures checksumType == "xor" || checksumType == "xor_add" ==> r == Checksum.XorFold(0, data)
    ensures checksumType !in KnownTypes ==> r == 0
  {
    var dataPart := if headerLength <= |data| then data[headerLength..] else [];
    if checksumType == "add" then Checksum.Sum(data) % 256
    else if checksumType == "add_no_header" then (if |data| == 0 then 0 else Checksum.Sum(data[1..]) % 256)
    else if checksumType == "xor" || checksumType == "xor_add" then Checksum.XorFold(0, data)
    else if checksumType == "samsung_rx" then Checksum.SamsungRxOf(dataPart)
    else if checksumType == "samsung_tx" then Xor(Checksum.XorFold(0, dataPart), 0x80)
    else 0
  }

  /** The names the generator's checksum knows. */
  const KnownTypes: set<string> := {"add", "add_no_header", "xor", "xor_add", "samsung_rx", "samsung_tx"}

  /** On a header followed by a body, `add`, `xor`, `samsung_rx` and
      `samsung_tx` give what the protocol's checksum engine gives, so the
      generated packets pass the bridge's checksum check. */
  lemma AgreesWithEngine(header: seq<Byte>, body: seq<Byte>)
    ensures GenChecksum(header + body, "add", |header|) == Checksum.Calculate(header, body, Checksum.AddSum).value
    ensures GenChecksum(header + body, "xor", |header|) == Checksum.Calculate(header, body, Checksum.XorSum).value
    ensures GenChecksum(header + body, "samsung_rx", |header|) == Checksum.Calculate(header, body, Checksum.SamsungRx).value
    ensures GenChecksum(header + body, "samsung_tx", |header|) == Checksum.Calculate(header, body, Checksum.SamsungTx).value
  {
    assert (header + body)[|header|..] == body;
  }

  /** `add_no_header` leaves out only the first byte, whatever the header's
      length: it matches the engine's `add_no_header` for a one-byte header. */
  lemma AddNoHeaderSkipsFirstByte(first: Byte, rest: seq<Byte>, headerLength: nat)
    ensures GenChecksum([first] + rest, "add_no_header", headerLength) == Checksum.Sum(rest) % 256
    ensures GenChecksum([first] + rest, "add_no_header", 1) == Checksum.Calculate([first], rest, Checksum.AddNoHeader).value
  {
    assert ([first] + rest)[1..] == rest;
  }

  /** With a two-byte header, the generator's `add_no_header` counts the
      second header byte that the engine leaves out. */
  lemma AddNoHeaderDiffersForLongHeader()
    ensures GenChecksum([0xAA, 0x55, 0x01], "add_no_header", 2) == 0x56
    ensures Checksum.Calculate([0xAA, 0x55], [0x01], Checksum.AddNoHeader).value == 0x01
  {
    assert [0xAA, 0x55, 0x01][1..] == [0x55, 0x01];
    assert Checksum.Sum([0x55, 0x01]) == Checksum.Sum([0x55]) + 0x01;
    assert Checksum.Sum([0x01]) == Checksum.Sum([]) + 0x01;
  }

  /** `xor_add` yields only its XOR byte, not the engine's two bytes. */
  lemma XorAddIsOneByte(data: seq<Byte>)
    ensures GenChecksum(data, "xor_add", 0) == GenChecksum(data, "xor", 0)
  {
  }

  // ---------------------------------------------------------------------------
  // Packet bodies

  /** A configuration array read as bytes; `None` when it is not an array of
      numbers in 0..255. */
  function BytesOf(v: Option<Json>): (r: Option<seq<Byte>>)
    ensures r.Some? ==> v.Some? && v.value.JArr? && |r.value| == |v.value.items|
    ensures r.Some? ==> forall k :: 0 <= k < |r.value| ==> v.value.items[k] == JNum(r.value[k])
  {
    if v.Some? && v.value.JArr? && forall k :: 0 <= k < |v.value.items| ==> IsByteNum(v.value.items[k]) then
      Some(seq(|v.value.items|, k requires 0 <= k < |v.value.items| => v.value.items[k].n))
    else None
  }

  predicate IsByteNum(j: Json) {
    j.JNum? && 0 <= j.n < 256
  }

  /** Overwriting from `offset + i` on with `data[i..]`: positions outside
      the packet are skipped, so its length never changes. */
  function Overwrite(modified: seq<Byte>, data: seq<Byte>, offset: int, i: nat): (r: seq<Byte>)
    requires i <= |data|
    ensures |r| == |modified|
    ensures forall p :: 0 <= p < |r| ==>
      r[p] == if offset + i <= p < offset + |data| then data[p - offset] else modified[p]
    decreases |data| - i
  {
    if i == |data| then modified
    else
      var p := offset + i;
      var next := if 0 <= p < |modified| then modified[p := data[i]] else modified;
      Overwrite(next, data, offset, i + 1)
  }

  /** `modConfig.offset || 0`, for a numeric offset. */
  function OffsetOf(offset: Option<Json>): int {
    if TruthyOpt(offset) && offset.value.JNum? then offset.value.n else 0
  }

  /** `applyMod`: `None` without a modification or without its `data`
      array; otherwise the base with the data written in at the offset. */
  function ApplyMod(base: seq<Byte>, modConfig: Option<Json>): (r: Option<seq<Byte>>)
    ensures !TruthyOpt(modConfig) ==> r.None?
    ensures TruthyOpt(modConfig) ==> (r.Some? <==> BytesOf(Member(modConfig.value, "data")).Some?)
    ensures r.Some? ==> |r.value| == |base|
    ensures r.Some? ==> var d := BytesOf(Member(modConfig.value, "data")).value;
      var offset := OffsetOf(Member(modConfig.value, "offset"));
      forall p :: 0 <= p < |base| ==> r.value[p] == if offset <= p < offset + |d| then d[p - offset] else base[p]
  {
    if !TruthyOpt(modConfig) then None
    else
      match BytesOf(Member(modConfig.value, "data"))
      case None => None
      case Some(d) => Some(Overwrite(base, d, OffsetOf(Member(modConfig.value, "offset")), 0))
  }

  datatype Packet = Packet(name: string, body: seq<Byte>)

  /** The variant keys, in the order they are tried, with their name suffixes. */
  const Variants: seq<(string, string)> := [
    ("state_on", "ON"), ("state_off", "OFF"), ("state_open", "OPEN"),
    ("state_closed", "CLOSED"), ("state_heat", "HEAT")
  ]

  /** `deviceConfig.name || 'Unknown'`. */
  function DeviceName(device: Json): string {
    var name := Member(device, "name");
    if TruthyOpt(name) then JsString(name.value) else "Unknown"
  }

  /** The base state's bytes: `state.data` when it is an array. */
  function BaseState(device: Json): Option<seq<Byte>> {
    var state := Member(device, "state");
    if TruthyOpt(state) then BytesOf(Member(state.value, "data")) else None
  }

  /** The variant packets from `Variants[i]` on. */
  function VariantPackets(device: Json, base: seq<Byte>, i: nat): (r: seq<Packet>)
    requires i <= |Variants|
    ensures |r| <= |Variants| - i
    ensures BodiesOfLength(r, |base|)
    decreases |Variants| - i
  {
    if i == |Variants| then []
    else VariantPacket(device, base, i) + VariantPackets(device, base, i + 1)
  }

  /** The packet of `Variants[i]`, when the device has that modification
      and it has a data array. */
  function VariantPacket(device: Json, base: seq<Byte>, i: nat): (r: seq<Packet>)
    requires i < |Variants|
    ensures |r| <= 1
    ensures forall k :: 0 <= k < |r| ==> |r[k].body| == |base|
    ensures HasVariant(device, i) ==> |r| == 1 && r[0].name == VariantName(device, i)
    ensures !HasVariant(device, i) ==> r == []
  {
    var modConfig := Member(device, Variants[i].0);
    if TruthyOpt(modConfig) then
      match ApplyMod(base, modConfig)
      case None => []
      case Some(m) => [Packet(VariantName(device, i), m)]
    else []
  }

  /** The device has the `Variants[i]` modification, with a data array. */
  predicate HasVariant(device: Json, i: nat)
    requires i < |Variants|
  {
    TruthyOpt(Member(device, Variants[i].0)) && BytesOf(Member(Member(device, Variants[i].0).value, "data")).Some?
  }

  /** The name of the packet for `Variants[i]`: the device name and the
      variant's suffix in parentheses. */
  function VariantName(device: Json, i: nat): string
    requires i < |Variants|
  {
    DeviceName(device) + " (" + Variants[i].1 + ")"
  }

  /** Every packet in `ps` has a body of length `n`. */
  predicate BodiesOfLength(ps: seq<Packet>, n: nat) {
    forall k :: 0 <= k < |ps| ==> |ps[k].body| == n
  }

  /** The climate extra: the base with 25 written at the current
      temperature's offset, when that offset is a number below the length. */
  function TemperaturePacket(deviceType: string, device: Json, base: seq<Byte>): (r: seq<Packet>)
    ensures |r| <= 1
    ensures BodiesOfLength(r, |base|)
    ensures deviceType != "climate" ==> r == []
  {
    var current := Member(device, "state_temperature_current");
    if deviceType == "climate" && TruthyOpt(current) && Member(current.value, "offset").Some? then
      var offset := Member(current.value, "offset").value;
      if offset.JNum? && offset.n < |base| then
        [Packet(DeviceName(device) + " (Current 25C)", if offset.n >= 0 then base[offset.n := 25] else base)]
      else []
    else []
  }

  /** `generatePacketsForDevice`: nothing without a base state; otherwise
      the base state first, then the variants in key order, then the
      climate extra. Every packet has the base state's length. */
  function GeneratePacketsForDevice(deviceType: string, device: Json): (r: seq<Packet>)
    ensures BaseState(device).None? ==> r == []
    ensures BaseState(device).Some? ==>
      |r| >= 1 && r[0] == Packet(DeviceName(device) + " (Base State)", BaseState(device).value)
      && |r| <= 2 + |Variants|
      && BodiesOfLength(r, |BaseState(device).value|)
  {
    match BaseState(device)
    case None => []
    case Some(base) =>
      var first := [Packet(DeviceName(device) + " (Base State)", base)];
      var variants := VariantPackets(device, base, 0);
      var extra := TemperaturePacket(deviceType, device, base);
      BodiesConcat(first, variants, |base|);
      BodiesConcat(first + variants, extra, |base|);
      first + variants + extra
  }

  lemma BodiesConcat(a: seq<Packet>, b: seq<Packet>, n: nat)
    requires BodiesOfLength(a, n) && BodiesOfLength(b, n)
    ensures BodiesOfLength(a + b, n)
  {
    assert forall k :: |a| <= k < |a + b| ==> (a + b)[k] == b[k - |a|];
  }

  /** A device that has every variant with a data array yields the base
      state and then the five variants, named in key order. */
  lemma {:induction false} AllVariantsInOrder(device: Json, base: seq<Byte>, i: nat)
    requires i <= |Variants|
    requires forall j :: i <= j < |Variants| ==> HasVariant(device, j)
    ensures |VariantPackets(device, base, i)| == |Variants| - i
    ensures forall k :: 0 <= k < |Variants| - i ==>
      VariantPackets(device, base, i)[k].name == VariantName(device, i + k)
    decreases |Variants| - i
  {
    if i < |Variants| {
      AllVariantsInOrder(device, base, i + 1);
      VariantStep(device, base, i);
      NamedInOrder(VariantPacket(device, base, i), VariantPackets(device, base, i + 1), NameAt(device), i);
    }
  }

  /** The positions from `i` up to `n` where `has` holds, ascending. */
  function Positions(has: nat -> bool, i: nat, n: nat): (r: seq<nat>)
    requires i <= n
    ensures forall k :: 0 <= k < |r| ==> i <= r[k] < n && has(r[k])
    ensures forall k, l :: 0 <= k < l < |r| ==> r[k] < r[l]
    ensures forall j :: i <= j < n && has(j) ==> j in r
    decreases n - i
  {
    if i == n then []
    else if has(i) then [i] + Positions(has, i + 1, n)
    else Positions(has, i + 1, n)
  }

  /** `HasVariant` as a function of the position, false past the end. */
  function HasAt(device: Json): (r: nat -> bool)
    ensures forall j: nat :: j < |Variants| ==> (r(j) <==> HasVariant(device, j))
  {
    (j: nat) => j < |Variants| && HasVariant(device, j)
  }

  /** The positions from `i` on of the variants the device has, ascending. */
  function PresentFrom(device: Json, i: nat): (r: seq<nat>)
    requires i <= |Variants|
    ensures forall k :: 0 <= k < |r| ==> i <= r[k] < |Variants| && HasVariant(device, r[k])
    ensures forall k, l :: 0 <= k < l < |r| ==> r[k] < r[l]
    ensures forall j :: i <= j < |Variants| && HasVariant(device, j) ==> j in r
  {
    Positions(HasAt(device), i, |Variants|)
  }

  /** Packet `k` of `ps` is named for the variant at position `pos[k]`. */
  predicate NamedFor(device: Json, ps: seq<Packet>, pos: seq<nat>) {
    |ps| == |pos| && forall k :: 0 <= k < |pos| ==> pos[k] < |Variants| && ps[k].name == VariantName(device, pos[k])
  }

  /** Whatever variants a device has, the packets from position `i` on are
      one per present variant, named for it, in key order. */
  lemma {:induction false} PresentVariantsInOrder(device: Json, base: seq<Byte>, i: nat)
    requires i <= |Variants|
    ensures NamedFor(device, VariantPackets(device, base, i), PresentFrom(device, i))
    decreases |Variants| - i
  {
    if i < |Variants| {
      PresentVariantsInOrder(device, base, i + 1);
      var here: seq<Packet> := VariantPacket(device, base, i);
      var rest: seq<Packet> := VariantPackets(device, base, i + 1);
      assert VariantPackets(device, base, i) == here + rest;
      if HasVariant(device, i) {
        assert PresentFrom(device, i) == [i] + PresentFrom(device, i + 1);
        assert here == [here[0]];
        NamedCons(device, here[0], rest, i, PresentFrom(device, i + 1));
      } else {
        assert PresentFrom(device, i) == PresentFrom(device, i + 1);
        assert here + rest == rest;
      }
    }
  }

  lemma NamedCons(device: Json, p: Packet, rest: seq<Packet>, j: nat, pos: seq<nat>)
    requires j < |Variants| && p.name == VariantName(device, j) && NamedFor(device, rest, pos)
    ensures NamedFor(device, [p] + rest, [j] + pos)
  {
    forall k | 0 < k < |pos| + 1
      ensures ([j] + pos)[k] < |Variants| && ([p] + rest)[k].name == VariantName(device, ([j] + pos)[k])
    {
      assert ([p] + rest)[k] == rest[k - 1] && ([j] + pos)[k] == pos[k - 1];
    }
  }

  /** `VariantName` as a function of the position, empty past the end. */
  function NameAt(device: Json): (r: nat -> string)
    ensures forall j: nat :: j < |Variants| ==> r(j) == VariantName(device, j)
  {
    (j: nat) => if j < |Variants| then VariantName(device, j) else ""
  }

  lemma VariantStep(device: Json, base: seq<Byte>, i: nat)
    requires i < |Variants| && HasVariant(device, i)
    ensures VariantPackets(device, base, i) == VariantPacket(device, base, i) + VariantPackets(device, base, i + 1)
    ensures |VariantPacket(device, base, i)| == 1 && VariantPacket(device, base, i)[0].name == VariantName(device, i)
  {
  }

  /** Prepending the packet named for position `i` to packets named for
      the positions after it keeps every packet named for its position. */
  lemma NamedInOrder(here: seq<Packet>, rest: seq<Packet>, name: nat -> string, i: nat)
    requires |here| == 1 && here[0].name == name(i)
    requires forall k :: 0 <= k < |rest| ==> rest[k].name == name(i + 1 + k)
    ensures forall k :: 0 <= k < |here + rest| ==> (here + rest)[k].name == name(i + k)
  {
    forall k | 0 <= k < |here + rest| ensures (here + rest)[k].name == name(i + k) {
      if k > 0 {
        assert (here + rest)[k] == rest[k - 1];
        assert i + 1 + (k - 1) == i + k;
      }
    }
  }

  // ---------------------------------------------------------------------------
  // Framing

  /** A full packet: header, body, the checksum unless the type is `none`,
      then the footer. */
  function FullPacket(header: seq<Byte>, body: seq<Byte>, footer: seq<Byte>, checksumType: string): (r: seq<Byte>)
    ensures |r| == |header| + |body| + (if checksumType == "none" then 0 else 1) + |footer|
    ensures r[..|header| + |body|] == header + body
    ensures r[|r| - |footer|..] == footer
    ensures checksumType != "none" ==> r[|header| + |body|] == GenChecksum(header + body, checksumType, |header|)
  {
    var data := header + body;
    var withChecksum := if checksumType != "none" then data + [GenChecksum(data, checksumType, |header|)] else data;
    var r := withChecksum + footer;
    assert r[..|data|] == data;
    r
  }

  /** A packet framed with `add`, `xor`, `samsung_rx` or `samsung_tx` carries
      the checksum the protocol engine computes over its header and body. */
  lemma FramedChecksumVerifies(header: seq<Byte>, body: seq<Byte>, footer: seq<Byte>,
                               name: string, t: Checksum.ChecksumType)
    requires (name, t) in {("add", Checksum.AddSum), ("xor", Checksum.XorSum),
      ("samsung_rx", Checksum.SamsungRx), ("samsung_tx", Checksum.SamsungTx)}
    ensures FullPacket(header, body, footer, name)[|header| + |body|] == Checksum.Calculate(header, body, t).value
  {
    AgreesWithEngine(header, body);
  }

  /** The framing settings of a bridge: `rx_header`, `rx_footer` and
      `rx_checksum` of its packet defaults. */
  datatype Framing = Framing(header: seq<Byte>, footer: seq<Byte>, checksumType: string)

  function FramingOf(bridge: Json): Framing {
    var defaults := GetOrEmpty(Member(bridge, "packet_defaults"));
    var header := Member(defaults, "rx_header");
    var footer := Member(defaults, "rx_footer");
    var checksum := Member(defaults, "rx_checksum");
    Framing(
      if TruthyOpt(header) then BytesOf(header).GetOr([]) else [],
      if TruthyOpt(footer) then BytesOf(footer).GetOr([]) else [],
      if TruthyOpt(checksum) then JsString(checksum.value) else "none")
  }

  /** `x || {}`. */
  function GetOrEmpty(v: Option<Json>): Json {
    if TruthyOpt(v) then v.value else JObj([])
  }

  /** The device types in the order their lists are read. */
  const DeviceTypes: seq<string> := ["light", "fan", "climate", "valve", "switch", "sensor", "button"]

  /** The packets of every device of the listed types from `DeviceTypes[i]` on. */
  function AllPackets(bridge: Json, i: nat): seq<Packet>
    requires i <= |DeviceTypes|
    decreases |DeviceTypes| - i
  {
    if i == |DeviceTypes| then []
    else
      var list := Member(bridge, DeviceTypes[i]);
      var here := if TruthyOpt(list) && list.value.JArr? then DevicesPackets(DeviceTypes[i], list.value.items) else [];
      here + AllPackets(bridge, i + 1)
  }

  function DevicesPackets(deviceType: string, devices: seq<Json>): seq<Packet> {
    if |devices| == 0 then []
    else GeneratePacketsForDevice(deviceType, devices[0]) + DevicesPackets(deviceType, devices[1..])
  }

  /** The generated table of one manufacturer: every packet framed. */
  function PacketTable(bridge: Json): (r: seq<seq<Byte>>)
    ensures |r| == |AllPackets(bridge, 0)|
    ensures var f := FramingOf(bridge);
      forall k :: 0 <= k < |r| ==> r[k] == FullPacket(f.header, AllPackets(bridge, 0)[k].body, f.footer, f.checksumType)
  {
    var f := FramingOf(bridge);
    var packets := AllPackets(bridge, 0);
    seq(|packets|, k requires 0 <= k < |packets| => FullPacket(f.header, packets[k].body, f.footer, f.checksumType))
  }
}

=== FILE: devices.dfy ===
/** Devices: the base device's state-pattern test and state merge, and the
    light, fan and valve variants that turn packets into state updates and
    commands into byte templates. The generic device that these variants
    extend (expression-based parsing and command building) is outside this
    model; what it returns is a parameter. */
module Devices {
  import opened Wrappers
  import opened Bytes
  import opened JsonValue
  import opened PacketMatching

  datatype Kind = Light | Fan | Valve

  /** The parts of a device's configuration these operations read. Each
      `Option<StateSchema>` is a schema that may be missing; each command
      template is the `data` array of `command_on`, `command_off`, … */
  datatype DeviceConfig = DeviceConfig(
    id: string,
    name: string,
    state: Option<StateSchema>,
    stateOn: Option<StateSchema>,
    stateOff: Option<StateSchema>,
    stateOpen: Option<StateSchema>,
    stateClosed: Option<StateSchema>,
    stateSpeed: Option<nat>,
    commandOn: Option<seq<Byte>>,
    commandOff: Option<seq<Byte>>,
    commandOpen: Option<seq<Byte>>,
    commandClose: Option<seq<Byte>>)

  /** A device: its configuration, the length of the protocol's receive
      header, and its current state object. */
  datatype Device = Device(kind: Kind, config: DeviceConfig, headerLength: nat, state: Entries)

  /** What the generic device's `parseData` returns; `None` is `null`. */
  type ParseOracle = seq<Byte> -> Option<Entries>

  /** What the generic device's `constructCommand` returns; `None` is `null`. */
  type CommandOracle = (string, Option<Json>) -> Option<seq<Byte>>

  // ---------------------------------------------------------------------------
  // Masks

  /** Which of the three byte-comparison rules in the device code applies. */
  datatype MaskRule =
    | Exact       // light: `p !== d`
    | BaseRule    // base device: array entry, else scalar, else 0xFF
    | SchemaRule  // fan and valve: `schema.mask ? schema.mask[i] : 0xFF`

  /** The mask byte ANDed on both sides at index `i`. A missing array entry,
      and indexing into a number, give `undefined`, and `x & undefined` is 0. */
  function EffectiveMask(rule: MaskRule, mask: Mask, i: nat): Byte {
    match rule
    case Exact => 0xFF
    case BaseRule =>
      (match mask
       case NoMask => 0xFF
       case NullMask => 0xFF
       case Scalar(m) => if m == 0 then 0xFF else m
       case PerByte(ms) => if i < |ms| && ms[i].Some? then ms[i].value else 0)
    case SchemaRule =>
      (match mask
       case NoMask => 0xFF
       case NullMask => 0xFF
       case Scalar(m) => if m == 0 then 0xFF else 0
       case PerByte(ms) => if i < |ms| && ms[i].Some? then ms[i].value else 0)
  }

  predicate MaskedEqual(rule: MaskRule, mask: Mask, packet: seq<Byte>, offset: nat, data: seq<Byte>)
    requires InRange(packet, offset, data)
  {
    forall i :: 0 <= i < |data| ==>
      And(packet[offset + i], EffectiveMask(rule, mask, i)) == And(data[i], EffectiveMask(rule, mask, i))
  }

  /** A schema's bytes at `offset + extra`, compared under `rule`; false for a
      missing schema or `data`, or a packet too short to hold them. */
  function SchemaMatches(rule: MaskRule, s: Option<StateSchema>, packet: seq<Byte>, extra: nat): (r: bool)
    ensures r ==> s.Some? && s.value.data.Some?
    ensures r ==> InRange(packet, s.value.offset + extra, s.value.data.value)
    ensures s.Some? && s.value.data.Some? && s.value.data.value == [] && InRange(packet, s.value.offset + extra, []) ==> r
  {
    if s.None? || s.value.data.None? then false
    else
      var offset := s.value.offset + extra;
      var data := s.value.data.value;
      InRange(packet, offset, data) && MaskedEqual(rule, s.value.mask, packet, offset, data)
  }

  // ---------------------------------------------------------------------------
  // Base device

  /** `Device.matchesPacket`: the `state` schema tested at its offset plus the
      receive-header length. */
  function MatchesPacket(d: Device, packet: seq<Byte>): (r: bool)
    ensures d.config.state.None? || d.config.state.value.data.None? ==> !r
    ensures r ==> d.config.state.value.offset + d.headerLength + |d.config.state.value.data.value| <= |packet|
  {
    SchemaMatches(BaseRule, d.config.state, packet, d.headerLength)
  }

  /** Where the base rule and the packet matcher's rule give the same mask:
      no mask, a non-zero scalar mask, or an array mask with an entry for
      every byte. (A scalar 0 is falsy for the base device, which then
      compares exactly; the packet matcher ANDs with 0 and accepts. A `null`
      mask is falsy too, and the packet matcher compares nothing under it.) */
  predicate MaskCoversData(mask: Mask, n: nat) {
    match mask
    case NoMask => true
    case NullMask => false
    case Scalar(m) => m != 0
    case PerByte(ms) => |ms| >= n && forall i :: 0 <= i < n ==> ms[i].Some?
  }

  /** For a plain schema (not inverted, no guard, no exceptions) whose mask
      covers its data, the base device's test agrees with the general packet
      matcher run with the header length as base offset and empty data allowed. */
  lemma MatchesPacketAgrees(d: Device, packet: seq<Byte>, guard: GuardOracle)
    requires d.config.state.Some? && HasData(d.config.state.value)
    requires var s := d.config.state.value;
      !s.inverted && s.guard.None? && s.except == [] && MaskCoversData(s.mask, |s.data.value|)
    ensures MatchesPacket(d, packet) ==
      PacketMatching.Matches(d.config.state.value, packet, MatchOptions(d.headerLength, true, None), guard)
  {
    var s := d.config.state.value;
    var offset := s.offset + d.headerLength;
    var data := s.data.value;
    if InRange(packet, offset, data) {
      forall i | 0 <= i < |data|
        ensures (And(packet[offset + i], EffectiveMask(BaseRule, s.mask, i)) == And(data[i], EffectiveMask(BaseRule, s.mask, i)))
          == ByteMatches(s.mask, i, packet[offset + i], data[i])
      {
        AndFull(packet[offset + i]);
        AndFull(data[i]);
      }
    }
    assert MatchesPacket(d, packet) == Structural(s, packet, d.headerLength);
    assert AnyExceptMatches(s, packet, MatchOptions(d.headerLength, true, None), guard, 0) == false;
  }

  /** An array mask shorter than the data lets every byte past its end match:
      the base device ANDs those bytes with `undefined`, that is with 0. */
  lemma ShortArrayMaskMatchesAnything(d: Device, packet: seq<Byte>)
    requires d.config.state.Some? && d.config.state.value.data.Some?
    requires d.config.state.value.mask == PerByte([])
    requires d.config.state.value.offset + d.headerLength + |d.config.state.value.data.value| <= |packet|
    ensures MatchesPacket(d, packet)
  {
    var s := d.config.state.value;
    forall i | 0 <= i < |s.data.value|
      ensures And(packet[s.offset + d.headerLength + i], 0) == And(s.data.value[i], 0)
    {
      AndZero(packet[s.offset + d.headerLength + i]);
      AndZero(s.data.value[i]);
    }
  }

  /** `updateState`: a shallow merge in which the new keys win. */
  function UpdateState(d: Device, newState: Entries): (r: Device)
    ensures r.kind == d.kind && r.config == d.config && r.headerLength == d.headerLength
    ensures UniqueKeys(newState) ==>
      forall k :: Get(r.state, k) == (if HasKey(newState, k) then Get(newState, k) else Get(d.state, k))
  {
    if UniqueKeys(newState) then
      SpreadGetAll(d.state, newState);
      d.(state := Spread(d.state, newState))
    else d.(state := Spread(d.state, newState))
  }

  /** Merging the same update twice has the effect of merging it once. */
  lemma UpdateStateIdempotent(d: Device, newState: Entries, k: string)
    requires UniqueKeys(newState)
    ensures Get(UpdateState(UpdateState(d, newState), newState).state, k) == Get(UpdateState(d, newState).state, k)
  {
  }

  // ---------------------------------------------------------------------------
  // Variants

  function MatchRule(kind: Kind): MaskRule {
    if kind == Light then Exact else SchemaRule
  }

  /** The schemas behind the two labelled states of a variant. */
  function FirstSchema(d: Device): Option<StateSchema> {
    if d.kind == Valve then d.config.stateOpen else d.config.stateOn
  }

  function SecondSchema(d: Device): Option<StateSchema> {
    if d.kind == Valve then d.config.stateClosed else d.config.stateOff
  }

  function FirstLabel(kind: Kind): string {
    if kind == Valve then "OPEN" else "ON"
  }

  function SecondLabel(kind: Kind): string {
    if kind == Valve then "CLOSED" else "OFF"
  }

  /** The variant's own schema test (no header adjustment). */
  function VariantMatches(d: Device, s: Option<StateSchema>, packet: seq<Byte>): bool {
    SchemaMatches(MatchRule(d.kind), s, packet, 0)
  }

  /** Fills in `state` from the two labelled schemas unless it is already truthy. */
  function WithLabelledState(d: Device, updates: Entries, packet: seq<Byte>): (r: Entries)
    ensures TruthyOpt(Get(updates, "state")) ==> r == updates
    ensures !TruthyOpt(Get(updates, "state")) && VariantMatches(d, FirstSchema(d), packet) ==>
      Get(r, "state") == Some(JStr(FirstLabel(d.kind)))
    ensures (!TruthyOpt(Get(updates, "state")) && !VariantMatches(d, FirstSchema(d), packet)
      && VariantMatches(d, SecondSchema(d), packet)) ==>
      Get(r, "state") == Some(JStr(SecondLabel(d.kind)))
    ensures !VariantMatches(d, FirstSchema(d), packet) && !VariantMatches(d, SecondSchema(d), packet) ==>
      r == updates
    ensures forall k :: k != "state" ==> Get(r, k) == Get(updates, k)
    ensures |r| >= |updates|
  {
    if TruthyOpt(Get(updates, "state")) then updates
    else if VariantMatches(d, FirstSchema(d), packet) then Set(updates, "state", JStr(FirstLabel(d.kind)))
    else if VariantMatches(d, SecondSchema(d), packet) then Set(updates, "state", JStr(SecondLabel(d.kind)))
    else updates
  }

  /** The fan's `extractValue`: the raw byte at the speed offset, when present. */
  function ExtractValue(offset: Option<nat>, packet: seq<Byte>): (r: Option<Byte>)
    ensures r.Some? <==> offset.Some? && offset.value < |packet|
    ensures r.Some? ==> r.value == packet[offset.value]
  {
    if offset.None? then None
    else if |packet| < offset.value + 1 then None
    else Some(packet[offset.value])
  }

  /** Fills in `speed` (fan only) unless it is already truthy. */
  function WithSpeed(d: Device, updates: Entries, packet: seq<Byte>): (r: Entries)
    ensures d.kind != Fan || TruthyOpt(Get(updates, "speed")) ==> r == updates
    ensures d.kind == Fan && !TruthyOpt(Get(updates, "speed")) && ExtractValue(d.config.stateSpeed, packet).Some? ==>
      Get(r, "speed") == Some(JNum(ExtractValue(d.config.stateSpeed, packet).value))
    ensures ExtractValue(d.config.stateSpeed, packet).None? ==> r == updates
    ensures forall k :: k != "speed" ==> Get(r, k) == Get(updates, k)
    ensures |r| >= |updates|
  {
    if d.kind == Fan && !TruthyOpt(Get(updates, "speed")) && d.config.stateSpeed.Some? then
      match ExtractValue(d.config.stateSpeed, packet)
      case None => updates
      case Some(v) => Set(updates, "speed", JNum(v))
    else updates
  }

  /** `parseData` of the three variants. Fan and valve first require the base
      device's `matchesPacket`; the light does not. */
  function ParseData(d: Device, base: ParseOracle, packet: seq<Byte>): (r: Option<Entries>)
    ensures d.kind != Light && !MatchesPacket(d, packet) ==> r.None?
    ensures r.Some? ==> |r.value| > 0
    ensures r.Some? ==> forall k :: k != "state" && k != "speed" ==>
      Get(r.value, k) == Get(base(packet).GetOr([]), k)
    ensures r.None? && (d.kind == Light || MatchesPacket(d, packet)) ==>
      (base(packet).GetOr([]) == [] && !VariantMatches(d, FirstSchema(d), packet)
       && !VariantMatches(d, SecondSchema(d), packet)
       && (d.kind == Fan ==> ExtractValue(d.config.stateSpeed, packet).None?))
  {
    if d.kind != Light && !MatchesPacket(d, packet) then None
    else
      var updates := base(packet).GetOr([]);
      var withState := WithLabelledState(d, updates, packet);
      var all := WithSpeed(d, withState, packet);
      if |all| > 0 then Some(all) else None
  }

  /** `constructCommand` of the three variants: what the generic device builds
      wins; otherwise the template named by the command, copied. */
  function ConstructCommand(d: Device, base: CommandOracle, name: string, value: Option<Json>): (r: Option<seq<Byte>>)
    ensures base(name, value).Some? ==> r == base(name, value)
    ensures r.Some? && base(name, value).None? ==>
      if d.kind == Valve then
        (name == "open" && r == d.config.commandOpen) || (name == "close" && r == d.config.commandClose)
      else
        (name == "on" && r == d.config.commandOn) || (name == "off" && r == d.config.commandOff)
    ensures base(name, value).None? && d.kind != Valve && name == "on" ==> r == d.config.commandOn
    ensures base(name, value).None? && d.kind != Valve && name == "off" ==> r == d.config.commandOff
    ensures base(name, value).None? && d.kind == Valve && name == "open" ==> r == d.config.commandOpen
    ensures base(name, value).None? && d.kind == Valve && name == "close" ==> r == d.config.commandClose
  {
    var cmd := base(name, value);
    if cmd.Some? then cmd
    else if d.kind == Valve then
      if name == "open" && d.config.commandOpen.Some? then d.config.commandOpen
      else if name == "close" && d.config.commandClose.Some? then d.config.commandClose
      else None
    else
      if name == "on" && d.config.commandOn.Some? then d.config.commandOn
      else if name == "off" && d.config.commandOff.Some? then d.config.commandOff
      else None
  }

  // ---------------------------------------------------------------------------
  // Relations between the rules

  /** The light's exact comparison is the general packet matcher with no mask,
      no base offset and empty data allowed, for a plain schema. */
  lemma LightAgreesWithMatcher(s: StateSchema, packet: seq<Byte>, guard: GuardOracle)
    requires HasData(s) && !s.inverted && s.guard.None? && s.except == []
    ensures SchemaMatches(Exact, Some(s), packet, 0) ==
      PacketMatching.Matches(s.(mask := NoMask), packet, MatchOptions(0, true, None), guard)
  {
    var t := s.(mask := NoMask);
    if InRange(packet, s.offset, s.data.value) {
      forall i | 0 <= i < |s.data.value|
        ensures (And(packet[s.offset + i], 0xFF) == And(s.data.value[i], 0xFF)) == (packet[s.offset + i] == s.data.value[i])
      {
        AndFull(packet[s.offset + i]);
        AndFull(s.data.value[i]);
      }
    }
    assert SchemaMatches(Exact, Some(s), packet, 0) == Structural(t, packet, 0);
    assert AnyExceptMatches(t, packet, MatchOptions(0, true, None), guard, 0) == false;
  }

  /** Fan and valve index a scalar mask as though it were an array, so a
      non-zero scalar mask accepts every packet long enough to hold the data. */
  lemma ScalarMaskAcceptsAll(s: StateSchema, packet: seq<Byte>, m: Byte)
    requires s.data.Some? && s.mask == Scalar(m) && m != 0
    requires InRange(packet, s.offset, s.data.value)
    ensures SchemaMatches(SchemaRule, Some(s), packet, 0)
  {
    forall i | 0 <= i < |s.data.value|
      ensures And(packet[s.offset + i], 0) == And(s.data.value[i], 0)
    {
      AndZero(packet[s.offset + i]);
      AndZero(s.data.value[i]);
    }
  }

  /** Without a mask, fan and valve compare exactly, as the light does. */
  lemma NoMaskIsExact(s: StateSchema, packet: seq<Byte>)
    requires s.mask == NoMask
    ensures SchemaMatches(SchemaRule, Some(s), packet, 0) == SchemaMatches(Exact, Some(s), packet, 0)
  {
  }

  // ---------------------------------------------------------------------------
  // Examples

  function BareConfig(id: string): DeviceConfig {
    DeviceConfig(id, id, None, None, None, None, None, None, None, None, None, None)
  }

  function PlainSchema(offset: nat, data: seq<Byte>, mask: Mask): StateSchema {
    StateSchema(offset, Some(data), mask, false, None, [])
  }

  /** The base `matchesPacket`, which every kind inherits (a fan's here): a
      state with a per-byte mask matches a received frame whose first byte
      differs from the pattern only in masked-out bits. */
  lemma MaskedStateMatches(packet: seq<Byte>)
    requires |packet| == 8 && packet[0] == 0x82 && packet[1] == 0x80 && packet[2] == 0x04
    ensures MatchesPacket(Device(Fan, BareConfig("fan_1").(state :=
      Some(PlainSchema(0, [0x80, 0x00, 0x04], PerByte([Some(0xF9), Some(0x00), Some(0xFF)])))), 0, []), packet)
  {
    assert And(0x82, 0xF9) == 0x80 == And(0x80, 0xF9);
    AndZero(0x80);
    AndZero(0x00);
    AndFull(0x04);
  }

  function ExampleLight(): Device {
    Device(Light, BareConfig("light_1").(
      stateOn := Some(PlainSchema(1, [0x01], NoMask)),
      stateOff := Some(PlainSchema(1, [0x00], NoMask))), 0, [])
  }

  /** With nothing from the generic device, a light reports ON for a frame
      carrying 0x01 at offset 1. */
  lemma LightReportsOn(packet: seq<Byte>)
    requires |packet| == 5 && packet[0] == 0xA0 && packet[1] == 0x01
    ensures ParseData(ExampleLight(), _ => None, packet) == Some([("state", JStr("ON"))])
  {
    var d := ExampleLight();
    AndFull(0x01);
    assert VariantMatches(d, FirstSchema(d), packet);
    assert Get([], "state").None?;
    assert Set([], "state", JStr("ON")) == [("state", JStr("ON"))];
    assert WithSpeed(d, [("state", JStr("ON"))], packet) == [("state", JStr("ON"))];
  }

  /** ... and OFF for a frame carrying 0x00 there. */
  lemma LightReportsOff(packet: seq<Byte>)
    requires |packet| == 5 && packet[0] == 0xA0 && packet[1] == 0x00
    ensures ParseData(ExampleLight(), _ => None, packet) == Some([("state", JStr("OFF"))])
  {
    var d := ExampleLight();
    AndFull(0x01);
    AndFull(0x00);
    assert !MaskedEqual(Exact, NoMask, packet, 1, [0x01]) by {
      assert And(packet[1 + 0], 0xFF) != And([0x01][0], 0xFF);
    }
    assert !VariantMatches(d, FirstSchema(d), packet);
    assert VariantMatches(d, SecondSchema(d), packet);
    assert Get([], "state").None?;
    assert Set([], "state", JStr("OFF")) == [("state", JStr("OFF"))];
    assert WithSpeed(d, [("state", JStr("OFF"))], packet) == [("state", JStr("OFF"))];
  }
}

=== FILE: discovery_manager.dfy ===
/** Home Assistant MQTT discovery: one retained-less config message per
    configured entity, and a re-run whenever Home Assistant reports
    `online`. The MQTT client is replaced by the list of publications made. */
module DiscoveryManager {
  import opened Wrappers
  import opened Strings
  import opened JsonValue

  const DiscoveryPrefix := "homeassistant"
  const BridgeStatusTopic := "homenet/bridge/status"
  const HaStatusTopic := "homeassistant/status"

  /** The entity lists of the bridge configuration; an absent list is empty.
      Each entity is its configuration object. */
  datatype BridgeConfig = BridgeConfig(
    light: seq<Entries>,
    climate: seq<Entries>,
    valve: seq<Entries>,
    button: seq<Entries>,
    sensor: seq<Entries>,
    fan: seq<Entries>,
    switch_: seq<Entries>,
    binarySensor: seq<Entries>)

  datatype Publication = Publication(topic: string, payload: string, retain: bool)

  /** `{ ...e, type }`. */
  function Tag(entities: seq<Entries>, typeName: string): (r: seq<Entries>)
    ensures |r| == |entities|
    ensures forall i :: 0 <= i < |r| ==> r[i] == Set(entities[i], "type", JStr(typeName))
  {
    if |entities| == 0 then [] else [Set(entities[0], "type", JStr(typeName))] + Tag(entities[1..], typeName)
  }

  /** The entity list of `discover`, each entry tagged with its discovery
      type; valves are announced as switches. */
  function Entities(cfg: BridgeConfig): (r: seq<Entries>)
    ensures |r| == |cfg.light| + |cfg.climate| + |cfg.valve| + |cfg.button| + |cfg.sensor|
      + |cfg.fan| + |cfg.switch_| + |cfg.binarySensor|
  {
    FirstEntities(cfg) + LastEntities(cfg)
  }

  /** Lights, climates and valves. */
  function FirstEntities(cfg: BridgeConfig): seq<Entries> {
    Tag(cfg.light, "light") + Tag(cfg.climate, "climate") + Tag(cfg.valve, "switch")
  }

  /** Buttons, sensors, fans, switches and binary sensors. */
  function LastEntities(cfg: BridgeConfig): seq<Entries> {
    Tag(cfg.button, "button") + Tag(cfg.sensor, "sensor") + Tag(cfg.fan, "fan")
    + Tag(cfg.switch_, "switch") + Tag(cfg.binarySensor, "binary_sensor")
  }

  predicate HasCommandTopic(typeName: string) {
    typeName == "light" || typeName == "switch" || typeName == "fan" || typeName == "climate" || typeName == "button"
  }

  function UniqueId(entity: Entries): string {
    "homenet_" + TemplateString(Get(entity, "id"))
  }

  function ConfigTopic(entity: Entries): string {
    DiscoveryPrefix + "/" + TemplateString(Get(entity, "type")) + "/" + UniqueId(entity) + "/config"
  }

  /** The entity's own configuration less `id`, `name` and `type`. */
  function Rest(entity: Entries): (r: Entries)
    ensures UniqueKeys(entity) ==> UniqueKeys(r)
    ensures forall k :: k != "id" && k != "name" && k != "type" ==> Get(r, k) == Get(entity, k)
    ensures Get(r, "id").None? && Get(r, "name").None? && Get(r, "type").None?
  {
    Remove(Remove(Remove(entity, "id"), "name"), "type")
  }

  /** The fixed fields of the payload, before the entity's own configuration
      is spread over them. */
  function Base(entity: Entries): Entries {
    var name := Get(entity, "name");
    var id := TemplateString(Get(entity, "id"));
    var uniqueId := UniqueId(entity);
    [ ("name", if TruthyOpt(name) then name.value else JNull),
      ("unique_id", JStr(uniqueId)),
      ("state_topic", JStr("homenet/" + id + "/state")),
      ("availability", JArr([JObj([("topic", JStr(BridgeStatusTopic))])])),
      ("device", JObj(Device(entity)))]
  }

  /** The payload's `device` block. */
  function Device(entity: Entries): Entries {
    var name := Get(entity, "name");
    [ ("identifiers", JArr([JStr(UniqueId(entity))])),
      ("name", if TruthyOpt(name) then name.value else JStr("Device " + TemplateString(Get(entity, "id")))),
      ("manufacturer", JStr("RS485 Bridge")),
      ("model", Get(entity, "type").GetOr(JNull))]
  }

  /** The payload object before `JSON.stringify`: the command topic, where
      the type has one, is set last and so overrides the configuration. */
  function Payload(entity: Entries): (r: Entries)
    ensures HasCommandTopic(TemplateString(Get(entity, "type"))) ==>
      Get(r, "command_topic") == Some(JStr("homenet/" + TemplateString(Get(entity, "id")) + "/set"))
    ensures forall k :: k != "command_topic" ==> Get(r, k) == Get(Spread(Base(entity), Rest(entity)), k)
    ensures !HasCommandTopic(TemplateString(Get(entity, "type"))) ==>
      Get(r, "command_topic") == Get(Spread(Base(entity), Rest(entity)), "command_topic")
  {
    var payload := Spread(Base(entity), Rest(entity));
    if HasCommandTopic(TemplateString(Get(entity, "type"))) then
      Set(payload, "command_topic", JStr("homenet/" + TemplateString(Get(entity, "id")) + "/set"))
    else payload
  }

  /** Where the fixed fields stand. */
  lemma BaseFields(entity: Entries)
    ensures Get(Base(entity), "name") == Some(if TruthyOpt(Get(entity, "name")) then Get(entity, "name").value else JNull)
    ensures Get(Base(entity), "device") == Some(JObj(Device(entity)))
    ensures Get(Device(entity), "name") ==
      Some(if TruthyOpt(Get(entity, "name")) then Get(entity, "name").value else JStr("Device " + TemplateString(Get(entity, "id"))))
  {
    var b := Base(entity);
    assert IndexOf(b, "name") == Some(0);
    assert IndexOf(b, "device") == Some(4) by {
      assert IndexOf(b[4..], "device") == Some(0);
      assert b[3..][1..] == b[4..];
      assert IndexOf(b[3..], "device") == Some(1);
      assert b[2..][1..] == b[3..];
      assert IndexOf(b[2..], "device") == Some(2);
      assert b[1..][1..] == b[2..];
      assert IndexOf(b[1..], "device") == Some(3);
    }
    var d := Device(entity);
    assert IndexOf(d, "name") == Some(1);
  }

  /** Keys of the entity's own configuration override the fixed fields;
      the fixed fields it does not mention are kept. */
  lemma PayloadFields(entity: Entries, k: string)
    requires UniqueKeys(entity) && k != "command_topic"
    ensures HasKey(Rest(entity), k) ==> Get(Payload(entity), k) == Get(entity, k)
    ensures !HasKey(Rest(entity), k) ==> Get(Payload(entity), k) == Get(Base(entity), k)
  {
    var rest := Rest(entity);
    SpreadGet(Base(entity), rest, k);
    if HasKey(rest, k) {
      assert k != "id" && k != "name" && k != "type" by {
        assert Get(rest, "id").None? && Get(rest, "name").None? && Get(rest, "type").None?;
        GetFound(rest, k);
      }
    }
  }

  /** `publishDiscovery(entity)`. */
  function PublishDiscovery(entity: Entries): (r: Publication)
    ensures r.topic == ConfigTopic(entity) && !r.retain
    ensures r.payload == Stringify(JObj(Payload(entity)))
  {
    Publication(ConfigTopic(entity), Stringify(JObj(Payload(entity))), false)
  }

  function PublishAll(entities: seq<Entries>): (r: seq<Publication>)
    ensures |r| == |entities|
    ensures forall i :: 0 <= i < |r| ==> r[i] == PublishDiscovery(entities[i])
  {
    seq(|entities|, i requires 0 <= i < |entities| => PublishDiscovery(entities[i]))
  }

  /** `discover()`: exactly one config message per configured entity, in the
      order of the entity lists. */
  function Discover(cfg: BridgeConfig): (r: seq<Publication>)
    ensures |r| == |Entities(cfg)|
    ensures forall i :: 0 <= i < |r| ==> r[i] == PublishDiscovery(Entities(cfg)[i])
  {
    PublishAll(Entities(cfg))
  }

  /** `setup()`: the bridge announces itself online, retained. */
  function Setup(published: seq<Publication>): (r: seq<Publication>)
    ensures r == published + [Publication(BridgeStatusTopic, "online", true)]
  {
    published + [Publication(BridgeStatusTopic, "online", true)]
  }

  /** A message on `homeassistant/status`: discovery runs again only for
      exactly `online`. */
  function OnHaStatus(cfg: BridgeConfig, message: string, published: seq<Publication>): (r: seq<Publication>)
    ensures message == "online" ==> r == published + Discover(cfg)
    ensures message != "online" ==> r == published
  {
    if message == "online" then published + Discover(cfg) else published
  }

  // ---------------------------------------------------------------------------
  // Properties

  /** The config topic splits into the discovery prefix, the type, the unique
      id and `config` when neither the type nor the id contains a slash. */
  lemma ConfigTopicParts(entity: Entries)
    requires '/' !in TemplateString(Get(entity, "type")) && '/' !in TemplateString(Get(entity, "id"))
    ensures Split(ConfigTopic(entity), '/') ==
      [DiscoveryPrefix, TemplateString(Get(entity, "type")), UniqueId(entity), "config"]
  {
    var t := TemplateString(Get(entity, "type"));
    var u := UniqueId(entity);
    NoSlashInLiterals();
    assert '/' !in u by {
      NoSlashAfter("homenet_", TemplateString(Get(entity, "id")));
    }
    ConfigTopicShape(t, u);
    SplitFour(DiscoveryPrefix, t, u, "config", '/');
  }

  lemma ConfigTopicShape(t: string, u: string)
    ensures DiscoveryPrefix + "/" + t + "/" + u + "/config" == DiscoveryPrefix + ['/'] + t + ['/'] + u + ['/'] + "config"
  {
    assert "/config" == ['/'] + "config";
  }

  lemma NoSlashInLiterals()
    ensures '/' !in DiscoveryPrefix && '/' !in "config" && '/' !in "homenet_"
  {
    assert forall m :: 0 <= m < |DiscoveryPrefix| ==> DiscoveryPrefix[m] != '/';
    assert forall m :: 0 <= m < 6 ==> "config"[m] != '/';
    assert forall m :: 0 <= m < 8 ==> "homenet_"[m] != '/';
  }

  lemma NoSlashAfter(a: string, b: string)
    requires '/' !in a && '/' !in b
    ensures '/' !in a + b
  {
  }

  /** The `i`-th valve is entity number `|light| + |climate| + i`, tagged
      `switch`. */
  lemma {:induction false} ValveEntity(cfg: BridgeConfig, i: nat)
    requires i < |cfg.valve|
    ensures |cfg.light| + |cfg.climate| + i < |Entities(cfg)|
    ensures Entities(cfg)[|cfg.light| + |cfg.climate| + i] == Set(cfg.valve[i], "type", JStr("switch"))
  {
    var k := |cfg.light| + |cfg.climate| + i;
    FirstEntityAt(cfg, k);
    ValveInFirst(cfg, i);
  }

  lemma {:induction false} FirstEntityAt(cfg: BridgeConfig, k: nat)
    requires k < |FirstEntities(cfg)|
    ensures k < |Entities(cfg)| && Entities(cfg)[k] == FirstEntities(cfg)[k]
  {
  }

  lemma {:induction false} ValveInFirst(cfg: BridgeConfig, i: nat)
    requires i < |cfg.valve|
    ensures |cfg.light| + |cfg.climate| + i < |FirstEntities(cfg)|
    ensures FirstEntities(cfg)[|cfg.light| + |cfg.climate| + i] == Set(cfg.valve[i], "type", JStr("switch"))
  {
    var valves := Tag(cfg.valve, "switch");
    assert FirstEntities(cfg) == (Tag(cfg.light, "light") + Tag(cfg.climate, "climate")) + valves;
  }

  /** An entity tagged `switch` gets a `homeassistant/switch/...` topic and a
      command topic. */
  lemma {:induction false} SwitchEntity(e: Entries)
    requires Get(e, "type") == Some(JStr("switch"))
    ensures StartsWith(ConfigTopic(e), "homeassistant/switch/")
    ensures Get(Payload(e), "command_topic") == Some(JStr("homenet/" + TemplateString(Get(e, "id")) + "/set"))
  {
    assert TemplateString(Get(e, "type")) == "switch";
    var t := ConfigTopic(e);
    assert t == "homeassistant/switch/" + (UniqueId(e) + "/config");
  }

  /** A valve is announced under the `switch` component, with a command topic. */
  lemma {:induction false} ValvesAnnouncedAsSwitches(cfg: BridgeConfig, i: nat)
    requires i < |cfg.valve|
    ensures var k := |cfg.light| + |cfg.climate| + i;
      && k < |Discover(cfg)|
      && StartsWith(Discover(cfg)[k].topic, "homeassistant/switch/")
      && Get(Payload(Entities(cfg)[k]), "command_topic").Some?
  {
    var k := |cfg.light| + |cfg.climate| + i;
    ValveEntity(cfg, i);
    var e := Entities(cfg)[k];
    assert Get(e, "type") == Some(JStr("switch"));
    SwitchEntity(e);
    assert Discover(cfg)[k].topic == ConfigTopic(e);
  }

  /** A sensor gets no command topic unless its own configuration has one. */
  lemma SensorHasNoCommandTopic(entity: Entries)
    requires UniqueKeys(entity) && Get(entity, "type") == Some(JStr("sensor"))
    requires !HasKey(entity, "command_topic")
    ensures Get(Payload(entity), "command_topic").None?
  {
    var rest := Rest(entity);
    assert TemplateString(Get(entity, "type")) == "sensor";
    assert Get(rest, "command_topic") == Get(entity, "command_topic");
    GetFound(entity, "command_topic");
    GetFound(rest, "command_topic");
    BaseLacks(entity, "command_topic");
    SpreadGet(Base(entity), rest, "command_topic");
  }

  /** The fixed fields are `name`, `unique_id`, `state_topic`,
      `availability` and `device`; no other key is found among them. */
  lemma BaseLacks(entity: Entries, k: string)
    requires k != "name" && k != "unique_id" && k != "state_topic" && k != "availability" && k != "device"
    ensures Get(Base(entity), k).None?
  {
    var b := Base(entity);
    assert forall i :: 0 <= i < |b| ==> b[i].0 != k;
    GetFound(b, k);
  }

  /** Without a name, the payload's name is null and the device is called
      `Device <id>`. */
  lemma {:induction false} UnnamedEntity(entity: Entries)
    requires UniqueKeys(entity) && !TruthyOpt(Get(entity, "name"))
    requires !HasKey(entity, "device")
    ensures Get(Payload(entity), "name") == Some(JNull)
    ensures Get(Payload(entity), "device").Some? && Get(Payload(entity), "device").value.JObj?
    ensures Get(Get(Payload(entity), "device").value.entries, "name") ==
      Some(JStr("Device " + TemplateString(Get(entity, "id"))))
  {
    var rest := Rest(entity);
    assert !HasKey(rest, "device") by {
      assert Get(rest, "device") == Get(entity, "device");
      GetFound(entity, "device");
      GetFound(rest, "device");
    }
    assert !HasKey(rest, "name") by {
      assert Get(rest, "name").None?;
      GetFound(rest, "name");
    }
    PayloadFields(entity, "name");
    PayloadFields(entity, "device");
    BaseFields(entity);
  }
}

=== FILE: discovery_service.dfy ===
/** The discovery service: a discovery schema is evaluated against the
    packets seen on the bus (hex strings). Packets that satisfy the schema's
    match rules are collected, per-dimension values are read out of them,
    and an inference strategy turns those values into parameter values. */
module DiscoveryService {
  import opened Wrappers
  import opened Bytes
  import opened Strings
  import opened JsonValue
  import PacketMatching

  // ---------------------------------------------------------------------------
  // Hex strings

  function RemoveSpaces(s: string): (r: string)
    ensures |r| <= |s|
    ensures forall m :: 0 <= m < |r| ==> !IsSpace(r[m])
  {
    if |s| == 0 then ""
    else if IsSpace(s[|s| - 1]) then RemoveSpaces(s[..|s| - 1])
    else RemoveSpaces(s[..|s| - 1]) + [s[|s| - 1]]
  }

  /** The number of slices of two characters in a string of length `n`,
      a trailing single character counting as one. */
  function PairCount(n: nat): (r: nat)
    ensures 2 * r == n || 2 * r == n + 1
  {
    if n <= 1 then n else 1 + PairCount(n - 2)
  }

  /** The digits of `c` read two at a time; a trailing odd digit stands alone. */
  function HexPairs(c: string): (r: seq<Byte>)
    requires AllHexDigits(c)
    ensures |r| == PairCount(|c|)
  {
    if |c| == 0 then []
    else if |c| == 1 then [HexDigitValue(c[0]).value]
    else [HexDigitValue(c[0]).value * 16 + HexDigitValue(c[1]).value] + HexPairs(c[2..])
  }

  /** The value of two hex digits. */
  lemma PairValue(pair: string)
    requires |pair| == 2 && AllHexDigits(pair)
    ensures HexValue(pair) == HexDigitValue(pair[0]).value * 16 + HexDigitValue(pair[1]).value
  {
    var first := pair[..1];
    assert first[..0] == [];
    assert HexValue(first) == HexDigitValue(pair[0]).value;
  }

  /** Byte `k` is the value of digits `2k` and `2k + 1`. */
  lemma {:induction false} HexPairsAt(c: string, k: nat)
    requires AllHexDigits(c) && 2 * k + 2 <= |c|
    ensures HexPairs(c)[k] == HexValue(c[2 * k..2 * k + 2])
    decreases k
  {
    if k == 0 {
      PairValue(c[..2]);
    } else {
      HexPairsAt(c[2..], k - 1);
      assert c[2..][2 * (k - 1)..2 * (k - 1) + 2] == c[2 * k..2 * k + 2];
    }
  }

  /** An odd last digit is a byte of its own. */
  lemma {:induction false} HexPairsOddLast(c: string)
    requires AllHexDigits(c) && 2 * PairCount(|c|) == |c| + 1
    ensures HexPairs(c)[|HexPairs(c)| - 1] == HexValue(c[|c| - 1..])
    decreases |c|
  {
    if |c| == 1 {
      assert c[..0] == [];
    } else {
      HexPairsOddLast(c[2..]);
      assert c[2..][|c[2..]| - 1..] == c[|c| - 1..];
    }
  }

  /** `parseInt(p, 16)` of a slice of one or two characters without
      whitespace: an optional sign, then the longest run of hex digits, a
      `0x` prefix being skipped first; `None` is `NaN`, when no digit is
      left to read. Both cases of the letters are read, so upper-casing the
      text first changes nothing. */
  function ParsePair(p: string): (r: Option<int>)
    requires 1 <= |p| <= 2
    ensures r.Some? ==> -16 < r.value < 256
    ensures r.Some? && r.value < 0 ==> p[0] == '-'
    ensures IsHexDigit(p[0]) && (|p| == 1 || IsHexDigit(p[1])) ==>
      r == Some(if |p| == 1 then HexDigitValue(p[0]).value else HexDigitValue(p[0]).value * 16 + HexDigitValue(p[1]).value)
    ensures !IsHexDigit(p[0]) && p[0] != '-' && p[0] != '+' ==> r.None?
  {
    if IsHexDigit(p[0]) then
      if |p| == 2 && p[0] == '0' && (p[1] == 'X' || p[1] == 'x') then None
      else if |p| == 2 && IsHexDigit(p[1]) then Some(HexDigitValue(p[0]).value * 16 + HexDigitValue(p[1]).value)
      else Some(HexDigitValue(p[0]).value)
    else if (p[0] == '-' || p[0] == '+') && |p| == 2 && IsHexDigit(p[1]) then
      Some(if p[0] == '-' then -(HexDigitValue(p[1]).value as int) else HexDigitValue(p[1]).value)
    else None
  }

  /** The slice `c.slice(2k, 2k + 2)`. */
  function PairSlice(c: string, k: nat): (r: string)
    requires 2 * k < |c|
    ensures 1 <= |r| <= 2
  {
    c[2 * k..if 2 * k + 2 <= |c| then 2 * k + 2 else |c|]
  }

  /** `parseInt` of every slice of two characters, the last one possibly single. */
  function ParsedPairs(c: string): (r: seq<Option<int>>)
    ensures |r| == PairCount(|c|)
  {
    seq(PairCount(|c|), k requires 0 <= k < PairCount(|c|) => ParsePair(PairSlice(c, k)))
  }

  /** Every slice reads as a byte value. */
  predicate AllBytes(ps: seq<Option<int>>) {
    forall k :: 0 <= k < |ps| ==> ps[k].Some? && 0 <= ps[k].value
  }

  /** `hexToBytes`: whitespace removed, the text upper-cased, then
      `parseInt(…, 16)` of each slice of two characters, which reads as
      many leading digits as it can. `None` when a slice reads as `NaN` or
      as a negative number. */
  function HexToBytes(hex: string): (r: Option<seq<Byte>>)
    ensures var ps := ParsedPairs(RemoveSpaces(hex));
      (r.Some? <==> AllBytes(ps))
      && (r.Some? ==> |r.value| == |ps| && forall k :: 0 <= k < |ps| ==> r.value[k] == ps[k].value)
  {
    var ps := ParsedPairs(RemoveSpaces(hex));
    if AllBytes(ps) then Some(seq(|ps|, k requires 0 <= k < |ps| => ps[k].value as Byte)) else None
  }

  /** Slice `k` of a string of hex digits reads as byte `k` of `HexPairs`. */
  lemma SliceParsed(c: string, k: nat)
    requires AllHexDigits(c) && 2 * k < |c|
    ensures ParsePair(PairSlice(c, k)) == Some(HexPairs(c)[k] as int)
  {
    if 2 * k + 2 <= |c| {
      FullSliceParsed(c, k);
    } else {
      LastSliceParsed(c, k);
    }
  }

  lemma FullSliceParsed(c: string, k: nat)
    requires AllHexDigits(c) && 2 * k + 2 <= |c|
    ensures ParsePair(PairSlice(c, k)) == Some(HexPairs(c)[k] as int)
  {
    var pair := c[2 * k..2 * k + 2];
    assert PairSlice(c, k) == pair;
    SliceDigits(c, 2 * k, 2 * k + 2);
    DigitsParsed(pair);
    HexPairsAt(c, k);
  }

  lemma LastSliceParsed(c: string, k: nat)
    requires AllHexDigits(c) && 2 * k < |c| < 2 * k + 2
    ensures ParsePair(PairSlice(c, k)) == Some(HexPairs(c)[k] as int)
  {
    var last := c[|c| - 1..];
    LastSlice(c, k);
    assert PairSlice(c, k) == last;
    SliceDigits(c, |c| - 1, |c|);
    DigitsParsed(last);
    HexPairsOddLast(c);
  }

  /** A slice of hex digits is hex digits. */
  lemma SliceDigits(c: string, i: nat, j: nat)
    requires AllHexDigits(c) && i <= j <= |c|
    ensures AllHexDigits(c[i..j])
  {
    assert forall m :: 0 <= m < j - i ==> c[i..j][m] == c[i + m];
  }

  /** One or two hex digits read as their value. */
  lemma DigitsParsed(p: string)
    requires 1 <= |p| <= 2 && AllHexDigits(p)
    ensures ParsePair(p) == Some(HexValue(p) as int)
  {
    var first := p[..1];
    assert first[..0] == [];
    assert HexValue(first) == HexDigitValue(p[0]).value;
    if |p| == 1 {
      assert p == first;
    } else {
      PairValue(p);
    }
  }

  /** A slice shorter than two is the last one, of an odd-length string. */
  lemma LastSlice(c: string, k: nat)
    requires 2 * k < |c| < 2 * k + 2
    ensures 2 * PairCount(|c|) == |c| + 1 && k == PairCount(|c|) - 1
  {
  }

  /** A packet written in hex digits, with any spacing, reads back as the
      pairs of its digits. */
  lemma HexDigitsRead(hex: string)
    requires AllHexDigits(RemoveSpaces(hex))
    ensures HexToBytes(hex) == Some(HexPairs(RemoveSpaces(hex)))
  {
    var c := RemoveSpaces(hex);
    var ps := ParsedPairs(c);
    forall k | 0 <= k < |ps| ensures ps[k] == Some(HexPairs(c)[k]) {
      SliceParsed(c, k);
    }
    assert HexToBytes(hex).value == HexPairs(c);
  }

  /** Every full digit pair of the cleaned string is one byte of the result. */
  lemma HexToBytesAt(hex: string, k: nat)
    requires AllHexDigits(RemoveSpaces(hex)) && 2 * k + 2 <= |RemoveSpaces(hex)|
    ensures HexToBytes(hex).Some? && HexToBytes(hex).value[k] == HexValue(RemoveSpaces(hex)[2 * k..2 * k + 2])
  {
    HexDigitsRead(hex);
    HexPairsAt(RemoveSpaces(hex), k);
  }

  /** `parseInt` reads the digits before the first non-digit: a slice such
      as `1Z` is the byte 1, and `0X` or `ZZ` make the packet unreadable. */
  lemma PartialSlices()
    ensures ParsePair("1Z") == Some(1)
    ensures ParsePair("0X").None? && ParsePair("ZZ").None?
    ensures ParsePair("-1") == Some(-1)
  {
  }

  // ---------------------------------------------------------------------------
  // Match rules

  /** One match condition; a missing mask, or a missing entry, is 0xFF. */
  datatype Condition = Condition(data: seq<Byte>, mask: Option<seq<Byte>>, offset: nat)

  /** A schema's match: its own condition and an `any_of` list. */
  datatype DiscoveryMatch = DiscoveryMatch(cond: Condition, anyOf: seq<Condition>)

  function MaskAt(c: Condition, i: nat): Byte {
    if c.mask.Some? && i < |c.mask.value| then c.mask.value[i] else 0xFF
  }

  /** `matchesCondition`. */
  predicate MatchesCondition(packet: seq<Byte>, c: Condition) {
    c.offset + |c.data| <= |packet| &&
    forall i :: 0 <= i < |c.data| ==>
      And(packet[c.offset + i], MaskAt(c, i)) == And(c.data[i], MaskAt(c, i))
  }

  /** `matchesPacket`: a non-empty `any_of` replaces the schema's own condition. */
  function MatchesPacket(packet: seq<Byte>, m: DiscoveryMatch): (r: bool)
    ensures |m.anyOf| > 0 ==> (r <==> exists k :: 0 <= k < |m.anyOf| && MatchesCondition(packet, m.anyOf[k]))
    ensures |m.anyOf| == 0 ==> (r <==> MatchesCondition(packet, m.cond))
  {
    if |m.anyOf| > 0 then AnyMatches(packet, m.anyOf) else MatchesCondition(packet, m.cond)
  }

  function AnyMatches(packet: seq<Byte>, cs: seq<Condition>): (r: bool)
    ensures r <==> exists k :: 0 <= k < |cs| && MatchesCondition(packet, cs[k])
  {
    if |cs| == 0 then false
    else if MatchesCondition(packet, cs[0]) then true
    else
      var r := AnyMatches(packet, cs[1..]);
      assert forall k :: 1 <= k < |cs| ==> cs[1..][k - 1] == cs[k];
      r
  }

  /** A discovery condition is the packet matcher's per-byte mask rule with
      every entry present (a missing one becomes 0xFF). */
  function AsStateSchema(c: Condition): PacketMatching.StateSchema {
    PacketMatching.StateSchema(c.offset, Some(c.data),
      PacketMatching.PerByte(seq(|c.data|, i requires 0 <= i < |c.data| => Some(MaskAt(c, i)))),
      false, None, [])
  }

  lemma ConditionAgreesWithMatcher(packet: seq<Byte>, c: Condition, guard: PacketMatching.GuardOracle)
    requires |c.data| > 0
    ensures MatchesCondition(packet, c) ==
      PacketMatching.Matches(AsStateSchema(c), packet, PacketMatching.MatchOptions(0, false, None), guard)
  {
    var s := AsStateSchema(c);
    assert PacketMatching.AnyExceptMatches(s, packet, PacketMatching.MatchOptions(0, false, None), guard, 0) == false;
    assert MatchesCondition(packet, c) == PacketMatching.Structural(s, packet, 0);
  }

  // ---------------------------------------------------------------------------
  // Dimensions

  /** A transform string as `evaluateTransform` reads it: a `bitAnd(x, m)`
      call, an `x & m` expression, or anything else, which leaves the value
      alone. */
  datatype Transform = BitAndCall(mask: nat) | AndExpr(mask: nat) | Unrecognised

  /** `t` with its leading whitespace (the class `\s`) removed. */
  function SkipSpace(t: string): (r: string)
    ensures |r| <= |t| && r == t[|t| - |r|..]
    ensures |r| > 0 ==> !IsSpace(r[0])
  {
    t[LeadingSpaces(t)..]
  }

  /** `\s*c`: the text after `c` and the whitespace before it, `None` when
      `c` does not come next. */
  function Token(t: string, c: char): (r: Option<string>)
    ensures r.Some? ==> |r.value| < |t| && r.value == t[|t| - |r.value|..] && t[|t| - |r.value| - 1] == c
  {
    var u := SkipSpace(t);
    if |u| > 0 && u[0] == c then Some(u[1..]) else None
  }

  /** Length of the longest prefix made of hex digits. */
  function HexDigitPrefix(t: string): (k: nat)
    ensures k <= |t| && AllHexDigits(t[..k])
    ensures k < |t| ==> !IsHexDigit(t[k])
  {
    if |t| > 0 && IsHexDigit(t[0]) then
      var k := 1 + HexDigitPrefix(t[1..]);
      assert forall m :: 1 <= m < k ==> t[..k][m] == t[1..][..k - 1][m - 1];
      k
    else 0
  }

  /** The mask group `(0x[0-9a-fA-F]+|\d+)` read at the start of some text:
      the mask's value and the text after it. */
  datatype MaskToken = MaskToken(value: nat, rest: string)

  /** The first alternative, `0x` and a run of hex digits, read by
      `parseInt(m, 16)`. The run is the longest one: the expression that
      follows the group never accepts a hex digit. */
  function HexMask(t: string): Option<MaskToken> {
    if |t| >= 2 && t[0] == '0' && t[1] == 'x' && HexDigitPrefix(t[2..]) > 0 then
      var k := HexDigitPrefix(t[2..]);
      Some(MaskToken(HexValue(t[2..][..k]), t[2 + k..]))
    else None
  }

  /** The second alternative, a run of decimal digits, read by
      `parseInt(m, 10)`; the run is the longest one for the same reason. */
  function DecimalMask(t: string): Option<MaskToken> {
    var k := DigitPrefix(t);
    if k > 0 then Some(MaskToken(DecimalValue(t[..k]), t[k..])) else None
  }

  /** `\s*\)`. */
  predicate ClosesCall(t: string) {
    Token(t, ')').Some?
  }

  /** `\s*\(\s*x\s*,\s*`, what follows `bitAnd` in its pattern: the text
      where the mask starts, `None` when this does not come next. */
  function CallArgs(t: string): (r: Option<string>)
    ensures r.Some? ==> 'x' in t
  {
    match Token(t, '(')
    case None => None
    case Some(a) =>
      match Token(a, 'x')
      case None => None
      case Some(b) =>
        assert 'x' in t by { assert t[|t| - |a|..][|a| - |b| - 1] == 'x'; }
        match Token(b, ',')
        case None => None
        case Some(c) => Some(SkipSpace(c))
  }

  /** `(0x[0-9a-fA-F]+|\d+)\s*\)`: the mask of the first alternative that
      the closing parenthesis follows. */
  function ClosedMask(d: string): Option<nat> {
    var h := HexMask(d);
    if h.Some? && ClosesCall(h.value.rest) then Some(h.value.value)
    else
      var m := DecimalMask(d);
      if m.Some? && ClosesCall(m.value.rest) then Some(m.value.value) else None
  }

  /** `(0x[0-9a-fA-F]+|\d+)` with nothing required after it: the mask of the
      first alternative that matches. */
  function FirstMask(d: string): Option<nat> {
    var h := HexMask(d);
    if h.Some? then Some(h.value.value)
    else
      var m := DecimalMask(d);
      if m.Some? then Some(m.value.value) else None
  }

  /** `/bitAnd\s*\(\s*x\s*,\s*(0x[0-9a-fA-F]+|\d+)\s*\)/` matched at the
      start of `t`: the mask, `None` when the pattern does not match there. */
  function BitAndAt(t: string): (r: Option<nat>)
    ensures r.Some? ==> 'x' in t && |t| >= 6 && t[..6] == "bitAnd"
  {
    if |t| < 6 || t[..6] != "bitAnd" then None
    else
      match CallArgs(t[6..])
      case None => None
      case Some(d) =>
        assert 'x' in t by { var m :| 0 <= m < |t| - 6 && t[6..][m] == 'x'; assert t[6 + m] == 'x'; }
        ClosedMask(d)
  }

  /** `/x\s*&\s*(0x[0-9a-fA-F]+|\d+)/` matched at the start of `t`. */
  function AndAt(t: string): (r: Option<nat>)
    ensures r.Some? ==> 'x' in t
  {
    if |t| == 0 || t[0] != 'x' then None
    else
      match Token(t[1..], '&')
      case None => None
      case Some(a) => FirstMask(SkipSpace(a))
  }

  datatype Pattern = BitAndPattern | AndPattern

  function MatchAt(p: Pattern, t: string): (r: Option<nat>)
    ensures r.Some? ==> 'x' in t
  {
    match p
    case BitAndPattern => BitAndAt(t)
    case AndPattern => AndAt(t)
  }

  /** The pattern matches at `k` with result `r`, and nowhere before. */
  predicate LeftmostAt(p: Pattern, t: string, k: nat, r: Option<nat>)
    requires k <= |t|
  {
    MatchAt(p, t[k..]) == r && forall j :: 0 <= j < k ==> MatchAt(p, t[j..]).None?
  }

  /** `text.match(pattern)`: the mask of the match at the leftmost position
      where the pattern matches. */
  function Search(p: Pattern, t: string): (r: Option<nat>)
    ensures r.Some? <==> exists k :: 0 <= k <= |t| && MatchAt(p, t[k..]).Some?
    ensures r.Some? ==> exists k :: 0 <= k <= |t| && LeftmostAt(p, t, k, r)
    decreases |t|
  {
    if MatchAt(p, t).Some? then
      assert t[0..] == t;
      assert LeftmostAt(p, t, 0, MatchAt(p, t));
      MatchAt(p, t)
    else if |t| == 0 then None
    else
      assert t[0..] == t;
      assert forall k :: 0 <= k <= |t| - 1 ==> t[1..][k..] == t[k + 1..];
      var r := Search(p, t[1..]);
      if r.Some? then
        var k :| 0 <= k <= |t| - 1 && LeftmostAt(p, t[1..], k, r);
        assert MatchAt(p, t[k + 1..]) == r;
        assert forall j :: 1 <= j < k + 1 ==> MatchAt(p, t[j..]) == MatchAt(p, t[1..][j - 1..]);
        assert LeftmostAt(p, t, k + 1, r);
        r
      else
        assert forall k :: 1 <= k <= |t| ==> MatchAt(p, t[k..]) == MatchAt(p, t[1..][k - 1..]);
        r
  }

  /** `evaluateTransform`'s reading of the transform text: the leftmost
      `bitAnd(x, m)`; failing that, the leftmost `x & m`, where the `x` may
      end a longer word; failing both, the value is kept, `x` on its own
      included. */
  function ParseTransform(text: string): (r: Transform)
    ensures r.BitAndCall? <==> exists k :: 0 <= k <= |text| && BitAndAt(text[k..]).Some?
    ensures r.AndExpr? <==>
      !(exists k :: 0 <= k <= |text| && BitAndAt(text[k..]).Some?) && (exists k :: 0 <= k <= |text| && AndAt(text[k..]).Some?)
    ensures 'x' !in text ==> r == Unrecognised
  {
    assert forall k :: 0 <= k <= |text| ==> MatchAt(BitAndPattern, text[k..]) == BitAndAt(text[k..]);
    assert forall k :: 0 <= k <= |text| ==> MatchAt(AndPattern, text[k..]) == AndAt(text[k..]);
    NoXNoMatch(text);
    match Search(BitAndPattern, text)
    case Some(m) => BitAndCall(m)
    case None =>
      match Search(AndPattern, text)
      case Some(m) => AndExpr(m)
      case None => Unrecognised
  }

  /** Both patterns need an `x`. */
  lemma NoXNoMatch(text: string)
    ensures 'x' !in text ==> forall p, k :: 0 <= k <= |text| ==> MatchAt(p, text[k..]).None?
  {
    if 'x' !in text {
      forall p, k | 0 <= k <= |text| ensures MatchAt(p, text[k..]).None? {
        assert forall m :: 0 <= m < |text| - k ==> text[k..][m] == text[k + m];
      }
    }
  }

  lemma SkipNoSpace(t: string)
    requires |t| > 0 && !IsSpace(t[0])
    ensures SkipSpace(t) == t
  {
  }

  lemma TokenNext(t: string, c: char)
    requires |t| > 0 && t[0] == c && !IsSpace(c)
    ensures Token(t, c) == Some(t[1..])
  {
    SkipNoSpace(t);
  }

  /** A run of hex digits followed by something else is read whole. */
  lemma HexRun(hex: string, rest: string)
    requires AllHexDigits(hex) && (|rest| > 0 ==> !IsHexDigit(rest[0]))
    ensures HexDigitPrefix(hex + rest) == |hex| && (hex + rest)[..|hex|] == hex
  {
    var t := hex + rest;
    assert t[..|hex|] == hex;
  }

  /** A run of decimal digits followed by something else is read whole. */
  lemma DigitRun(digits: string, rest: string)
    requires AllDigits(digits) && (|rest| > 0 ==> !IsDigit(rest[0]))
    ensures DigitPrefix(digits + rest) == |digits| && (digits + rest)[..|digits|] == digits
  {
    var t := digits + rest;
    assert t[..|digits|] == digits;
  }

  /** The pattern matches at the end of `pre` and nowhere inside it, so the
      search returns that match. */
  lemma SearchFinds(p: Pattern, pre: string, u: string)
    requires MatchAt(p, u).Some?
    requires forall j :: 0 <= j < |pre| ==> MatchAt(p, (pre + u)[j..]).None?
    ensures Search(p, pre + u) == MatchAt(p, u)
  {
    var t := pre + u;
    assert t[|pre|..] == u;
    SearchLeftmost(p, t, |pre|);
  }

  /** The search returns the match at the first position where the
      pattern matches. */
  lemma SearchLeftmost(p: Pattern, t: string, k: nat)
    requires k <= |t| && MatchAt(p, t[k..]).Some?
    requires forall j :: 0 <= j < k ==> MatchAt(p, t[j..]).None?
    ensures Search(p, t) == MatchAt(p, t[k..])
  {
    var r := Search(p, t);
    var m :| 0 <= m <= |t| && LeftmostAt(p, t, m, r);
    assert m == k;
  }

  /** A `bitAnd` call starts with `b`. */
  lemma BitAndStartsWithB(t: string)
    requires |t| > 0 && t[0] != 'b'
    ensures BitAndAt(t).None?
  {
    if |t| >= 6 {
      assert t[..6][0] == t[0];
      NotBitAndWord(t[..6], 0);
    }
  }

  /** A word that differs from `bitAnd` in one letter is not `bitAnd`. */
  lemma NotBitAndWord(w: string, i: nat)
    requires i < |w| && i < 6 && w[i] != "bitAnd"[i]
    ensures w != "bitAnd"
  {
  }

  /** No `bitAnd` call can start at a position before which there is
      no `b`. */
  lemma NoBitAndBefore(pre: string, u: string)
    requires 'b' !in pre
    ensures forall j :: 0 <= j < |pre| ==> MatchAt(BitAndPattern, (pre + u)[j..]).None?
  {
    forall j | 0 <= j < |pre| ensures MatchAt(BitAndPattern, (pre + u)[j..]).None? {
      var t := (pre + u)[j..];
      assert t[0] == pre[j];
      BitAndStartsWithB(t);
    }
  }

  /** No `x & m` can start at a position before which there is no `x`. */
  lemma NoAndBefore(pre: string, u: string)
    requires 'x' !in pre
    ensures forall j :: 0 <= j < |pre| ==> MatchAt(AndPattern, (pre + u)[j..]).None?
  {
    forall j | 0 <= j < |pre| ensures MatchAt(AndPattern, (pre + u)[j..]).None? {
      assert (pre + u)[j..][0] == pre[j];
    }
  }

  /** The second letter of a `bitAnd` call is `i`. */
  lemma BitAndSecondIsI(t: string)
    requires |t| < 2 || t[1] != 'i'
    ensures BitAndAt(t).None?
  {
    if |t| >= 6 {
      assert t[..6][1] == t[1];
      NotBitAndWord(t[..6], 1);
    }
  }

  /** Text without an `i` holds no `bitAnd` call. */
  lemma NoBitAndWithoutI(t: string)
    requires 'i' !in t
    ensures forall k :: 0 <= k <= |t| ==> BitAndAt(t[k..]).None?
  {
    forall k | 0 <= k <= |t| ensures BitAndAt(t[k..]).None? {
      if k + 1 < |t| {
        assert t[k..][1] == t[k + 1];
      }
      BitAndSecondIsI(t[k..]);
    }
  }

  /** `(x, ` followed by the mask. */
  lemma CallArgsAt(rest: string)
    requires |rest| > 0 && !IsSpace(rest[0])
    ensures CallArgs("(x, " + rest) == Some(rest)
  {
    var t := "(x, " + rest;
    assert t[1..][1..] == t[2..] && t[2..][1..] == t[3..] && t[3..][1..] == t[4..];
    TokenNext(t, '(');
    TokenNext(t[1..], 'x');
    TokenNext(t[2..], ',');
    SkipNoSpace(t[4..]);
  }

  /** `0x` and a whole run of hex digits. */
  lemma HexMaskOf(hex: string, r: string)
    requires |hex| > 0 && AllHexDigits(hex) && (|r| > 0 ==> !IsHexDigit(r[0]))
    ensures HexMask("0x" + (hex + r)) == Some(MaskToken(HexValue(hex), r))
  {
    var w := hex + r;
    var d := "0x" + w;
    assert d[2..] == w;
    HexRun(hex, r);
    assert d[2 + |hex|..] == r;
  }

  /** `0x`, hex digits and the closing parenthesis. */
  lemma ClosedHexMask(hex: string, post: string)
    requires |hex| > 0 && AllHexDigits(hex)
    ensures ClosedMask("0x" + (hex + (")" + post))) == Some(HexValue(hex))
  {
    var r := ")" + post;
    HexMaskOf(hex, r);
    assert ClosesCall(r) by {
      TokenNext(r, ')');
    }
  }

  /** Decimal digits and the closing parenthesis. */
  lemma ClosedDecimalMask(digits: string, post: string)
    requires |digits| > 0 && AllDigits(digits)
    ensures ClosedMask(digits + (")" + post)) == Some(DecimalValue(digits))
  {
    var r := ")" + post;
    var d := digits + r;
    assert HexMask(d).None? by {
      assert d[1] == ')' || d[1] == digits[1];
    }
    assert DecimalMask(d) == Some(MaskToken(DecimalValue(digits), r)) by {
      DigitRun(digits, r);
      assert d[|digits|..] == r;
    }
    assert ClosesCall(r) by {
      TokenNext(r, ')');
    }
  }

  lemma BitAndHexAt(hex: string, post: string)
    requires |hex| > 0 && AllHexDigits(hex)
    ensures BitAndAt("bitAnd" + ("(x, " + ("0x" + (hex + (")" + post))))) == Some(HexValue(hex))
  {
    var rest := "0x" + (hex + (")" + post));
    var t := "bitAnd" + ("(x, " + rest);
    assert t[..6] == "bitAnd" && t[6..] == "(x, " + rest;
    CallArgsAt(rest);
    ClosedHexMask(hex, post);
  }

  lemma BitAndDecimalAt(digits: string, post: string)
    requires |digits| > 0 && AllDigits(digits)
    ensures BitAndAt("bitAnd" + ("(x, " + (digits + (")" + post)))) == Some(DecimalValue(digits))
  {
    var rest := digits + (")" + post);
    var t := "bitAnd" + ("(x, " + rest);
    assert t[..6] == "bitAnd" && t[6..] == "(x, " + rest;
    assert rest[0] == digits[0];
    CallArgsAt(rest);
    ClosedDecimalMask(digits, post);
  }

  /** The text of a hex `bitAnd` call, regrouped. */
  lemma BitAndHexText(pre: string, hex: string, post: string)
    ensures pre + "bitAnd(x, 0x" + hex + ")" + post == pre + ("bitAnd" + ("(x, " + ("0x" + (hex + (")" + post)))))
  {
    var a := "bitAnd(x, 0x";
    assert a == "bitAnd" + ("(x, " + "0x");
    AppendAssoc(pre + a + hex, ")", post);
    AppendAssoc(pre + a, hex, ")" + post);
    AppendAssoc(pre, a, hex + (")" + post));
    AppendAssoc("(x, ", "0x", hex + (")" + post));
    AppendAssoc("bitAnd", "(x, " + "0x", hex + (")" + post));
  }

  /** The text of a decimal `bitAnd` call, regrouped. */
  lemma BitAndDecimalText(pre: string, digits: string, post: string)
    ensures pre + "bitAnd(x, " + digits + ")" + post == pre + ("bitAnd" + ("(x, " + (digits + (")" + post))))
  {
    var a := "bitAnd(x, ";
    assert a == "bitAnd" + "(x, ";
    AppendAssoc(pre + a + digits, ")", post);
    AppendAssoc(pre + a, digits, ")" + post);
    AppendAssoc(pre, a, digits + (")" + post));
    AppendAssoc("bitAnd", "(x, ", digits + (")" + post));
  }

  /** `x & ` followed by the mask. */
  lemma AndAtMask(d: string)
    requires |d| > 0 && !IsSpace(d[0])
    ensures AndAt("x & " + d) == FirstMask(d)
  {
    var u := "x & " + d;
    var a := u[1..];
    var c := u[3..];
    assert a[1..] == u[2..] && u[2..][1..] == c && c[1..] == d;
    assert Token(a, '&') == Some(c) by {
      assert LeadingSpaces(a) == 1 by {
        assert a[0] == ' ' && a[1..][0] == '&';
      }
    }
    assert SkipSpace(c) == d by {
      assert LeadingSpaces(c) == 1 by {
        assert c[0] == ' ' && c[1..][0] == d[0];
      }
    }
  }

  /** `bitAnd(x, 0x…)` is read in base 16 wherever it stands and whatever
      follows, even after an `x & m`, because that pattern is tried first. */
  lemma BitAndHexRead(pre: string, hex: string, post: string)
    requires 'b' !in pre && |hex| > 0 && AllHexDigits(hex)
    ensures ParseTransform(pre + "bitAnd(x, 0x" + hex + ")" + post) == BitAndCall(HexValue(hex))
  {
    var u := "bitAnd" + ("(x, " + ("0x" + (hex + (")" + post))));
    BitAndHexText(pre, hex, post);
    BitAndHexAt(hex, post);
    NoBitAndBefore(pre, u);
    SearchFinds(BitAndPattern, pre, u);
  }

  /** `bitAnd(x, m)` with decimal digits is read in base 10, leading
      zeros included. */
  lemma BitAndDecimalRead(pre: string, digits: string, post: string)
    requires 'b' !in pre && |digits| > 0 && AllDigits(digits)
    ensures ParseTransform(pre + "bitAnd(x, " + digits + ")" + post) == BitAndCall(DecimalValue(digits))
  {
    var u := "bitAnd" + ("(x, " + (digits + (")" + post)));
    BitAndDecimalText(pre, digits, post);
    BitAndDecimalAt(digits, post);
    NoBitAndBefore(pre, u);
    SearchFinds(BitAndPattern, pre, u);
  }

  /** `0x` and hex digits with nothing after them. */
  lemma HexFirstMask(hex: string)
    requires |hex| > 0 && AllHexDigits(hex)
    ensures FirstMask("0x" + hex) == Some(HexValue(hex))
  {
    assert hex + "" == hex;
    HexMaskOf(hex, "");
  }

  /** Decimal digits with nothing after them. */
  lemma DecimalFirstMask(digits: string)
    requires |digits| > 0 && AllDigits(digits)
    ensures FirstMask(digits) == Some(DecimalValue(digits))
  {
    assert HexMask(digits).None? by {
      assert !(|digits| >= 2 && digits[1] == 'x');
    }
    assert DecimalMask(digits) == Some(MaskToken(DecimalValue(digits), "")) by {
      assert digits == digits + "";
      DigitRun(digits, "");
    }
  }

  /** Text without an `i` holds no `bitAnd` call, so the leftmost `x & m`
      decides; before `u` there is no `x`, so that is the one `u` starts
      with. */
  lemma AndExprFound(pre: string, u: string)
    requires 'x' !in pre && 'i' !in pre && 'i' !in u
    requires AndAt(u).Some?
    ensures ParseTransform(pre + u) == AndExpr(AndAt(u).value)
  {
    var t := pre + u;
    assert Search(AndPattern, t) == AndAt(u) by {
      NoAndBefore(pre, u);
      SearchFinds(AndPattern, pre, u);
    }
    assert Search(BitAndPattern, t).None? by {
      NotInAppend('i', pre, u);
      NoBitAndSearch(t);
    }
  }

  lemma NoBitAndSearch(t: string)
    requires 'i' !in t
    ensures Search(BitAndPattern, t).None?
  {
    NoBitAndWithoutI(t);
    assert forall k :: 0 <= k <= |t| ==> MatchAt(BitAndPattern, t[k..]).None?;
  }

  lemma NotInAppend(c: char, a: string, b: string)
    requires c !in a && c !in b
    ensures c !in a + b
  {
    assert forall m :: 0 <= m < |a + b| ==> (a + b)[m] == if m < |a| then a[m] else b[m - |a|];
  }

  /** Hex digits hold no `i`. */
  lemma HexHasNoI(hex: string)
    requires AllHexDigits(hex)
    ensures 'i' !in hex
  {
    assert forall m :: 0 <= m < |hex| ==> hex[m] != 'i';
  }

  /** Decimal digits hold no `i`. */
  lemma DigitsHaveNoI(digits: string)
    requires AllDigits(digits)
    ensures 'i' !in digits
  {
    assert forall m :: 0 <= m < |digits| ==> digits[m] != 'i';
  }

  /** `x & 0x…`: its mask, and no `i` in it. */
  lemma AndHexText(hex: string)
    requires |hex| > 0 && AllHexDigits(hex)
    ensures AndAt("x & " + ("0x" + hex)) == Some(HexValue(hex))
    ensures 'i' !in "x & " + ("0x" + hex)
  {
    var d := "0x" + hex;
    HexHasNoI(hex);
    NotInAppend('i', "0x", hex);
    AndTextHasNoI(d);
    AndAtMask(d);
    HexFirstMask(hex);
  }

  /** `x & ` and decimal digits: its mask, and no `i` in it. */
  lemma AndDecimalText(digits: string)
    requires |digits| > 0 && AllDigits(digits)
    ensures AndAt("x & " + digits) == Some(DecimalValue(digits))
    ensures 'i' !in "x & " + digits
  {
    DigitsHaveNoI(digits);
    AndTextHasNoI(digits);
    AndAtMask(digits);
    DecimalFirstMask(digits);
  }

  lemma AndTextHasNoI(m: string)
    requires 'i' !in m
    ensures 'i' !in "x & " + m
  {
    NotInAppend('i', "x & ", m);
  }

  /** Without a `bitAnd` call, `x & 0x…` is read in base 16, the `x`
      possibly ending a longer word. */
  lemma AndExprHexRead(pre: string, hex: string)
    requires 'x' !in pre && 'i' !in pre && |hex| > 0 && AllHexDigits(hex)
    ensures ParseTransform(pre + "x & 0x" + hex) == AndExpr(HexValue(hex))
  {
    AndHexRegroup(pre, hex);
    AndHexText(hex);
    AndExprFound(pre, "x & " + ("0x" + hex));
  }

  lemma AndHexRegroup(pre: string, hex: string)
    ensures pre + "x & 0x" + hex == pre + ("x & " + ("0x" + hex))
  {
    assert "x & 0x" == "x & " + "0x";
    AppendAssoc(pre, "x & 0x", hex);
    AppendAssoc("x & ", "0x", hex);
  }

  /** Without a `bitAnd` call, `x & m` with decimal digits is read in
      base 10, leading zeros included. */
  lemma AndExprDecimalRead(pre: string, digits: string)
    requires 'x' !in pre && 'i' !in pre && |digits| > 0 && AllDigits(digits)
    ensures ParseTransform(pre + "x & " + digits) == AndExpr(DecimalValue(digits))
  {
    AppendAssoc(pre, "x & ", digits);
    AndDecimalText(digits);
    AndExprFound(pre, "x & " + digits);
  }

  /** The `x` of `x & m` may end a longer word. */
  lemma AndInsideWord()
    ensures ParseTransform("max & 3") == AndExpr(3)
  {
    assert DecimalValue("3") == 3 by {
      assert "3"[..0] == "";
    }
    Glued("ma", "x & ", "3", "max & 3");
    AndExprDecimalRead("ma", "3");
  }

  /** Three pieces of text glued together, one character at a time. */
  lemma Glued(a: string, b: string, c: string, whole: string)
    requires |whole| == |a| + |b| + |c|
    requires forall m :: 0 <= m < |a| ==> whole[m] == a[m]
    requires forall m :: 0 <= m < |b| ==> whole[|a| + m] == b[m]
    requires forall m :: 0 <= m < |c| ==> whole[|a| + |b| + m] == c[m]
    ensures a + b + c == whole
  {
  }

  /** A later `bitAnd` call wins over an earlier `x & m`. */
  lemma BitAndBeforeAnd()
    ensures ParseTransform("x & 7 | bitAnd(x, 0x0F)") == BitAndCall(15)
  {
    assert HexValue("0F") == 15 by {
      assert "0F"[..1] == "0" && "0"[..0] == "";
    }
    assert "x & 7 | bitAnd(x, 0x0F)" == "x & 7 | " + "bitAnd(x, 0x" + "0F" + ")" + "";
    BitAndHexRead("x & 7 | ", "0F", "");
  }

  /** `evaluateTransform` on a byte: a recognised transform ANDs the value
      with its mask. */
  function EvaluateTransform(v: Byte, t: Transform): (r: Byte)
    ensures t.Unrecognised? ==> r == v
    ensures !t.Unrecognised? ==> forall k :: k < 8 ==> (Bit(r, k) <==> Bit(v, k) && Bit(t.mask, k))
    ensures forall k :: Bit(r, k) ==> Bit(v, k)
    ensures r <= v
  {
    match t
    case Unrecognised => v
    case BitAndCall(m) => MaskBits(v, m); Bits(AndOp, v, m, 8)
    case AndExpr(m) => MaskBits(v, m); Bits(AndOp, v, m, 8)
  }

  /** The bits `v & m` keeps, and that it is no larger than `v`. */
  lemma MaskBits(v: Byte, m: nat)
    ensures forall k :: Bit(Bits(AndOp, v, m, 8), k) <==> k < 8 && Bit(v, k) && Bit(m, k)
    ensures Bits(AndOp, v, m, 8) <= v
  {
    forall k ensures Bit(Bits(AndOp, v, m, 8), k) <==> k < 8 && Bit(v, k) && Bit(m, k) {
      AndBit(v, m, 8, k);
    }
    AndBelow(v, m);
  }

  /** ANDing never produces a larger number. */
  lemma {:induction false} AndBelowBits(a: nat, b: nat, k: nat)
    ensures Bits(AndOp, a, b, k) <= a
  {
    if k > 0 {
      AndBelowBits(a / 2, b / 2, k - 1);
    }
  }

  lemma AndBelow(a: Byte, b: nat)
    ensures Bits(AndOp, a, b, 8) <= a
  {
    AndBelowBits(a, b, 8);
  }

  datatype Dimension = Dimension(parameter: string, offset: nat, mask: Option<int>, transform: Option<string>, activeBits: bool)

  /** The `while (v > 0) { bits += v & 1; v >>= 1 }` loop. */
  method CountActiveBits(v: Byte) returns (bits: nat)
    ensures bits == PopCount(v)
    ensures bits <= 8
  {
    bits := 0;
    var x: Byte := v;
    while x > 0
      invariant bits + PopCount(x) == PopCount(v)
      decreases x
    {
      bits := bits + x % 2;
      x := x / 2;
    }
    PopCountBound(v, 8);
  }

  lemma {:induction false} PopCountBound(v: Byte, k: nat)
    requires v < Pow2(k)
    ensures PopCount(v) <= k
    decreases k
  {
    if v > 0 {
      assert k > 0;
      PopCountBound(v / 2, k - 1);
    }
  }

  /** Bit `k` survives the dimension's mask: there is none, or its low
      eight bits (JavaScript ANDs the two's-complement form) have it set. */
  predicate MaskKeeps(mask: Option<int>, k: nat) {
    mask.None? || Bit(mask.value % 256, k)
  }

  /** Bit `k` survives the dimension's transform text. */
  predicate TransformKeeps(transform: Option<string>, k: nat) {
    transform.None? || ParseTransform(transform.value).Unrecognised? || Bit(ParseTransform(transform.value).mask, k)
  }

  /** The byte at the dimension's offset after its mask and transform. */
  function DimensionByte(b: Byte, d: Dimension): (r: Byte)
    ensures forall k :: k < 8 ==> (Bit(r, k) <==> Bit(b, k) && MaskKeeps(d.mask, k) && TransformKeeps(d.transform, k))
    ensures d.mask.None? && d.transform.None? ==> r == b
    ensures r <= b
  {
    var v1: Byte := if d.mask.Some? then (MaskBits(b, d.mask.value % 256); Bits(AndOp, b, d.mask.value % 256, 8)) else b;
    if d.transform.Some? then EvaluateTransform(v1, ParseTransform(d.transform.value)) else v1
  }

  /** `extractDimensionValue`: `null` past the end of the packet, else the
      byte at the offset after the mask and transform, or its number of set
      bits for `active_bits`. */
  function ExtractDimensionValue(packet: seq<Byte>, d: Dimension): (r: Option<Byte>)
    ensures r.None? <==> d.offset >= |packet|
    ensures r.Some? && !d.activeBits ==> r.value == DimensionByte(packet[d.offset], d)
    ensures r.Some? && d.activeBits ==> r.value == PopCount(DimensionByte(packet[d.offset], d)) && r.value <= 8
    ensures r.Some? && !d.activeBits && d.mask.None? && d.transform.None? ==> r.value == packet[d.offset]
    ensures r.Some? && !d.activeBits ==> r.value <= packet[d.offset]
  {
    if |packet| <= d.offset then None
    else
      var v := DimensionByte(packet[d.offset], d);
      Some(if d.activeBits then (PopCountBound(v, 8); PopCount(v)) else v)
  }

  // ---------------------------------------------------------------------------
  // Evaluation

  datatype Strategy = Max | Count | UniqueTuples | Grouped | OtherStrategy(name: string)

  datatype Inference = Inference(strategy: Strategy, output: Option<string>)

  datatype DiscoverySchema = DiscoverySchema(
    match_: DiscoveryMatch,
    dimensions: seq<Dimension>,
    inference: Option<Inference>,
    ui: Option<Json>)

  datatype DiscoveryResult = DiscoveryResult(matched: bool, matchedPacketCount: nat, parameterValues: Entries, ui: Option<Json>)

  /** The packets that parse and match, in order. */
  function MatchedPackets(hexes: seq<string>, m: DiscoveryMatch): (r: seq<seq<Byte>>)
    ensures |r| <= |hexes|
    ensures forall p :: p in r ==> MatchesPacket(p, m)
  {
    if |hexes| == 0 then []
    else
      var rest := MatchedPackets(hexes[1..], m);
      match HexToBytes(hexes[0])
      case Some(p) => if MatchesPacket(p, m) then [p] + rest else rest
      case None => rest
  }

  /** Number of hex strings that parse to a matching packet. */
  function CountMatching(hexes: seq<string>, m: DiscoveryMatch): nat {
    if |hexes| == 0 then 0
    else
      var here := if HexToBytes(hexes[0]).Some? && MatchesPacket(HexToBytes(hexes[0]).value, m) then 1 else 0;
      here + CountMatching(hexes[1..], m)
  }

  lemma {:induction false} MatchedCount(hexes: seq<string>, m: DiscoveryMatch)
    ensures |MatchedPackets(hexes, m)| == CountMatching(hexes, m)
  {
    if |hexes| > 0 {
      MatchedCount(hexes[1..], m);
    }
  }

  /** Parameter names in order of first appearance. */
  function ParamNames(dims: seq<Dimension>): (r: seq<string>)
    ensures forall i :: 0 <= i < |r| ==> exists j :: 0 <= j < |dims| && dims[j].parameter == r[i]
    ensures forall j :: 0 <= j < |dims| ==> dims[j].parameter in r
    ensures NoDuplicates(r)
    ensures |r| <= |dims|
    decreases |dims|
  {
    if |dims| == 0 then []
    else
      var init := ParamNames(dims[..|dims| - 1]);
      var p := dims[|dims| - 1].parameter;
      assert forall j :: 0 <= j < |dims| - 1 ==> dims[..|dims| - 1][j] == dims[j];
      if p in init then init else init + [p]
  }

  /** The values one packet contributes to parameter `p`. */
  function ValuesIn(packet: seq<Byte>, dims: seq<Dimension>, p: string): (r: seq<Byte>)
    ensures |r| <= |dims|
    decreases |dims|
  {
    if |dims| == 0 then []
    else
      var rest := ValuesIn(packet, dims[1..], p);
      var v := ExtractDimensionValue(packet, dims[0]);
      if dims[0].parameter == p && v.Some? then [v.value] + rest else rest
  }

  /** `dimensionValues[p]`: packet by packet, dimension by dimension. */
  function DimensionValues(packets: seq<seq<Byte>>, dims: seq<Dimension>, p: string): seq<Byte>
    decreases |packets|
  {
    if |packets| == 0 then [] else ValuesIn(packets[0], dims, p) + DimensionValues(packets[1..], dims, p)
  }

  function MaxOf(values: seq<Byte>): (r: Byte)
    requires |values| > 0
    ensures r in values
    ensures forall v :: v in values ==> v <= r
  {
    if |values| == 1 then values[0]
    else
      var m := MaxOf(values[1..]);
      assert forall v :: v in values ==> v == values[0] || v in values[1..];
      if values[0] >= m then values[0] else m
  }

  function SetOf(values: seq<Byte>): (r: set<Byte>)
    ensures forall v :: v in r <==> v in values
  {
    set v | v in values
  }

  predicate NoDuplicates(names: seq<string>) {
    forall i, j :: 0 <= i < j < |names| ==> names[i] != names[j]
  }

  /** The entry 'max' gives one parameter: its largest value, if it took any. */
  function MaxEntry(values: seq<Byte>, previous: Option<Json>): Option<Json> {
    if |values| > 0 then Some(JNum(MaxOf(values))) else previous
  }

  /** 'max': each parameter with at least one value gets its largest value,
      parameters written in the order of `names`. */
  function MaxValues(names: seq<string>, packets: seq<seq<Byte>>, dims: seq<Dimension>, acc: Entries): (r: Entries)
    ensures |names| == 0 ==> r == acc
    decreases |names|
  {
    if |names| == 0 then acc
    else
      var init := MaxValues(names[..|names| - 1], packets, dims, acc);
      var n := names[|names| - 1];
      var vs := DimensionValues(packets, dims, n);
      if |vs| > 0 then Set(init, n, JNum(MaxOf(vs))) else init
  }

  /** A key that is not a parameter name keeps its value. */
  lemma {:induction false} MaxValuesOther(names: seq<string>, packets: seq<seq<Byte>>, dims: seq<Dimension>, acc: Entries, k: string)
    requires k !in names
    ensures Get(MaxValues(names, packets, dims, acc), k) == Get(acc, k)
    decreases |names|
  {
    if |names| > 0 {
      var init := names[..|names| - 1];
      assert names == init + [names[|names| - 1]];
      MaxValuesOther(init, packets, dims, acc, k);
    }
  }

  /** A parameter name holds its largest value, or its old value when it took none. */
  lemma {:induction false} MaxValuesAt(names: seq<string>, packets: seq<seq<Byte>>, dims: seq<Dimension>, acc: Entries, k: string)
    requires k in names
    ensures Get(MaxValues(names, packets, dims, acc), k) == MaxEntry(DimensionValues(packets, dims, k), Get(acc, k))
    decreases |names|
  {
    var init := names[..|names| - 1];
    var n := names[|names| - 1];
    assert names == init + [n];
    if n != k {
      MaxValuesAt(init, packets, dims, acc, k);
    } else if |DimensionValues(packets, dims, k)| == 0 {
      if k in init {
        MaxValuesAt(init, packets, dims, acc, k);
      } else {
        MaxValuesOther(init, packets, dims, acc, k);
      }
    }
  }

  lemma AppendCancel(a: string, b: string, suffix: string)
    requires a + suffix == b + suffix
    ensures a == b
  {
    assert |a| == |b|;
    assert a == (a + suffix)[..|a|];
    assert b == (b + suffix)[..|b|];
  }

  /** 'count': every parameter gets, under its name followed by `suffix`, the
      number of distinct values it took. */
  function CountValues(names: seq<string>, packets: seq<seq<Byte>>, dims: seq<Dimension>, suffix: string, acc: Entries): (r: Entries)
    ensures |names| == 0 ==> r == acc
    decreases |names|
  {
    if |names| == 0 then acc
    else
      var init := CountValues(names[..|names| - 1], packets, dims, suffix, acc);
      var n := names[|names| - 1];
      Set(init, n + suffix, JNum(|SetOf(DimensionValues(packets, dims, n))|))
  }

  /** A key that is no parameter name followed by `suffix` keeps its value. */
  lemma {:induction false} CountValuesOther(names: seq<string>, packets: seq<seq<Byte>>, dims: seq<Dimension>, suffix: string, acc: Entries, k: string)
    requires forall i :: 0 <= i < |names| ==> k != names[i] + suffix
    ensures Get(CountValues(names, packets, dims, suffix, acc), k) == Get(acc, k)
    decreases |names|
  {
    if |names| > 0 {
      var init := names[..|names| - 1];
      assert forall i :: 0 <= i < |init| ==> init[i] == names[i];
      CountValuesOther(init, packets, dims, suffix, acc, k);
    }
  }

  /** A parameter name followed by `suffix` holds its number of distinct values. */
  lemma {:induction false} CountValuesAt(names: seq<string>, packets: seq<seq<Byte>>, dims: seq<Dimension>, suffix: string, acc: Entries, k: string)
    requires k in names
    ensures Get(CountValues(names, packets, dims, suffix, acc), k + suffix) ==
      Some(JNum(|SetOf(DimensionValues(packets, dims, k))|))
    decreases |names|
  {
    var init := names[..|names| - 1];
    var n := names[|names| - 1];
    if n != k {
      assert names == init + [n];
      if n + suffix == k + suffix {
        AppendCancel(n, k, suffix);
      }
      CountValuesAt(init, packets, dims, suffix, acc, k);
    }
  }

  /** One packet's tuple: `{ parameter: value }` for each dimension with a value. */
  function Tuple(packet: seq<Byte>, dims: seq<Dimension>, acc: Entries): Entries
    decreases |dims|
  {
    if |dims| == 0 then acc
    else
      var v := ExtractDimensionValue(packet, dims[0]);
      Tuple(packet, dims[1..], if v.Some? then Set(acc, dims[0].parameter, JNum(v.value)) else acc)
  }

  /** Distinct elements in order of first appearance. */
  function Distinct<T(==,!new)>(xs: seq<T>): (r: seq<T>)
    ensures forall x :: x in r <==> x in xs
    ensures forall i, j :: 0 <= i < j < |r| ==> r[i] != r[j]
  {
    if |xs| == 0 then []
    else
      var init := Distinct(xs[..|xs| - 1]);
      assert forall x :: x in xs <==> x in xs[..|xs| - 1] || x == xs[|xs| - 1];
      if xs[|xs| - 1] in init then init else init + [xs[|xs| - 1]]
  }

  /** Position of the first occurrence of `x`. */
  function FirstIndex<T(==)>(xs: seq<T>, x: T): (i: nat)
    requires x in xs
    ensures i < |xs| && xs[i] == x && x !in xs[..i]
  {
    if xs[0] == x then 0
    else
      var j := FirstIndex(xs[1..], x);
      assert xs[..j + 1] == [xs[0]] + xs[1..][..j];
      1 + j
  }

  /** The first occurrence is the one with no occurrence before it. */
  lemma FirstIndexUnique<T>(xs: seq<T>, x: T, i: nat)
    requires i < |xs| && xs[i] == x && x !in xs[..i]
    ensures FirstIndex(xs, x) == i
  {
    var j := FirstIndex(xs, x);
    assert forall m :: 0 <= m < i ==> xs[..i][m] == xs[m];
    assert forall m :: 0 <= m < j ==> xs[..j][m] == xs[m];
  }

  /** An element of a prefix is first seen at the same place in the whole. */
  lemma FirstIndexPrefix<T>(xs: seq<T>, m: nat, x: T)
    requires m <= |xs| && x in xs[..m]
    ensures FirstIndex(xs, x) == FirstIndex(xs[..m], x)
  {
    var i := FirstIndex(xs[..m], x);
    assert xs[..m][..i] == xs[..i];
    FirstIndexUnique(xs, x, i);
  }

  /** `Distinct` keeps the order in which elements are first seen. */
  lemma {:induction false} DistinctFirstSeen<T(!new)>(xs: seq<T>)
    ensures forall i, j :: 0 <= i < j < |Distinct(xs)| ==> FirstIndex(xs, Distinct(xs)[i]) < FirstIndex(xs, Distinct(xs)[j])
  {
    if |xs| > 0 {
      var n := |xs| - 1;
      var init := xs[..n];
      var d := Distinct(init);
      DistinctFirstSeen(init);
      forall x | x in d
        ensures FirstIndex(xs, x) == FirstIndex(init, x) < n
      {
        FirstIndexPrefix(xs, n, x);
      }
      if xs[n] !in d {
        FirstIndexUnique(xs, xs[n], n);
        assert Distinct(xs) == d + [xs[n]];
      }
    }
  }

  function Tuples(packets: seq<seq<Byte>>, dims: seq<Dimension>): (r: seq<Json>)
    ensures |r| == |packets|
    ensures forall i :: 0 <= i < |packets| ==> r[i] == JObj(Tuple(packets[i], dims, []))
  {
    if |packets| == 0 then [] else [JObj(Tuple(packets[0], dims, []))] + Tuples(packets[1..], dims)
  }

  /** The groups of the 'grouped' strategy: first-dimension value to the set
      of second-dimension values seen with it. */
  function Groups(packets: seq<seq<Byte>>, d0: Dimension, d1: Dimension): (r: map<Byte, set<Byte>>)
    ensures forall k :: k in r ==> |r[k]| > 0
    decreases |packets|
  {
    if |packets| == 0 then map[]
    else
      var g := Groups(packets[..|packets| - 1], d0, d1);
      var p := packets[|packets| - 1];
      var key := ExtractDimensionValue(p, d0);
      var val := ExtractDimensionValue(p, d1);
      if key.Some? && val.Some? then
        g[key.value := (if key.value in g then g[key.value] else {}) + {val.value}]
      else g
  }

  /** Every key listed is a group. */
  predicate KeysIn(g: map<Byte, set<Byte>>, keys: seq<Byte>) {
    forall i :: 0 <= i < |keys| ==> keys[i] in g
  }

  /** Group keys from `from` up, in ascending order, as JavaScript enumerates
      integer keys. */
  function AscendingKeys(g: map<Byte, set<Byte>>, from: nat): (r: seq<Byte>)
    ensures KeysIn(g, r)
    decreases 256 - from
  {
    if from >= 256 then []
    else
      var rest := AscendingKeys(g, from + 1);
      if from in g then [from as Byte] + rest else rest
  }

  /** The listed keys are at least `from`. */
  lemma {:induction false} AscendingKeysFrom(g: map<Byte, set<Byte>>, from: nat, i: nat)
    requires i < |AscendingKeys(g, from)|
    ensures AscendingKeys(g, from)[i] >= from
    decreases 256 - from
  {
    if from < 256 && !(from in g && i == 0) {
      AscendingKeysFrom(g, from + 1, if from in g then i - 1 else i);
    }
  }

  /** Every group key from `from` up is listed. */
  lemma {:induction false} AscendingKeysComplete(g: map<Byte, set<Byte>>, from: nat, k: Byte)
    requires k in g && k >= from
    ensures k in AscendingKeys(g, from)
    decreases 256 - from
  {
    if k != from {
      AscendingKeysComplete(g, from + 1, k);
    }
  }

  /** The listed keys strictly ascend. */
  lemma {:induction false} AscendingKeysSorted(g: map<Byte, set<Byte>>, from: nat, i: nat, j: nat)
    requires i < j < |AscendingKeys(g, from)|
    ensures AscendingKeys(g, from)[i] < AscendingKeys(g, from)[j]
    decreases 256 - from
  {
    if from in g {
      if i == 0 {
        AscendingKeysFrom(g, from + 1, j - 1);
      } else {
        AscendingKeysSorted(g, from + 1, i - 1, j - 1);
      }
    } else {
      AscendingKeysSorted(g, from + 1, i, j);
    }
  }

  function GroupSizes(g: map<Byte, set<Byte>>, keys: seq<Byte>): Entries
    requires KeysIn(g, keys)
  {
    if |keys| == 0 then []
    else [(NatToDecimal(keys[0]), JNum(|g[keys[0]]|))] + GroupSizes(g, keys[1..])
  }

  function LargestGroup(g: map<Byte, set<Byte>>, keys: seq<Byte>): (r: nat)
    requires KeysIn(g, keys)
    ensures forall i :: 0 <= i < |keys| ==> |g[keys[i]]| <= r
    ensures r == 0 || exists i :: 0 <= i < |keys| && |g[keys[i]]| == r
  {
    if |keys| == 0 then 0
    else
      var m := LargestGroup(g, keys[1..]);
      assert forall i :: 1 <= i < |keys| ==> keys[1..][i - 1] == keys[i];
      if |g[keys[0]]| >= m then |g[keys[0]]| else m
  }

  /** Packet `p` gives the pair (k, v): its first dimension reads `k` and
      its second `v`. */
  predicate GivesPair(p: seq<Byte>, d0: Dimension, d1: Dimension, k: Byte, v: Byte) {
    ExtractDimensionValue(p, d0) == Some(k) && ExtractDimensionValue(p, d1) == Some(v)
  }

  /** `v` is in group `k` exactly when some packet gives the pair (k, v). */
  lemma {:induction false} GroupsHold(packets: seq<seq<Byte>>, d0: Dimension, d1: Dimension, k: Byte, v: Byte)
    ensures (k in Groups(packets, d0, d1) && v in Groups(packets, d0, d1)[k]) <==>
      exists i :: 0 <= i < |packets| && GivesPair(packets[i], d0, d1, k, v)
    decreases |packets|
  {
    if |packets| > 0 {
      var n := |packets| - 1;
      var init := packets[..n];
      GroupsHold(init, d0, d1, k, v);
      GroupsStep(packets, d0, d1, k, v);
      SomePacketGives(packets, d0, d1, k, v);
    }
  }

  /** Some packet gives the pair exactly when one before the last does or
      the last does. */
  lemma SomePacketGives(packets: seq<seq<Byte>>, d0: Dimension, d1: Dimension, k: Byte, v: Byte)
    requires |packets| > 0
    ensures var n := |packets| - 1;
      (exists i :: 0 <= i < |packets| && GivesPair(packets[i], d0, d1, k, v)) <==>
      (exists i :: 0 <= i < n && GivesPair(packets[..n][i], d0, d1, k, v)) || GivesPair(packets[n], d0, d1, k, v)
  {
    var n := |packets| - 1;
    assert forall i :: 0 <= i < n ==> packets[..n][i] == packets[i];
  }

  /** The last packet adds its pair, if it gives one, to the groups of
      the packets before it. */
  lemma GroupsStep(packets: seq<seq<Byte>>, d0: Dimension, d1: Dimension, k: Byte, v: Byte)
    requires |packets| > 0
    ensures var g0 := Groups(packets[..|packets| - 1], d0, d1);
      var g := Groups(packets, d0, d1);
      (k in g && v in g[k]) <==> (k in g0 && v in g0[k]) || GivesPair(packets[|packets| - 1], d0, d1, k, v)
  {
  }

  /** `k` is a group exactly when some packet reads `k` in its first
      dimension and has a value in its second. */
  lemma GroupKeys(packets: seq<seq<Byte>>, d0: Dimension, d1: Dimension, k: Byte)
    ensures k in Groups(packets, d0, d1) <==> exists i, v :: 0 <= i < |packets| && GivesPair(packets[i], d0, d1, k, v)
  {
    var g := Groups(packets, d0, d1);
    if k in g {
      var v :| v in g[k];
      GroupsHold(packets, d0, d1, k, v);
    }
    if exists i, v :: 0 <= i < |packets| && GivesPair(packets[i], d0, d1, k, v) {
      var i, v :| 0 <= i < |packets| && GivesPair(packets[i], d0, d1, k, v);
      GroupsHold(packets, d0, d1, k, v);
    }
  }

  /** The group keys from `from` up. */
  function KeysFrom(g: map<Byte, set<Byte>>, from: nat): set<Byte> {
    set k | k in g && k >= from
  }

  /** One key is listed per group from `from` up. */
  lemma {:induction false} AscendingKeysCount(g: map<Byte, set<Byte>>, from: nat)
    ensures |AscendingKeys(g, from)| == |KeysFrom(g, from)|
    decreases 256 - from
  {
    if from < 256 {
      AscendingKeysCount(g, from + 1);
      if from in g {
        assert KeysFrom(g, from) == KeysFrom(g, from + 1) + {from as Byte};
      } else {
        assert KeysFrom(g, from) == KeysFrom(g, from + 1);
      }
    } else {
      assert KeysFrom(g, from) == {};
    }
  }

  /** Every group is listed once. */
  lemma AllKeysListed(g: map<Byte, set<Byte>>)
    ensures |AscendingKeys(g, 0)| == |g|
  {
    AscendingKeysCount(g, 0);
    assert KeysFrom(g, 0) == g.Keys;
  }

  /** `n` is the size of the largest group, 0 when there is none. */
  predicate IsLargestGroup(g: map<Byte, set<Byte>>, n: int) {
    && (forall k :: k in g ==> |g[k]| <= n)
    && (n == 0 || exists k :: k in g && |g[k]| == n)
  }

  lemma LargestOfAll(g: map<Byte, set<Byte>>)
    ensures IsLargestGroup(g, LargestGroup(g, AscendingKeys(g, 0)))
  {
    var keys := AscendingKeys(g, 0);
    forall k | k in g ensures |g[k]| <= LargestGroup(g, keys) {
      AscendingKeysComplete(g, 0, k);
      var i :| 0 <= i < |keys| && keys[i] == k;
    }
  }

  /** `sizes` gives every group's size under its key written in decimal,
      one entry per group. */
  predicate ListsGroupSizes(sizes: Entries, g: map<Byte, set<Byte>>) {
    |sizes| == |g| && forall k :: k in g ==> Get(sizes, NatToDecimal(k)) == Some(JNum(|g[k]|))
  }

  lemma {:induction false} GroupSizesLength(g: map<Byte, set<Byte>>, keys: seq<Byte>)
    requires KeysIn(g, keys)
    ensures |GroupSizes(g, keys)| == |keys|
  {
    if |keys| > 0 {
      GroupSizesLength(g, keys[1..]);
    }
  }

  /** A listed key's entry holds its group's size: distinct keys are
      written differently in decimal. */
  lemma {:induction false} GroupSizesGet(g: map<Byte, set<Byte>>, keys: seq<Byte>, k: Byte)
    requires KeysIn(g, keys) && k in keys
    ensures Get(GroupSizes(g, keys), NatToDecimal(k)) == Some(JNum(|g[k]|))
  {
    var sizes := GroupSizes(g, keys);
    if keys[0] != k {
      DecimalRoundTrip(keys[0]);
      DecimalRoundTrip(k);
      GroupSizesGet(g, keys[1..], k);
      assert sizes[1..] == GroupSizes(g, keys[1..]);
    }
  }

  lemma GroupSizesOfAll(g: map<Byte, set<Byte>>)
    ensures ListsGroupSizes(GroupSizes(g, AscendingKeys(g, 0)), g)
  {
    var keys := AscendingKeys(g, 0);
    GroupSizesLength(g, keys);
    AllKeysListed(g);
    forall k | k in g ensures Get(GroupSizes(g, keys), NatToDecimal(k)) == Some(JNum(|g[k]|)) {
      AscendingKeysComplete(g, 0, k);
      GroupSizesGet(g, keys, k);
    }
  }

  function StrategyOf(s: DiscoverySchema): Strategy {
    if s.inference.Some? then s.inference.value.strategy else Max
  }

  function OutputOr(s: DiscoverySchema, default: string): string {
    if s.inference.Some? && s.inference.value.output.Some? then s.inference.value.output.value else default
  }

  /** The parameter values a strategy infers from the matched packets. */
  function Infer(s: DiscoverySchema, packets: seq<seq<Byte>>): (r: Entries)
    ensures StrategyOf(s).OtherStrategy? ==> r == []
    ensures StrategyOf(s) == Grouped && |ParamNames(s.dimensions)| < 2 ==> r == []
  {
    var names := ParamNames(s.dimensions);
    match StrategyOf(s)
    case Max => MaxValues(names, packets, s.dimensions, [])
    case Count => CountValues(names, packets, s.dimensions, "", [])
    case UniqueTuples =>
      var items := Distinct(Tuples(packets, s.dimensions));
      CountValues(names, packets, s.dimensions, "_count", Set([], OutputOr(s, "items"), JArr(items)))
    case Grouped =>
      if |names| < 2 then []
      else
        var g := Groups(packets, s.dimensions[0], s.dimensions[1]);
        var keys := AscendingKeys(g, 0);
        var withGroups := Set([], OutputOr(s, "grouped"), JObj(GroupSizes(g, keys)));
        var withCount := Set(withGroups, names[0], JNum(|keys|));
        Set(withCount, names[1], JNum(LargestGroup(g, keys)))
    case OtherStrategy(_) => []
  }

  /** `evaluateDiscovery(discovery, packetDictionary, unmatchedPackets)`; the
      dictionary is given as its values in enumeration order. */
  function EvaluateDiscovery(s: DiscoverySchema, dictionary: seq<string>, unmatched: seq<string>): (r: DiscoveryResult)
    ensures r.matchedPacketCount == CountMatching(dictionary + unmatched, s.match_)
    ensures r.matched <==> r.matchedPacketCount > 0
    ensures !r.matched ==> r == DiscoveryResult(false, 0, [], s.ui)
    ensures r.ui == s.ui
  {
    var packets := MatchedPackets(dictionary + unmatched, s.match_);
    MatchedCount(dictionary + unmatched, s.match_);
    if |packets| == 0 then DiscoveryResult(false, 0, [], s.ui)
    else DiscoveryResult(true, |packets|, Infer(s, packets), s.ui)
  }

  /** Without an inference block the strategy is 'max': every parameter that
      took a value is reported with its largest one, and one that took none
      is absent. */
  lemma DefaultIsMax(s: DiscoverySchema, dictionary: seq<string>, unmatched: seq<string>, p: string)
    requires s.inference.None?
    requires p in ParamNames(s.dimensions)
    requires CountMatching(dictionary + unmatched, s.match_) > 0
    ensures var packets := MatchedPackets(dictionary + unmatched, s.match_);
      var vs := DimensionValues(packets, s.dimensions, p);
      var r := EvaluateDiscovery(s, dictionary, unmatched).parameterValues;
      && (|vs| > 0 ==> Get(r, p) == Some(JNum(MaxOf(vs))) && forall v :: v in vs ==> v <= MaxOf(vs))
      && (|vs| == 0 ==> Get(r, p).None?)
  {
    var packets := MatchedPackets(dictionary + unmatched, s.match_);
    MatchedCount(dictionary + unmatched, s.match_);
    MaxValuesAt(ParamNames(s.dimensions), packets, s.dimensions, [], p);
  }

  /** 'count' reports, for every parameter, how many distinct values it took. */
  lemma CountIsDistinctValues(s: DiscoverySchema, dictionary: seq<string>, unmatched: seq<string>, p: string)
    requires StrategyOf(s) == Count
    requires p in ParamNames(s.dimensions)
    requires CountMatching(dictionary + unmatched, s.match_) > 0
    ensures var packets := MatchedPackets(dictionary + unmatched, s.match_);
      Get(EvaluateDiscovery(s, dictionary, unmatched).parameterValues, p) ==
        Some(JNum(|SetOf(DimensionValues(packets, s.dimensions, p))|))
  {
    var packets := MatchedPackets(dictionary + unmatched, s.match_);
    MatchedCount(dictionary + unmatched, s.match_);
    CountValuesAt(ParamNames(s.dimensions), packets, s.dimensions, "", [], p);
    assert p + "" == p;
  }

  /** The items of 'unique_tuples': each matched packet's tuple exactly
      once, in the order the tuples are first seen. */
  lemma UniqueTuplesItems(packets: seq<seq<Byte>>, dims: seq<Dimension>)
    ensures var tuples := Tuples(packets, dims);
      var items := Distinct(tuples);
      && (forall t :: t in items <==> exists i :: 0 <= i < |packets| && t == JObj(Tuple(packets[i], dims, [])))
      && (forall i, j :: 0 <= i < j < |items| ==> items[i] != items[j])
      && (forall i, j :: 0 <= i < j < |items| ==> FirstIndex(tuples, items[i]) < FirstIndex(tuples, items[j]))
  {
    var tuples := Tuples(packets, dims);
    assert forall t :: t in tuples <==> exists i :: 0 <= i < |tuples| && tuples[i] == t;
    DistinctFirstSeen(tuples);
  }

  /** 'unique_tuples' reports the unique tuples under the output name
      (unless a count entry overwrites it) and every parameter's number of
      distinct values under its name followed by `_count`. */
  lemma UniqueTuplesReport(s: DiscoverySchema, packets: seq<seq<Byte>>, p: string)
    requires StrategyOf(s) == UniqueTuples
    ensures var names := ParamNames(s.dimensions);
      var r := Infer(s, packets);
      var out := OutputOr(s, "items");
      && (p in names ==> Get(r, p + "_count") == Some(JNum(|SetOf(DimensionValues(packets, s.dimensions, p))|)))
      && ((forall i :: 0 <= i < |names| ==> out != names[i] + "_count") ==> Get(r, out) == Some(JArr(Distinct(Tuples(packets, s.dimensions)))))
  {
    var names := ParamNames(s.dimensions);
    var out := OutputOr(s, "items");
    var acc := Set([], out, JArr(Distinct(Tuples(packets, s.dimensions))));
    UniqueTuplesUnfold(s, packets);
    if p in names {
      CountValuesAt(names, packets, s.dimensions, "_count", acc, p);
    }
    if forall i :: 0 <= i < |names| ==> out != names[i] + "_count" {
      CountValuesOther(names, packets, s.dimensions, "_count", acc, out);
    }
  }

  /** 'unique_tuples' starts from the item list and adds the counts. */
  lemma UniqueTuplesUnfold(s: DiscoverySchema, packets: seq<seq<Byte>>)
    requires StrategyOf(s) == UniqueTuples
    ensures Infer(s, packets) == CountValues(ParamNames(s.dimensions), packets, s.dimensions, "_count",
      Set([], OutputOr(s, "items"), JArr(Distinct(Tuples(packets, s.dimensions)))))
  {
  }

  /** 'grouped' reports the size of every group under the output name
      (unless a parameter overwrites it), the number of groups under the
      first parameter and the size of the largest group under the second. */
  lemma GroupedReport(s: DiscoverySchema, packets: seq<seq<Byte>>)
    requires StrategyOf(s) == Grouped && |ParamNames(s.dimensions)| >= 2
    ensures var names := ParamNames(s.dimensions);
      var g := Groups(packets, s.dimensions[0], s.dimensions[1]);
      var r := Infer(s, packets);
      var out := OutputOr(s, "grouped");
      && Get(r, names[0]) == Some(JNum(|g|))
      && Get(r, names[1]).Some? && Get(r, names[1]).value.JNum? && IsLargestGroup(g, Get(r, names[1]).value.n)
      && (out != names[0] && out != names[1] ==> Get(r, out).Some? && Get(r, out).value.JObj? && ListsGroupSizes(Get(r, out).value.entries, g))
  {
    var names := ParamNames(s.dimensions);
    var g := Groups(packets, s.dimensions[0], s.dimensions[1]);
    assert names[0] != names[1];
    AllKeysListed(g);
    LargestOfAll(g);
    GroupSizesOfAll(g);
  }
}

=== FILE: gallery_template.dfy ===
/** Gallery templates: a configuration snippet with declared parameters,
    `$repeat` blocks that expand an array item once per loop value, and
    `{{expression | filter}}` placeholders inside strings. Evaluating an
    expression (JavaScript's `new Function`) is outside the model: it is the
    `Evaluator` parameter, which sees the expression and the context. */
module GalleryTemplate {
  import opened Wrappers
  import opened Strings
  import opened JsonValue

  /** What running an expression against a context gives: a value, or
      `None` when it throws. A value is a JSON value, so an expression whose
      result is `undefined` has no counterpart here. */
  type Evaluator = (string, Entries) -> Option<Json>

  // ---------------------------------------------------------------------------
  // Expressions and filters

  /** A character the expression guard accepts: letters, digits, `_`, the
      arithmetic and grouping characters, and whitespace. */
  predicate SafeChar(c: char) {
    ('a' <= c <= 'z') || ('A' <= c <= 'Z') || ('0' <= c <= '9') || c in "_.+-*/()[]" || IsSpace(c)
  }

  /** The guard on the part before the first `|`: non-empty, only safe characters. */
  predicate SafeExpression(e: string) {
    |e| > 0 && forall m :: 0 <= m < |e| ==> SafeChar(e[m])
  }

  /** `Number(s)` for text that is blank, a decimal integer with an optional
      sign, or a `0x` hexadecimal integer. `None` stands for `NaN`, and also
      for the text `Number` reads as a number the model has no value for:
      fractions, exponents, `0b`/`0o` literals and `Infinity`. */
  function TextToNumber(s: string): (r: Option<int>)
    ensures AllSpace(s) ==> r == Some(0)
  {
    var t := Trim(s);
    if |t| == 0 then Some(0)
    else if |t| > 2 && t[0] == '0' && (t[1] == 'x' || t[1] == 'X') && AllHexDigits(t[2..]) then
      Some(HexValue(t[2..]))
    else
      var negative := t[0] == '-';
      var u := if t[0] == '-' || t[0] == '+' then t[1..] else t;
      if |u| > 0 && AllDigits(u) then Some(if negative then -(DecimalValue(u) as int) else DecimalValue(u))
      else None
  }

  /** `Number(v)` when that is an integer the model reads; `None` for `NaN`
      and for the non-integer numbers `TextToNumber` does not read. */
  function ToNumber(v: Json): Option<int> {
    match v
    case JNull => Some(0)
    case JBool(b) => Some(if b then 1 else 0)
    case JNum(n) => Some(n)
    case JStr(s) => TextToNumber(s)
    case JArr(_) => TextToNumber(JsString(v))
    case JObj(_) => None
  }

  /** The `hex` filter: `0x` and the upper-case hexadecimal digits padded to
      two; a value that is not a number passes unchanged, and a negative
      number keeps its sign after the `0x`. */
  function Hex(v: Json): (r: Json)
    ensures ToNumber(v).None? ==> r == v
    ensures ToNumber(v).Some? ==> r.JStr? && HexLiteralText(r.s, ToNumber(v).value)
  {
    match ToNumber(v)
    case None => v
    case Some(n) =>
      HexLiteralOf(n);
      JStr("0x" + PadStart(IntToHexUpper(n), 2, '0'))
  }

  /** The target width of the `pad` filter: `Number(arg) || 2`. */
  function PadWidth(arg: Option<string>): (r: int)
    ensures r != 0
    ensures arg.None? ==> r == 2
  {
    match arg
    case None => 2
    case Some(a) =>
      match TextToNumber(a)
      case None => 2
      case Some(n) => if n == 0 then 2 else n
  }

  /** The `pad` filter: the value as a string, left-padded with `0`. */
  function Pad(v: Json, arg: Option<string>): (r: Json)
    ensures r.JStr? && |r.s| >= |JsString(v)| && |r.s| >= PadWidth(arg)
    ensures r.s[|r.s| - |JsString(v)|..] == JsString(v)
    ensures forall m :: 0 <= m < |r.s| - |JsString(v)| ==> r.s[m] == '0'
  {
    JStr(PadStart(JsString(v), PadWidth(arg), '0'))
  }

  /** One filter, written `name` or `name:arg`; names other than `hex` and
      `pad` do nothing. The names the filter table inherits as a plain
      object (`constructor`, `valueOf`, …) are not modelled. */
  function ApplyFilter(v: Json, filter: string): (r: Json)
    ensures Split(filter, ':')[0] != "hex" && Split(filter, ':')[0] != "pad" ==> r == v
  {
    var parts := Split(filter, ':');
    if parts[0] == "hex" then Hex(v)
    else if parts[0] == "pad" then Pad(v, if |parts| > 1 then Some(parts[1]) else None)
    else v
  }

  /** The filters in order, each applied to the previous one's result. */
  function ApplyFilters(v: Json, filters: seq<string>): (r: Json)
    ensures (forall k :: 0 <= k < |filters| ==>
      (Split(filters[k], ':')[0] != "hex" && Split(filters[k], ':')[0] != "pad")) ==> r == v
    decreases |filters|
  {
    if |filters| == 0 then v else ApplyFilters(ApplyFilter(v, filters[0]), filters[1..])
  }

  /** `evaluateExpression`: the text before the first `|` is guarded and
      evaluated, the rest are filters. An unsafe expression comes back as
      its own text; one that throws comes back wrapped in braces again. */
  function EvaluateExpression(expression: string, ctx: Entries, ev: Evaluator): (r: Json)
    ensures var v := Trim(Split(expression, '|')[0]);
      (!SafeExpression(v) ==> r == JStr(expression))
      && (SafeExpression(v) && ev(v, ctx).None? ==> r == JStr("{{" + expression + "}}"))
  {
    var parts := Split(expression, '|');
    var valueExpr := Trim(parts[0]);
    var filters := seq(|parts| - 1, k requires 0 <= k < |parts| - 1 => Trim(parts[k + 1]));
    if !SafeExpression(valueExpr) then JStr(expression)
    else
      match ev(valueExpr, ctx)
      case None => JStr("{{" + expression + "}}")
      case Some(v) => ApplyFilters(v, filters)
  }

  /** An expression with a character outside the guard's set is returned as
      written, whatever the evaluator would have done. */
  lemma UnsafeIsNotEvaluated(a: string, b: string, i: nat, ctx: Entries, ev: Evaluator)
    requires '|' !in a && (|b| == 0 || b[0] == '|')
    requires i < |a| && !SafeChar(a[i])
    ensures EvaluateExpression(a + b, ctx, ev) == JStr(a + b)
  {
    if |b| == 0 {
      assert a + b == a;
      SplitWithout(a, '|');
    } else {
      assert a + b == a + ['|'] + b[1..];
      SplitAtFirst(a, b[1..], '|');
    }
    assert Split(a + b, '|')[0] == a;
    TrimKeepsNonSpace(a, i);
  }

  /** A guarded expression without filters yields exactly what it evaluates to. */
  lemma PlainExpressionValue(e: string, ctx: Entries, ev: Evaluator, v: Json)
    requires '|' !in e && SafeExpression(Trim(e)) && ev(Trim(e), ctx) == Some(v)
    ensures EvaluateExpression(e, ctx, ev) == v
  {
    SplitWithout(e, '|');
  }

  // ---------------------------------------------------------------------------
  // Placeholders in strings: the global pattern `\{\{(.+?)\}\}`

  /** The characters `.` does not match. */
  predicate IsLineTerminator(c: char) {
    c == '\n' || c == '\r' || c == '\U{2028}' || c == '\U{2029}'
  }

  /** Where the lazy `.+?` stops: the first `q` at or after the given one
      with `}}` at `q`, as long as every character before `q` (from the
      content's last one on) is not a line terminator. */
  function Close(str: string, q: nat): (r: Option<nat>)
    requires 1 <= q
    ensures r.Some? ==> q <= r.value && r.value + 2 <= |str|
    decreases |str| - q
  {
    if q > |str| then None
    else if IsLineTerminator(str[q - 1]) then None
    else if q + 2 <= |str| && str[q] == '}' && str[q + 1] == '}' then Some(q)
    else Close(str, q + 1)
  }

  /** The first match at or after `from`: its start `p` and the start `q`
      of its closing braces, so the content is `str[p + 2..q]`. */
  function NextMatch(str: string, from: nat): (r: Option<(nat, nat)>)
    ensures r.Some? ==> from <= r.value.0 && r.value.0 + 3 <= r.value.1 && r.value.1 + 2 <= |str|
    decreases |str| - from
  {
    if from + 3 > |str| then None
    else if str[from] == '{' && str[from + 1] == '{' && Close(str, from + 3).Some? then
      Some((from, Close(str, from + 3).value))
    else NextMatch(str, from + 1)
  }

  /** All matches from `from` on, each search resuming after the previous match. */
  function Matches(str: string, from: nat): (r: seq<(nat, nat)>)
    ensures forall k :: 0 <= k < |r| ==> from <= r[k].0 && r[k].0 + 3 <= r[k].1 && r[k].1 + 2 <= |str|
    decreases |str| - from
  {
    match NextMatch(str, from)
    case None => []
    case Some((p, q)) => [(p, q)] + Matches(str, q + 2)
  }

  /** `str.replace(pattern, replacer)` from `from` on: every match replaced
      by the replacer's text for its expression. */
  function ReplaceAll(str: string, from: nat, text: string -> string): string
    requires from <= |str|
    decreases |str| - from
  {
    match NextMatch(str, from)
    case None => str[from..]
    case Some((p, q)) => str[from..p] + text(str[p + 2..q]) + ReplaceAll(str, q + 2, text)
  }

  /** Every placeholder of `str` replaced by `String` of its value. */
  function Interpolated(str: string, ctx: Entries, ev: Evaluator): string {
    ReplaceAll(str, 0, PlaceholderText(ctx, ev))
  }

  /** The replacer of `evaluateString`. */
  function PlaceholderText(ctx: Entries, ev: Evaluator): string -> string {
    e => ValueText(e, ctx, ev)
  }

  /** `String` of an expression's value. */
  function ValueText(e: string, ctx: Entries, ev: Evaluator): string {
    JsString(EvaluateExpression(e, ctx, ev))
  }

  /** `evaluateString`: a string that is one placeholder gives the value
      itself; a string with none is kept; otherwise every placeholder is
      replaced by its value's text. */
  function EvaluateString(str: string, ctx: Entries, ev: Evaluator): (r: Json)
    ensures Matches(str, 0) == [] ==> r == JStr(str)
  {
    var ms := Matches(str, 0);
    if |ms| == 1 && ms[0].0 == 0 && ms[0].1 + 2 == |str| then EvaluateExpression(str[2..|str| - 2], ctx, ev)
    else if |ms| == 0 then JStr(str)
    else JStr(Interpolated(str, ctx, ev))
  }

  lemma {:induction false} NoOpeningNoMatch(str: string, from: nat)
    requires !Includes(str, "{{")
    ensures NextMatch(str, from).None?
    decreases |str| - from
  {
    if from + 3 <= |str| {
      assert !OccursAt(str, "{{", from);
      NoOpeningNoMatch(str, from + 1);
    }
  }

  /** A string without `{{` is left exactly as it is. */
  lemma NoPlaceholderUnchanged(str: string, ctx: Entries, ev: Evaluator)
    requires !Includes(str, "{{")
    ensures EvaluateString(str, ctx, ev) == JStr(str)
  {
    NoOpeningNoMatch(str, 0);
  }

  /** The lazy content reaches the first `}}` when nothing before it is a
      line terminator or a brace. */
  lemma {:induction false} CloseReaches(str: string, q: nat, t: nat)
    requires 1 <= q <= t && t + 2 <= |str| && str[t] == '}' && str[t + 1] == '}'
    requires forall m :: q - 1 <= m < t ==> !IsLineTerminator(str[m])
    requires forall m :: q <= m < t ==> str[m] != '}'
    ensures Close(str, q) == Some(t)
    decreases t - q
  {
    if q < t {
      CloseReaches(str, q + 1, t);
    }
  }

  /** No match starts in a stretch without `{`. */
  lemma {:induction false} NoMatchIn(str: string, from: nat, upto: nat)
    requires from <= upto <= |str|
    requires forall m :: from <= m < upto ==> str[m] != '{'
    ensures NextMatch(str, from) == NextMatch(str, upto)
    decreases upto - from
  {
    if from < upto && from + 3 <= |str| {
      NoMatchIn(str, from + 1, upto);
    }
  }

  /** The match of a placeholder `{{e}}` placed after `pre`. */
  lemma PlaceholderMatch(pre: string, e: string, post: string)
    requires '{' !in pre && |e| > 0 && '}' !in e
    requires forall m :: 0 <= m < |e| ==> !IsLineTerminator(e[m])
    ensures var str := pre + "{{" + e + "}}" + post;
      NextMatch(str, 0) == Some((|pre|, |pre| + 2 + |e|))
      && str[|pre| + 2..|pre| + 2 + |e|] == e
  {
    var str := pre + "{{" + e + "}}" + post;
    var p := |pre|;
    var t := p + 2 + |e|;
    assert forall m :: 0 <= m < p ==> str[m] == pre[m];
    NoMatchIn(str, 0, p);
    assert forall m :: p + 2 <= m < t ==> str[m] == e[m - p - 2];
    CloseReaches(str, p + 3, t);
  }

  /** A string that is exactly one placeholder keeps the value's type: the
      expression's result is returned without being turned into text. */
  lemma SingleExpressionKeepsValue(e: string, ctx: Entries, ev: Evaluator)
    requires |e| > 0 && '}' !in e
    requires forall m :: 0 <= m < |e| ==> !IsLineTerminator(e[m])
    ensures EvaluateString("{{" + e + "}}", ctx, ev) == EvaluateExpression(e, ctx, ev)
  {
    var str := "{{" + e + "}}";
    PlaceholderMatch("", e, "");
    assert "" + "{{" + e + "}}" + "" == str;
    assert NextMatch(str, |str|).None?;
    assert Matches(str, 0) == [(0, 2 + |e|)];
    assert str[2..|str| - 2] == e;
  }

  /** A number-valued placeholder alone in a string gives the number itself. */
  lemma SingleExpressionNumber(e: string, ctx: Entries, ev: Evaluator, n: int)
    requires |e| > 0 && '}' !in e && '|' !in e
    requires forall m :: 0 <= m < |e| ==> !IsLineTerminator(e[m])
    requires SafeExpression(Trim(e)) && ev(Trim(e), ctx) == Some(JNum(n))
    ensures EvaluateString("{{" + e + "}}", ctx, ev) == JNum(n)
  {
    SingleExpressionKeepsValue(e, ctx, ev);
    PlainExpressionValue(e, ctx, ev, JNum(n));
  }

  /** A placeholder with text around it is replaced by its value's text. */
  lemma EmbeddedExpressionInterpolated(pre: string, e: string, post: string, ctx: Entries, ev: Evaluator)
    requires '{' !in pre && '{' !in post && |pre| + |post| > 0
    requires |e| > 0 && '}' !in e
    requires forall m :: 0 <= m < |e| ==> !IsLineTerminator(e[m])
    ensures EvaluateString(pre + "{{" + e + "}}" + post, ctx, ev)
      == JStr(pre + JsString(EvaluateExpression(e, ctx, ev)) + post)
  {
    OnePlaceholder(pre, e, post);
    InterpolatedAt(pre + "{{" + e + "}}" + post, |pre|, |pre| + 2 + |e|, ctx, ev);
  }

  /** A string whose one match does not span all of it is the text around
      the match with the expression's value in between. */
  lemma InterpolatedAt(str: string, p: nat, t: nat, ctx: Entries, ev: Evaluator)
    requires p + 2 <= t && t + 2 <= |str|
    requires NextMatch(str, 0) == Some((p, t)) && NextMatch(str, t + 2).None?
    requires p != 0 || t + 2 != |str|
    ensures EvaluateString(str, ctx, ev)
      == JStr(str[0..p] + JsString(EvaluateExpression(str[p + 2..t], ctx, ev)) + str[t + 2..])
  {
    assert Matches(str, t + 2) == [];
    assert Matches(str, 0) == [(p, t)];
    assert EvaluateString(str, ctx, ev) == JStr(Interpolated(str, ctx, ev));
    ReplacedOnce(str, p, t, PlaceholderText(ctx, ev));
  }

  /** The replacement of a string's only match. */
  lemma ReplacedOnce(str: string, p: nat, t: nat, text: string -> string)
    requires p + 2 <= t && t + 2 <= |str|
    requires NextMatch(str, 0) == Some((p, t)) && NextMatch(str, t + 2).None?
    ensures ReplaceAll(str, 0, text) == str[0..p] + text(str[p + 2..t]) + str[t + 2..]
  {
    assert ReplaceAll(str, t + 2, text) == str[t + 2..];
  }

  /** The only match in `pre{{e}}post`, and the pieces around it. */
  lemma OnePlaceholder(pre: string, e: string, post: string)
    requires '{' !in pre && '{' !in post
    requires |e| > 0 && '}' !in e
    requires forall m :: 0 <= m < |e| ==> !IsLineTerminator(e[m])
    ensures var str := pre + "{{" + e + "}}" + post;
      var t := |pre| + 2 + |e|;
      NextMatch(str, 0) == Some((|pre|, t)) && NextMatch(str, t + 2).None?
      && str[0..|pre|] == pre && str[|pre| + 2..t] == e && str[t + 2..] == post
  {
    var str := pre + "{{" + e + "}}" + post;
    var t := |pre| + 2 + |e|;
    PlaceholderMatch(pre, e, post);
    assert forall m :: t + 2 <= m < |str| ==> str[m] == post[m - t - 2];
    NoMatchIn(str, t + 2, |str|);
    assert str[0..|pre|] == pre;
    assert str[t + 2..] == post;
  }

  /** `extractExpression`: the inside of a string that is one `{{…}}`
      as a whole, otherwise the string itself. */
  function ExtractExpression(s: string): (r: string)
    ensures |r| <= |s|
    ensures r != s ==> s == "{{" + r + "}}"
  {
    if |s| >= 5 && StartsWith(s, "{{") && EndsWith(s, "}}")
      && forall m :: 2 <= m < |s| - 2 ==> !IsLineTerminator(s[m])
    then
      assert s == "{{" + s[2..|s| - 2] + "}}";
      s[2..|s| - 2]
    else s
  }

  // ---------------------------------------------------------------------------
  // Repeat blocks

  /** The two ways processing reaches the expression language: a string
      with placeholders, and one expression (a loop's `count` or `over`).
      The tree walk below is written over them; `Standard` plugs in
      `evaluateString` and `evaluateExpression`. */
  datatype Evaluators = Evaluators(str: (string, Entries) -> Json, expr: (string, Entries) -> Json)

  function Standard(ev: Evaluator): (r: Evaluators)
    ensures forall s, c :: r.str(s, c) == EvaluateString(s, c, ev)
    ensures forall e, c :: r.expr(e, c) == EvaluateExpression(e, c, ev)
  {
    Evaluators((s, c) => EvaluateString(s, c, ev), (e, c) => EvaluateExpression(e, c, ev))
  }

  /** `start + i` with JavaScript's `+`. */
  function StartPlus(start: Json, i: nat): (r: Json)
    ensures start.JNum? ==> r == JNum(start.n + i)
  {
    match start
    case JNum(n) => JNum(n + i)
    case JNull => JNum(i)
    case JBool(b) => JNum((if b then 1 else 0) + i)
    case _ => JStr(JsString(start) + IntToDecimal(i))
  }

  /** The first loop value: `start` when given, else 1. */
  function StartOf(rc: Json): Json {
    Member(rc, "start").GetOr(JNum(1))
  }

  /** The values of a counted loop: `count` of them, from `start` up. */
  function Counted(start: Json, count: int): (r: seq<Json>)
    ensures |r| == if count > 0 then count else 0
    ensures forall k :: 0 <= k < |r| ==> r[k] == StartPlus(start, k)
  {
    seq(if count > 0 then count else 0, k requires k >= 0 => StartPlus(start, k))
  }

  /** The loop count: a number, or `parseInt` of `String(count)`, with a
      string containing `{{` evaluated first; `None` is `NaN`. Numbers are
      integers here; a fractional or infinite count is not modelled. */
  function RepeatCount(rc: Json, ctx: Entries, es: Evaluators): (r: Option<int>)
    ensures Member(rc, "count").None? ==> r.None?
    ensures Member(rc, "count") == Some(JNum(0)) ==> r == Some(0)
  {
    var raw := Member(rc, "count");
    var v := if raw.Some? && raw.value.JStr? && Includes(raw.value.s, "{{")
      then Some(es.expr(ExtractExpression(raw.value.s), ctx))
      else raw;
    if v.Some? && v.value.JNum? then Some(v.value.n)
    else
      UndefinedIsNaN();
      ParseInt(TemplateString(v))
  }

  /** `parseInt('undefined')` is `NaN`. */
  lemma UndefinedIsNaN()
    ensures ParseInt(TemplateString(None)).None?
  {
    var u := "undefined";
    assert TemplateString(None) == u;
    assert !IsSpace(u[0]) && !IsDigit(u[0]);
    assert LeadingSpaces(u) == 0;
  }

  /** The loop values: the evaluated `over` array when `over` is set,
      otherwise the counted values; `None` when there is nothing to loop
      over. An `over` that is set but not a string gives `None` here, where
      the source throws out of the whole template. */
  function LoopItems(rc: Json, ctx: Entries, es: Evaluators): (r: Option<seq<Json>>)
    ensures TruthyOpt(Member(rc, "over")) && !Member(rc, "over").value.JStr? ==> r.None?
    ensures !TruthyOpt(Member(rc, "over")) ==>
      r == (if RepeatCount(rc, ctx, es).None? then None
        else Some(Counted(StartOf(rc), RepeatCount(rc, ctx, es).value)))
  {
    var over := Member(rc, "over");
    if TruthyOpt(over) then
      if over.value.JStr? then
        match es.expr(over.value.s, ctx)
        case JArr(items) => Some(items)
        case _ => None
      else None
    else
      match RepeatCount(rc, ctx, es)
      case None => None
      case Some(n) => Some(Counted(StartOf(rc), n))
  }

  /** The context of one iteration: the loop variable bound to the value
      and, when an index variable is named, that bound to the position. */
  function LoopContext(ctx: Entries, rc: Json, value: Json, i: nat): Entries {
    var bound := Set(ctx, TemplateString(Member(rc, "as")), value);
    var idx := Member(rc, "index");
    if TruthyOpt(idx) then Set(bound, JsString(idx.value), JNum(i)) else bound
  }

  /** The iteration context binds the index variable to the position, the
      loop variable to the value unless the index variable has its name,
      and leaves every other name as it was. */
  lemma LoopContextBinds(ctx: Entries, rc: Json, value: Json, i: nat, k: string)
    ensures var r := LoopContext(ctx, rc, value, i);
      var asKey := TemplateString(Member(rc, "as"));
      var idx := Member(rc, "index");
      (TruthyOpt(idx) ==> Get(r, JsString(idx.value)) == Some(JNum(i)))
      && (!TruthyOpt(idx) || JsString(idx.value) != asKey ==> Get(r, asKey) == Some(value))
      && (k != asKey && (!TruthyOpt(idx) || k != JsString(idx.value)) ==> Get(r, k) == Get(ctx, k))
  {
  }

  // ---------------------------------------------------------------------------
  // Processing a template tree

  /** Whether an array item is a repeat block. */
  predicate IsRepeat(item: Json) {
    TruthyOpt(Member(item, "$repeat"))
  }

  /** `processNode`: arrays and objects are rebuilt, strings evaluated,
      other values kept. Object keys `$repeat` and `$nested` are dropped. */
  function ProcessNode(node: Json, ctx: Entries, es: Evaluators): (r: Json)
    ensures node.JArr? ==> r.JArr?
    ensures node.JObj? ==> r.JObj?
    ensures node.JNull? || node.JBool? || node.JNum? ==> r == node
    decreases node, 1
  {
    match node
    case JArr(items) => JArr(ProcessItems(node, 0, ctx, es))
    case JObj(entries) => JObj(ProcessEntries(node, 0, [], ctx, es))
    case JStr(s) => es.str(s, ctx)
    case _ => node
  }

  /** The items of an array from position `i` on: repeat blocks expand in
      place, other items are processed one for one. */
  function ProcessItems(arr: Json, i: nat, ctx: Entries, es: Evaluators): (r: seq<Json>)
    requires arr.JArr? && i <= |arr.items|
    decreases arr, 0, |arr.items| - i
  {
    if i == |arr.items| then []
    else ItemOutput(arr.items[i], ctx, es) + ProcessItems(arr, i + 1, ctx, es)
  }

  /** Each item of an array from position `i` on, processed on its own:
      what an array without repeat blocks should become. */
  function EachProcessed(arr: Json, i: nat, ctx: Entries, es: Evaluators): (r: seq<Json>)
    requires arr.JArr? && i <= |arr.items|
    ensures |r| == |arr.items| - i
    decreases |arr.items| - i
  {
    if i == |arr.items| then []
    else [ItemAt(arr, i, ctx, es)] + EachProcessed(arr, i + 1, ctx, es)
  }

  /** The item at position `j`, processed. */
  function ItemAt(arr: Json, j: nat, ctx: Entries, es: Evaluators): Json
    requires arr.JArr? && j < |arr.items|
  {
    ProcessNode(arr.items[j], ctx, es)
  }

  /** Element `k` is the processed item at `i + k`. */
  lemma {:induction false} EachProcessedAt(arr: Json, i: nat, k: nat, ctx: Entries, es: Evaluators)
    requires arr.JArr? && i + k < |arr.items|
    ensures EachProcessed(arr, i, ctx, es)[k] == ItemAt(arr, i + k, ctx, es)
    decreases k
  {
    if k > 0 {
      EachProcessedAt(arr, i + 1, k - 1, ctx, es);
    }
  }

  /** An array without repeat blocks is processed item for item. */
  lemma {:induction false} ProcessItemsUnrepeated(arr: Json, i: nat, ctx: Entries, es: Evaluators)
    requires arr.JArr? && i <= |arr.items|
    requires forall j :: i <= j < |arr.items| ==> !IsRepeat(arr.items[j])
    ensures ProcessItems(arr, i, ctx, es) == EachProcessed(arr, i, ctx, es)
    decreases |arr.items| - i
  {
    if i < |arr.items| {
      ProcessItemsUnrepeated(arr, i + 1, ctx, es);
      ProcessItemsStep(arr, i, ctx, es);
    }
  }

  /** One unrepeated item contributes its processed self. */
  lemma ProcessItemsStep(arr: Json, i: nat, ctx: Entries, es: Evaluators)
    requires arr.JArr? && i < |arr.items| && !IsRepeat(arr.items[i])
    ensures ProcessItems(arr, i, ctx, es) == [ItemAt(arr, i, ctx, es)] + ProcessItems(arr, i + 1, ctx, es)
  {
    assert ItemOutput(arr.items[i], ctx, es) == [ItemAt(arr, i, ctx, es)];
  }

  /** What one array item contributes: its expansion if it is a repeat
      block, otherwise its processed self. */
  function ItemOutput(item: Json, ctx: Entries, es: Evaluators): (r: seq<Json>)
    decreases item, 4
  {
    if IsRepeat(item) then ExpandRepeat(item, ctx, es) else [ProcessNode(item, ctx, es)]
  }

  /** The entries of an object from position `i` on, added to `acc` with
      the markers skipped. */
  function ProcessEntries(obj: Json, i: nat, acc: Entries, ctx: Entries, es: Evaluators): (r: Entries)
    requires obj.JObj?
    decreases obj, 0, |obj.entries| - i
  {
    if i >= |obj.entries| then acc
    else ProcessEntries(obj, i + 1, Put(acc, obj.entries[i].0, ProcessNode(obj.entries[i].1, ctx, es)), ctx, es)
  }

  /** `result[key] = value` for a key that is not a marker. */
  function Put(acc: Entries, key: string, v: Json): Entries {
    if key == "$repeat" || key == "$nested" then acc else Set(acc, key, v)
  }

  lemma PutKeys(acc: Entries, key: string, v: Json, k: string)
    ensures Get(Put(acc, key, v), k).Some? <==> Get(acc, k).Some? || (k == key && k != "$repeat" && k != "$nested")
  {
  }

  /** Some entry from position `i` on has key `k`. */
  predicate KeyFrom(entries: Entries, i: nat, k: string) {
    exists j :: i <= j < |entries| && entries[j].0 == k
  }

  /** A key ends up in the processed object exactly when it was already
      there or some later entry has it and it is not a marker. */
  lemma {:induction false} ProcessEntriesKeys(obj: Json, i: nat, acc: Entries, ctx: Entries, es: Evaluators, k: string)
    requires obj.JObj?
    ensures Get(ProcessEntries(obj, i, acc, ctx, es), k).Some? <==>
      (Get(acc, k).Some? || (k != "$repeat" && k != "$nested" && KeyFrom(obj.entries, i, k)))
    decreases |obj.entries| - i
  {
    if i < |obj.entries| {
      var acc' := Put(acc, obj.entries[i].0, ProcessNode(obj.entries[i].1, ctx, es));
      ProcessEntriesKeys(obj, i + 1, acc', ctx, es, k);
      PutKeys(acc, obj.entries[i].0, ProcessNode(obj.entries[i].1, ctx, es), k);
      KeyFromStep(obj.entries, i, k);
    }
  }

  lemma KeyFromStep(entries: Entries, i: nat, k: string)
    requires i < |entries|
    ensures KeyFrom(entries, i, k) <==> entries[i].0 == k || KeyFrom(entries, i + 1, k)
  {
    if KeyFrom(entries, i, k) && entries[i].0 != k {
      var j :| i <= j < |entries| && entries[j].0 == k;
      assert j > i;
    }
  }

  /** `expandRepeat`: the iterations over the loop's values, or nothing
      when the loop has no values. */
  function ExpandRepeat(item: Json, ctx: Entries, es: Evaluators): (r: seq<Json>)
    requires IsRepeat(item)
    decreases item, 3
  {
    var rc := Member(item, "$repeat").value;
    match LoopItems(rc, ctx, es)
    case None => []
    case Some(loop) => Iterate(item, rc, loop, 0, ctx, es)
  }

  /** The iterations from position `i` on. */
  function Iterate(item: Json, rc: Json, loop: seq<Json>, i: nat, ctx: Entries, es: Evaluators): (r: seq<Json>)
    requires item.JObj? && i <= |loop|
    decreases item, 2, |loop| - i
  {
    if i == |loop| then []
    else Iteration(item, LoopContext(ctx, rc, loop[i], i), es) + Iterate(item, rc, loop, i + 1, ctx, es)
  }

  /** The values `f(i)`, `f(i + 1)`, …, `f(n - 1)`. */
  function Tabulate(f: nat -> Json, i: nat, n: nat): (r: seq<Json>)
    ensures |r| == if i <= n then n - i else 0
    decreases n - i
  {
    if i >= n then [] else [f(i)] + Tabulate(f, i + 1, n)
  }

  lemma TabulateStep(f: nat -> Json, i: nat, n: nat)
    requires i < n
    ensures Tabulate(f, i, n) == [f(i)] + Tabulate(f, i + 1, n)
  {
  }

  /** Element `k` of a tabulation is `f` at `i + k`. */
  lemma {:induction false} TabulateAt(f: nat -> Json, i: nat, n: nat, k: nat)
    requires i + k < n
    ensures Tabulate(f, i, n)[k] == f(i + k)
    decreases k
  {
    if k > 0 {
      TabulateAt(f, i + 1, n, k - 1);
    }
  }

  /** The copy of `item` for each loop position, processed with that
      position's value bound: what a repeat without `$nested` should
      produce. Positions past the loop give `null`. */
  function Copy(item: Json, rc: Json, loop: seq<Json>, ctx: Entries, es: Evaluators): nat -> Json {
    (j: nat) => CopyAt(item, rc, loop, ctx, es, j)
  }

  function CopyAt(item: Json, rc: Json, loop: seq<Json>, ctx: Entries, es: Evaluators, j: nat): Json {
    if j < |loop| then ProcessNode(item, LoopContext(ctx, rc, loop[j], j), es) else JNull
  }

  /** Without `$nested`, the iterations are the copies. */
  lemma {:induction false} IterateUnnested(item: Json, rc: Json, loop: seq<Json>, i: nat, ctx: Entries, es: Evaluators)
    requires item.JObj? && i <= |loop| && !TruthyOpt(Member(item, "$nested"))
    ensures Iterate(item, rc, loop, i, ctx, es) == Tabulate(Copy(item, rc, loop, ctx, es), i, |loop|)
    decreases |loop| - i
  {
    if i < |loop| {
      var f := Copy(item, rc, loop, ctx, es);
      IterateUnnested(item, rc, loop, i + 1, ctx, es);
      IterateStep(item, rc, loop, i, ctx, es);
      TabulateStep(f, i, |loop|);
      SameHead(Iterate(item, rc, loop, i, ctx, es), Tabulate(f, i, |loop|), f(i), Tabulate(f, i + 1, |loop|));
    }
  }

  lemma SameHead(a: seq<Json>, c: seq<Json>, x: Json, b: seq<Json>)
    requires a == [x] + b && c == [x] + b
    ensures a == c
  {
  }

  /** Without `$nested`, one iteration contributes one copy. */
  lemma IterateStep(item: Json, rc: Json, loop: seq<Json>, i: nat, ctx: Entries, es: Evaluators)
    requires item.JObj? && i < |loop| && !TruthyOpt(Member(item, "$nested"))
    ensures Iterate(item, rc, loop, i, ctx, es) == [Copy(item, rc, loop, ctx, es)(i)] + Iterate(item, rc, loop, i + 1, ctx, es)
  {
    var c := LoopContext(ctx, rc, loop[i], i);
    assert Iteration(item, c, es) == [ProcessNode(item, c, es)];
  }

  /** Without `$nested`, a repeat block yields one processed copy of itself
      per loop value, the value at position `k` bound in copy `k`. */
  lemma ExpandRepeatUnnested(item: Json, ctx: Entries, es: Evaluators, loop: seq<Json>, k: nat)
    requires IsRepeat(item) && !TruthyOpt(Member(item, "$nested"))
    requires LoopItems(Member(item, "$repeat").value, ctx, es) == Some(loop)
    ensures |ExpandRepeat(item, ctx, es)| == |loop|
    ensures k < |loop| ==>
      ExpandRepeat(item, ctx, es)[k] == ProcessNode(item, LoopContext(ctx, Member(item, "$repeat").value, loop[k], k), es)
  {
    var rc := Member(item, "$repeat").value;
    var f := Copy(item, rc, loop, ctx, es);
    var out := ExpandRepeat(item, ctx, es);
    ExpandRepeatIterates(item, ctx, es, loop);
    IterateUnnested(item, rc, loop, 0, ctx, es);
    assert out == Tabulate(f, 0, |loop|);
    if k < |loop| {
      TabulateAt(f, 0, |loop|, k);
      assert f(k) == CopyAt(item, rc, loop, ctx, es, k);
    }
  }

  lemma ExpandRepeatIterates(item: Json, ctx: Entries, es: Evaluators, loop: seq<Json>)
    requires IsRepeat(item)
    requires LoopItems(Member(item, "$repeat").value, ctx, es) == Some(loop)
    ensures ExpandRepeat(item, ctx, es) == Iterate(item, Member(item, "$repeat").value, loop, 0, ctx, es)
  {
  }

  /** One iteration: with a truthy `$nested` the nested template is used
      (and expanded again if it repeats itself); otherwise the item itself,
      whose markers processing drops. */
  function Iteration(item: Json, loopCtx: Entries, es: Evaluators): (r: seq<Json>)
    requires item.JObj?
    ensures !TruthyOpt(Member(item, "$nested")) ==> r == [ProcessNode(item, loopCtx, es)]
    decreases item, 2, 0
  {
    match IndexOf(item.entries, "$nested")
    case Some(n) =>
      var nested := item.entries[n].1;
      if !Truthy(nested) then [ProcessNode(item, loopCtx, es)]
      else if IsRepeat(nested) then ExpandRepeat(nested, loopCtx, es)
      else [ProcessNode(nested, loopCtx, es)]
    case None => [ProcessNode(item, loopCtx, es)]
  }

  // ---------------------------------------------------------------------------
  // Parameters and the whole template

  /** The declared type's cast: `integer` parses the value's text, keeping
      it when that is `NaN`; `integer[]` parses each element, and an element
      that does not parse, `NaN` in the source, is kept as it is here since
      the model has no `NaN` value. */
  function Cast(declaredType: Option<Json>, v: Json): (r: Json)
    ensures declaredType != Some(JStr("integer")) && declaredType != Some(JStr("integer[]")) ==> r == v
    ensures declaredType == Some(JStr("integer[]")) && v.JArr? ==> r.JArr? && |r.items| == |v.items|
  {
    if declaredType == Some(JStr("integer")) then ParseIntOr(v)
    else if declaredType == Some(JStr("integer[]")) && v.JArr? then
      JArr(seq(|v.items|, k requires 0 <= k < |v.items| => ParseIntOr(v.items[k])))
    else v
  }

  /** `parseInt(String(v), 10)`, with the value kept when that is `NaN`. */
  function ParseIntOr(v: Json): Json {
    match ParseInt(JsString(v))
    case None => v
    case Some(n) => JNum(n)
  }

  /** An `integer` parameter given as a number or as its decimal text
      becomes that number. */
  lemma IntegerParameterParsed(i: int)
    ensures Cast(Some(JStr("integer")), JStr(IntToDecimal(i))) == JNum(i)
    ensures Cast(Some(JStr("integer")), JNum(i)) == JNum(i)
  {
    ParseIntRoundTrip(i);
  }

  /** The name a parameter declaration binds: `String(param.name)`, which is
      `undefined` for a declaration that is not an object (a `null`
      declaration, which throws in the source, included). */
  function ParamName(param: Json): string {
    TemplateString(Member(param, "name"))
  }

  /** A declared parameter's value: the supplied one, else its default,
      cast to its type; `None` when neither is there. */
  function ParamValue(param: Json, supplied: Entries): (r: Option<Json>)
    ensures r.Some? <==> Get(supplied, ParamName(param)).Some? || Member(param, "default").Some?
  {
    var given := Get(supplied, ParamName(param));
    var raw := if given.Some? then given else Member(param, "default");
    match raw
    case None => None
    case Some(v) => Some(Cast(Member(param, "type"), v))
  }

  /** The context built from the declarations in order: later declarations
      of a name overwrite earlier ones. */
  function Declare(params: seq<Json>, supplied: Entries): Entries {
    if |params| == 0 then []
    else
      var before := Declare(params[..|params| - 1], supplied);
      var last := params[|params| - 1];
      match ParamValue(last, supplied)
      case None => before
      case Some(v) => Set(before, ParamName(last), v)
  }

  lemma DeclareStep(params: seq<Json>, supplied: Entries, k: string)
    requires |params| > 0
    ensures var last := params[|params| - 1];
      Get(Declare(params, supplied), k) ==
        if ParamName(last) == k && ParamValue(last, supplied).Some? then ParamValue(last, supplied)
        else Get(Declare(params[..|params| - 1], supplied), k)
  {
  }

  /** The last declaration of a name that has a value decides it. */
  predicate DecidedBy(params: seq<Json>, supplied: Entries, k: string, j: int) {
    0 <= j < |params| && ParamName(params[j]) == k && ParamValue(params[j], supplied).Some?
    && forall j' :: j < j' < |params| ==> ParamName(params[j']) != k || ParamValue(params[j'], supplied).None?
  }

  /** Declaration `p` gives name `k` a value. */
  predicate Declares(p: Json, supplied: Entries, k: string) {
    ParamName(p) == k && ParamValue(p, supplied).Some?
  }

  /** A name is bound exactly when some declaration of it has a value. */
  lemma {:induction false} DeclareDefined(params: seq<Json>, supplied: Entries, k: string)
    ensures Get(Declare(params, supplied), k).Some? <==> exists j :: 0 <= j < |params| && Declares(params[j], supplied, k)
  {
    if |params| > 0 {
      var init := params[..|params| - 1];
      DeclareDefined(init, supplied, k);
      DeclareStep(params, supplied, k);
      SomeDeclares(params, init, supplied, k);
    }
  }

  /** Some declaration gives `k` a value exactly when the last one does or
      one before it does. */
  lemma SomeDeclares(params: seq<Json>, init: seq<Json>, supplied: Entries, k: string)
    requires |params| > 0 && init == params[..|params| - 1]
    ensures (exists j :: 0 <= j < |params| && Declares(params[j], supplied, k)) <==>
      (Declares(params[|params| - 1], supplied, k) || exists j :: 0 <= j < |init| && Declares(init[j], supplied, k))
  {
    assert forall j :: 0 <= j < |init| ==> init[j] == params[j];
  }

  /** A bound name holds the value of its last declaration that has one. */
  lemma {:induction false} DeclareLastWins(params: seq<Json>, supplied: Entries, k: string, j: nat)
    requires DecidedBy(params, supplied, k, j)
    ensures Get(Declare(params, supplied), k) == ParamValue(params[j], supplied)
  {
    var init := params[..|params| - 1];
    DeclareStep(params, supplied, k);
    if j < |params| - 1 {
      assert forall j' :: 0 <= j' < |init| ==> init[j'] == params[j'];
      assert DecidedBy(init, supplied, k, j);
      DeclareLastWins(init, supplied, k, j);
    }
  }

  /** The remaining supplied parameters are added under names the
      declarations left unset. */
  function Merge(ctx: Entries, supplied: Entries): Entries
    decreases |supplied|
  {
    if |supplied| == 0 then ctx
    else
      var (k, v) := supplied[0];
      Merge(if Get(ctx, k).None? then Set(ctx, k, v) else ctx, supplied[1..])
  }

  /** Looking a key up in a non-empty list: the first entry, or the rest. */
  lemma GetFirst(entries: Entries, key: string)
    requires |entries| > 0
    ensures Get(entries, key) == if entries[0].0 == key then Some(entries[0].1) else Get(entries[1..], key)
  {
  }

  /** Merging keeps every bound name and adds each supplied one missing. */
  lemma {:induction false} MergeGet(ctx: Entries, supplied: Entries, k: string)
    ensures Get(Merge(ctx, supplied), k) == if Get(ctx, k).Some? then Get(ctx, k) else Get(supplied, k)
    decreases |supplied|
  {
    if |supplied| > 0 {
      var (k0, v) := supplied[0];
      var next := if Get(ctx, k0).None? then Set(ctx, k0, v) else ctx;
      MergeGet(next, supplied[1..], k);
      GetFirst(supplied, k);
    }
  }

  /** The evaluation context: declared parameters, then the rest. */
  function PrepareContext(declared: Option<Json>, supplied: Entries): Entries {
    var params := if TruthyOpt(declared) && declared.value.JArr? then declared.value.items else [];
    Merge(Declare(params, supplied), supplied)
  }

  /** `processGalleryTemplate`: the top-level `parameters` declaration is
      used for the context and removed from the output. */
  function ProcessGalleryTemplate(template: Json, supplied: Entries, ev: Evaluator): (r: Json)
    ensures template.JObj? ==> r.JObj?
    ensures template.JArr? ==> r.JArr?
  {
    var ctx := PrepareContext(Member(template, "parameters"), supplied);
    var output := if template.JObj? && TruthyOpt(Member(template, "parameters"))
      then JObj(Remove(template.entries, "parameters")) else template;
    ProcessNode(output, ctx, Standard(ev))
  }

  /** The processed template has the template's keys, less the markers and,
      when it declares any, `parameters`. */
  lemma ProcessGalleryTemplateKeys(template: Json, supplied: Entries, ev: Evaluator, k: string)
    requires template.JObj?
    ensures var r := ProcessGalleryTemplate(template, supplied, ev);
      var declares := TruthyOpt(Member(template, "parameters"));
      (k == "$repeat" || k == "$nested" || (declares && k == "parameters") ==> Get(r.entries, k).None?)
      && (k != "$repeat" && k != "$nested" && (!declares || k != "parameters") ==>
        (Get(r.entries, k).Some? <==> Get(template.entries, k).Some?))
  {
    var ctx := PrepareContext(Member(template, "parameters"), supplied);
    var declares := TruthyOpt(Member(template, "parameters"));
    var output := if declares then JObj(Remove(template.entries, "parameters")) else template;
    var es := Standard(ev);
    assert ProcessGalleryTemplate(template, supplied, ev) == JObj(ProcessEntries(output, 0, [], ctx, es));
    ProcessEntriesKeys(output, 0, [], ctx, es, k);
    KeyFromGet(output.entries, k);
  }

  /** Some entry has key `k` exactly when looking `k` up finds a value. */
  lemma KeyFromGet(entries: Entries, k: string)
    ensures KeyFrom(entries, 0, k) <==> Get(entries, k).Some?
  {
    GetFound(entries, k);
  }

  /** A supplied value overrides a parameter's default, and is cast to its type. */
  lemma SuppliedOverridesDefault(param: Json, supplied: Entries, v: Json)
    requires Get(supplied, ParamName(param)) == Some(v)
    ensures Get(PrepareContext(Some(JArr([param])), supplied), ParamName(param)) == Some(Cast(Member(param, "type"), v))
  {
    var name := ParamName(param);
    assert ParamValue(param, supplied) == Some(Cast(Member(param, "type"), v));
    DeclareOne(param, supplied);
    MergeGet(Declare([param], supplied), supplied, name);
  }

  /** One declaration: the context is its value merged with the rest, and
      its name holds its value. */
  lemma DeclareOne(param: Json, supplied: Entries)
    ensures PrepareContext(Some(JArr([param])), supplied) == Merge(Declare([param], supplied), supplied)
    ensures Get(Declare([param], supplied), ParamName(param)) == ParamValue(param, supplied)
  {
    DeclareStep([param], supplied, ParamName(param));
    assert [param][..0] == [];
  }

  /** Without a supplied value, the default is used. */
  lemma DefaultWhenNotSupplied(param: Json, supplied: Entries, d: Json)
    requires Get(supplied, ParamName(param)).None? && Member(param, "default") == Some(d)
    ensures Get(PrepareContext(Some(JArr([param])), supplied), ParamName(param)) == Some(Cast(Member(param, "type"), d))
  {
    var name := ParamName(param);
    assert ParamValue(param, supplied) == Some(Cast(Member(param, "type"), d));
    DeclareOne(param, supplied);
    MergeGet(Declare([param], supplied), supplied, name);
  }

  /** A counted loop without `start` runs over 1, 2, …, `count`. */
  lemma CountedFromOne(rc: Json, ctx: Entries, es: Evaluators, n: nat)
    requires !TruthyOpt(Member(rc, "over")) && Member(rc, "count") == Some(JNum(n)) && Member(rc, "start").None?
    ensures LoopItems(rc, ctx, es) == Some(Counted(JNum(1), n))
  {
    assert RepeatCount(rc, ctx, es) == Some(n);
    assert StartOf(rc) == JNum(1);
  }

  /** The iteration context binds the loop variable and the index variable. */
  lemma LoopBindings(ctx: Entries, rc: Json, value: Json, k: nat, asName: string, indexName: string)
    requires Member(rc, "as") == Some(JStr(asName)) && Member(rc, "index") == Some(JStr(indexName))
    requires |indexName| > 0 && asName != indexName
    ensures Get(LoopContext(ctx, rc, value, k), asName) == Some(value)
    ensures Get(LoopContext(ctx, rc, value, k), indexName) == Some(JNum(k))
  {
    assert TemplateString(Member(rc, "as")) == asName;
    assert JsString(Member(rc, "index").value) == indexName;
    LoopContextBinds(ctx, rc, value, k, asName);
  }

  /** A counted repeat with no `start` binds its variable to 1, 2, …, and
      its index variable to 0, 1, …, producing `count` items. */
  lemma CountedRepeatBindsFromOne(item: Json, ctx: Entries, es: Evaluators, n: nat, asName: string, indexName: string, k: nat)
    requires item.JObj? && !TruthyOpt(Member(item, "$nested"))
    requires IsRepeat(item)
    requires var rc := Member(item, "$repeat").value;
      !TruthyOpt(Member(rc, "over")) && Member(rc, "count") == Some(JNum(n)) && Member(rc, "start").None?
      && Member(rc, "as") == Some(JStr(asName)) && Member(rc, "index") == Some(JStr(indexName))
      && |indexName| > 0 && asName != indexName
    requires k < n
    ensures |ExpandRepeat(item, ctx, es)| == n
    ensures var c := LoopContext(ctx, Member(item, "$repeat").value, JNum(1 + k), k);
      ExpandRepeat(item, ctx, es)[k] == ProcessNode(item, c, es)
      && Get(c, asName) == Some(JNum(1 + k)) && Get(c, indexName) == Some(JNum(k))
  {
    var rc := Member(item, "$repeat").value;
    var loop := Counted(JNum(1), n);
    CountedFromOne(rc, ctx, es, n);
    ExpandRepeatUnnested(item, ctx, es, loop, k);
    assert loop[k] == JNum(1 + k);
    LoopBindings(ctx, rc, JNum(1 + k), k, asName, indexName);
  }

  /** A count that is not a number and has no placeholder, or a missing
      count, gives no items. */
  lemma NonNumericCountExpandsToNothing(item: Json, ctx: Entries, es: Evaluators)
    requires IsRepeat(item)
    requires var rc := Member(item, "$repeat").value;
      !TruthyOpt(Member(rc, "over")) &&
      (Member(rc, "count").None? || (Member(rc, "count").value.JStr?
        && !Includes(Member(rc, "count").value.s, "{{") && ParseInt(Member(rc, "count").value.s).None?))
    ensures ExpandRepeat(item, ctx, es) == []
  {
  }

  /** An `over` expression whose value is not an array gives no items. */
  lemma OverNonArrayExpandsToNothing(item: Json, ctx: Entries, es: Evaluators, over: string)
    requires IsRepeat(item)
    requires Member(Member(item, "$repeat").value, "over") == Some(JStr(over)) && |over| > 0
    requires !es.expr(over, ctx).JArr?
    ensures ExpandRepeat(item, ctx, es) == []
  {
  }
}

=== FILE: gallery_validation.dfy ===
/** The gallery's check that every entity of a shared configuration has an
    id: it reports the position of each entry, under each entity-type list,
    that is not an object or has no usable `id`. */
module GalleryValidation {
  import opened Wrappers
  import opened Strings
  import opened JsonValue

  /** The label of the `index`-th entry of the `entityType` list. */
  function Label(entityType: string, index: nat): string {
    entityType + "[" + NatToDecimal(index) + "]"
  }

  /** A label is the type, then the position in brackets, and different
      positions of one type have different labels. */
  lemma LabelShape(entityType: string, index: nat)
    ensures StartsWith(Label(entityType, index), entityType + "[") && EndsWith(Label(entityType, index), "]")
    ensures Label(entityType, index)[|entityType| + 1..|Label(entityType, index)| - 1] == NatToDecimal(index)
  {
    var r := Label(entityType, index);
    assert r[..|entityType| + 1] == entityType + "[";
  }

  /** An entry without a usable id: not a plain object, or an `id` that is
      not a string with some non-whitespace character. */
  predicate Invalid(entity: Json) {
    !entity.JObj? ||
    var id := Get(entity.entries, "id");
    !(id.Some? && id.value.JStr? && |Trim(id.value.s)| > 0)
  }

  /** The labels of one list's invalid entries from position `i` on. */
  function InvalidIn(entityType: string, items: seq<Json>, i: nat): (r: seq<string>)
    requires i <= |items|
    ensures |r| <= |items| - i
  {
    Flagged(LabelOf(entityType), items, i)
  }

  /** The labels of a list's entries. */
  function LabelOf(entityType: string): nat -> string {
    (k: nat) => Label(entityType, k)
  }

  /** The labels, as `tag` gives them, of the invalid entries from
      position `i` on, in order. */
  function Flagged(tag: nat -> string, items: seq<Json>, i: nat): (r: seq<string>)
    requires i <= |items|
    ensures |r| <= |items| - i
    decreases |items| - i
  {
    if i == |items| then []
    else
      var rest := Flagged(tag, items, i + 1);
      if Invalid(items[i]) then [tag(i)] + rest else rest
  }

  /** Every invalid entry from position `i` on is labelled, and every label
      names one. */
  lemma {:induction false} FlaggedExact(tag: nat -> string, items: seq<Json>, i: nat)
    requires i <= |items|
    ensures forall k :: i <= k < |items| && Invalid(items[k]) ==> tag(k) in Flagged(tag, items, i)
    ensures forall l :: l in Flagged(tag, items, i) ==>
      exists k :: i <= k < |items| && Invalid(items[k]) && l == tag(k)
    decreases |items| - i
  {
    if i < |items| {
      FlaggedExact(tag, items, i + 1);
    }
  }

  lemma InvalidInExact(entityType: string, items: seq<Json>, i: nat)
    requires i <= |items|
    ensures forall k :: i <= k < |items| && Invalid(items[k]) ==> Label(entityType, k) in InvalidIn(entityType, items, i)
    ensures forall l :: l in InvalidIn(entityType, items, i) ==>
      exists k :: i <= k < |items| && Invalid(items[k]) && l == Label(entityType, k)
  {
    FlaggedExact(LabelOf(entityType), items, i);
  }

  /** The labels for a sequence of `[type, list]` pairs: lists that are not
      arrays are skipped. */
  function Missing(lists: Entries): (r: seq<string>)
    ensures |r| <= TotalItems(lists)
  {
    if |lists| == 0 then []
    else
      var (t, v) := lists[0];
      var head := if v.JArr? then InvalidIn(t, v.items, 0) else [];
      head + Missing(lists[1..])
  }

  /** An array list whose entries all have ids. */
  predicate ListValid(v: Json) {
    v.JArr? ==> forall k :: 0 <= k < |v.items| ==> !Invalid(v.items[k])
  }

  /** Nothing is reported exactly when every array list is well formed. */
  lemma {:induction false} MissingEmpty(lists: Entries)
    ensures Missing(lists) == [] <==> forall j :: 0 <= j < |lists| ==> ListValid(lists[j].1)
  {
    if |lists| > 0 {
      MissingEmpty(lists[1..]);
      assert forall j :: 1 <= j < |lists| ==> lists[1..][j - 1] == lists[j];
      var v := lists[0].1;
      var head := if v.JArr? then InvalidIn(lists[0].0, v.items, 0) else [];
      assert Missing(lists) == head + Missing(lists[1..]);
      if v.JArr? {
        InvalidInExact(lists[0].0, v.items, 0);
      }
      if head != [] {
        assert head[0] in head;
      }
      assert head == [] <==> ListValid(v);
    }
  }

  /** Every invalid entry of an array list is reported, and every label
      reported names one. */
  lemma {:induction false} MissingExact(lists: Entries)
    ensures forall j, k :: (0 <= j < |lists| && lists[j].1.JArr? && 0 <= k < |lists[j].1.items|
      && Invalid(lists[j].1.items[k])) ==> Label(lists[j].0, k) in Missing(lists)
    ensures forall l :: l in Missing(lists) ==> exists j, k :: (0 <= j < |lists| && lists[j].1.JArr?
      && 0 <= k < |lists[j].1.items| && Invalid(lists[j].1.items[k]) && l == Label(lists[j].0, k))
  {
    if |lists| > 0 {
      MissingExact(lists[1..]);
      assert forall j :: 1 <= j < |lists| ==> lists[1..][j - 1] == lists[j];
      if lists[0].1.JArr? {
        InvalidInExact(lists[0].0, lists[0].1.items, 0);
      }
      forall l | l in Missing(lists) ensures exists j, k :: (0 <= j < |lists| && lists[j].1.JArr?
        && 0 <= k < |lists[j].1.items| && Invalid(lists[j].1.items[k]) && l == Label(lists[j].0, k))
      {
        if l !in Missing(lists[1..]) {
          var k :| 0 <= k < |lists[0].1.items| && Invalid(lists[0].1.items[k]) && l == Label(lists[0].0, k);
        } else {
          var j, k :| 0 <= j < |lists[1..]| && lists[1..][j].1.JArr?
            && 0 <= k < |lists[1..][j].1.items| && Invalid(lists[1..][j].1.items[k]) && l == Label(lists[1..][j].0, k);
          assert lists[j + 1] == lists[1..][j];
        }
      }
    }
  }

  /** Entries held by all the array lists. */
  function TotalItems(lists: Entries): nat {
    if |lists| == 0 then 0
    else (if lists[0].1.JArr? then |lists[0].1.items| else 0) + TotalItems(lists[1..])
  }

  /** `validateGalleryEntityIds`: nothing for a missing value, otherwise the
      labels over its own entries in their order. */
  function ValidateGalleryEntityIds(entities: Option<Json>): (r: seq<string>)
    ensures !TruthyOpt(entities) ==> r == []
    ensures TruthyOpt(entities) ==> r == Missing(OwnEntries(entities.value))
  {
    if !TruthyOpt(entities) then [] else Missing(OwnEntries(entities.value))
  }

  /** Labels come type by type in key order: the lists of two groups of keys
      give the first group's labels, then the second's. */
  lemma {:induction false} MissingInKeyOrder(a: Entries, b: Entries)
    ensures Missing(a + b) == Missing(a) + Missing(b)
  {
    if |a| == 0 {
      assert a + b == b;
    } else {
      assert (a + b)[1..] == a[1..] + b;
      MissingInKeyOrder(a[1..], b);
    }
  }

  /** A list of only well-formed entries produces no label. */
  lemma AllValidReportsNothing(entityType: string, items: seq<Json>)
    requires forall k :: 0 <= k < |items| ==> !Invalid(items[k])
    ensures ValidateGalleryEntityIds(Some(JObj([(entityType, JArr(items))]))) == []
  {
    MissingEmpty([(entityType, JArr(items))]);
  }

  /** A fan without an id and a `null` second light are reported as
      `fan[0]` and `light[1]`; a list that is an object is skipped. */
  lemma ReportsFanAndLight(fan: Json, light: Json, sensor: Entries)
    requires fan == JObj([("name", JStr("Room 1 Fan 1"))])
    requires light == JObj([("id", JStr("room_1_light_1"))])
    ensures ValidateGalleryEntityIds(Some(JObj([("fan", JArr([fan])), ("light", JArr([light, JNull])),
      ("sensor", JObj(sensor))]))) == ["fan[0]", "light[1]"]
  {
    assert Invalid(fan);
    LightHasId(light);
    ReportsInvalidFanAndNull(fan, light, sensor);
    LabelTexts();
  }

  /** An invalid fan, then a valid light followed by `null`, then an object
      list: the fan's and the `null`'s labels, in that order. */
  lemma ReportsInvalidFanAndNull(fan: Json, light: Json, sensor: Entries)
    requires Invalid(fan) && !Invalid(light)
    ensures ValidateGalleryEntityIds(Some(JObj([("fan", JArr([fan])), ("light", JArr([light, JNull])),
      ("sensor", JObj(sensor))]))) == [Label("fan", 0), Label("light", 1)]
  {
    var lists := [("fan", JArr([fan])), ("light", JArr([light, JNull])), ("sensor", JObj(sensor))];
    assert ValidateGalleryEntityIds(Some(JObj(lists))) == Missing(lists) by {
      assert Truthy(JObj(lists));
    }
    assert Missing(lists) == [Label("fan", 0), Label("light", 1)] by {
      FanReported(fan);
      LightReported(light);
      assert lists[1..][1..][1..] == [];
      assert Missing(lists[1..][1..]) == [];
      assert Missing(lists[1..]) == [Label("light", 1)];
    }
  }

  lemma LabelTexts()
    ensures Label("fan", 0) == "fan[0]" && Label("light", 1) == "light[1]"
  {
    assert NatToDecimal(0) == "0";
    assert NatToDecimal(1) == "1";
  }

  lemma FanReported(fan: Json)
    requires Invalid(fan)
    ensures InvalidIn("fan", [fan], 0) == [Label("fan", 0)]
  {
    assert Flagged(LabelOf("fan"), [fan], 1) == [];
  }

  lemma LightReported(light: Json)
    requires !Invalid(light)
    ensures InvalidIn("light", [light, JNull], 0) == [Label("light", 1)]
  {
    var items := [light, JNull];
    assert Flagged(LabelOf("light"), items, 2) == [];
    assert Flagged(LabelOf("light"), items, 1) == [Label("light", 1)];
  }

  lemma LightHasId(light: Json)
    requires light == JObj([("id", JStr("room_1_light_1"))])
    ensures !Invalid(light)
  {
    assert Get(light.entries, "id") == Some(JStr("room_1_light_1"));
    assert !AllSpace("room_1_light_1") by {
      assert !IsSpace("room_1_light_1"[0]);
    }
  }
}

=== FILE: json.dfy ===
/** Untyped JavaScript values as they appear in configuration objects, MQTT
    payloads and gallery templates. Numbers are integers; `undefined` is the
    `None` of an `Option<Json>`. Object entries keep their insertion order.
    JavaScript enumerates integer-like keys (`"0"`, `"17"`) first, in
    ascending order, and only then the other keys in insertion order; that
    reordering is not modelled. */
module JsonValue {
  import opened Wrappers
  import Strings

  datatype Json =
    | JNull
    | JBool(b: bool)
    | JNum(n: int)
    | JStr(s: string)
    | JArr(items: seq<Json>)
    | JObj(entries: seq<(string, Json)>)

  type Entries = seq<(string, Json)>

  /** JavaScript truthiness of a defined value. */
  predicate Truthy(j: Json) {
    match j
    case JNull => false
    case JBool(b) => b
    case JNum(n) => n != 0
    case JStr(s) => |s| > 0
    case _ => true
  }

  /** JavaScript truthiness of a possibly undefined value. */
  predicate TruthyOpt(j: Option<Json>) {
    j.Some? && Truthy(j.value)
  }

  /** `typeof v === 'object' && v !== null && !Array.isArray(v)`. */
  predicate IsPlainObject(j: Json) {
    j.JObj?
  }

  function Keys(entries: Entries): (r: seq<string>)
    ensures |r| == |entries|
    ensures forall i :: 0 <= i < |r| ==> r[i] == entries[i].0
  {
    if |entries| == 0 then [] else [entries[0].0] + Keys(entries[1..])
  }

  /** Position of the first entry named `key`. */
  function IndexOf(entries: Entries, key: string): (r: Option<nat>)
    ensures r.Some? ==> r.value < |entries| && entries[r.value].0 == key
  {
    if |entries| == 0 then None
    else if entries[0].0 == key then Some(0)
    else match IndexOf(entries[1..], key)
      case None => None
      case Some(i) => Some(i + 1)
  }

  /** `IndexOf` finds the first entry with the key, and `None` means no
      entry has it. */
  lemma {:induction false} IndexOfFirst(entries: Entries, key: string)
    ensures IndexOf(entries, key).None? <==> forall j :: 0 <= j < |entries| ==> entries[j].0 != key
    ensures IndexOf(entries, key).Some? ==> forall j :: 0 <= j < IndexOf(entries, key).value ==> entries[j].0 != key
  {
    if |entries| > 0 && entries[0].0 != key {
      IndexOfFirst(entries[1..], key);
    }
  }

  /** Two entry lists whose keys agree position by position agree on where
      every key is first found. */
  lemma {:induction false} IndexOfSameKeys(a: Entries, b: Entries, key: string)
    requires |a| == |b|
    requires forall i :: 0 <= i < |a| ==> a[i].0 == b[i].0
    ensures IndexOf(a, key) == IndexOf(b, key)
  {
    if |a| > 0 && a[0].0 != key {
      IndexOfSameKeys(a[1..], b[1..], key);
    }
  }

  /** `obj[key]` on an object's entries: `None` when the key is absent. */
  function Get(entries: Entries, key: string): (r: Option<Json>)
  {
    match IndexOf(entries, key)
    case None => None
    case Some(i) => Some(entries[i].1)
  }

  /** `v[key]` for any value: `undefined` unless `v` is an object holding `key`. */
  function Member(j: Json, key: string): Option<Json> {
    if j.JObj? then Get(j.entries, key) else None
  }

  /** `Object.entries(v)`, which is also what `{ ...v }` copies: an
      object's entries, an array's or a string's elements under their index,
      and nothing for other values. */
  function OwnEntries(v: Json): (r: Entries)
    ensures v.JObj? ==> r == v.entries
    ensures v.JArr? ==> |r| == |v.items| && forall i :: 0 <= i < |r| ==> r[i].1 == v.items[i]
    ensures v.JStr? ==> |r| == |v.s| && forall i :: 0 <= i < |r| ==> r[i].1.JStr?
  {
    match v
    case JObj(e) => e
    case JArr(items) => seq(|items|, i requires 0 <= i < |items| => (Strings.NatToDecimal(i), items[i]))
    case JStr(s) => seq(|s|, i requires 0 <= i < |s| => (Strings.NatToDecimal(i), JStr([s[i]])))
    case _ => []
  }

  predicate HasKey(entries: Entries, key: string) {
    exists i :: 0 <= i < |entries| && entries[i].0 == key
  }

  /** Looking a key up finds a value exactly when some entry has the key,
      and the value found is that of an entry with the key. */
  lemma GetFound(entries: Entries, key: string)
    ensures Get(entries, key).Some? <==> HasKey(entries, key)
    ensures Get(entries, key).Some? ==> (key, Get(entries, key).value) in entries
  {
    IndexOfFirst(entries, key);
  }

  /** `obj[key] = v`: the key holds `v` and every other key keeps its value. */
  function Set(entries: Entries, key: string, v: Json): (r: Entries)
    ensures Get(r, key) == Some(v)
    ensures forall k :: k != key ==> Get(r, k) == Get(entries, k)
  {
    match IndexOf(entries, key)
    case Some(i) =>
      SetReplaces(entries, key, v, i);
      entries[i := (key, v)]
    case None =>
      SetAppends(entries, key, v);
      entries + [(key, v)]
  }

  /** An existing key keeps its position; a new key goes last. */
  lemma SetKeys(entries: Entries, key: string, v: Json)
    ensures HasKey(entries, key) ==> Keys(Set(entries, key, v)) == Keys(entries)
    ensures !HasKey(entries, key) ==> Keys(Set(entries, key, v)) == Keys(entries) + [key]
  {
    match IndexOf(entries, key)
    case Some(i) => ReplaceKeys(entries, key, v, i);
    case None => AppendKeys(entries, key, v);
  }

  /** An existing key is overwritten in place. */
  lemma SetReplaces(entries: Entries, key: string, v: Json, i: nat)
    requires IndexOf(entries, key) == Some(i)
    ensures var r := entries[i := (key, v)];
      && Get(r, key) == Some(v)
      && (forall k :: k != key ==> Get(r, k) == Get(entries, k))
  {
    var r := entries[i := (key, v)];
    forall k | k != key ensures Get(r, k) == Get(entries, k) {
      IndexOfSameKeys(r, entries, k);
    }
    IndexOfSameKeys(r, entries, key);
  }

  lemma ReplaceKeys(entries: Entries, key: string, v: Json, i: nat)
    requires IndexOf(entries, key) == Some(i)
    ensures HasKey(entries, key) && Keys(entries[i := (key, v)]) == Keys(entries)
  {
  }

  /** A new key goes last. */
  lemma SetAppends(entries: Entries, key: string, v: Json)
    requires IndexOf(entries, key).None?
    ensures var r := entries + [(key, v)];
      && Get(r, key) == Some(v)
      && (forall k :: k != key ==> Get(r, k) == Get(entries, k))
  {
    var r := entries + [(key, v)];
    forall k | k != key ensures Get(r, k) == Get(entries, k) {
      PrefixIndexOf(entries, [(key, v)], k);
    }
    PrefixIndexOf(entries, [(key, v)], key);
  }

  lemma AppendKeys(entries: Entries, key: string, v: Json)
    requires IndexOf(entries, key).None?
    ensures !HasKey(entries, key) && Keys(entries + [(key, v)]) == Keys(entries) + [key]
  {
  }

  /** A key found in `a` is found at the same place in `a + b`; a key absent
      from `a` is found in `a + b` where it is found in `b`, shifted. */
  lemma {:induction false} PrefixIndexOf(a: Entries, b: Entries, key: string)
    ensures IndexOf(a, key).Some? ==> IndexOf(a + b, key) == IndexOf(a, key)
    ensures IndexOf(a, key).None? && IndexOf(b, key).Some? ==>
      IndexOf(a + b, key) == Some(|a| + IndexOf(b, key).value)
    ensures IndexOf(a, key).None? && IndexOf(b, key).None? ==> IndexOf(a + b, key).None?
  {
    if |a| > 0 && a[0].0 != key {
      PrefixIndexOf(a[1..], b, key);
      assert (a + b)[1..] == a[1..] + b;
    } else if |a| == 0 {
      assert a + b == b;
    }
  }

  predicate UniqueKeys(entries: Entries) {
    forall i, j :: 0 <= i < j < |entries| ==> entries[i].0 != entries[j].0
  }

  /** `{ ...a, ...b }`: the entries of `b` are written over `a` in order. */
  function Spread(a: Entries, b: Entries): (r: Entries)
    decreases |b|
  {
    if |b| == 0 then a else Spread(Set(a, b[0].0, b[0].1), b[1..])
  }

  /** With unique keys in `b`, a key of `b` takes `b`'s value and any other
      key keeps `a`'s. */
  lemma {:induction false} SpreadGet(a: Entries, b: Entries, k: string)
    requires UniqueKeys(b)
    ensures Get(Spread(a, b), k) == (if HasKey(b, k) then Get(b, k) else Get(a, k))
    decreases |b|
  {
    if |b| > 0 {
      SpreadStep(b, k);
      SpreadGet(Set(a, b[0].0, b[0].1), b[1..], k);
    }
  }

  /** `SpreadGet` for every key at once. */
  lemma SpreadGetAll(a: Entries, b: Entries)
    requires UniqueKeys(b)
    ensures forall k :: Get(Spread(a, b), k) == (if HasKey(b, k) then Get(b, k) else Get(a, k))
  {
    forall k ensures Get(Spread(a, b), k) == (if HasKey(b, k) then Get(b, k) else Get(a, k)) {
      SpreadGet(a, b, k);
    }
  }

  /** How the first entry of `b` relates a lookup in `b` to one in its tail. */
  lemma SpreadStep(b: Entries, k: string)
    requires UniqueKeys(b) && |b| > 0
    ensures UniqueKeys(b[1..])
    ensures k == b[0].0 ==> !HasKey(b[1..], k) && HasKey(b, k) && Get(b, k) == Some(b[0].1)
    ensures k != b[0].0 ==> (HasKey(b, k) <==> HasKey(b[1..], k)) && Get(b, k) == Get(b[1..], k)
  {
    forall i, j | 0 <= i < j < |b| - 1 ensures b[1..][i].0 != b[1..][j].0 {
      assert b[1..][i] == b[i + 1] && b[1..][j] == b[j + 1];
    }
    assert b == [b[0]] + b[1..];
    PrefixIndexOf([b[0]], b[1..], k);
    if k == b[0].0 {
      assert HasKey(b, k) by {
        assert b[0].0 == k;
      }
      forall j | 0 <= j < |b| - 1 ensures b[1..][j].0 != k {
        assert b[1..][j] == b[j + 1];
      }
    } else {
      if HasKey(b[1..], k) {
        var j :| 0 <= j < |b| - 1 && b[1..][j].0 == k;
        assert b[j + 1].0 == k;
      }
      if HasKey(b, k) {
        var j :| 0 <= j < |b| && b[j].0 == k;
        assert b[1..][j - 1] == b[j];
      }
    }
  }

  /** `delete obj[key]`, or building the object without `key`. */
  function Remove(entries: Entries, key: string): (r: Entries)
    ensures Get(r, key).None?
    ensures forall k :: k != key ==> Get(r, k) == Get(entries, k)
    ensures |r| <= |entries|
    ensures forall e :: e in r ==> e in entries
    ensures UniqueKeys(entries) ==> UniqueKeys(r)
  {
    if |entries| == 0 then []
    else
      var rest := Remove(entries[1..], key);
      if entries[0].0 == key then
        RemoveDrops(entries, key, rest);
        rest
      else
        RemoveKeeps(entries, key, rest);
        [entries[0]] + rest
  }

  /** What `Remove` promises of `r`, as a precondition for its steps. */
  ghost predicate Removed(r: Entries, entries: Entries, key: string) {
    && Get(r, key).None?
    && (forall k :: k != key ==> Get(r, k) == Get(entries, k))
    && |r| <= |entries|
    && (forall e :: e in r ==> e in entries)
    && (UniqueKeys(entries) ==> UniqueKeys(r))
  }

  lemma TailUnique(entries: Entries)
    requires |entries| > 0 && UniqueKeys(entries)
    ensures UniqueKeys(entries[1..])
  {
    forall i, j | 0 <= i < j < |entries| - 1 ensures entries[1..][i].0 != entries[1..][j].0 {
      assert entries[1..][i] == entries[i + 1] && entries[1..][j] == entries[j + 1];
    }
  }

  /** A first entry named `key` is dropped. */
  lemma RemoveDrops(entries: Entries, key: string, rest: Entries)
    requires |entries| > 0 && entries[0].0 == key
    requires Removed(rest, entries[1..], key)
    ensures Get(rest, key).None?
    ensures forall k :: k != key ==> Get(rest, k) == Get(entries, k)
    ensures |rest| <= |entries|
    ensures forall e :: e in rest ==> e in entries
    ensures UniqueKeys(entries) ==> UniqueKeys(rest)
  {
    assert forall e :: e in entries[1..] ==> e in entries;
    if UniqueKeys(entries) {
      TailUnique(entries);
    }
  }

  /** A first entry with another name is kept in front. */
  lemma RemoveKeeps(entries: Entries, key: string, rest: Entries)
    requires |entries| > 0 && entries[0].0 != key
    requires Removed(rest, entries[1..], key)
    ensures Get([entries[0]] + rest, key).None?
    ensures forall k :: k != key ==> Get([entries[0]] + rest, k) == Get(entries, k)
    ensures |[entries[0]] + rest| <= |entries|
    ensures forall e :: e in [entries[0]] + rest ==> e in entries
    ensures UniqueKeys(entries) ==> UniqueKeys([entries[0]] + rest)
  {
    var r := [entries[0]] + rest;
    assert r[1..] == rest;
    assert forall e :: e in entries[1..] ==> e in entries;
    forall k | k != key ensures Get(r, k) == Get(entries, k) {
      if k != entries[0].0 {
        assert Get(rest, k) == Get(entries[1..], k);
        match IndexOf(rest, k)
        case None =>
        case Some(i) => assert r[i + 1] == rest[i];
      }
    }
    if UniqueKeys(entries) {
      TailUnique(entries);
      forall j | 0 < j < |r| ensures r[0].0 != r[j].0 {
        assert r[j] in entries[1..];
        var m :| 0 <= m < |entries| - 1 && entries[1..][m] == r[j];
        assert entries[m + 1] == r[j];
      }
    }
  }

  // ---------------------------------------------------------------------------
  // String(v)

  /** `String(v)` as a template literal applies it. */
  function TemplateString(v: Option<Json>): string {
    match v
    case None => "undefined"
    case Some(j) => JsString(j)
  }

  function JsString(j: Json): string
    decreases j, 1, 0
  {
    match j
    case JNull => "null"
    case JBool(b) => if b then "true" else "false"
    case JNum(n) => Strings.IntToDecimal(n)
    case JStr(s) => s
    case JArr(items) => JsStringItems(j, 0)
    case JObj(_) => "[object Object]"
  }

  /** `Array.prototype.join(',')`: null elements become empty. */
  function JsStringItems(j: Json, i: nat): string
    requires j.JArr?
    decreases j, 0, |j.items| - i
  {
    if i >= |j.items| then ""
    else
      (if i > 0 then "," else "") + (if j.items[i].JNull? then "" else JsString(j.items[i]))
      + JsStringItems(j, i + 1)
  }

  // ---------------------------------------------------------------------------
  // JSON.stringify

  /** One character of a string literal as `JSON.stringify` writes it. */
  function EscapeChar(c: char): (r: string)
    ensures |r| >= 1
    ensures c >= ' ' && c != '"' && c != '\\' ==> r == [c]
  {
    if c == '"' then "\\\""
    else if c == '\\' then "\\\\"
    else if c == '\U{8}' then "\\b"
    else if c == '\t' then "\\t"
    else if c == '\n' then "\\n"
    else if c == '\U{C}' then "\\f"
    else if c == '\r' then "\\r"
    else if c < ' ' then "\\u00" + [Strings.HexCharLower(c as int / 16), Strings.HexCharLower(c as int % 16)]
    else [c]
  }

  function Escape(s: string): (r: string)
    ensures |r| >= |s|
  {
    if |s| == 0 then "" else Escape(s[..|s| - 1]) + EscapeChar(s[|s| - 1])
  }

  /** Text without quotes, backslashes or control characters is copied as is. */
  lemma {:induction false} EscapePlain(s: string)
    requires forall m :: 0 <= m < |s| ==> s[m] >= ' ' && s[m] != '"' && s[m] != '\\'
    ensures Escape(s) == s
  {
    if |s| > 0 {
      EscapePlain(s[..|s| - 1]);
      assert s == s[..|s| - 1] + [s[|s| - 1]];
    }
  }

  function Quote(s: string): (r: string)
    ensures |r| >= 2 && r[0] == '"' && r[|r| - 1] == '"'
  {
    "\"" + Escape(s) + "\""
  }

  /** `JSON.stringify(j)`: no spaces, keys in entry order; numbers are
      written as integers. */
  function Stringify(j: Json): (r: string)
    ensures |r| > 0
    ensures j.JStr? ==> r[0] == '"'
    ensures j.JArr? ==> r[0] == '[' && r[|r| - 1] == ']'
    ensures j.JObj? ==> r[0] == '{' && r[|r| - 1] == '}'
    decreases j, 1, 0
  {
    match j
    case JNull => "null"
    case JBool(b) => if b then "true" else "false"
    case JNum(n) => Strings.IntToDecimal(n)
    case JStr(s) => Quote(s)
    case JArr(items) => "[" + StringifyItems(j, 0) + "]"
    case JObj(entries) => "{" + StringifyEntries(j, 0) + "}"
  }

  function StringifyItems(j: Json, i: nat): string
    requires j.JArr?
    decreases j, 0, |j.items| - i
  {
    if i >= |j.items| then ""
    else (if i > 0 then "," else "") + Stringify(j.items[i]) + StringifyItems(j, i + 1)
  }

  function StringifyEntries(j: Json, i: nat): string
    requires j.JObj?
    decreases j, 0, |j.entries| - i
  {
    if i >= |j.entries| then ""
    else
      (if i > 0 then "," else "") + Quote(j.entries[i].0) + ":" + Stringify(j.entries[i].1)
      + StringifyEntries(j, i + 1)
  }
}

=== FILE: lambda_executor.dfy ===
/** The lambda executor: user scripts run in a sandbox after a setup script
    that defines the BCD helpers; compiled scripts are cached by their source
    text; any failure along the way yields `null`. Compiling and running
    scripts happen in a sandboxed engine outside this model and are
    parameters here. */
module LambdaExecutor {
  import opened Wrappers
  import opened Bytes
  import opened JsonValue

  // ---------------------------------------------------------------------------
  // BCD helpers defined by the setup script

  /** `bcd_to_int(b) = (b >> 4) * 10 + (b & 0x0f)`. */
  function BcdToInt(b: Byte): (r: nat)
    ensures r == (b / 16) * 10 + b % 16
  {
    LowNibble(b);
    (b / 16) * 10 + And(b, 0x0F)
  }

  /** `int_to_bcd(n) = (floor(n / 10) % 10 << 4) | n % 10`, for n >= 0. */
  function IntToBcd(n: nat): (r: Byte)
    ensures r == ((n / 10) % 10) * 16 + n % 10
  {
    JoinNibbles((n / 10) % 10, n % 10);
    Or(((n / 10) % 10) * 16, n % 10)
  }

  lemma LastTwoDigits(n: nat)
    ensures (n / 10) % 10 == ((n % 100) / 10) % 10 && n % 10 == (n % 100) % 10
  {
    var q := n / 100;
    var r := n % 100;
    var t := r / 10;
    var u := r % 10;
    assert r == 10 * t + u && t <= 9;
    assert n == 10 * (10 * q + t) + u;
    assert n / 10 == 10 * q + t && n % 10 == u;
  }

  /** Only the last two decimal digits reach the byte. */
  lemma IntToBcdMod100(n: nat)
    ensures IntToBcd(n) == IntToBcd(n % 100)
  {
    LastTwoDigits(n);
  }

  /** Two decimal digits survive the trip through BCD. */
  lemma BcdRoundTrip(n: nat)
    requires n <= 99
    ensures BcdToInt(IntToBcd(n)) == n
  {
    var a := n / 10;
    var b := n % 10;
    assert a <= 9 && a % 10 == a;
    var x := IntToBcd(n);
    assert x == 16 * a + b;
    assert x / 16 == a && x % 16 == b;
  }

  predicate IsBcd(b: Byte) {
    b / 16 <= 9 && b % 16 <= 9
  }

  /** A byte whose two nibbles are decimal digits survives the reverse trip. */
  lemma IntToBcdRoundTrip(b: Byte)
    requires IsBcd(b)
    ensures BcdToInt(b) <= 99 && IntToBcd(BcdToInt(b)) == b
  {
    var hi := b / 16;
    var lo := b % 16;
    var n := BcdToInt(b);
    assert n == 10 * hi + lo;
    assert n / 10 == hi && n % 10 == lo;
    assert hi % 10 == hi;
  }

  // ---------------------------------------------------------------------------
  // Script cache and execution

  /** A compiled script, as a handle into the engine. */
  type Script = nat

  type Cache = map<string, Script>

  /** Compiling source text; a failure is a syntax error. */
  type Compiler = string -> Result<Script, string>

  /** Running a compiled script in a fresh context holding `contextData`. */
  type Runner = (Script, Entries) -> Result<Json, string>

  const SetupKey := "__setup__"

  /** `getOrCompileScript(key, code)`: a cached script is reused; otherwise
      the code is compiled and, when that succeeds, cached under `key`. */
  function GetOrCompile(cache: Cache, key: string, code: string, compile: Compiler): (r: (Cache, Result<Script, string>))
    ensures key in cache ==> r == (cache, Success(cache[key]))
    ensures key !in cache ==> r.1 == compile(code)
    ensures key !in cache && compile(code).Success? ==> r.0 == cache[key := compile(code).value]
    ensures key !in cache && compile(code).Failure? ==> r.0 == cache
  {
    if key in cache then (cache, Success(cache[key]))
    else match compile(code)
      case Success(s) => (cache[key := s], Success(s))
      case Failure(e) => (cache, Failure(e))
  }

  /** The first successful compile under a key is what every later lookup
      with that key returns, whatever code accompanies the later lookups. */
  lemma FirstCompileReused(cache: Cache, key: string, code1: string, code2: string, c1: Compiler, c2: Compiler)
    requires GetOrCompile(cache, key, code1, c1).1.Success?
    ensures var (cache1, s1) := GetOrCompile(cache, key, code1, c1);
      GetOrCompile(cache1, key, code2, c2) == (cache1, s1)
  {
  }

  /** The user script's wrapper: its body inside an immediately-invoked function. */
  function Wrap(script: string): string {
    "(function() { " + script + " \n})()"
  }

  /** `execute(lambda, contextData)`: the setup script, then the user script
      looked up by its own text. Every failure becomes `null`. */
  function Execute(cache: Cache, setupCode: string, script: string, context: Entries, compile: Compiler, run: Runner): (r: (Cache, Json))
    ensures GetOrCompile(cache, SetupKey, setupCode, compile).1.Failure? ==> r.1 == JNull
    ensures var setup := GetOrCompile(cache, SetupKey, setupCode, compile).1;
      setup.Success? && run(setup.value, context).Failure? ==> r.1 == JNull
    ensures var (c1, setup) := GetOrCompile(cache, SetupKey, setupCode, compile);
      setup.Success? && run(setup.value, context).Success? ==>
        var (c2, user) := GetOrCompile(c1, script, Wrap(script), compile);
        r.0 == c2
        && (user.Failure? ==> r.1 == JNull)
        && (user.Success? && run(user.value, context).Failure? ==> r.1 == JNull)
        && (user.Success? && run(user.value, context).Success? ==> r.1 == run(user.value, context).value)
    ensures SetupKey in r.0 || r.1 == JNull
    ensures forall k :: k in cache ==> k in r.0 && r.0[k] == cache[k]
  {
    var (c1, setup) := GetOrCompile(cache, SetupKey, setupCode, compile);
    if setup.Failure? then (c1, JNull)
    else if run(setup.value, context).Failure? then (c1, JNull)
    else
      var (c2, user) := GetOrCompile(c1, script, Wrap(script), compile);
      if user.Failure? then (c2, JNull)
      else match run(user.value, context)
        case Success(v) => (c2, v)
        case Failure(_) => (c2, JNull)
  }

  /** When everything compiles and runs, the result is what the user script
      returned. */
  lemma ExecuteReturnsResult(cache: Cache, setupCode: string, script: string, context: Entries, compile: Compiler, run: Runner, s0: Script, s1: Script, v: Json)
    requires GetOrCompile(cache, SetupKey, setupCode, compile).1 == Success(s0)
    requires run(s0, context).Success?
    requires GetOrCompile(GetOrCompile(cache, SetupKey, setupCode, compile).0, script, Wrap(script), compile).1 == Success(s1)
    requires run(s1, context) == Success(v)
    ensures Execute(cache, setupCode, script, context, compile, run).1 == v
  {
  }

  /** Because the user script is looked up by its own text, a script whose
      text is `__setup__` is served the cached setup script. */
  lemma SetupKeyShared(cache: Cache, setupCode: string, context: Entries, compile: Compiler, run: Runner)
    requires SetupKey in cache
    ensures Execute(cache, setupCode, SetupKey, context, compile, run).1 ==
      (if run(cache[SetupKey], context).Success? then run(cache[SetupKey], context).value else JNull)
  {
  }
}

=== FILE: packet_matching.dfy ===
/** Structural matching of a received packet against a state schema: bytes
    at an offset (optionally masked, optionally inverted), then a guard
    expression, then a list of `except` schemas any of which vetoes the match.
    The guard is evaluated by an expression engine outside this model and is
    a parameter here. */
module PacketMatching {
  import opened Wrappers
  import opened Bytes

  /** A schema's `mask`: absent, `null`, one number for every byte, or an
      array whose entries may be missing. A `null` array entry ANDs as 0
      wherever a mask entry is used, so it is the entry `Some(0)`. */
  datatype Mask = NoMask | NullMask | Scalar(m: Byte) | PerByte(entries: seq<Option<Byte>>)

  /** A state schema. `data == None` is an absent `data` array. */
  datatype StateSchema = StateSchema(
    offset: nat,
    data: Option<seq<Byte>>,
    mask: Mask,
    inverted: bool,
    guard: Option<string>,
    except: seq<StateSchema>)

  /** The options of one call. `prepared` is the truthiness of the prepared
      guard run on the reusable context, when both are given; it then stands
      for every guard met in the call, the `except` schemas' included. */
  datatype MatchOptions = MatchOptions(baseOffset: nat, allowEmptyData: bool, prepared: Option<bool>)

  /** Truthiness of a guard expression evaluated with the packet as `data`
      and the options' context, which is the same for every schema of one
      call and so is part of the oracle. */
  type GuardOracle = (string, seq<Byte>) -> bool

  predicate HasData(s: StateSchema) {
    s.data.Some? && |s.data.value| > 0
  }

  function DataOf(s: StateSchema): seq<Byte> {
    if s.data.Some? then s.data.value else []
  }

  predicate GuardActive(s: StateSchema) {
    s.guard.Some? && |s.guard.value| > 0
  }

  /** The guard's verdict: the prepared guard's when there is one, else the
      schema's own expression evaluated. */
  predicate GuardPasses(s: StateSchema, packet: seq<Byte>, opts: MatchOptions, guard: GuardOracle)
    requires GuardActive(s)
  {
    if opts.prepared.Some? then opts.prepared.value else guard(s.guard.value, packet)
  }

  /** The byte test: exact without a mask, `(p & m) == (d & m)` with a scalar
      mask, and per index with an array mask whose missing entries mean exact.
      A `null` mask takes none of the three comparison loops: every byte passes. */
  predicate ByteMatches(mask: Mask, i: nat, p: Byte, d: Byte) {
    match mask
    case NoMask => p == d
    case NullMask => true
    case Scalar(m) => And(p, m) == And(d, m)
    case PerByte(ms) =>
      if i < |ms| && ms[i].Some? then And(p, ms[i].value) == And(d, ms[i].value) else p == d
  }

  predicate InRange(packet: seq<Byte>, offset: nat, data: seq<Byte>) {
    offset + |data| <= |packet|
  }

  predicate BytesMatch(mask: Mask, packet: seq<Byte>, offset: nat, data: seq<Byte>)
    requires InRange(packet, offset, data)
  {
    forall i :: 0 <= i < |data| ==> ByteMatches(mask, i, packet[offset + i], data[i])
  }

  /** The comparison loop, stopping at the first byte that differs. */
  method CompareBytes(mask: Mask, packet: seq<Byte>, offset: nat, data: seq<Byte>) returns (matched: bool)
    requires InRange(packet, offset, data)
    ensures matched <==> BytesMatch(mask, packet, offset, data)
  {
    matched := true;
    var i := 0;
    while i < |data|
      invariant 0 <= i <= |data|
      invariant matched <==> forall k :: 0 <= k < i ==> ByteMatches(mask, k, packet[offset + k], data[k])
      invariant !matched ==> i == |data|
    {
      if !ByteMatches(mask, i, packet[offset + i], data[i]) {
        matched := false;
        i := |data|;
      } else {
        i := i + 1;
      }
    }
  }

  /** The byte stage before inversion: true without data, false out of range. */
  predicate Structural(s: StateSchema, packet: seq<Byte>, baseOffset: nat) {
    var offset := s.offset + baseOffset;
    !HasData(s) || (InRange(packet, offset, DataOf(s)) && BytesMatch(s.mask, packet, offset, DataOf(s)))
  }

  /** `matchesPacket(schema, packet, options)` for a present schema. */
  function Matches(s: StateSchema, packet: seq<Byte>, opts: MatchOptions, guard: GuardOracle): (r: bool)
    ensures r ==> HasData(s) || opts.allowEmptyData
    ensures r ==> (s.inverted != Structural(s, packet, opts.baseOffset))
    ensures r && HasData(s) && !s.inverted ==> InRange(packet, s.offset + opts.baseOffset, DataOf(s))
    ensures r && GuardActive(s) ==> GuardPasses(s, packet, opts, guard)
    ensures r ==> forall k :: 0 <= k < |s.except| ==> !Matches(s.except[k], packet, opts, guard)
    ensures !r && (HasData(s) || opts.allowEmptyData) && (s.inverted != Structural(s, packet, opts.baseOffset))
      && (GuardActive(s) ==> GuardPasses(s, packet, opts, guard))
      ==> exists k :: 0 <= k < |s.except| && Matches(s.except[k], packet, opts, guard)
    decreases s, 1, 0
  {
    if !HasData(s) && !opts.allowEmptyData then false
    else
      var matched := Structural(s, packet, opts.baseOffset);
      var afterInversion := if s.inverted then !matched else matched;
      if !afterInversion then false
      else if GuardActive(s) && !GuardPasses(s, packet, opts, guard) then false
      else !AnyExceptMatches(s, packet, opts, guard, 0)
  }

  /** Whether some `except` schema from index `i` on matches. */
  function AnyExceptMatches(s: StateSchema, packet: seq<Byte>, opts: MatchOptions, guard: GuardOracle, i: nat): (r: bool)
    ensures r <==> exists k :: i <= k < |s.except| && Matches(s.except[k], packet, opts, guard)
    decreases s, 0, |s.except| - i
  {
    if i >= |s.except| then false
    else Matches(s.except[i], packet, opts, guard) || AnyExceptMatches(s, packet, opts, guard, i + 1)
  }

  /** `matchesPacket` for a schema that may be `null` or `undefined`. */
  function MatchesOpt(s: Option<StateSchema>, packet: seq<Byte>, opts: MatchOptions, guard: GuardOracle): (r: bool)
    ensures s.None? ==> !r
    ensures s.Some? ==> r == Matches(s.value, packet, opts, guard)
  {
    s.Some? && Matches(s.value, packet, opts, guard)
  }

  // ---------------------------------------------------------------------------
  // Properties

  /** A scalar mask of 0xFF behaves exactly as no mask. */
  lemma FullMaskIsNoMask(s: StateSchema, packet: seq<Byte>, opts: MatchOptions, guard: GuardOracle)
    requires s.mask == Scalar(0xFF)
    ensures Matches(s, packet, opts, guard) == Matches(s.(mask := NoMask), packet, opts, guard)
  {
    var t := s.(mask := NoMask);
    var offset := s.offset + opts.baseOffset;
    var data := DataOf(s);
    if HasData(s) && InRange(packet, offset, data) {
      forall i | 0 <= i < |data|
        ensures ByteMatches(s.mask, i, packet[offset + i], data[i]) == ByteMatches(NoMask, i, packet[offset + i], data[i])
      {
        AndFull(packet[offset + i]);
        AndFull(data[i]);
      }
    }
    assert Structural(s, packet, opts.baseOffset) == Structural(t, packet, opts.baseOffset);
    assert AnyExceptMatches(s, packet, opts, guard, 0) == AnyExceptMatches(t, packet, opts, guard, 0);
  }

  /** An inverted schema whose bytes fall outside the packet passes the byte
      stage; the guard and the `except` list still apply. */
  lemma InvertedOutOfRange(s: StateSchema, packet: seq<Byte>, opts: MatchOptions, guard: GuardOracle)
    requires s.inverted && HasData(s) && !InRange(packet, s.offset + opts.baseOffset, DataOf(s))
    ensures Matches(s, packet, opts, guard) <==>
      (!GuardActive(s) || GuardPasses(s, packet, opts, guard)) &&
      forall k :: 0 <= k < |s.except| ==> !Matches(s.except[k], packet, opts, guard)
  {
  }

  /** The guard is consulted only once the byte and inversion stages pass: a
      schema failing them does not match whatever the guard says. */
  lemma GuardAfterStructure(s: StateSchema, packet: seq<Byte>, opts: MatchOptions, g1: GuardOracle, g2: GuardOracle)
    requires s.inverted == Structural(s, packet, opts.baseOffset)
    ensures !Matches(s, packet, opts, g1) && !Matches(s, packet, opts, g2)
  {
  }

  /** With a prepared guard, no guard expression in the schema or in its
      `except` schemas is evaluated: the outcome is the same whatever they
      would evaluate to. */
  lemma {:induction false} PreparedGuardShared(s: StateSchema, packet: seq<Byte>, opts: MatchOptions, g1: GuardOracle, g2: GuardOracle)
    requires opts.prepared.Some?
    ensures Matches(s, packet, opts, g1) == Matches(s, packet, opts, g2)
    decreases s, 1
  {
    PreparedExceptsShared(s, packet, opts, g1, g2, 0);
  }

  lemma {:induction false} PreparedExceptsShared(s: StateSchema, packet: seq<Byte>, opts: MatchOptions, g1: GuardOracle, g2: GuardOracle, i: nat)
    requires opts.prepared.Some?
    ensures AnyExceptMatches(s, packet, opts, g1, i) == AnyExceptMatches(s, packet, opts, g2, i)
    decreases s, 0, |s.except| - i
  {
    if i < |s.except| {
      PreparedGuardShared(s.except[i], packet, opts, g1, g2);
      PreparedExceptsShared(s, packet, opts, g1, g2, i + 1);
    }
  }

  /** A `null` mask lets the bytes through uncompared: only the range
      check, the inversion, the guard and the `except` list decide. */
  lemma NullMaskSkipsBytes(s: StateSchema, packet: seq<Byte>, opts: MatchOptions, guard: GuardOracle)
    requires s.mask == NullMask && HasData(s) && !s.inverted
    ensures Matches(s, packet, opts, guard) <==>
      InRange(packet, s.offset + opts.baseOffset, DataOf(s))
      && (!GuardActive(s) || GuardPasses(s, packet, opts, guard))
      && forall k :: 0 <= k < |s.except| ==> !Matches(s.except[k], packet, opts, guard)
  {
  }
}

=== FILE: packet_parser.dfy ===
/** The byte-at-a-time frame assembler. Each received byte is appended to a
    buffer, which is then scanned for a complete frame: header first (dropping
    leading bytes until the header lines up), then the fixed length, then the
    footer, then the checksum (dropping one byte and rescanning on a mismatch).
    The clock is the explicit `now` argument. */
module PacketParser {
  import opened Wrappers
  import opened Bytes
  import opened Strings
  import Checksum

  /** Receive-side packet defaults. An empty header or footer is an absent one;
      `length` and `timeout` are JavaScript numbers whose 0 means "not set". */
  datatype ParserConfig = ParserConfig(
    header: seq<Byte>,
    length: int,
    footer: seq<Byte>,
    checksum: Option<Checksum.ChecksumType>,
    timeout: int)

  datatype Parser = Parser(buffer: seq<Byte>, lastRxTime: int)

  const Initial := Parser([], 0)

  /** Largest buffer kept between calls. */
  const MaxBuffer := 256

  datatype ScanResult = Complete(packet: seq<Byte>) | Incomplete(rest: seq<Byte>)

  predicate ChecksumActive(cfg: ParserConfig) {
    cfg.checksum.Some? && !cfg.checksum.value.NoChecksum?
  }

  /** `s` is what is left of `t` after some leading bytes were dropped. */
  predicate IsSuffix(s: seq<Byte>, t: seq<Byte>) {
    |s| <= |t| && forall i :: 0 <= i < |s| ==> s[i] == t[|t| - |s| + i]
  }

  // ---------------------------------------------------------------------------
  // Checksum verification

  predicate IsAddType(t: Checksum.ChecksumType) {
    t.AddSum? || t.AddNoHeader?
  }

  predicate IsXorType(t: Checksum.ChecksumType) {
    t.XorSum? || t.XorNoHeader?
  }

  /** The parser's own checksum loop over `b[start..end)`: byte-wise add or
      XOR for the four supported types, nothing for every other type. */
  function VerifyFold(t: Checksum.ChecksumType, b: seq<Byte>, start: nat, end: int): Byte
    requires end <= |b|
    decreases end - start
  {
    if end <= start then 0
    else
      var c := VerifyFold(t, b, start, end - 1);
      if IsAddType(t) then (c + b[end - 1]) % 256
      else if IsXorType(t) then Xor(c, b[end - 1])
      else c
  }

  /** Index where the data covered by the checksum starts. */
  function VerifyStart(cfg: ParserConfig): nat {
    if cfg.checksum == Some(Checksum.AddNoHeader) || cfg.checksum == Some(Checksum.XorNoHeader) then |cfg.header| else 0
  }

  /** `verifyChecksum`: the checksum byte sits just before the footer (or last
      when there is none) and must equal the fold of the bytes before it. */
  predicate Verify(cfg: ParserConfig, b: seq<Byte>) {
    if !ChecksumActive(cfg) then true
    else
      var dataEnd := |b| - |cfg.footer| - 1;
      var start := VerifyStart(cfg);
      Checksum.ByteAt(b, dataEnd) == Some(VerifyFold(cfg.checksum.value, b, start, dataEnd))
  }

  // ---------------------------------------------------------------------------
  // Scanning the buffer

  /** What one pass of `isPacketComplete` decides about the buffer: wait for
      more bytes, drop the first byte and scan again, or accept the buffer as
      a frame. */
  datatype Verdict = Wait | Shift | Accept

  /** The header, length, footer and checksum checks, in the source's order. */
  function Classify(cfg: ParserConfig, b: seq<Byte>): (v: Verdict)
    ensures v.Accept? ==> Framed(cfg, b)
    ensures v.Shift? && |b| == 0 ==>
      |cfg.header| == 0 && |cfg.footer| == 0 && cfg.length <= 0 && ChecksumActive(cfg)
  {
    var h := cfg.header;
    var f := cfg.footer;
    if |h| > 0 && |b| < |h| then Wait
    else if |h| > 0 && b[..|h|] != h then Shift
    else if cfg.length > 0 && |b| < cfg.length then Wait
    else if |f| > 0 && |b| < |h| + |f| then Wait
    else if |f| > 0 && b[|b| - |f|..] != f then
      if cfg.length != 0 && |b| >= cfg.length then Shift else Wait
    else if ChecksumActive(cfg) && !Verify(cfg, b) then Shift
    else Accept
  }

  /** `isPacketComplete` together with the buffer it leaves behind. When a
      checksum failure has already consumed the whole buffer, the scan reports
      an incomplete frame. */
  function Scan(cfg: ParserConfig, b: seq<Byte>): (r: ScanResult)
    ensures r.Complete? ==> IsSuffix(r.packet, b)
    ensures r.Incomplete? ==> IsSuffix(r.rest, b)
    ensures r.Complete? ==> Framed(cfg, r.packet)
    ensures r.Complete? && |b| > 0 ==> |r.packet| > 0
    decreases |b|
  {
    match Classify(cfg, b)
    case Wait => Incomplete(b)
    case Accept => Complete(b)
    case Shift =>
      if |b| == 0 then Incomplete(b)
      else
        var r := Scan(cfg, b[1..]);
        match r
        case Complete(p) => SuffixOfTail(p, b); r
        case Incomplete(p) => SuffixOfTail(p, b); r
  }

  lemma SuffixOfTail(s: seq<Byte>, b: seq<Byte>)
    requires |b| > 0 && IsSuffix(s, b[1..])
    ensures IsSuffix(s, b)
  {
  }

  /** A complete frame: it starts with the header, is at least the fixed
      length, ends with the footer and passes the checksum. */
  predicate Framed(cfg: ParserConfig, packet: seq<Byte>) {
    FramingHolds(cfg, packet) && Verify(cfg, packet)
  }

  /** The header, length and footer checks pass. */
  predicate FramingHolds(cfg: ParserConfig, packet: seq<Byte>) {
    && StartsWithBytes(packet, cfg.header)
    && (cfg.length > 0 ==> |packet| >= cfg.length)
    && (|cfg.footer| > 0 ==> |packet| >= |cfg.header| + |cfg.footer| && EndsWithBytes(packet, cfg.footer))
  }

  predicate StartsWithBytes(s: seq<Byte>, prefix: seq<Byte>) {
    |prefix| <= |s| && s[..|prefix|] == prefix
  }

  predicate EndsWithBytes(s: seq<Byte>, suffix: seq<Byte>) {
    |suffix| <= |s| && s[|s| - |suffix|..] == suffix
  }

  /** `parse(byte)` at time `now`: the new parser state and the packet, if any. */
  function Parse(cfg: ParserConfig, p: Parser, x: Byte, now: int): (r: (Parser, Option<seq<Byte>>))
    ensures r.0.lastRxTime == now
    ensures r.1.Some? ==> r.0.buffer == []
    ensures |p.buffer| <= MaxBuffer ==> |r.0.buffer| <= MaxBuffer
    ensures r.1.Some? ==> |r.1.value| > 0 && r.1.value[|r.1.value| - 1] == x
    ensures r.1.Some? ==> Framed(cfg, r.1.value)
  {
    var kept := if cfg.timeout != 0 && now - p.lastRxTime > cfg.timeout then [] else p.buffer;
    var b := kept + [x];
    match Scan(cfg, b)
    case Complete(packet) =>
      assert packet == b[|b| - |packet|..];
      (Parser([], now), Some(packet))
    case Incomplete(rest) =>
      (Parser(if |rest| > MaxBuffer then rest[1..] else rest, now), None)
  }

  /** Feeds `bytes[i..]`, received at the same instant, and collects the packets. */
  function FeedAll(cfg: ParserConfig, p: Parser, bytes: seq<Byte>, i: nat, now: int): (r: (Parser, seq<seq<Byte>>))
    ensures |p.buffer| <= MaxBuffer ==> |r.0.buffer| <= MaxBuffer
    ensures i <= |bytes| ==> |r.1| <= |bytes| - i
    decreases |bytes| - i
  {
    if i >= |bytes| then (p, [])
    else
      var step := Parse(cfg, p, bytes[i], now);
      var rest := FeedAll(cfg, step.0, bytes, i + 1, now);
      (rest.0, (if step.1.Some? then [step.1.value] else []) + rest.1)
  }

  // ---------------------------------------------------------------------------
  // Properties

  /** Every packet a run of bytes yields starts with the header and passes
      the checksum. */
  lemma {:induction false} FeedAllPackets(cfg: ParserConfig, p: Parser, bytes: seq<Byte>, i: nat, now: int, k: nat)
    requires k < |FeedAll(cfg, p, bytes, i, now).1|
    ensures Framed(cfg, FeedAll(cfg, p, bytes, i, now).1[k])
    decreases |bytes| - i
  {
    var step := Parse(cfg, p, bytes[i], now);
    var rest := FeedAll(cfg, step.0, bytes, i + 1, now).1;
    FeedStep(cfg, p, bytes, i, now, step.0, step.1);
    if step.1.None? {
      FeedAllPackets(cfg, step.0, bytes, i + 1, now, k);
    } else if k > 0 {
      assert FeedAll(cfg, p, bytes, i, now).1[k] == rest[k - 1];
      FeedAllPackets(cfg, step.0, bytes, i + 1, now, k - 1);
    }
  }

  /** With a timeout set and a gap longer than it, the earlier buffer plays no
      part: the byte is handled as if the buffer had been empty. */
  lemma TimeoutDiscards(cfg: ParserConfig, p: Parser, x: Byte, now: int)
    requires cfg.timeout != 0 && now - p.lastRxTime > cfg.timeout
    ensures Parse(cfg, p, x, now) == Parse(cfg, Parser([], p.lastRxTime), x, now)
  {
  }

  /** Without a timeout, or within it, the byte is appended to the buffer kept so far. */
  lemma NoTimeoutKeeps(cfg: ParserConfig, p: Parser, x: Byte, now: int)
    requires cfg.timeout == 0 || now - p.lastRxTime <= cfg.timeout
    ensures Scan(cfg, p.buffer + [x]).Complete? <==> Parse(cfg, p, x, now).1.Some?
    ensures Scan(cfg, p.buffer + [x]).Complete? ==>
      Parse(cfg, p, x, now).1 == Some(Scan(cfg, p.buffer + [x]).packet)
  {
  }

  /** A leading byte that cannot start the header is dropped, and only that byte. */
  lemma HeaderResync(cfg: ParserConfig, b: seq<Byte>)
    requires |cfg.header| > 0 && |b| >= |cfg.header| && b[..|cfg.header|] != cfg.header
    ensures Scan(cfg, b) == Scan(cfg, b[1..])
  {
  }

  /** A frame whose framing checks pass but whose checksum fails loses exactly
      its first byte before scanning resumes. */
  lemma ChecksumResync(cfg: ParserConfig, b: seq<Byte>)
    requires |b| > 0 && ChecksumActive(cfg) && !Verify(cfg, b)
    requires FramingHolds(cfg, b)
    ensures Scan(cfg, b) == Scan(cfg, b[1..])
  {
    assert Classify(cfg, b) == Shift;
  }

  lemma ModAdd(a: nat, b: nat)
    ensures (a % 256 + b) % 256 == (a + b) % 256
  {
  }

  /** The parser's add loop computes the checksum engine's range sum. */
  lemma {:induction false} VerifyFoldAdd(t: Checksum.ChecksumType, b: seq<Byte>, start: nat, end: int)
    requires end <= |b| && IsAddType(t)
    ensures Checksum.SumRange(b, start, end).Some?
    ensures VerifyFold(t, b, start, end) == Checksum.LowByte(Checksum.SumRange(b, start, end))
    decreases end - start
  {
    if start < end {
      VerifyFoldAdd(t, b, start, end - 1);
      ModAdd(Checksum.SumRange(b, start, end - 1).value, b[end - 1]);
    }
  }

  /** The parser's XOR loop computes the checksum engine's range XOR. */
  lemma {:induction false} VerifyFoldXor(t: Checksum.ChecksumType, b: seq<Byte>, start: nat, end: int)
    requires end <= |b| && IsXorType(t)
    ensures VerifyFold(t, b, start, end) == Checksum.XorRange(b, 0, start, end)
    decreases end - start
  {
    if start < end {
      VerifyFoldXor(t, b, start, end - 1);
    }
  }

  /** Every other type leaves the computed checksum at 0. */
  lemma {:induction false} VerifyFoldOther(t: Checksum.ChecksumType, b: seq<Byte>, start: nat, end: int)
    requires end <= |b| && !IsAddType(t) && !IsXorType(t)
    ensures VerifyFold(t, b, start, end) == 0
    decreases end - start
  {
    if start < end {
      VerifyFoldOther(t, b, start, end - 1);
    }
  }

  /** For the add and XOR families the checksum byte equals the checksum of the
      bytes from the start index (the header length for the `_no_header`
      variants, else 0) up to the checksum byte, which is the last byte or the
      byte before the footer. Every other active type compares against 0. */
  lemma VerifySpec(cfg: ParserConfig, b: seq<Byte>)
    requires ChecksumActive(cfg)
    ensures var t := cfg.checksum.value;
      (IsAddType(t) || IsXorType(t)) ==>
        (Verify(cfg, b) <==>
          |b| > |cfg.footer| &&
          Checksum.CalculateFromBuffer(b, t, |cfg.header|, |b| - |cfg.footer| - 1, 0)
            == Success(b[|b| - |cfg.footer| - 1]))
    ensures var t := cfg.checksum.value;
      !IsAddType(t) && !IsXorType(t) ==>
        (Verify(cfg, b) <==> |b| > |cfg.footer| && b[|b| - |cfg.footer| - 1] == 0)
  {
    var t := cfg.checksum.value;
    var dataEnd := |b| - |cfg.footer| - 1;
    if IsAddType(t) {
      VerifyFoldAdd(t, b, VerifyStart(cfg), dataEnd);
    } else if IsXorType(t) {
      VerifyFoldXor(t, b, VerifyStart(cfg), dataEnd);
    } else {
      VerifyFoldOther(t, b, VerifyStart(cfg), dataEnd);
    }
  }

  // ---------------------------------------------------------------------------
  // The scan as the source writes it

  datatype Outcome = Done(result: ScanResult) | Diverges

  /** `isPacketComplete` exactly as written: a checksum failure on an empty
      buffer shifts nothing and calls itself again on the same state, which
      never returns. */
  function ScanAsWritten(cfg: ParserConfig, b: seq<Byte>): (r: Outcome)
    ensures r.Diverges? ==> |cfg.header| == 0 && |cfg.footer| == 0 && cfg.length <= 0 && ChecksumActive(cfg)
    ensures r.Done? ==> r.result == Scan(cfg, b)
    decreases |b|
  {
    match Classify(cfg, b)
    case Wait => Done(Incomplete(b))
    case Accept => Done(Complete(b))
    case Shift => if |b| == 0 then Diverges else ScanAsWritten(cfg, b[1..])
  }

  /** With an 'add' checksum and no header, footer or length, the byte 0x01
      fails its checksum, is shifted out, and the empty buffer then fails again
      forever. */
  lemma AsWrittenDiverges()
    ensures ScanAsWritten(ParserConfig([], 0, [], Some(Checksum.AddSum), 0), [0x01]).Diverges?
  {
    var cfg := ParserConfig([], 0, [], Some(Checksum.AddSum), 0);
    assert !Verify(cfg, [0x01]);
    assert [0x01][1..] == [];
    assert !Verify(cfg, []);
  }

  /** In the corrected scan the same byte is dropped and the parser waits. */
  lemma CorrectedWaits(now: int)
    ensures Parse(ParserConfig([], 0, [], Some(Checksum.AddSum), 0), Initial, 0x01, now) == (Parser([], now), None)
  {
    var cfg := ParserConfig([], 0, [], Some(Checksum.AddSum), 0);
    assert !Verify(cfg, [0x01]);
    ChecksumResync(cfg, [0x01]);
    assert [0x01][1..] == [];
    assert Scan(cfg, []) == Incomplete([]) by {
      assert !Verify(cfg, []);
    }
  }

  // ---------------------------------------------------------------------------
  // Worked example

  const FixedLengthAdd := ParserConfig([0xAA], 4, [], Some(Checksum.AddSum), 0)

  /** A frame that starts with the header but is still short waits for more bytes. */
  lemma ShortFrameWaits(b: seq<Byte>, x: Byte, c: seq<Byte>, now: int)
    requires |c| == |b| + 1 <= 3 && c[0] == 0xAA && c[|b|] == x
    requires forall i :: 0 <= i < |b| ==> c[i] == b[i]
    ensures Parse(FixedLengthAdd, Parser(b, now), x, now) == (Parser(c, now), None)
  {
    assert c == b + [x];
    assert c[..1] == [0xAA];
    assert Scan(FixedLengthAdd, c) == Incomplete(c);
  }

  /** The first frame fails its checksum; dropping its first byte leaves no
      header in sight, so the rest of it is dropped too. */
  lemma BadChecksumDropped(now: int)
    ensures Parse(FixedLengthAdd, Parser([0xAA, 0x01, 0x02], now), 0x00, now) == (Parser([], now), None)
  {
    var cfg := FixedLengthAdd;
    var b4: seq<Byte> := [0xAA, 0x01, 0x02, 0x00];
    assert [0xAA, 0x01, 0x02] + [0x00] == b4;
    assert b4[..1] == [0xAA];
    assert VerifyFold(Checksum.AddSum, b4, 0, 3) == 0xAD;
    assert !Verify(cfg, b4);
    assert b4[1..] == [0x01, 0x02, 0x00] && b4[1..][1..] == [0x02, 0x00] && b4[1..][1..][1..] == [0x00];
    assert [0x00][1..] == [];
    assert Scan(cfg, []) == Incomplete([]);
    assert Scan(cfg, [0x00]) == Incomplete([]);
    assert Scan(cfg, [0x02, 0x00]) == Incomplete([]);
    assert Scan(cfg, [0x01, 0x02, 0x00]) == Incomplete([]);
  }

  lemma GoodFrameReturned(now: int)
    ensures Parse(FixedLengthAdd, Parser([0xAA, 0x02, 0x03], now), 0xAF, now) == (Parser([], now), Some([0xAA, 0x02, 0x03, 0xAF]))
  {
    var cfg := FixedLengthAdd;
    var b8: seq<Byte> := [0xAA, 0x02, 0x03, 0xAF];
    assert [0xAA, 0x02, 0x03] + [0xAF] == b8;
    assert b8[..1] == [0xAA];
    assert VerifyFold(Checksum.AddSum, b8, 0, 3) == 0xAF;
    assert Verify(cfg, b8);
  }

  lemma FeedStep(cfg: ParserConfig, p: Parser, bytes: seq<Byte>, i: nat, now: int, q: Parser, out: Option<seq<Byte>>)
    requires i < |bytes| && Parse(cfg, p, bytes[i], now) == (q, out)
    ensures FeedAll(cfg, p, bytes, i, now).1 == (if out.Some? then [out.value] else []) + FeedAll(cfg, q, bytes, i + 1, now).1
  {
  }

  lemma FeedNothing(cfg: ParserConfig, p: Parser, bytes: seq<Byte>, i: nat, now: int, q: Parser)
    requires i < |bytes| && Parse(cfg, p, bytes[i], now) == (q, None)
    ensures FeedAll(cfg, p, bytes, i, now).1 == FeedAll(cfg, q, bytes, i + 1, now).1
  {
  }

  /** A corrupted frame followed by an intact one. */
  const Trace: seq<Byte> := [0xAA, 0x01, 0x02, 0x00, 0xAA, 0x02, 0x03, 0xAF]

  /** The first two bytes of the corrupted frame are buffered. */
  lemma FirstFrameStart(t: seq<Byte>, now: int)
    requires |t| == 8 && t[0] == 0xAA && t[1] == 0x01
    ensures FeedAll(FixedLengthAdd, Parser([], now), t, 0, now).1
      == FeedAll(FixedLengthAdd, Parser([0xAA, 0x01], now), t, 2, now).1
  {
    var cfg := FixedLengthAdd;
    ShortFrameWaits([], 0xAA, [0xAA], now);
    FeedNothing(cfg, Parser([], now), t, 0, now, Parser([0xAA], now));
    ShortFrameWaits([0xAA], 0x01, [0xAA, 0x01], now);
    FeedNothing(cfg, Parser([0xAA], now), t, 1, now, Parser([0xAA, 0x01], now));
  }

  /** The rest of the corrupted frame fails its checksum and is discarded. */
  lemma FirstFrameEnd(t: seq<Byte>, now: int)
    requires |t| == 8 && t[2] == 0x02 && t[3] == 0x00
    ensures FeedAll(FixedLengthAdd, Parser([0xAA, 0x01], now), t, 2, now).1
      == FeedAll(FixedLengthAdd, Parser([], now), t, 4, now).1
  {
    var cfg := FixedLengthAdd;
    ShortFrameWaits([0xAA, 0x01], 0x02, [0xAA, 0x01, 0x02], now);
    FeedNothing(cfg, Parser([0xAA, 0x01], now), t, 2, now, Parser([0xAA, 0x01, 0x02], now));
    BadChecksumDropped(now);
    FeedNothing(cfg, Parser([0xAA, 0x01, 0x02], now), t, 3, now, Parser([], now));
  }

  /** The first two bytes of the intact frame are buffered. */
  lemma SecondFrameStart(t: seq<Byte>, now: int)
    requires |t| == 8 && t[4] == 0xAA && t[5] == 0x02
    ensures FeedAll(FixedLengthAdd, Parser([], now), t, 4, now).1
      == FeedAll(FixedLengthAdd, Parser([0xAA, 0x02], now), t, 6, now).1
  {
    var cfg := FixedLengthAdd;
    ShortFrameWaits([], 0xAA, [0xAA], now);
    FeedNothing(cfg, Parser([], now), t, 4, now, Parser([0xAA], now));
    ShortFrameWaits([0xAA], 0x02, [0xAA, 0x02], now);
    FeedNothing(cfg, Parser([0xAA], now), t, 5, now, Parser([0xAA, 0x02], now));
  }

  /** The intact frame is returned once its checksum byte arrives. */
  lemma SecondFrameEnd(t: seq<Byte>, now: int)
    requires |t| == 8 && t[6] == 0x03 && t[7] == 0xAF
    ensures FeedAll(FixedLengthAdd, Parser([0xAA, 0x02], now), t, 6, now).1 == [[0xAA, 0x02, 0x03, 0xAF]]
  {
    var cfg := FixedLengthAdd;
    ShortFrameWaits([0xAA, 0x02], 0x03, [0xAA, 0x02, 0x03], now);
    FeedNothing(cfg, Parser([0xAA, 0x02], now), t, 6, now, Parser([0xAA, 0x02, 0x03], now));
    GoodFrameReturned(now);
    FeedStep(cfg, Parser([0xAA, 0x02, 0x03], now), t, 7, now, Parser([], now), Some([0xAA, 0x02, 0x03, 0xAF]));
  }

  /** `[AA 01 02 00][AA 02 03 AF]` fed byte by byte at length 4 with an 'add'
      checksum yields only the second frame. */
  lemma ResyncExample(now: int)
    ensures FeedAll(FixedLengthAdd, Parser([], now), Trace, 0, now).1 == [[0xAA, 0x02, 0x03, 0xAF]]
  {
    FirstFrameStart(Trace, now);
    FirstFrameEnd(Trace, now);
    SecondFrameStart(Trace, now);
    SecondFrameEnd(Trace, now);
  }
}

=== FILE: protocol_manager.dfy ===
/** The protocol manager: received bytes go through the packet parser and
    every completed packet is offered to every registered device; outgoing
    commands wait in two FIFO lanes (high and low priority) behind a pacing
    gate. The wall clock is an explicit `now`. */
module ProtocolManager {
  import opened Wrappers
  import opened Bytes
  import Strings
  import opened JsonValue
  import PacketParser
  import Devices

  /** `tx_delay` from the packet defaults, `None` when absent. */
  datatype ProtocolConfig = ProtocolConfig(parser: PacketParser.ParserConfig, txDelay: Option<int>)

  datatype Manager = Manager(
    parser: PacketParser.Parser,
    devices: seq<Devices.Device>,
    high: seq<seq<Byte>>,
    low: seq<seq<Byte>>,
    lastTxTime: int)

  /** A 'state' event: the id of a device and the updates it parsed. */
  datatype StateEvent = StateEvent(deviceId: string, state: Entries)

  /** What the generic device behind each registered device parses, by id. */
  type BaseParse = (string, seq<Byte>) -> Option<Entries>

  const Fresh := Manager(PacketParser.Initial, [], [], [], 0)

  /** The pacing gap: `tx_delay || 50`, so a missing or zero delay is 50 ms. */
  function TxDelay(cfg: ProtocolConfig): (r: int)
    ensures cfg.txDelay.None? || cfg.txDelay.value == 0 ==> r == 50
    ensures cfg.txDelay.Some? && cfg.txDelay.value != 0 ==> r == cfg.txDelay.value
  {
    match cfg.txDelay
    case None => 50
    case Some(v) => if v == 0 then 50 else v
  }

  /** `registerDevice`. */
  function RegisterDevice(m: Manager, d: Devices.Device): (r: Manager)
    ensures r.devices == m.devices + [d]
    ensures r.(devices := m.devices) == m
  {
    m.(devices := m.devices + [d])
  }

  /** `queueCommand(command, highPriority)`. */
  function QueueCommand(m: Manager, command: seq<Byte>, highPriority: bool): (r: Manager)
    ensures highPriority ==> r.high == m.high + [command] && r.low == m.low
    ensures !highPriority ==> r.low == m.low + [command] && r.high == m.high
    ensures r.devices == m.devices && r.parser == m.parser && r.lastTxTime == m.lastTxTime
  {
    if highPriority then m.(high := m.high + [command]) else m.(low := m.low + [command])
  }

  predicate GateOpen(m: Manager, cfg: ProtocolConfig, now: int) {
    now - m.lastTxTime >= TxDelay(cfg)
  }

  /** `getNextCommand()` at time `now`. */
  function GetNextCommand(m: Manager, cfg: ProtocolConfig, now: int): (r: (Manager, Option<seq<Byte>>))
    ensures !GateOpen(m, cfg, now) ==> r == (m, None)
    ensures m.high == [] && m.low == [] ==> r == (m, None)
    ensures r.1.None? ==> r.0 == m
    ensures r.1.Some? ==> r.0.lastTxTime == now && GateOpen(m, cfg, now)
    ensures r.1.Some? && m.high != [] ==> r.1.value == m.high[0] && r.0 == m.(high := m.high[1..], lastTxTime := now)
    ensures r.1.Some? && m.high == [] ==> r.1.value == m.low[0] && r.0 == m.(low := m.low[1..], lastTxTime := now)
    ensures GateOpen(m, cfg, now) && (m.high != [] || m.low != []) ==> r.1.Some?
    ensures |r.0.high| + |r.0.low| + (if r.1.Some? then 1 else 0) == |m.high| + |m.low|
  {
    if now - m.lastTxTime < TxDelay(cfg) then (m, None)
    else if |m.high| > 0 then (m.(high := m.high[1..], lastTxTime := now), Some(m.high[0]))
    else if |m.low| > 0 then (m.(low := m.low[1..], lastTxTime := now), Some(m.low[0]))
    else (m, None)
  }

  /** `processPacket`: every device, in registration order, is offered the
      packet; each non-null result becomes one event. */
  function ProcessPacket(devices: seq<Devices.Device>, base: BaseParse, packet: seq<Byte>): (r: seq<StateEvent>)
    ensures |r| <= |devices|
  {
    ProcessFrom(devices, OfferTo(base, packet), 0)
  }

  /** What each device makes of one packet. */
  type Offer = Devices.Device -> Option<Entries>

  function OfferTo(base: BaseParse, packet: seq<Byte>): Offer {
    (d: Devices.Device) => Devices.ParseData(d, p => base(d.config.id, p), packet)
  }

  /** The events of the devices from index `i` on. */
  function ProcessFrom(devices: seq<Devices.Device>, offer: Offer, i: nat): (r: seq<StateEvent>)
    ensures i <= |devices| ==> |r| <= |devices| - i
    decreases |devices| - i
  {
    if i >= |devices| then []
    else EventOf(devices[i], offer) + ProcessFrom(devices, offer, i + 1)
  }

  /** The event one device contributes: one when it parses the packet, none otherwise. */
  function EventOf(d: Devices.Device, offer: Offer): (r: seq<StateEvent>)
    ensures |r| <= 1
  {
    match offer(d)
    case None => []
    case Some(u) => [StateEvent(d.config.id, u)]
  }

  /** Device `j` parsed the packet into the updates that `e` carries, under its id. */
  predicate ReportedBy(devices: seq<Devices.Device>, offer: Offer, j: nat, e: StateEvent)
    requires j < |devices|
  {
    devices[j].config.id == e.deviceId && offer(devices[j]) == Some(e.state)
  }

  /** No device from index `i` on parses the packet. */
  predicate SilentFrom(devices: seq<Devices.Device>, offer: Offer, i: nat) {
    forall j :: i <= j < |devices| ==> offer(devices[j]).None?
  }

  /** Every event comes from a device that parsed the packet into exactly
      that update, and later events come from later devices. */
  lemma {:induction false} EventsAreReports(devices: seq<Devices.Device>, offer: Offer, i: nat, k: nat)
    requires k < |ProcessFrom(devices, offer, i)|
    ensures exists j :: i + k <= j < |devices| && ReportedBy(devices, offer, j, ProcessFrom(devices, offer, i)[k])
    decreases |devices| - i
  {
    var head := EventOf(devices[i], offer);
    var rest := ProcessFrom(devices, offer, i + 1);
    if |head| == 1 && k == 0 {
      assert ReportedBy(devices, offer, i, ProcessFrom(devices, offer, i)[k]);
    } else {
      var k' := k - |head|;
      assert ProcessFrom(devices, offer, i)[k] == rest[k'];
      EventsAreReports(devices, offer, i + 1, k');
    }
  }

  /** Every device that parses the packet contributes its event: one
      device's match does not stop the others from being asked. */
  lemma {:induction false} ReportsAreEvents(devices: seq<Devices.Device>, offer: Offer, i: nat, j: nat)
    requires i <= j < |devices| && offer(devices[j]).Some?
    ensures StateEvent(devices[j].config.id, offer(devices[j]).value) in ProcessFrom(devices, offer, i)
    decreases j - i
  {
    if i < j {
      ReportsAreEvents(devices, offer, i + 1, j);
    }
  }

  /** No device parses the packet: no event at all. */
  lemma {:induction false} NoEventsWhenSilent(devices: seq<Devices.Device>, offer: Offer, i: nat)
    requires SilentFrom(devices, offer, i)
    ensures ProcessFrom(devices, offer, i) == []
    decreases |devices| - i
  {
    if i < |devices| {
      NoEventsWhenSilent(devices, offer, i + 1);
    }
  }

  /** The devices after a prefix `a` give the events `b` alone gives. */
  lemma {:induction false} ProcessFromShift(a: seq<Devices.Device>, b: seq<Devices.Device>, offer: Offer, j: nat)
    ensures ProcessFrom(a + b, offer, |a| + j) == ProcessFrom(b, offer, j)
    decreases |b| - j
  {
    if j < |b| {
      assert (a + b)[|a| + j] == b[j];
      ProcessFromShift(a, b, offer, j + 1);
    }
  }

  lemma {:induction false} ProcessFromSplits(a: seq<Devices.Device>, b: seq<Devices.Device>, offer: Offer, i: nat)
    requires i <= |a|
    ensures ProcessFrom(a + b, offer, i) == ProcessFrom(a, offer, i) + ProcessFrom(b, offer, 0)
    decreases |a| - i
  {
    if i < |a| {
      assert (a + b)[i] == a[i];
      ProcessFromSplits(a, b, offer, i + 1);
      Strings.AppendAssoc(EventOf(a[i], offer), ProcessFrom(a, offer, i + 1), ProcessFrom(b, offer, 0));
    } else {
      ProcessFromShift(a, b, offer, 0);
      assert [] + ProcessFrom(b, offer, 0) == ProcessFrom(b, offer, 0);
    }
  }

  /** Offering a packet to two groups of devices gives the events of the
      first group followed by those of the second. */
  lemma ProcessPacketSplits(a: seq<Devices.Device>, b: seq<Devices.Device>, base: BaseParse, packet: seq<Byte>)
    ensures ProcessPacket(a + b, base, packet) == ProcessPacket(a, base, packet) + ProcessPacket(b, base, packet)
  {
    ProcessFromSplits(a, b, OfferTo(base, packet), 0);
  }

  /** `handleIncomingByte`: one byte into the parser, and the events of the
      packet it completes, if any. */
  function HandleIncomingByte(m: Manager, cfg: ProtocolConfig, base: BaseParse, x: Byte, now: int): (r: (Manager, seq<StateEvent>))
    ensures r.0 == m.(parser := PacketParser.Parse(cfg.parser, m.parser, x, now).0)
    ensures PacketParser.Parse(cfg.parser, m.parser, x, now).1.None? ==> r.1 == []
    ensures PacketParser.Parse(cfg.parser, m.parser, x, now).1.Some? ==>
      r.1 == ProcessPacket(m.devices, base, PacketParser.Parse(cfg.parser, m.parser, x, now).1.value)
  {
    var step := PacketParser.Parse(cfg.parser, m.parser, x, now);
    var events := if step.1.Some? then ProcessPacket(m.devices, base, step.1.value) else [];
    (m.(parser := step.0), events)
  }

  // ---------------------------------------------------------------------------
  // Draining the lanes

  /** Calls `getNextCommand` at each of the times `times[i..]` in turn and
      collects the commands returned. */
  function DrainAt(m: Manager, cfg: ProtocolConfig, times: seq<int>, i: nat): (r: (seq<seq<Byte>>, Manager))
    ensures i <= |times| ==> |r.0| <= |times| - i
    decreases |times| - i
  {
    if i >= |times| then ([], m)
    else
      var step := GetNextCommand(m, cfg, times[i]);
      var rest := DrainAt(step.0, cfg, times, i + 1);
      ((if step.1.Some? then [step.1.value] else []) + rest.0, rest.1)
  }

  /** Each time from index `i` on is at least the pacing gap after the
      previous one (the first after the last transmission). */
  predicate Spaced(last: int, times: seq<int>, i: nat, gap: int) {
    (i < |times| ==> times[i] - last >= gap) &&
    forall j :: i <= j < |times| - 1 ==> times[j + 1] - times[j] >= gap
  }

  /** Polled often enough, the manager sends the whole high lane in order
      and then the whole low lane in order. */
  lemma {:induction false} DrainInOrder(m: Manager, cfg: ProtocolConfig, times: seq<int>, i: nat)
    requires Spaced(m.lastTxTime, times, i, TxDelay(cfg))
    requires i <= |times| && |times| - i == |m.high| + |m.low|
    ensures DrainAt(m, cfg, times, i).0 == m.high + m.low
    decreases |times| - i
  {
    if i < |times| {
      var step := GetNextCommand(m, cfg, times[i]);
      DrainStep(m, cfg, times, i);
      DrainInOrder(step.0, cfg, times, i + 1);
      if |m.high| > 0 {
        assert m.high == [m.high[0]] + m.high[1..];
      } else {
        assert m.low == [m.low[0]] + m.low[1..];
      }
    }
  }

  /** One poll at an open gate sends the head of the first non-empty lane,
      and the times after it stay spaced from the new transmission. */
  lemma DrainStep(m: Manager, cfg: ProtocolConfig, times: seq<int>, i: nat)
    requires Spaced(m.lastTxTime, times, i, TxDelay(cfg))
    requires i < |times| && |m.high| + |m.low| > 0
    ensures var step := GetNextCommand(m, cfg, times[i]);
      && step.1.Some?
      && DrainAt(m, cfg, times, i).0 == [step.1.value] + DrainAt(step.0, cfg, times, i + 1).0
      && Spaced(step.0.lastTxTime, times, i + 1, TxDelay(cfg))
  {
  }

  /** A command queued at high priority overtakes every low-priority one. */
  lemma HighOvertakesLow(m: Manager, cfg: ProtocolConfig, command: seq<Byte>, now: int)
    requires m.high == [] && GateOpen(m, cfg, now)
    ensures GetNextCommand(QueueCommand(m, command, true), cfg, now).1 == Some(command)
  {
  }
}

=== FILE: setup_wizard.dfy ===
/** The setup wizard of the service: it validates the serial settings a user
    submits, writes a chosen serial path into an example configuration,
    reads the serial settings back out of a configuration, and checks the
    requests that seed the default configuration. Files, the YAML library,
    the serial port and `normalizeConfig` are not modelled. */
module SetupWizard {
  import opened Wrappers
  import opened Strings
  import opened JsonValue

  const EmptyConfigSentinel := "__empty__"

  /** The errors the wizard answers with. */
  datatype WizardError =
    | SerialConfigRequired | PortIdRequired | PathRequired | BaudRateInvalid | DataBitsInvalid
    | ParityInvalid | StopBitsInvalid | InitializationNotAllowed | InvalidFilename | ExampleNotFound
    | TooManyRequests

  /** The error text sent to the client. */
  function Code(e: WizardError): string {
    match e
    case SerialConfigRequired => "SERIAL_CONFIG_REQUIRED"
    case PortIdRequired => "SERIAL_PORT_ID_REQUIRED"
    case PathRequired => "SERIAL_PATH_REQUIRED"
    case BaudRateInvalid => "SERIAL_BAUD_RATE_INVALID"
    case DataBitsInvalid => "SERIAL_DATA_BITS_INVALID"
    case ParityInvalid => "SERIAL_PARITY_INVALID"
    case StopBitsInvalid => "SERIAL_STOP_BITS_INVALID"
    case InitializationNotAllowed => "INITIALIZATION_NOT_ALLOWED"
    case InvalidFilename => "INVALID_FILENAME"
    case ExampleNotFound => "EXAMPLE_NOT_FOUND"
    case TooManyRequests => "Too many requests"
  }

  // ---------------------------------------------------------------------------
  // Serial settings

  /** The result of `Number(v)`, in as much detail as the checks need:
      `1.5` is the one fraction the settings accept, so it has its own
      case and every other fraction is only known by its sign. */
  datatype JsNumber = NaN | Infinite(negative: bool) | Integer(n: int) | OneAndHalf | OtherFraction(positive: bool)

  predicate IsFinite(x: JsNumber) {
    x.Integer? || x.OneAndHalf? || x.OtherFraction?
  }

  predicate IsPositive(x: JsNumber) {
    (x.Integer? && x.n > 0) || x.OneAndHalf? || (x.OtherFraction? && x.positive) || (x.Infinite? && !x.negative)
  }

  datatype Parity = ParityNone | Even | Mark | Odd | Space
  datatype StopBits = One | OneAndHalfBits | Two

  /** `SERIAL_PARITY.includes(v)`. */
  function ParityOf(s: string): (r: Option<Parity>)
    ensures r.Some? <==> s in ["none", "even", "mark", "odd", "space"]
    ensures r.Some? ==> ParityName(r.value) == s
  {
    if s == "none" then Some(ParityNone)
    else if s == "even" then Some(Even)
    else if s == "mark" then Some(Mark)
    else if s == "odd" then Some(Odd)
    else if s == "space" then Some(Space)
    else None
  }

  function ParityName(p: Parity): (r: string)
    ensures |r| > 0
  {
    match p
    case ParityNone => "none"
    case Even => "even"
    case Mark => "mark"
    case Odd => "odd"
    case Space => "space"
  }

  /** `SERIAL_STOP_BITS.includes(v)`. */
  function StopBitsOf(x: JsNumber): (r: Option<StopBits>)
    ensures r.Some? <==> x == Integer(1) || x == OneAndHalf || x == Integer(2)
    ensures r.Some? ==> StopBitsNumber(r.value) == x
  {
    match x
    case Integer(n) => if n == 1 then Some(One) else if n == 2 then Some(Two) else None
    case OneAndHalf => Some(OneAndHalfBits)
    case _ => None
  }

  function StopBitsNumber(s: StopBits): JsNumber {
    match s
    case One => Integer(1)
    case OneAndHalfBits => OneAndHalf
    case Two => Integer(2)
  }

  datatype SerialConfig = SerialConfig(portId: string, path: string, baudRate: JsNumber, dataBits: int, parity: Parity, stopBits: StopBits)

  /** What the checks guarantee of an accepted configuration. */
  predicate ValidSerialConfig(c: SerialConfig) {
    |c.portId| > 0 && Trim(c.portId) == c.portId
    && |c.path| > 0 && Trim(c.path) == c.path
    && IsFinite(c.baudRate) && IsPositive(c.baudRate)
    && c.dataBits in {5, 6, 7, 8}
  }

  /** The submitted settings as the parser reads them: `NotAnObject` for a
      falsy or non-object payload; otherwise the string fields (`None` when
      not of type string) and the numeric fields after `Number(...)`. */
  datatype Payload =
    | NotAnObject
    | Fields(portId: Option<string>, path: Option<string>, baudRate: JsNumber,
             dataBits: JsNumber, parity: Option<string>, stopBits: JsNumber)

  /** A string field trimmed, or `''` when it is not a string. */
  function TextField(v: Option<string>): (r: string)
    ensures Trim(r) == r
  {
    if v.Some? then TrimOfTrimmed(Trim(v.value)); Trim(v.value) else ""
  }

  predicate DataBitsOk(x: JsNumber) {
    x.Integer? && x.n in {5, 6, 7, 8}
  }

  /** `parseSerialConfigPayload`: the first failing check, in the order
      object, port id, path, baud rate, data bits, parity, stop bits, names
      the error; otherwise the trimmed, checked settings. */
  function ParseSerialConfigPayload(p: Payload): (r: Result<SerialConfig, WizardError>)
    ensures r.Success? ==> ValidSerialConfig(r.value)
    ensures r.Success? ==> (p.Fields? && p.portId.Some? && p.path.Some? && r.value.portId == Trim(p.portId.value) && r.value.path == Trim(p.path.value)
      && r.value.baudRate == p.baudRate && Integer(r.value.dataBits) == p.dataBits
      && p.parity == Some(ParityName(r.value.parity)) && StopBitsNumber(r.value.stopBits) == p.stopBits)
  {
    match p
    case NotAnObject => Failure(SerialConfigRequired)
    case Fields(portIdField, pathField, baudRate, dataBits, parityField, stopBits) =>
      var portId := TextField(portIdField);
      var path := TextField(pathField);
      var parity := ParityOf(if parityField.Some? then parityField.value else "");
      if |portId| == 0 then Failure(PortIdRequired)
      else if |path| == 0 then Failure(PathRequired)
      else if !IsFinite(baudRate) || !IsPositive(baudRate) then Failure(BaudRateInvalid)
      else if !DataBitsOk(dataBits) then Failure(DataBitsInvalid)
      else if parity.None? then Failure(ParityInvalid)
      else if StopBitsOf(stopBits).None? then Failure(StopBitsInvalid)
      else
        var c := SerialConfig(portId, path, baudRate, dataBits.n, parity.value, StopBitsOf(stopBits).value);
        assert ValidSerialConfig(c);
        Success(c)
  }

  /** Which check fails first: each error is reported exactly when every
      earlier check passed and its own failed. */
  lemma ErrorPrecedence(p: Payload)
    ensures ParseSerialConfigPayload(p) == Failure(SerialConfigRequired) <==> p.NotAnObject?
    ensures ParseSerialConfigPayload(p) == Failure(PortIdRequired) <==> p.Fields? && |TextField(p.portId)| == 0
    ensures ParseSerialConfigPayload(p) == Failure(PathRequired) <==>
      p.Fields? && |TextField(p.portId)| > 0 && |TextField(p.path)| == 0
    ensures ParseSerialConfigPayload(p) == Failure(BaudRateInvalid) <==>
      (p.Fields? && |TextField(p.portId)| > 0 && |TextField(p.path)| > 0
      && !(IsFinite(p.baudRate) && IsPositive(p.baudRate)))
    ensures ParseSerialConfigPayload(p) == Failure(DataBitsInvalid) <==>
      (p.Fields? && |TextField(p.portId)| > 0 && |TextField(p.path)| > 0
      && IsFinite(p.baudRate) && IsPositive(p.baudRate) && !DataBitsOk(p.dataBits))
    ensures ParseSerialConfigPayload(p) == Failure(ParityInvalid) <==>
      (p.Fields? && |TextField(p.portId)| > 0 && |TextField(p.path)| > 0
      && IsFinite(p.baudRate) && IsPositive(p.baudRate) && DataBitsOk(p.dataBits)
      && ParityOf(if p.parity.Some? then p.parity.value else "").None?)
    ensures ParseSerialConfigPayload(p) == Failure(StopBitsInvalid) <==>
      (p.Fields? && |TextField(p.portId)| > 0 && |TextField(p.path)| > 0
      && IsFinite(p.baudRate) && IsPositive(p.baudRate) && DataBitsOk(p.dataBits)
      && ParityOf(if p.parity.Some? then p.parity.value else "").Some? && StopBitsOf(p.stopBits).None?)
  {
  }

  /** The payload the wizard's form sends for a configuration. */
  function PayloadOf(c: SerialConfig): Payload {
    Fields(Some(c.portId), Some(c.path), c.baudRate, Integer(c.dataBits), Some(ParityName(c.parity)), StopBitsNumber(c.stopBits))
  }

  /** Every valid configuration comes back unchanged through its payload. */
  lemma SerialConfigRoundTrip(c: SerialConfig)
    requires ValidSerialConfig(c)
    ensures ParseSerialConfigPayload(PayloadOf(c)) == Success(c)
  {
    PaddingIsTrimmed(c, c.portId, c.path);
  }

  /** Padding around the port id and path is dropped. */
  lemma PaddingIsTrimmed(c: SerialConfig, portId: string, path: string)
    requires ValidSerialConfig(c) && Trim(portId) == c.portId && Trim(path) == c.path
    ensures ParseSerialConfigPayload(Fields(Some(portId), Some(path), c.baudRate, Integer(c.dataBits),
      Some(ParityName(c.parity)), StopBitsNumber(c.stopBits))) == Success(c)
  {
    var p := Fields(Some(portId), Some(path), c.baudRate, Integer(c.dataBits), Some(ParityName(c.parity)), StopBitsNumber(c.stopBits));
    ParityRoundTrip(c.parity);
    StopBitsRoundTrip(c.stopBits);
    assert TextField(p.portId) == c.portId && TextField(p.path) == c.path;
    AcceptedFields(p);
  }

  /** A payload that passes every check gives its trimmed, converted fields. */
  lemma AcceptedFields(p: Payload)
    requires p.Fields? && |TextField(p.portId)| > 0 && |TextField(p.path)| > 0
    requires IsFinite(p.baudRate) && IsPositive(p.baudRate) && DataBitsOk(p.dataBits)
    requires p.parity.Some? && ParityOf(p.parity.value).Some? && StopBitsOf(p.stopBits).Some?
    ensures ParseSerialConfigPayload(p) == Success(SerialConfig(TextField(p.portId), TextField(p.path),
      p.baudRate, p.dataBits.n, ParityOf(p.parity.value).value, StopBitsOf(p.stopBits).value))
  {
  }

  lemma ParityRoundTrip(x: Parity)
    ensures ParityOf(ParityName(x)) == Some(x)
  {
  }

  lemma StopBitsRoundTrip(x: StopBits)
    ensures StopBitsOf(StopBitsNumber(x)) == Some(x)
  {
  }

  // ---------------------------------------------------------------------------
  // Writing the serial path into a configuration

  /** `typeof v === 'object' && v !== null`: objects and arrays. */
  predicate IsObjectType(j: Json) {
    j.JObj? || j.JArr?
  }

  /** `{ ...v, path }`. */
  function WithPath(v: Json, path: string): (r: Json)
    ensures r.JObj? && Get(r.entries, "path") == Some(JStr(path))
    ensures forall k :: k != "path" ==> Get(r.entries, k) == Get(OwnEntries(v), k)
  {
    JObj(Set(OwnEntries(v), "path", JStr(path)))
  }

  /** `serials.map(...)`: object elements get the path, others stay. */
  function WithPaths(items: seq<Json>, path: string): (r: seq<Json>)
    ensures |r| == |items|
    ensures forall i :: 0 <= i < |items| ==> r[i] == (if IsObjectType(items[i]) then WithPath(items[i], path) else items[i])
  {
    seq(|items|, i requires 0 <= i < |items| => if IsObjectType(items[i]) then WithPath(items[i], path) else items[i])
  }

  /** The key the bridge configuration sits under:
      `homenet_bridge || homenetBridge`, `None` for the root itself. */
  function BridgeKey(root: Json): Option<string> {
    if TruthyOpt(Member(root, "homenet_bridge")) then Some("homenet_bridge")
    else if TruthyOpt(Member(root, "homenetBridge")) then Some("homenetBridge")
    else None
  }

  function BridgeOf(root: Json): (r: Json)
    ensures BridgeKey(root).Some? ==> Truthy(r)
  {
    match BridgeKey(root)
    case Some(k) => Member(root, k).value
    case None => root
  }

  /** The bridge configuration after the path is written: `serial`, when
      truthy, becomes `{ ...serial, path }`, and every object element of a
      `serials` array gets the path; whether anything was written. */
  function UpdateBridge(bridge: Json, path: string): (r: (bool, Json))
    requires bridge.JObj?
    ensures r.1.JObj?
    ensures r.0 <==> TruthyOpt(Get(bridge.entries, "serial")) || (Get(bridge.entries, "serials").Some? && Get(bridge.entries, "serials").value.JArr?)
    ensures !r.0 ==> r.1 == bridge
    ensures forall k :: k != "serial" && k != "serials" ==> Get(r.1.entries, k) == Get(bridge.entries, k)
    ensures TruthyOpt(Get(bridge.entries, "serial")) ==> Get(r.1.entries, "serial") == Some(WithPath(Get(bridge.entries, "serial").value, path))
    ensures !TruthyOpt(Get(bridge.entries, "serial")) ==> Get(r.1.entries, "serial") == Get(bridge.entries, "serial")
    ensures Get(bridge.entries, "serials").Some? && Get(bridge.entries, "serials").value.JArr? ==>
      Get(r.1.entries, "serials") == Some(JArr(WithPaths(Get(bridge.entries, "serials").value.items, path)))
    ensures !(Get(bridge.entries, "serials").Some? && Get(bridge.entries, "serials").value.JArr?) ==>
      Get(r.1.entries, "serials") == Get(bridge.entries, "serials")
  {
    var e := bridge.entries;
    var serial := Get(e, "serial");
    var e1 := if TruthyOpt(serial) then Set(e, "serial", WithPath(serial.value, path)) else e;
    var serials := Get(e1, "serials");
    var e2 := if serials.Some? && serials.value.JArr? then Set(e1, "serials", JArr(WithPaths(serials.value.items, path))) else e1;
    (TruthyOpt(serial) || (serials.Some? && serials.value.JArr?), JObj(e2))
  }

  /** `applySerialPathToConfig`: whether the trimmed path was written, and the
      configuration afterwards (`None` for an empty document). */
  function ApplySerialPathToConfig(config: Option<Json>, serialPath: string): (r: (bool, Option<Json>))
    ensures r.0 <==> (config.Some? && IsObjectType(config.value) && BridgeOf(config.value).JObj?
      && UpdateBridge(BridgeOf(config.value), Trim(serialPath)).0)
    ensures !r.0 ==> r.1 == config
    ensures r.0 ==> r.1.Some? && BridgeOf(r.1.value) == UpdateBridge(BridgeOf(config.value), Trim(serialPath)).1
  {
    if config.None? || !IsObjectType(config.value) then (false, config)
    else
      var root := config.value;
      var bridge := BridgeOf(root);
      if !bridge.JObj? then (false, config)
      else
        var (updated, newBridge) := UpdateBridge(bridge, Trim(serialPath));
        if !updated then (false, config)
        else
          UpdatedBridgeFound(root, Trim(serialPath));
          (true, Some(Replace(root, newBridge)))
  }

  /** The updated bridge configuration is found where the old one was. */
  lemma UpdatedBridgeFound(root: Json, path: string)
    requires IsObjectType(root) && BridgeOf(root).JObj?
    ensures BridgeOf(Replace(root, UpdateBridge(BridgeOf(root), path).1)) == UpdateBridge(BridgeOf(root), path).1
  {
    var bridge := BridgeOf(root);
    var newBridge := UpdateBridge(bridge, path).1;
    UpdateBridgeKeeps(bridge, path, "homenet_bridge");
    UpdateBridgeKeeps(bridge, path, "homenetBridge");
    BridgeOfReplaced(root, newBridge);
  }

  lemma UpdateBridgeKeeps(bridge: Json, path: string, k: string)
    requires bridge.JObj? && k != "serial" && k != "serials"
    ensures Member(UpdateBridge(bridge, path).1, k) == Member(bridge, k)
  {
  }

  /** The root with its bridge configuration replaced in place. */
  function Replace(root: Json, newBridge: Json): Json
    requires IsObjectType(root)
  {
    match BridgeKey(root)
    case None => newBridge
    case Some(k) => JObj(Set(root.entries, k, newBridge))
  }

  /** The replaced bridge configuration is found where the old one was,
      provided the replacement keeps the two keys that select it. */
  lemma BridgeOfReplaced(root: Json, newBridge: Json)
    requires IsObjectType(root) && newBridge.JObj?
    requires BridgeKey(root).None? ==> (Member(newBridge, "homenet_bridge") == Member(root, "homenet_bridge")
      && Member(newBridge, "homenetBridge") == Member(root, "homenetBridge"))
    ensures BridgeOf(Replace(root, newBridge)) == newBridge
  {
    match BridgeKey(root)
    case None =>
    case Some(k) =>
      var newRoot := JObj(Set(root.entries, k, newBridge));
      assert Member(newRoot, k) == Some(newBridge);
      assert k != "homenet_bridge" ==> Member(newRoot, "homenet_bridge") == Member(root, "homenet_bridge");
  }

  /** `buildEmptyConfig`: a configuration holding only the serial settings,
      under `homenet_bridge.serial`. */
  function BuildEmptyConfig(serial: Json): (r: Json)
    ensures r.JObj? && Member(r, "homenet_bridge").Some?
    ensures Member(r, "homenet_bridge").value.JObj?
    ensures Get(Member(r, "homenet_bridge").value.entries, "serial") == Some(serial)
  {
    JObj([("homenet_bridge", JObj([("serial", serial)]))])
  }

  /** The settings a fresh configuration is seeded with are the settings
      read back out of it, and a later path update reaches them. */
  lemma EmptyConfigRoundTrip(serial: Json, serialPath: string)
    requires serial.JObj?
    ensures ExtractSerialConfig(BridgeOf(BuildEmptyConfig(serial))) == Some(serial)
    ensures var (updated, config) := ApplySerialPathToConfig(Some(BuildEmptyConfig(serial)), serialPath);
      updated && config.Some?
      && ExtractSerialConfig(BridgeOf(config.value)) == Some(WithPath(serial, Trim(serialPath)))
  {
    var root := BuildEmptyConfig(serial);
    var bridge := JObj([("serial", serial)]);
    assert BridgeKey(root) == Some("homenet_bridge");
    assert BridgeOf(root) == bridge;
    assert Get(bridge.entries, "serials").None?;
    var (updated, newBridge) := UpdateBridge(bridge, Trim(serialPath));
    assert updated;
  }

  /** `extractSerialConfig`: the first element of a non-empty `serials`
      array, else `serial` unless it is null or missing. */
  function ExtractSerialConfig(config: Json): (r: Option<Json>)
    ensures var ss := Member(config, "serials");
      ss.Some? && ss.value.JArr? && |ss.value.items| > 0 ==> r == Some(ss.value.items[0])
    ensures r.None? <==> (!(Member(config, "serials").Some? && Member(config, "serials").value.JArr? && |Member(config, "serials").value.items| > 0)
      && (Member(config, "serial").None? || Member(config, "serial") == Some(JNull)))
  {
    var serials := Member(config, "serials");
    if serials.Some? && serials.value.JArr? && |serials.value.items| > 0 then Some(serials.value.items[0])
    else
      var serial := Member(config, "serial");
      if serial.None? || serial == Some(JNull) then None else serial
  }

  /** The path written into a configuration is the path read back out of
      it, whether the settings are a `serials` list or a single `serial`. */
  lemma ExtractAfterApply(bridge: Json, serialPath: string)
    requires bridge.JObj?
    requires var ss := Get(bridge.entries, "serials");
      (ss.Some? && ss.value.JArr? && |ss.value.items| > 0 && ss.value.items[0].JObj?)
      || (Get(bridge.entries, "serial").Some? && Get(bridge.entries, "serial").value.JObj? && ss.None?)
    ensures var s := ExtractSerialConfig(UpdateBridge(bridge, serialPath).1);
      s.Some? && s.value.JObj? && Get(s.value.entries, "path") == Some(JStr(serialPath))
  {
  }

  // ---------------------------------------------------------------------------
  // Requests

  /** What the initialization state reports. */
  datatype WizardState = WizardState(defaultConfigName: Option<string>, hasDefaultConfig: bool,
                                     hasInitMarker: bool, requiresInitialization: bool)

  /** `getInitializationState`, given which files exist. */
  function InitializationState(defaultName: string, legacyName: string, defaultExists: bool,
                               legacyExists: bool, markerExists: bool): (r: WizardState)
    ensures r.requiresInitialization == !markerExists && r.hasInitMarker == markerExists
    ensures defaultExists ==> r.defaultConfigName == Some(defaultName)
    ensures !defaultExists && legacyExists ==> r.defaultConfigName == Some(legacyName)
    ensures r.defaultConfigName.None? <==> !defaultExists && !legacyExists
    ensures r.hasDefaultConfig ==> r.defaultConfigName.Some?
  {
    var name := if defaultExists then Some(defaultName) else if legacyExists then Some(legacyName) else None;
    WizardState(name, name.Some? && |name.value| > 0, markerExists, !markerExists)
  }

  /** `listExampleConfigs`: the `.yaml` files of the examples directory. */
  function ExampleConfigs(files: seq<string>): (r: seq<string>)
    ensures forall f :: f in r <==> f in files && EndsWith(f, ".yaml")
  {
    if |files| == 0 then []
    else
      var rest := ExampleConfigs(files[1..]);
      assert forall f :: f in files <==> f == files[0] || f in files[1..];
      if EndsWith(files[0], ".yaml") then [files[0]] + rest else rest
  }

  /** The filename check: a string without `/` or `\`. */
  predicate ValidFilename(filename: Option<string>) {
    filename.Some? && '/' !in filename.value && '\\' !in filename.value
  }

  /** Where the configuration to seed comes from. */
  datatype Source = EmptyConfig(serial: SerialConfig) | Example(filename: string, serialPath: string)

  /** The checks both wizard requests make before reading any file: the
      filename, then either the submitted settings (for the empty
      configuration) or the serial path and the example's existence. */
  function CheckSource(filename: Option<string>, serialPath: Option<string>, payload: Payload, examples: seq<string>): (r: Result<Source, WizardError>)
    ensures r.Success? ==> ValidFilename(filename)
    ensures !ValidFilename(filename) ==> r == Failure(InvalidFilename)
    ensures r.Success? && r.value.EmptyConfig? ==> (filename == Some(EmptyConfigSentinel)
      && ParseSerialConfigPayload(payload) == Success(r.value.serial))
    ensures r.Success? && r.value.Example? ==> (Some(r.value.filename) == filename && r.value.filename in examples
      && serialPath.Some? && r.value.serialPath == Trim(serialPath.value) && |r.value.serialPath| > 0)
  {
    if !ValidFilename(filename) then Failure(InvalidFilename)
    else if filename.value == EmptyConfigSentinel then
      match ParseSerialConfigPayload(payload)
      case Failure(e) => Failure(e)
      case Success(c) => Success(EmptyConfig(c))
    else if serialPath.None? || Trim(serialPath.value) == "" then Failure(PathRequired)
    else if filename.value !in examples then Failure(ExampleNotFound)
    else Success(Example(filename.value, Trim(serialPath.value)))
  }

  /** The `select` request: refused once the configuration is initialized. */
  function SelectRequest(state: WizardState, filename: Option<string>, serialPath: Option<string>,
                         payload: Payload, examples: seq<string>): (r: Result<Source, WizardError>)
    ensures !state.requiresInitialization ==> r == Failure(InitializationNotAllowed)
    ensures state.requiresInitialization ==> r == CheckSource(filename, serialPath, payload, examples)
  {
    if !state.requiresInitialization then Failure(InitializationNotAllowed)
    else CheckSource(filename, serialPath, payload, examples)
  }

  /** The `test-serial` request: the rate limiter answers first. */
  function TestSerialRequest(allowed: bool, filename: Option<string>, serialPath: Option<string>,
                             payload: Payload, examples: seq<string>): (r: Result<Source, WizardError>)
    ensures !allowed ==> r == Failure(TooManyRequests)
    ensures allowed ==> r == CheckSource(filename, serialPath, payload, examples)
  {
    if !allowed then Failure(TooManyRequests)
    else CheckSource(filename, serialPath, payload, examples)
  }

  /** Only a listed `.yaml` example without path separators can be seeded:
      a filename that climbs out of the examples directory never gets
      through. */
  lemma SeededExampleIsListedYaml(state: WizardState, filename: Option<string>, serialPath: Option<string>,
                                  payload: Payload, files: seq<string>)
    requires SelectRequest(state, filename, serialPath, payload, ExampleConfigs(files)).Success?
    requires SelectRequest(state, filename, serialPath, payload, ExampleConfigs(files)).value.Example?
    ensures var f := filename.value;
      f in files && EndsWith(f, ".yaml") && '/' !in f && '\\' !in f && state.requiresInitialization
  {
  }

  /** A marker file left by an earlier seeding stops every later one. */
  lemma MarkerBlocksSelect(defaultName: string, legacyName: string, defaultExists: bool, legacyExists: bool,
                           filename: Option<string>, serialPath: Option<string>, payload: Payload, examples: seq<string>)
    ensures SelectRequest(InitializationState(defaultName, legacyName, defaultExists, legacyExists, true),
      filename, serialPath, payload, examples) == Failure(InitializationNotAllowed)
  {
  }
}

=== FILE: simulator.dfy ===
/** The RS485 simulator: a non-empty list of packets written to a pseudo
    terminal one at a time, round robin, once on `start` and then on every
    tick of an interval timer until `stop`. The terminal and the timer are
    outside this model: writes are recorded, and a timer tick is an event. */
module Simulator {
  import opened Wrappers
  import opened Bytes
  import opened Strings
  import DiscoveryService

  const DefaultIntervalMs := 1000

  const DefaultPackets: seq<seq<Byte>> := [
    [0xAA, 0x55, 0x10, 0x02, 0x01, 0x00, 0xFF],
    [0xAA, 0x55, 0x11, 0x03, 0x02, 0x33, 0xCC, 0xFF]
  ]

  /** The options; a missing one takes its default. A packet given as a
      number array may hold any integers. */
  datatype Options = Options(intervalMs: Option<int>, packets: Option<seq<seq<int>>>)

  datatype Sim = Sim(
    packets: seq<seq<Byte>>,
    index: nat,
    intervalMs: int,
    running: bool,
    written: seq<seq<Byte>>)

  predicate Valid(s: Sim) {
    |s.packets| > 0 && s.index < |s.packets|
  }

  const EmptyPacketList := "패킷 목록이 비어 있습니다. 최소 한 개 이상의 패킷이 필요합니다."

  /** `Buffer.from(numbers)`: each integer keeps its low 8 bits, so 256 is
      stored as 0 and -1 as 0xFF. */
  function ToBuffer(packet: seq<int>): (r: seq<Byte>)
    ensures |r| == |packet|
    ensures forall j :: 0 <= j < |packet| ==> (r[j] - packet[j]) % 256 == 0
  {
    seq(|packet|, j requires 0 <= j < |packet| => packet[j] % 256)
  }

  /** `normalizePackets`: an empty list is an error, otherwise every packet is
      copied into a buffer. */
  function NormalizePackets(packets: seq<seq<int>>): (r: Result<seq<seq<Byte>>, string>)
    ensures r.Failure? <==> |packets| == 0
    ensures r.Failure? ==> r.error == EmptyPacketList
    ensures r.Success? ==> |r.value| == |packets| && forall i :: 0 <= i < |packets| ==> r.value[i] == ToBuffer(packets[i])
  {
    if |packets| == 0 then Failure(EmptyPacketList)
    else Success(seq(|packets|, i requires 0 <= i < |packets| => ToBuffer(packets[i])))
  }

  /** A number already in 0..255 is stored as itself, and a number is stored
      as the one byte it agrees with modulo 256. */
  lemma ToBufferKeepsBytes(packet: seq<int>)
    ensures (forall j :: 0 <= j < |packet| ==> 0 <= packet[j] < 256) ==> ToBuffer(packet) == packet
    ensures forall b: seq<Byte> :: |b| == |packet| && (forall j :: 0 <= j < |b| ==> (b[j] - packet[j]) % 256 == 0) ==> b == ToBuffer(packet)
  {
  }

  /** A list of byte packets comes back unchanged. */
  lemma NormalizeKeepsBytes(packets: seq<seq<Byte>>)
    requires |packets| > 0
    ensures NormalizePackets(packets) == Success(packets)
  {
    var r := NormalizePackets(packets).value;
    forall i | 0 <= i < |packets| ensures r[i] == packets[i] {
      ToBufferKeepsBytes(packets[i]);
    }
    assert r == packets;
  }

  /** `[256, -1]` is stored as `00 FF`. */
  lemma LowBitsKept()
    ensures NormalizePackets([[256, -1]]) == Success([[0x00, 0xFF]])
  {
    var b := ToBuffer([256, -1]);
    assert b[0] == 0 && b[1] == 0xFF;
    assert b == [0x00, 0xFF];
    assert NormalizePackets([[256, -1]]).value == [b];
  }

  /** `createSimulator(options)`, up to the terminal being opened. */
  function Create(opts: Options): (r: Result<Sim, string>)
    ensures r.Success? ==> Valid(r.value) && r.value.index == 0 && !r.value.running && r.value.written == []
    ensures r.Success? && opts.packets.None? ==> r.value.packets == DefaultPackets
    ensures r.Success? && opts.packets.Some? ==> NormalizePackets(opts.packets.value) == Success(r.value.packets)
    ensures r.Success? ==> r.value.intervalMs == opts.intervalMs.GetOr(DefaultIntervalMs)
    ensures r.Failure? <==> opts.packets == Some([])
    ensures r.Failure? ==> r.error == EmptyPacketList
  {
    var packets: seq<seq<int>> := if opts.packets.Some? then opts.packets.value else DefaultPackets;
    NormalizeKeepsBytes(DefaultPackets);
    match NormalizePackets(packets)
    case Failure(e) => Failure(e)
    case Success(ps) => Success(Sim(ps, 0, opts.intervalMs.GetOr(DefaultIntervalMs), false, []))
  }

  // ---------------------------------------------------------------------------
  // The log line

  /** `byte.toString(16).padStart(2, '0')`. */
  function ByteHex(b: Byte): (r: string)
    ensures r == [HexCharLower(b / 16), HexCharLower(b % 16)]
  {
    var h := NatToHexLower(b);
    if b < 16 then
      assert h == [HexCharLower(b)];
      PadStart(h, 2, '0')
    else
      assert NatToHexLower(b / 16) == [HexCharLower(b / 16)];
      PadStart(h, 2, '0')
  }

  function ByteHexes(packet: seq<Byte>): (r: seq<string>)
    ensures |r| == |packet|
    ensures forall i :: 0 <= i < |r| ==> r[i] == ByteHex(packet[i])
  {
    if |packet| == 0 then [] else [ByteHex(packet[0])] + ByteHexes(packet[1..])
  }

  /** The packet as lower-case hex bytes separated by single spaces. */
  function PacketHex(packet: seq<Byte>): string {
    if |packet| == 0 then "" else Join(ByteHexes(packet), ' ')
  }

  function LogLine(packet: seq<Byte>): (r: string)
    ensures StartsWith(r, "[simulator] TX (")
    ensures EndsWith(r, PacketHex(packet))
  {
    var mid := NatToDecimal(|packet|) + " bytes): ";
    HeadTail("[simulator] TX (", mid, PacketHex(packet));
    "[simulator] TX (" + mid + PacketHex(packet)
  }

  /** A string put between a head and a tail starts with the head and ends
      with the tail. */
  lemma HeadTail(head: string, mid: string, tail: string)
    ensures StartsWith(head + mid + tail, head) && EndsWith(head + mid + tail, tail)
  {
    assert head + mid + tail == head + (mid + tail);
    PrefixStartsWith(head, mid + tail);
    SuffixEndsWith(head + mid, tail);
  }

  // ---------------------------------------------------------------------------
  // Sending

  /** The index after `i` in a list of `n`: `(i + 1) % n`, written without
      the division. */
  function Next(i: nat, n: nat): (r: nat)
    requires i < n
    ensures r < n
  {
    if i + 1 < n then i + 1 else 0
  }

  lemma NextIsMod(i: nat, n: nat)
    requires i < n
    ensures Next(i, n) == (i + 1) % n
  {
    if i + 1 < n {
      ModOfSum(i + 1, n, 0, i + 1);
    } else {
      ModOfSum(i + 1, n, 1, 0);
    }
  }

  /** `sendNextPacket`: write the packet at the index and move round robin.
      The packet also goes to the console as `LogLine`. */
  function SendNextPacket(s: Sim): (r: Sim)
    requires Valid(s)
    ensures Valid(r)
    ensures r.written == s.written + [s.packets[s.index]]
    ensures r.index == Next(s.index, |s.packets|)
    ensures r.packets == s.packets && r.running == s.running && r.intervalMs == s.intervalMs
  {
    s.(index := Next(s.index, |s.packets|), written := s.written + [s.packets[s.index]])
  }

  /** `start`: a no-op while running; otherwise one packet at once and the
      timer armed. */
  function Start(s: Sim): (r: Sim)
    requires Valid(s)
    ensures Valid(r) && r.running
    ensures s.running ==> r == s
    ensures !s.running ==> r == SendNextPacket(s).(running := true)
  {
    if s.running then s else SendNextPacket(s).(running := true)
  }

  /** `stop`: disarm the timer; nothing is written. */
  function Stop(s: Sim): (r: Sim)
    ensures !r.running
    ensures r.(running := s.running) == s
  {
    s.(running := false)
  }

  /** `dispose`: stops sending; destroying the terminal is not modelled. */
  function Dispose(s: Sim): (r: Sim)
    ensures !r.running && r.written == s.written
    ensures Valid(s) ==> Valid(r) && Tick(r) == r
  {
    Stop(s)
  }

  /** A tick of the interval timer: one packet while running. */
  function Tick(s: Sim): (r: Sim)
    requires Valid(s)
    ensures Valid(r)
    ensures s.running ==> r == SendNextPacket(s)
    ensures !s.running ==> r == s
  {
    if s.running then SendNextPacket(s) else s
  }

  /** `k` timer ticks. */
  function Ticks(s: Sim, k: nat): (r: Sim)
    requires Valid(s)
    ensures Valid(r) && r.running == s.running && r.packets == s.packets
    decreases k
  {
    if k == 0 then s else Ticks(Tick(s), k - 1)
  }

  /** The index `j` places after `i`, stepping with `Next`. */
  function After(i: nat, j: nat, n: nat): (r: nat)
    requires i < n
    ensures r < n
  {
    if j == 0 then i else Next(After(i, j - 1, n), n)
  }

  lemma ModStepSum(x: nat, n: nat)
    requires n > 0
    ensures (x % n + 1) % n == (x + 1) % n
  {
    var q := x / n;
    var r := x % n;
    var a := (r + 1) / n;
    var b := (r + 1) % n;
    assert x + 1 == (q + a) * n + b by {
      assert x == q * n + r;
      assert r + 1 == a * n + b;
      assert q * n + a * n == (q + a) * n;
    }
    ModOfSum(x + 1, n, q + a, b);
  }

  /** Stepping `j` places is adding `j` modulo the length. */
  lemma {:induction false} AfterIsMod(i: nat, j: nat, n: nat)
    requires i < n
    ensures After(i, j, n) == (i + j) % n
  {
    if j == 0 {
      ModOfSum(i, n, 0, i);
    } else {
      AfterIsMod(i, j - 1, n);
      NextIsMod(After(i, j - 1, n), n);
      ModStepSum(i + j - 1, n);
    }
  }

  /** Stepping once and then `j` times is stepping `j + 1` times. */
  lemma {:induction false} AfterShift(i: nat, j: nat, n: nat)
    requires i < n
    ensures After(Next(i, n), j, n) == After(i, j + 1, n)
  {
    if j > 0 {
      AfterShift(i, j - 1, n);
    }
  }

  /** A running simulator writes the packets round robin: the `j`-th tick
      writes the packet `j` places after the index it started at. */
  lemma {:induction false} TicksRoundRobin(s: Sim, k: nat)
    requires Valid(s) && s.running
    ensures var r := Ticks(s, k);
      && |r.written| == |s.written| + k
      && r.written[..|s.written|] == s.written
      && (forall j :: 0 <= j < k ==> r.written[|s.written| + j] == s.packets[After(s.index, j, |s.packets|)])
      && r.index == After(s.index, k, |s.packets|)
    decreases k
  {
    if k > 0 {
      var n := |s.packets|;
      var t := Tick(s);
      var r := Ticks(s, k);
      assert r == Ticks(t, k - 1);
      TicksRoundRobin(t, k - 1);
      AfterShift(s.index, k - 1, n);
      forall j | 0 <= j < k ensures r.written[|s.written| + j] == s.packets[After(s.index, j, n)] {
        if j == 0 {
          assert r.written[..|t.written|][|s.written|] == t.written[|s.written|];
        } else {
          assert r.written[|t.written| + (j - 1)] == s.packets[After(t.index, j - 1, n)];
          AfterShift(s.index, j - 1, n);
        }
      }
      assert r.written[..|s.written|] == r.written[..|t.written|][..|s.written|];
    }
  }

  /** Over any `k` ticks the index moves `k` places round the list. */
  lemma TicksIndex(s: Sim, k: nat)
    requires Valid(s) && s.running
    ensures Ticks(s, k).index == (s.index + k) % |s.packets|
  {
    TicksRoundRobin(s, k);
    AfterIsMod(s.index, k, |s.packets|);
  }

  /** Starting twice is starting once, and a stopped simulator ignores ticks. */
  lemma StartStopIdempotent(s: Sim)
    requires Valid(s)
    ensures Start(Start(s)) == Start(s)
    ensures Stop(Stop(s)) == Stop(s)
    ensures Tick(Stop(s)) == Stop(s)
  {
  }

  // ---------------------------------------------------------------------------
  // The log format read back by the discovery service's hex parser

  lemma HexCharLowerValue(d: nat)
    requires d < 16
    ensures HexDigitValue(HexCharLower(d)) == Some(d)
  {
  }

  /** Two lower-case digits read back as their value and hold no whitespace. */
  lemma LowerPair(hi: nat, lo: nat)
    requires hi < 16 && lo < 16
    ensures var h := [HexCharLower(hi), HexCharLower(lo)];
      AllHexDigits(h) && HexValue(h) == hi * 16 + lo && NoSpace(h)
  {
    var h := [HexCharLower(hi), HexCharLower(lo)];
    HexCharLowerValue(hi);
    HexCharLowerValue(lo);
    HexDigitNotSpace(h[0]);
    HexDigitNotSpace(h[1]);
    DiscoveryService.PairValue(h);
  }

  lemma ByteHexValue(b: Byte)
    ensures AllHexDigits(ByteHex(b)) && HexValue(ByteHex(b)) == b
  {
    LowerPair(b / 16, b % 16);
  }

  /** Adjacent hex pairs, without separators. */
  function Concat(parts: seq<string>): string {
    if |parts| == 0 then "" else parts[0] + Concat(parts[1..])
  }

  lemma {:induction false} RemoveSpacesAppend(a: string, b: string)
    ensures DiscoveryService.RemoveSpaces(a + b) == DiscoveryService.RemoveSpaces(a) + DiscoveryService.RemoveSpaces(b)
    decreases |b|
  {
    if |b| == 0 {
      assert a + b == a;
    } else {
      var b' := b[..|b| - 1];
      assert (a + b)[..|a + b| - 1] == a + b';
      assert (a + b)[|a + b| - 1] == b[|b| - 1];
      RemoveSpacesAppend(a, b');
    }
  }

  lemma {:induction false} RemoveSpacesNone(s: string)
    requires NoSpace(s)
    ensures DiscoveryService.RemoveSpaces(s) == s
    decreases |s|
  {
    if |s| > 0 {
      RemoveSpacesNone(s[..|s| - 1]);
      assert s[..|s| - 1] + [s[|s| - 1]] == s;
    }
  }

  /** A part with no whitespace in it. */
  predicate NoSpace(s: string) {
    forall m :: 0 <= m < |s| ==> !IsSpace(s[m])
  }

  predicate AllNoSpace(parts: seq<string>) {
    forall i :: 0 <= i < |parts| ==> NoSpace(parts[i])
  }

  lemma JoinStep(h: string, rest: string)
    requires NoSpace(h)
    ensures DiscoveryService.RemoveSpaces(h + [' '] + rest) == h + DiscoveryService.RemoveSpaces(rest)
  {
    RemoveSpacesAppend(h + [' '], rest);
    RemoveSpacesAppend(h, [' ']);
    RemoveSpacesNone(h);
    assert DiscoveryService.RemoveSpaces([' ']) == [] by {
      assert [' '][..0] == [];
    }
  }

  /** Removing the whitespace from parts joined by spaces concatenates them. */
  lemma {:induction false} JoinedNoSpace(parts: seq<string>)
    requires |parts| > 0 && AllNoSpace(parts)
    ensures DiscoveryService.RemoveSpaces(Join(parts, ' ')) == Concat(parts)
    decreases |parts|
  {
    assert NoSpace(parts[0]);
    if |parts| == 1 {
      RemoveSpacesNone(parts[0]);
      assert parts[0] + "" == parts[0];
    } else {
      var rest := parts[1..];
      assert AllNoSpace(rest) by {
        assert forall i :: 0 <= i < |rest| ==> rest[i] == parts[i + 1];
      }
      JoinedNoSpace(rest);
      JoinStep(parts[0], Join(rest, ' '));
    }
  }

  lemma HexPairsCons(h: string, rest: string)
    requires |h| == 2 && AllHexDigits(h) && AllHexDigits(rest)
    ensures AllHexDigits(h + rest)
    ensures DiscoveryService.HexPairs(h + rest) == [HexValue(h)] + DiscoveryService.HexPairs(rest)
  {
    var c := h + rest;
    assert AllHexDigits(c) by {
      forall m | 0 <= m < |c| ensures IsHexDigit(c[m]) {
        if m >= 2 {
          assert c[m] == rest[m - 2];
        }
      }
    }
    assert c[2..] == rest;
    assert c[..2] == h;
    DiscoveryService.PairValue(h);
  }

  /** Strings of two hex digits each. */
  predicate HexPairList(hs: seq<string>) {
    forall i :: 0 <= i < |hs| ==> |hs[i]| == 2 && AllHexDigits(hs[i])
  }

  /** The value of each two-digit string. */
  function PairValues(hs: seq<string>): (r: seq<nat>)
    requires HexPairList(hs)
    ensures |r| == |hs| && forall i :: 0 <= i < |hs| ==> r[i] == HexValue(hs[i])
  {
    seq(|hs|, i requires 0 <= i < |hs| => HexValue(hs[i]))
  }

  /** Two-digit strings written one after another read back, two digits at
      a time, as their values. */
  lemma {:induction false} ConcatHexPairs(hs: seq<string>)
    requires HexPairList(hs)
    ensures AllHexDigits(Concat(hs))
    ensures DiscoveryService.HexPairs(Concat(hs)) == PairValues(hs)
    decreases |hs|
  {
    if |hs| > 0 {
      var tail := Concat(hs[1..]);
      assert HexPairList(hs[1..]) by {
        forall i | 0 <= i < |hs| - 1 ensures |hs[1..][i]| == 2 && AllHexDigits(hs[1..][i]) {
          assert hs[1..][i] == hs[i + 1];
        }
      }
      ConcatHexPairs(hs[1..]);
      assert Concat(hs) == hs[0] + tail;
      HexPairsCons(hs[0], tail);
      assert PairValues(hs) == [HexValue(hs[0])] + PairValues(hs[1..]);
    }
  }

  /** The logged digit pairs of a packet hold no whitespace and read back as
      its bytes. */
  lemma ByteHexPairs(packet: seq<Byte>)
    ensures AllNoSpace(ByteHexes(packet)) && HexPairList(ByteHexes(packet))
    ensures PairValues(ByteHexes(packet)) == packet
  {
    var hs := ByteHexes(packet);
    ByteHexEach(packet);
    assert AllNoSpace(hs) && HexPairList(hs) by {
      forall i | 0 <= i < |hs| ensures NoSpace(hs[i]) && |hs[i]| == 2 && AllHexDigits(hs[i]) {
        assert HexOfByte(hs[i], packet[i]);
      }
    }
    var vs := PairValues(hs);
    forall i | 0 <= i < |vs| ensures vs[i] == packet[i] {
      assert HexOfByte(hs[i], packet[i]);
    }
    assert vs == packet;
  }

  /** `h` is two hex digits, without whitespace, reading back as `b`. */
  predicate HexOfByte(h: string, b: Byte) {
    NoSpace(h) && |h| == 2 && AllHexDigits(h) && HexValue(h) == b
  }

  lemma ByteHexEach(packet: seq<Byte>)
    ensures forall i :: 0 <= i < |packet| ==> HexOfByte(ByteHexes(packet)[i], packet[i])
  {
    var hs := ByteHexes(packet);
    forall i | 0 <= i < |hs| ensures HexOfByte(hs[i], packet[i]) {
      LowerPair(packet[i] / 16, packet[i] % 16);
    }
  }

  /** What the simulator logs for a packet reads back, through the discovery
      service's `hexToBytes`, as that packet. */
  lemma PacketHexRoundTrip(packet: seq<Byte>)
    ensures DiscoveryService.HexToBytes(PacketHex(packet)) == Some(packet)
  {
    if |packet| == 0 {
      assert DiscoveryService.RemoveSpaces("") == "";
      DiscoveryService.HexDigitsRead("");
    } else {
      var hs := ByteHexes(packet);
      ByteHexPairs(packet);
      JoinedNoSpace(hs);
      ConcatHexPairs(hs);
      DiscoveryService.HexDigitsRead(PacketHex(packet));
    }
  }
}

=== FILE: state_manager.dfy ===
/** The state manager: each device state update is serialised and published
    to `homenet/<device id>/state`, but only when the payload differs from the
    last one published on that topic. The MQTT publisher and the event bus
    are recorded as output logs. */
module StateManager {
  import opened JsonValue

  datatype Publication = Publication(topic: string, payload: string)

  /** The two bus events of a publish: 'state:changed' with the entity id, and
      'device:<id>:state:changed'. */
  datatype BusEvent = StateChanged(entityId: string, state: Json) | DeviceStateChanged(deviceId: string, state: Json)

  datatype Manager = Manager(cache: map<string, string>, published: seq<Publication>, bus: seq<BusEvent>)

  const Empty := Manager(map[], [], [])

  function StateTopic(deviceId: string): (r: string)
    ensures |r| == |deviceId| + 14
    ensures r[..8] == "homenet/" && r[|r| - 6..] == "/state"
    ensures r[8..|r| - 6] == deviceId
  {
    "homenet/" + deviceId + "/state"
  }

  predicate Changed(m: Manager, topic: string, payload: string) {
    topic !in m.cache || m.cache[topic] != payload
  }

  /** `handleStateUpdate({ deviceId, state })`. */
  function HandleStateUpdate(m: Manager, deviceId: string, state: Json): (r: Manager)
    ensures var topic := StateTopic(deviceId);
      var payload := Stringify(state);
      && topic in r.cache && r.cache[topic] == payload
      && (forall t :: t != topic ==> (t in r.cache <==> t in m.cache))
      && (forall t :: t != topic && t in m.cache ==> r.cache[t] == m.cache[t])
      && (Changed(m, topic, payload) ==>
            r.published == m.published + [Publication(topic, payload)]
            && r.bus == m.bus + [StateChanged(deviceId, state), DeviceStateChanged(deviceId, state)])
      && (!Changed(m, topic, payload) ==> r == m)
  {
    var topic := StateTopic(deviceId);
    var payload := Stringify(state);
    if topic in m.cache && m.cache[topic] == payload then m
    else Manager(m.cache[topic := payload], m.published + [Publication(topic, payload)],
                 m.bus + [StateChanged(deviceId, state), DeviceStateChanged(deviceId, state)])
  }

  /** Handling the same update twice publishes it at most once. */
  lemma HandleTwice(m: Manager, deviceId: string, state: Json)
    ensures HandleStateUpdate(HandleStateUpdate(m, deviceId, state), deviceId, state) == HandleStateUpdate(m, deviceId, state)
  {
  }

  /** Each publish comes with exactly two bus events, so the logs grow in step. */
  lemma {:induction false} BusTracksPublishes(m: Manager, updates: seq<(string, Json)>)
    requires |m.bus| == 2 * |m.published|
    ensures var r := HandleAll(m, updates); |r.bus| == 2 * |r.published|
    decreases |updates|
  {
    if |updates| > 0 {
      BusTracksPublishes(HandleStateUpdate(m, updates[0].0, updates[0].1), updates[1..]);
    }
  }

  function HandleAll(m: Manager, updates: seq<(string, Json)>): (r: Manager)
    ensures |r.published| <= |m.published| + |updates|
    decreases |updates|
  {
    if |updates| == 0 then m else HandleAll(HandleStateUpdate(m, updates[0].0, updates[0].1), updates[1..])
  }
}

=== FILE: strings.dfy ===
/** The JavaScript string built-ins the bridge relies on: `trim`, `split`,
    `startsWith`, `includes`, `padStart`, decimal and hexadecimal number
    formatting, and `parseInt(s, 10)`. */
module Strings {
  import opened Wrappers

  /** JavaScript's WhiteSpace and LineTerminator characters, the set removed by
      `trim()` and matched by the regular-expression class `\s`. */
  predicate IsSpace(c: char) {
    || c == ' ' || c == '\t' || c == '\n' || c == '\r' || c == '\U{B}' || c == '\U{C}'
    || c == '\U{A0}' || c == '\U{1680}' || ('\U{2000}' <= c <= '\U{200A}')
    || c == '\U{2028}' || c == '\U{2029}' || c == '\U{202F}' || c == '\U{205F}'
    || c == '\U{3000}' || c == '\U{FEFF}'
  }

  /** Concatenation regroups freely. */
  lemma AppendAssoc<T>(x: seq<T>, y: seq<T>, z: seq<T>)
    ensures x + (y + z) == (x + y) + z
  {
  }

  predicate AllSpace(s: string) {
    forall m :: 0 <= m < |s| ==> IsSpace(s[m])
  }

  /** Number of leading whitespace characters. */
  function LeadingSpaces(s: string): (k: nat)
    ensures k <= |s|
    ensures forall m :: 0 <= m < k ==> IsSpace(s[m])
    ensures k < |s| ==> !IsSpace(s[k])
  {
    if |s| > 0 && IsSpace(s[0]) then 1 + LeadingSpaces(s[1..]) else 0
  }

  /** Index at which the run of trailing whitespace starts. */
  function TrailingStart(s: string): (k: nat)
    ensures k <= |s|
    ensures forall m :: k <= m < |s| ==> IsSpace(s[m])
    ensures k > 0 ==> !IsSpace(s[k - 1])
  {
    if |s| > 0 && IsSpace(s[|s| - 1]) then TrailingStart(s[..|s| - 1]) else |s|
  }

  /** `s.trim()`. */
  function Trim(s: string): (r: string)
    ensures |r| <= |s|
    ensures |r| > 0 ==> !IsSpace(r[0]) && !IsSpace(r[|r| - 1])
    ensures |r| == 0 <==> AllSpace(s)
    ensures forall c :: c in r ==> c in s
  {
    var a := LeadingSpaces(s);
    var t := s[a..];
    var r := t[..TrailingStart(t)];
    r
  }

  /** A string that has no surrounding whitespace is its own trim. */
  lemma TrimOfTrimmed(s: string)
    requires |s| == 0 || (!IsSpace(s[0]) && !IsSpace(s[|s| - 1]))
    ensures Trim(s) == s
  {
  }

  /** Trimming only removes whitespace: every other character survives. */
  lemma TrimKeepsNonSpace(s: string, i: nat)
    requires i < |s| && !IsSpace(s[i])
    ensures s[i] in Trim(s)
  {
    var a := LeadingSpaces(s);
    assert a <= i;
    var t := s[a..];
    assert t[i - a] == s[i];
    assert TrailingStart(t) > i - a;
    assert t[..TrailingStart(t)][i - a] == s[i];
  }

  predicate StartsWith(s: string, prefix: string) {
    |prefix| <= |s| && s[..|prefix|] == prefix
  }

  predicate EndsWith(s: string, suffix: string) {
    |suffix| <= |s| && s[|s| - |suffix|..] == suffix
  }

  lemma PrefixStartsWith(a: string, b: string)
    ensures StartsWith(a + b, a)
  {
    assert (a + b)[..|a|] == a;
  }

  lemma SuffixEndsWith(a: string, b: string)
    ensures EndsWith(a + b, b)
  {
    assert (a + b)[|a|..] == b;
  }

  predicate OccursAt(s: string, sub: string, i: int) {
    0 <= i <= |s| - |sub| && s[i..i + |sub|] == sub
  }

  /** `s.includes(sub)`. */
  predicate Includes(s: string, sub: string) {
    exists i :: 0 <= i <= |s| - |sub| && OccursAt(s, sub, i)
  }

  /** `s.split(sep)` for a one-character separator. */
  function Split(s: string, sep: char): (r: seq<string>)
    ensures |r| >= 1
    ensures forall k :: 0 <= k < |r| ==> sep !in r[k]
  {
    if |s| == 0 then [""]
    else
      var rest := Split(s[1..], sep);
      if s[0] == sep then [""] + rest
      else [[s[0]] + rest[0]] + rest[1..]
  }

  /** `parts.join(sep)`. */
  function Join(parts: seq<string>, sep: char): string
    requires |parts| >= 1
  {
    if |parts| == 1 then parts[0] else parts[0] + [sep] + Join(parts[1..], sep)
  }

  /** Splitting and joining again with the same separator gives the string back. */
  lemma {:induction false} SplitJoin(s: string, sep: char)
    ensures Join(Split(s, sep), sep) == s
  {
    if |s| > 0 {
      SplitJoin(s[1..], sep);
      var rest := Split(s[1..], sep);
      if s[0] != sep && |rest| > 1 {
        assert Join(rest, sep) == rest[0] + [sep] + Join(rest[1..], sep);
      }
    }
  }

  /** A string without the separator splits into itself. */
  lemma {:induction false} SplitWithout(s: string, sep: char)
    requires sep !in s
    ensures Split(s, sep) == [s]
  {
    if |s| > 0 {
      SplitWithout(s[1..], sep);
      assert [s[0]] + s[1..] == s;
    }
  }

  /** Text up to the first separator is the first part. */
  lemma {:induction false} SplitAtFirst(a: string, b: string, sep: char)
    requires sep !in a
    ensures Split(a + [sep] + b, sep) == [a] + Split(b, sep)
  {
    var s := a + [sep] + b;
    if |a| == 0 {
      assert s == [sep] + b;
      assert s[1..] == b;
    } else {
      assert s[1..] == a[1..] + [sep] + b;
      SplitAtFirst(a[1..], b, sep);
      assert [a[0]] + a[1..] == a;
    }
  }

  lemma JoinedRight(a: string, b: string, c: string, d: string, sep: char)
    ensures a + [sep] + b + [sep] + c + [sep] + d == a + [sep] + (b + [sep] + (c + [sep] + d))
  {
  }

  /** Four parts without the separator, joined by it, split back into
      themselves. */
  lemma SplitFour(a: string, b: string, c: string, d: string, sep: char)
    requires sep !in a && sep !in b && sep !in c && sep !in d
    ensures Split(a + [sep] + b + [sep] + c + [sep] + d, sep) == [a, b, c, d]
  {
    var s3 := c + [sep] + d;
    var s2 := b + [sep] + s3;
    JoinedRight(a, b, c, d, sep);
    SplitWithout(d, sep);
    SplitAtFirst(c, d, sep);
    SplitAtFirst(b, s3, sep);
    SplitAtFirst(a, s2, sep);
  }

  // ---------------------------------------------------------------------------
  // Decimal numbers

  predicate IsDigit(c: char) {
    '0' <= c <= '9'
  }

  function DigitChar(d: nat): char
    requires d < 10
  {
    "0123456789"[d]
  }

  function DigitValue(c: char): nat
    requires IsDigit(c)
  {
    (c as int - '0' as int) as nat
  }

  predicate AllDigits(s: string) {
    forall m :: 0 <= m < |s| ==> IsDigit(s[m])
  }

  /** Value of a string of decimal digits, most significant first. */
  function DecimalValue(s: string): nat
    requires AllDigits(s)
  {
    if |s| == 0 then 0 else DecimalValue(s[..|s| - 1]) * 10 + DigitValue(s[|s| - 1])
  }

  /** `String(n)` for a non-negative integer. */
  function NatToDecimal(n: nat): (r: string)
    ensures |r| >= 1 && AllDigits(r)
  {
    if n < 10 then [DigitChar(n)] else NatToDecimal(n / 10) + [DigitChar(n % 10)]
  }

  /** `String(i)` for an integer. */
  function IntToDecimal(i: int): (r: string)
    ensures |r| >= 1
  {
    if i < 0 then "-" + NatToDecimal(-i) else NatToDecimal(i)
  }

  lemma {:induction false} DecimalRoundTrip(n: nat)
    ensures DecimalValue(NatToDecimal(n)) == n
  {
    if n >= 10 {
      DecimalRoundTrip(n / 10);
      var s := NatToDecimal(n);
      assert s[..|s| - 1] == NatToDecimal(n / 10);
    }
  }

  /** Length of the longest prefix made of decimal digits. */
  function DigitPrefix(s: string): (k: nat)
    ensures k <= |s| && AllDigits(s[..k])
    ensures k < |s| ==> !IsDigit(s[k])
  {
    if |s| > 0 && IsDigit(s[0]) then
      var k := 1 + DigitPrefix(s[1..]);
      assert forall m :: 1 <= m < k ==> s[..k][m] == s[1..][..k - 1][m - 1];
      k
    else 0
  }

  /** `parseInt(s, 10)`: skip leading whitespace, accept one sign, read the
      longest run of digits; `None` stands for `NaN`. */
  function ParseInt(s: string): (r: Option<int>)
    ensures r.None? <==>
      var t := s[LeadingSpaces(s)..];
      var u := if |t| > 0 && (t[0] == '-' || t[0] == '+') then t[1..] else t;
      |u| == 0 || !IsDigit(u[0])
  {
    var t := s[LeadingSpaces(s)..];
    var negative := |t| > 0 && t[0] == '-';
    var u := if |t| > 0 && (t[0] == '-' || t[0] == '+') then t[1..] else t;
    var n := DigitPrefix(u);
    if n == 0 then None
    else
      var v := DecimalValue(u[..n]);
      Some(if negative then -(v as int) else v)
  }

  /** `parseInt` reads back what `String` wrote. */
  lemma ParseIntRoundTrip(i: int)
    ensures ParseInt(IntToDecimal(i)) == Some(i)
  {
    var n: nat := if i < 0 then -i else i;
    var d := NatToDecimal(n);
    DecimalRoundTrip(n);
    AllDigitsPrefix(d);
    if i < 0 {
      var s := IntToDecimal(i);
      assert s == "-" + d;
      assert LeadingSpaces(s) == 0;
      assert s[0] == '-' && s[1..] == d;
      assert d[..|d|] == d;
    } else {
      assert LeadingSpaces(d) == 0;
      assert d[..|d|] == d;
    }
  }

  lemma {:induction false} AllDigitsPrefix(s: string)
    requires AllDigits(s)
    ensures DigitPrefix(s) == |s|
  {
    if |s| > 0 {
      AllDigitsPrefix(s[1..]);
    }
  }

  // ---------------------------------------------------------------------------
  // Hexadecimal numbers

  function HexCharUpper(d: nat): char
    requires d < 16
  {
    "0123456789ABCDEF"[d]
  }

  function HexCharLower(d: nat): char
    requires d < 16
  {
    "0123456789abcdef"[d]
  }

  /** Value of a hexadecimal digit of either case, `None` for other characters. */
  function HexDigitValue(c: char): (r: Option<nat>)
    ensures r.Some? ==> r.value < 16
  {
    if '0' <= c <= '9' then Some((c as int - '0' as int) as nat)
    else if 'A' <= c <= 'F' then Some((c as int - 'A' as int + 10) as nat)
    else if 'a' <= c <= 'f' then Some((c as int - 'a' as int + 10) as nat)
    else None
  }

  predicate IsHexDigit(c: char) {
    HexDigitValue(c).Some?
  }

  /** No hex digit is whitespace. */
  lemma HexDigitNotSpace(c: char)
    requires IsHexDigit(c)
    ensures !IsSpace(c)
  {
  }

  predicate AllHexDigits(s: string) {
    forall m :: 0 <= m < |s| ==> IsHexDigit(s[m])
  }

  function HexValue(s: string): nat
    requires AllHexDigits(s)
  {
    if |s| == 0 then 0 else HexValue(s[..|s| - 1]) * 16 + HexDigitValue(s[|s| - 1]).value
  }

  /** Every character is a digit or an upper-case letter `A`-`F`. */
  predicate UpperHexText(s: string) {
    forall m :: 0 <= m < |s| ==> s[m] in "0123456789ABCDEF"
  }

  /** `n.toString(16).toUpperCase()` for a non-negative integer. */
  function NatToHexUpper(n: nat): (r: string)
    ensures |r| >= 1 && AllHexDigits(r) && UpperHexText(r)
    ensures n < 16 <==> |r| == 1
    ensures n > 0 ==> r[0] != '0'
  {
    if n < 16 then [HexCharUpper(n)] else NatToHexUpper(n / 16) + [HexCharUpper(n % 16)]
  }

  lemma HexCharUpperValue(d: nat)
    requires d < 16
    ensures HexDigitValue(HexCharUpper(d)) == Some(d)
  {
  }

  lemma {:induction false} HexRoundTrip(n: nat)
    ensures HexValue(NatToHexUpper(n)) == n
  {
    var s := NatToHexUpper(n);
    if n >= 16 {
      HexRoundTrip(n / 16);
      assert s[..|s| - 1] == NatToHexUpper(n / 16);
      HexCharUpperValue(n % 16);
    } else {
      assert s[..0] == [];
      HexCharUpperValue(n);
    }
  }

  /** Upper-case hexadecimal digits that read back as `n`. */
  predicate UpperHexOf(d: string, n: int) {
    AllHexDigits(d) && UpperHexText(d) && HexValue(d) == n
  }

  /** Digits for a non-negative `n`, padded to two: as many as `n` needs but
      at least two, with no leading zero beyond the padding. */
  predicate PaddedHexDigits(d: string, n: nat) {
    |d| == (if n < 16 then 2 else |NatToHexUpper(n)|)
    && UpperHexOf(d, n)
    && (|d| > 2 ==> d[0] != '0')
  }

  /** A hexadecimal literal for `n`: `0x`, then the padded digits of `n`, or
      for a negative `n` a `-` and the digits of `-n`. */
  predicate HexLiteralText(s: string, n: int) {
    StartsWith(s, "0x")
    && (n >= 0 ==> PaddedHexDigits(s[2..], n))
    && (n < 0 ==> StartsWith(s, "0x-") && UpperHexOf(s[3..], -n))
  }

  /** `n.toString(16).toUpperCase().padStart(2, '0')`: the upper-case
      digits of `n`, with no leading zero beyond the padding to two. */
  lemma PaddedHex(n: nat)
    ensures PaddedHexDigits(PadStart(NatToHexUpper(n), 2, '0'), n)
  {
    var h := NatToHexUpper(n);
    HexRoundTrip(n);
    if |h| < 2 {
      var d := PadStart(h, 2, '0');
      assert d == "0" + h;
      assert d[..|d| - 1] == "0";
    }
  }

  /** `n.toString(16)` for a non-negative integer: lower-case digits. */
  function NatToHexLower(n: nat): (r: string)
    ensures |r| >= 1 && AllHexDigits(r)
    ensures n < 16 <==> |r| == 1
  {
    if n < 16 then [HexCharLower(n)] else NatToHexLower(n / 16) + [HexCharLower(n % 16)]
  }

  /** `n.toString(16).toUpperCase()` for any integer: a leading `-` for negatives. */
  function IntToHexUpper(i: int): string {
    if i < 0 then "-" + NatToHexUpper(-i) else NatToHexUpper(i)
  }

  /** `'0x' + n.toString(16).toUpperCase().padStart(2, '0')` is a
      hexadecimal literal for `n`, whatever its sign. */
  lemma HexLiteralOf(n: int)
    ensures HexLiteralText("0x" + PadStart(IntToHexUpper(n), 2, '0'), n)
  {
    if n >= 0 {
      HexLiteralOfNat(n);
    } else {
      var h := NatToHexUpper(-n);
      assert PadStart(IntToHexUpper(n), 2, '0') == "-" + h;
      assert "0x" + ("-" + h) == "0x-" + h;
      HexLiteralOfNegative(n);
    }
  }

  lemma HexLiteralOfNat(n: nat)
    ensures HexLiteralText("0x" + PadStart(NatToHexUpper(n), 2, '0'), n)
  {
    var digits := PadStart(NatToHexUpper(n), 2, '0');
    PaddedHex(n);
    assert ("0x" + digits)[2..] == digits;
  }

  lemma HexLiteralOfNegative(n: int)
    requires n < 0
    ensures HexLiteralText("0x-" + NatToHexUpper(-n), n)
  {
    var h := NatToHexUpper(-n);
    HexRoundTrip(-n);
    assert ("0x-" + h)[3..] == h;
    assert ("0x-" + h)[..3] == "0x-";
    assert ("0x-" + h)[..2] == "0x";
  }

  /** `s.padStart(len, fill)`. */
  function PadStart(s: string, len: int, fill: char): (r: string)
    ensures |r| == if len > |s| then len else |s|
    ensures r[|r| - |s|..] == s
    ensures forall m :: 0 <= m < |r| - |s| ==> r[m] == fill
  {
    if len <= |s| then s else seq(len - |s|, _ => fill) + s
  }
}

=== FILE: wrappers.dfy ===
/** Failure-carrying datatypes shared by every module of the model.
    `Option` stands for a JavaScript value that may be `null`/`undefined`;
    `Result` stands for a computation that may throw. */
module Wrappers {

  datatype Option<+T> = None | Some(value: T) {

    predicate IsFailure() {
      None?
    }

    function PropagateFailure<U>(): Option<U>
      requires None?
    {
      None
    }

    function Extract(): T
      requires Some?
    {
      value
    }

    function GetOr(default: T): T {
      match this
      case Some(v) => v
      case None => default
    }
  }

  datatype Result<+R, +E> = Success(value: R) | Failure(error: E) {

    predicate IsFailure() {
      Failure?
    }

    function PropagateFailure<U>(): Result<U, E>
      requires Failure?
    {
      Failure(error)
    }

    function Extract(): R
      requires Success?
    {
      value
    }
  }
}

=== FILE: yaml_dumper.dfy ===
/** Preparing a configuration for YAML output: numbers inside byte-array
    fields are marked so that they are written as `0xNN` literals rather
    than decimals. The YAML serialiser itself is outside the model. */
module YamlDumper {
  import opened Wrappers
  import opened Strings
  import opened JsonValue

  /** A configuration value after marking: a `Json` value in which some
      numbers are tagged to be written in hexadecimal. */
  datatype Marked =
    | MNull
    | MBool(b: bool)
    | MNum(n: int)
    | MHex(value: int)
    | MStr(s: string)
    | MArr(items: seq<Marked>)
    | MObj(entries: seq<(string, Marked)>)

  /** The value the marked tree stands for: a hex mark is its number. */
  function Unmark(m: Marked): (r: Json)
    ensures m.MArr? ==> r.JArr? && |r.items| == |m.items|
    ensures m.MObj? ==> r.JObj? && |r.entries| == |m.entries|
  {
    match m
    case MNull => JNull
    case MBool(b) => JBool(b)
    case MNum(n) => JNum(n)
    case MHex(n) => JNum(n)
    case MStr(s) => JStr(s)
    case MArr(items) => JArr(seq(|items|, k requires 0 <= k < |items| => Unmark(items[k])))
    case MObj(entries) => JObj(seq(|entries|, k requires 0 <= k < |entries| => (entries[k].0, Unmark(entries[k].1))))
  }

  /** A value carried over with no marks. */
  function Plain(j: Json): (r: Marked)
    ensures Unmark(r) == j
    ensures !HasHex(r)
  {
    match j
    case JNull => MNull
    case JBool(b) => MBool(b)
    case JNum(n) => MNum(n)
    case JStr(s) => MStr(s)
    case JArr(items) =>
      var r := MArr(seq(|items|, k requires 0 <= k < |items| => Plain(items[k])));
      assert Unmark(r).items == items;
      r
    case JObj(entries) =>
      var r := MObj(seq(|entries|, k requires 0 <= k < |entries| => (entries[k].0, Plain(entries[k].1))));
      assert Unmark(r).entries == entries;
      r
  }

  /** Whether a hex mark occurs anywhere in the tree. */
  predicate HasHex(m: Marked) {
    match m
    case MHex(_) => true
    case MArr(items) => exists k :: 0 <= k < |items| && HasHex(items[k])
    case MObj(entries) => exists k :: 0 <= k < |entries| && HasHex(entries[k].1)
    case _ => false
  }

  /** A key whose array value holds bytes: `state…`, `command…`, anything
      containing `header` or `footer`, and `data`. */
  predicate IsByteKey(key: string) {
    StartsWith(key, "state") || StartsWith(key, "command")
    || Includes(key, "header") || Includes(key, "footer") || key == "data"
  }

  /** An element of a byte array: numbers are marked, anything else is
      kept as it is, without looking inside. */
  function MarkByte(item: Json): (r: Marked)
    ensures Unmark(r) == item
    ensures item.JNum? <==> r.MHex?
  {
    if item.JNum? then MHex(item.n) else Plain(item)
  }

  /** `markHex`: arrays and objects are walked; the array under a byte key
      has its number elements marked. */
  function MarkHex(j: Json): (r: Marked)
    ensures Unmark(r) == j
    decreases j, 0
  {
    match j
    case JArr(items) =>
      var r := MArr(seq(|items|, k requires 0 <= k < |items| => MarkHex(items[k])));
      assert Unmark(r).items == items;
      r
    case JObj(entries) =>
      var r := MObj(seq(|entries|, k requires 0 <= k < |entries| => (entries[k].0, MarkEntry(entries[k].0, entries[k].1))));
      assert Unmark(r).entries == entries;
      r
    case _ => Plain(j)
  }

  /** The marked value of one object entry. */
  function MarkEntry(key: string, value: Json): (r: Marked)
    ensures Unmark(r) == value
    decreases value, 1
  {
    if IsByteKey(key) && value.JArr? then
      var r := MArr(seq(|value.items|, k requires 0 <= k < |value.items| => MarkByte(value.items[k])));
      assert Unmark(r).items == value.items;
      r
    else MarkHex(value)
  }

  /** In any object, the numbers of an array held by a byte key are all
      marked, and nothing else in that array is. */
  lemma ByteArrayMarked(entries: seq<(string, Json)>, i: nat, k: nat)
    requires i < |entries| && IsByteKey(entries[i].0) && entries[i].1.JArr?
    requires k < |entries[i].1.items|
    ensures var r := MarkHex(JObj(entries)); var item := entries[i].1.items[k];
      r.MObj? && |r.entries| == |entries| && r.entries[i].0 == entries[i].0
      && r.entries[i].1.MArr? && |r.entries[i].1.items| == |entries[i].1.items|
      && (item.JNum? ==> r.entries[i].1.items[k] == MHex(item.n))
      && (!item.JNum? ==> r.entries[i].1.items[k] == Plain(item))
  {
  }

  /** In any object, a number held directly by a key, whatever the key,
      stays a plain number. */
  lemma OtherNumbersUnmarked(entries: seq<(string, Json)>, i: nat)
    requires i < |entries| && entries[i].1.JNum?
    ensures var r := MarkHex(JObj(entries));
      r.MObj? && |r.entries| == |entries| && r.entries[i] == (entries[i].0, MNum(entries[i].1.n))
  {
    assert MarkEntry(entries[i].0, entries[i].1) == MNum(entries[i].1.n);
  }

  /** In any object, a number in an array under a key that is not a byte
      key stays a plain number. */
  lemma OtherArraysUnmarked(entries: seq<(string, Json)>, i: nat, k: nat)
    requires i < |entries| && !IsByteKey(entries[i].0) && entries[i].1.JArr?
    requires k < |entries[i].1.items| && entries[i].1.items[k].JNum?
    ensures var r := MarkHex(JObj(entries));
      r.MObj? && |r.entries| == |entries| && r.entries[i].1.MArr?
      && |r.entries[i].1.items| == |entries[i].1.items|
      && r.entries[i].1.items[k] == MNum(entries[i].1.items[k].n)
  {
    var value := entries[i].1;
    assert MarkEntry(entries[i].0, value) == MarkHex(value);
    assert MarkHex(value.items[k]) == MNum(value.items[k].n);
  }

  /** No key anywhere in the value is a byte key. */
  predicate NoByteKeys(j: Json) {
    match j
    case JArr(items) => forall k :: 0 <= k < |items| ==> NoByteKeys(items[k])
    case JObj(entries) => forall k :: 0 <= k < |entries| ==> !IsByteKey(entries[k].0) && NoByteKeys(entries[k].1)
    case _ => true
  }

  /** Without byte keys nothing is marked: the value is carried over as it is. */
  lemma {:induction false} NoByteKeysUnmarked(j: Json)
    requires NoByteKeys(j)
    ensures MarkHex(j) == Plain(j)
    decreases j
  {
    match j
    case JArr(items) =>
      forall k | 0 <= k < |items| ensures MarkHex(items[k]) == Plain(items[k]) {
        NoByteKeysUnmarked(items[k]);
      }
      assert MarkHex(j).items == Plain(j).items;
    case JObj(entries) =>
      forall k | 0 <= k < |entries| ensures MarkEntry(entries[k].0, entries[k].1) == Plain(entries[k].1) {
        NoByteKeysUnmarked(entries[k].1);
      }
      assert MarkHex(j).entries == Plain(j).entries;
    case _ =>
  }

  /** Numbers in an array that is not a byte field's value stay plain, even
      in an array nested inside a byte field. */
  lemma NestedArrayUnmarked(key: string, inner: seq<Json>)
    requires IsByteKey(key)
    ensures MarkHex(JObj([(key, JArr([JArr(inner)]))])).entries[0].1.items[0] == Plain(JArr(inner))
  {
  }

  /** The nested object under a `state` or `command` key is marked by the
      same rules: its `data` array is marked. */
  lemma NestedDataMarked(key: string, n: int)
    requires StartsWith(key, "state")
    ensures MarkHex(JObj([(key, JObj([("data", JArr([JNum(n)]))]))]))
      == MObj([(key, MObj([("data", MArr([MHex(n)]))]))])
  {
    var inner := JObj([("data", JArr([JNum(n)]))]);
    assert MarkEntry("data", JArr([JNum(n)])) == MArr([MHex(n)]);
    assert MarkHex(inner) == MObj([("data", MArr([MHex(n)]))]);
  }

  /** The text a hex mark is written as: `0x` and the upper-case digits,
      padded to at least two; a negative value keeps its sign. */
  function HexLiteral(n: int): (r: string)
    ensures HexLiteralText(r, n)
  {
    var h := IntToHexUpper(n);
    var digits := if |h| < 2 then "0" + h else h;
    assert digits == PadStart(h, 2, '0');
    HexLiteralOf(n);
    "0x" + digits
  }

  /** Byte values are written with exactly two digits. */
  lemma ByteLiteralWidth(n: nat)
    requires n < 256
    ensures |HexLiteral(n)| == 4
  {
    if n >= 16 {
      assert NatToHexUpper(n) == NatToHexUpper(n / 16) + [HexCharUpper(n % 16)];
    }
  }
}
